=== FILE: README.md ===
# gitmat and the timeline compressors, modelled in Dafny

This project models the core of the `git-date-modifier` repository:

- the **Git Timeline Compression Engine** (`compress.js`) and the
  **git-filter-repo driver** (`index.js`). Both rewrite the dates of a
  repository's history onto a shorter timeline;
- the interactive **gitmat** tool (`gitmat.js` and its commands). gitmat keeps
  an undo/redo history of the git actions it performs. It has shortcut files
  (`.gitmatrc`) with a terminal editor for them. It also offers menus built
  from the repository state.

Every git call, file-system access, prompt answer and environment read is an
input of the model. A call that may throw is modelled as a `CallResult`
(`Returned` or `Threw(message)`) or an `Option`. A prompt is modelled as the
answer it returns; where the command never loads `inquirer`, the prompt
throws instead (`CherryPick.CherryPick`, `QuickMenu.Quick`). Terminal output appears only as values: the lines, entries
or boxes a command would show. One module per core file. Specification
functions give the meaning of each loop. The methods that run the loops are
proved against them, and lemmas state the properties the commands promise.

Where the code and its documentation disagree, the model follows the code.
Three examples:

- `compress.js` takes its backup after copying the source, so the backup
  is of the fresh copy (`Compressor.Run`).
- `parseArgs` in `gitmat.js` treats a string with no double quote as one
  token (`Shortcuts.NoDoubleQuoteIsOneToken`).
- The `delete-branch` history entry is never recorded as written
  (`DeleteBranch.AsWrittenRecordsNothing`). `DeleteBranch.Run` runs the
  corrected order instead (see Findings).

Where the code has a defect and the model covers both behaviours, a member
states what the code does as written, the commands run the corrected
behaviour, and the case is a row under "## Findings". The other `{ stdout }`
reads of `git.raw` output are described under "## Left out" only.

## Model

| member | source | states |
|---|---|---|
| `ProgressBar.PercentOf` | compress.js:32 | the printed percentage never exceeds 100, is non-negative for a non-negative count, and is exactly 100 once the count reaches the total |
| `ProgressBar.FilledOf` | compress.js:33 | the filled cells fit in the bar while the count has not passed the total, and a finished bar is completely filled |
| `ProgressBar.EmptyOf` | compress.js:34 | filled plus empty cells make the width, and the empty part fits in the bar |
| `ProgressBar.SimpleProgressBar.constructor` | compress.js:12-19 | a zero total or width falls back to 100 and 40; the count starts at 0 |
| `ProgressBar.SimpleProgressBar.Tick` | compress.js:21-24 | the count grows by the amount; total and width are unchanged |
| `ProgressBar.SimpleProgressBar.Update` | compress.js:26-29 | the count becomes the floor of total times ratio |
| `ProgressBar.SimpleProgressBar.Finish` | compress.js:52-56 | the count becomes the total |
| `Compressor.EnvOr` | compress.js:62-64 | an unset or empty variable gives the fallback, any other value is taken as is |
| `Compressor.EnvNumber` | compress.js:66-74 | an unset or empty variable gives no number |
| `Compressor.FromEnvironment` | compress.js:61-79 | each unset variable gives its documented default; a flag holds exactly when its variable is the text `true` |
| `Compressor.ValueAfter` | compress.js:534 | the value consumed after an option is the next argument, or undefined at the end of the list |
| `Compressor.ClassifyNames` | compress.js:532-576 | an argument matches one of the thirteen case labels exactly when it is a known option, and the label it matches is spelled as it is |
| `Compressor.Classify` | compress.js:531-576 | an argument that matches a case label is spelled exactly as that label |
| `Compressor.Apply` | compress.js:533-565 | the case of each option sets only its own field: a value option to the text after it, or to the number parsed from that text, a flag to true |
| `Compressor.OptionStep` | compress.js:532-576 | an ordinary option lets the walk go on, past its value if it takes one, and its field changes only to the value after an occurrence of that option; `--help` and `--version` stop with status 0; an argument matching no case stops with status 1 |
| `Compressor.OptionStepConfigures` | compress.js:531-576 | reading one more ordinary option takes the configuration from what the options before it give to what the options up to it give |
| `Compressor.ParseArguments` | compress.js:527-580 | the walk reads options at the positions the switch reaches, each option skipping its value; a completed walk read only ordinary options there and each field holds the value after the last option naming it, or the default; an exit comes from the first position holding `--help` or `--version` (status 0) or an unknown argument (status 1), after only ordinary options |
| `Compressor.Configured` | compress.js:527-580 | with no option read the configuration is the base one, and a flag set in the base stays set |
| `Compressor.LastAtIsLast` | compress.js:531-576 | the last occurrence of an option among the positions read is found, with none after it, and none is found only when the option never occurs |
| `Compressor.LastAtFinds` | compress.js:531-576 | an occurrence with none after it is the one found |
| `Compressor.LastOptionWins` | compress.js:531-576 | the last occurrence of each ordinary option decides its field: applying that option again to the final configuration changes nothing |
| `Compressor.WrittenFlagsAreSet` | compress.js:554-565 | a flag written at any position read is set in the final configuration |
| `Compressor.ConfiguredChangesOnlyByOptions` | compress.js:531-576 | a field differs from its default only when some occurrence of its option supplied the value it holds, and a flag turns on only when written |
| `Compressor.CheckAt` | compress.js:84-109 | the k-th check of `validate` has rank k |
| `Compressor.CollectedExactly` | compress.js:81-112 | the first k checks collect exactly their failing checks, in check order |
| `Compressor.Validate` | compress.js:81-112 | the errors are exactly the failing checks, in check order; no check stops the others |
| `Compressor.AllChecksCollected` | compress.js:81-112 | after all six checks, the messages are exactly the failing checks |
| `Compressor.CalculateCompressionRatio` | compress.js:119-124 | an explicit ratio wins; otherwise target over original days when both are given; otherwise none; a given ratio is never zero |
| `Compressor.ValidatedRatioPositive` | compress.js:88-101 | after validation the ratio is positive, and an explicit ratio is at most 1 |
| `Compressor.ParseFormattedLine` | compress.js:367-388 | a log line whose hash, author name and e-mail hold no space parses back into the commit it was printed from |
| `Compressor.ParseCommitLine` | compress.js:376-387 | hash, author and e-mail never hold a space; a line without a space is a hash alone, with no timestamp (NaN) and empty author, e-mail and message |
| `Compressor.AnalyzeLog` | compress.js:372-388 | at most one commit per line of the trimmed output |
| `Compressor.CalculateNewTimeline` | compress.js:408-424 | the original span runs from the first commit of the log to the last, the start is the start date and the ratio is kept; there is an end exactly when the start and both timestamps are defined, and then end minus start is the original span times the ratio |
| `Compressor.MapTimestamp` | compress.js:458-463 | a new date exists exactly when the commit date, the original start, a non-zero original duration, the target duration and the start are all defined; the original start maps to the start, rounded down |
| `Compressor.EmptyLogHasNoCommits` | compress.js:372-375 | an output of white space only has no commits, so `run` stops with nothing to compress |
| `Compressor.MapScalesOffsets` | compress.js:408-426 | every commit's distance from the first commit is scaled by the ratio |
| `Compressor.MapFirstToStart` | compress.js:456-462 | the first commit lands on the start date |
| `Compressor.MapLastToEnd` | compress.js:412-415 | the last commit lands on the end of the new timeline |
| `Compressor.MapMonotone` | compress.js:456-462 | with a positive ratio the mapping keeps the order of commit dates |
| `Compressor.EqualEndsGiveNoDates` | compress.js:411 | when the first and last commit share a timestamp, no new date is defined |
| `Compressor.Strip` | compress.js:308-318 | the copied tree never has more entries than the source |
| `Compressor.CopiedFilesAreFilesOfCopy` | compress.js:285-325 | the files copied, one tick each, are exactly the files of the copied tree |
| `Compressor.NoCopiedFileUnderGit` | compress.js:312-314 | no copied file lies inside a directory named `.git` |
| `Compressor.StripIdempotent` | compress.js:301-325 | copying a copy changes nothing |
| `Compressor.CountFiles` | compress.js:285-299 | the count is the number of files `copyDirectory` copies |
| `Compressor.CopyDirectory` | compress.js:301-325 | the result is the tree without `.git` directories, and the bar ticks once per copied file |
| `Compressor.CopySourceFiles` | compress.js:251-283 | an existing output without force is an error; otherwise the output is the stripped source and the ticks match the count taken first |
| `Compressor.CreateBackup` | compress.js:226-249 | a backup exists exactly when the output does, and it is the stripped output |
| `Compressor.CopyGitRepository` | compress.js:327-358 | a missing `.git` is an error and leaves the output as it was; otherwise the output's `.git` is removed first, so a source `.git` that is a file leaves the output with no `.git` at all; a directory is copied in its place, stripped |
| `Compressor.CountSucceeded` | compress.js:472-490 | the number of rewrites that succeeded is at most the number of commits |
| `Compressor.ApplyDateCompression` | compress.js:428-500 | without undefined dates the loop computes each commit's mapped date and hands it to one rewrite call per commit; processed plus errors is the commit count and the bar ticks once per commit; an undefined date stops the loop at the first such commit |
| `Compressor.Prepare` | compress.js:153-188 | validation, ratio, copy, backup and `.git` copy run in order; any failure exits with status 1 before later steps, and an existing output without force is left as it was; after a `.git` failure the output is the stripped copy, without its `.git` when the source `.git` is a file; on success it is the stripped copy with the source `.git` in place of its own |
| `Compressor.Run` | compress.js:153-224 | a run exits 0 only after the summary or on an empty history; dates are rewritten only outside a dry run; a backup is always of the stripped source; a `.git` failure leaves the output as `Prepare` states |
| `FilterRepo.WithDefaults` | index.js:10-21 | every option not given takes its default and every option given is kept |
| `FilterRepo.CompressionRatio` | index.js:227-229 | with a non-zero original duration the ratio times the original days is the target days, and lies in (0, 1] when the target is positive and not longer; with zero original days it is `Infinity` for a positive target and `NaN` for a zero one |
| `FilterRepo.Divide` | index.js:228 | JavaScript `/`: finite exactly when the divisor is non-zero, and then the quotient times the divisor is the dividend; a zero divisor gives `Infinity`, `-Infinity` or `NaN` by the sign of the dividend |
| `FilterRepo.DefaultRatio` | index.js:16-17 | without options the ratio is the finite 0.7, whatever the current time |
| `FilterRepo.PythonBoolValue` | index.js:111-112 | a bare name denotes a boolean exactly when it is `True` or `False` |
| `FilterRepo.SwitchLinesAsWrittenUnbound` | index.js:111-112 | as written, neither switch line holds a Python boolean |
| `FilterRepo.SwitchLinesRoundTrip` | index.js:111-112 | with Python literals each switch reads back as the option printed |
| `FilterRepo.AnchorMapsToStart` | index.js:121-130 | the first commit maps to the anchor date |
| `FilterRepo.NewDate` | index.js:121-132 | without jitter the first commit, and any commit dated like it, gets the anchor date; with a positive ratio a commit lands before the anchor exactly when it is older than the first commit |
| `FilterRepo.JitterBounded` | index.js:131-135 | jitter moves a date by whole minutes, at most two hours |
| `FilterRepo.NewDateMonotone` | index.js:125-130 | without jitter and with a positive ratio later dates stay later, distances scaled by the ratio |
| `FilterRepo.FilterScript.constructor` | index.js:109-116 | a fresh script has no anchor, a zero count and no output |
| `FilterRepo.FilterScript.Callback` | index.js:118-146 | the first commit anchors; both dates become the new date; identities are replaced exactly when anonymising; the count grows by one and a marker is printed at each hundredth commit |
| `FilterRepo.Markers` | index.js:143-145 | after n commits the markers are the multiples of 100 up to n |
| `FilterRepo.RewriteAll` | index.js:118-146 | each commit lands at the start plus its scaled distance from the first commit plus its own jitter; identities follow the anonymise switch; markers are `Markers(n)` |
| `FilterRepo.FirstMarker` | index.js:168 | no marker is found exactly when none occurs in the chunk |
| `FilterRepo.FirstMarkerIsFirst` | index.js:168-170 | the number read is that of the leftmost marker in the chunk |
| `FilterRepo.BarAfterChunk` | index.js:166-172 | with the bar off, or without a marker, the bar keeps its value |
| `FilterRepo.ProgressRoundTrip` | index.js:143-170 | a chunk that starts with a printed marker moves the bar to that marker |
| `FilterRepo.Run` | index.js:206-224 | the run exits 0 exactly when every step succeeds; the temporary repository is removed only then; the bar starts only after the commit count was read |
| `History.ActionHistory.Read` | destination_backup_1751966778929/src/commands/history.js:8-16 | the stored stacks are read back; a missing or unparsable file gives two empty stacks |
| `History.ActionHistory.AddAction` | destination_backup_1751966778929/src/commands/history.js:23-27 | the action is pushed on `actions`; `undone` is kept, not cleared |
| `History.ActionHistory.LastAction` | destination_backup_1751966778929/src/commands/history.js:29-32 | the top of `actions`, and none exactly when it is empty |
| `History.ActionHistory.PopLastAction` | destination_backup_1751966778929/src/commands/history.js:34-39 | returns the previous top and removes it; an empty stack stays empty; `undone` is unchanged |
| `History.ActionHistory.AddUndone` | destination_backup_1751966778929/src/commands/history.js:41-45 | the action is pushed on `undone`; `actions` is unchanged |
| `History.ActionHistory.LastUndone` | destination_backup_1751966778929/src/commands/history.js:47-50 | the top of `undone`, and none exactly when it is empty |
| `History.ActionHistory.PopLastUndone` | destination_backup_1751966778929/src/commands/history.js:52-57 | returns the previous top of `undone` and removes it; `actions` is unchanged |
| `History.AddThenPop` | destination_backup_1751966778929/src/commands/history.js:23-39 | pushing an action and popping it returns that action and leaves both stacks as they were |
| `History.AddUndoneThenPop` | destination_backup_1751966778929/src/commands/history.js:41-57 | the same round trip on `undone` |
| `UndoRedo.Execute` | destination_backup_1751964201891/src/commands/undo.js:148-149 | awaited calls stop at the first that fails: the calls made are a prefix ending in the failure, and all are made exactly when all succeed |
| `UndoRedo.UndoCalls` | destination_backup_1751964201891/src/commands/undo.js:32-163 | each handled action is undone by one or two git calls; a config change restores the previous value or unsets the key |
| `UndoRedo.FallbackOutcome` | destination_backup_1751964201891/src/commands/undo.js:167-244 | the soft reset runs only when confirmed and the log has at least two commits; an empty log and a single commit get their own messages |
| `UndoRedo.UndoOutcome` | destination_backup_1751964201891/src/commands/undo.js:19-244 | no action, or one undo does not handle, gets the soft-reset fallback; a handled action is declined exactly when it moves and is not confirmed, succeeds exactly when confirmed or not moving and every undo call succeeds, and then made exactly those calls; only a non-moving type aborts |
| `UndoRedo.UndoMovesOnlyWhenConfirmed` | destination_backup_1751964201891/src/commands/undo.js:20-125 | a moving action leaves a trace in the history exactly when confirmed and every undo call succeeds |
| `UndoRedo.UnhandledFallsBack` | destination_backup_1751964201891/src/commands/undo.js:165-244 | an action undo does not handle gets the fallback soft reset, as with an empty history |
| `UndoRedo.Undo` | destination_backup_1751964201891/src/commands/undo.js:12-245 | outside a repository nothing happens; a successful undo of a moving action moves it from `actions` to `undone`; otherwise both stacks are unchanged |
| `UndoRedo.StashRef` | destination_backup_1751966778929/src/commands/redo.js:110-113 | the ref names the first stash with the recorded message, and there is none exactly when no stash has it |
| `UndoRedo.RedoCalls` | destination_backup_1751966778929/src/commands/redo.js:30-262 | each handled action is redone by one call; a stash redo needs its message in the stash list |
| `UndoRedo.RedoOutcome` | destination_backup_1751966778929/src/commands/redo.js:18-273 | an empty stack reports nothing to redo and an unhandled type no redo available, each exactly then; a handled moving type is declined exactly when not confirmed; a success made exactly the redo calls of its type, which exist; only a non-moving type aborts |
| `UndoRedo.StashRedoNeedsMessage` | destination_backup_1751966778929/src/commands/redo.js:98-120 | a successful stash redo was confirmed and found its message in the stash list |
| `UndoRedo.Redo` | destination_backup_1751966778929/src/commands/redo.js:11-274 | a successful redo of a moving action moves it from `undone` back to `actions`; otherwise both stacks are unchanged |
| `UndoRedo.UndoThenRedo` | destination_backup_1751964201891/src/commands/undo.js:12-245 | when an undo and the following redo both succeed, both stacks are back to what they were |
| `RepoRoot.Resolve` | destination_backup_1751964201891/src/commands/utils.js:10 | the resolved path is normal (no empty, `.` or `..` component) and no longer than base plus parts |
| `RepoRoot.ResolveNormal` | destination_backup_1751964201891/src/commands/utils.js:10 | resolution appends a normal relative path to the base |
| `RepoRoot.FindRepoRoot` | destination_backup_1751964201891/src/commands/utils.js:11-17 | the result is the deepest ancestor of the start that holds `.git`, and none exactly when no directory on the way (the root excluded) holds one |
| `RepoRoot.IsGitRepo` | destination_backup_1751964201891/src/commands/utils.js:9-18 | the start directory is resolved against the working directory, or taken from the root when absolute; the result is the deepest ancestor of it, below the root, that holds `.git`, with no `.git` between it and the start, and none exactly when no directory on the way holds `.git` |
| `Shortcuts.Round` | destination_backup_1751964201891/bin/gitmat.js:481 | one round of the pattern's repetition ends past its start; it fails exactly at the end of the text or at a double quote with no closing one |
| `Shortcuts.NonSpaceRun` | destination_backup_1751964201891/bin/gitmat.js:481 | `\S*` takes the longest run of non-white-space characters |
| `Shortcuts.MatchEnd` | destination_backup_1751964201891/bin/gitmat.js:481 | a match ends past its start, where no further round succeeds |
| `Shortcuts.NextStart` | destination_backup_1751964201891/bin/gitmat.js:484 | `exec` finds the leftmost position from which a round succeeds |
| `Shortcuts.Matches` | destination_backup_1751964201891/bin/gitmat.js:484-486 | every match is non-empty |
| `Shortcuts.StripQuotes` | destination_backup_1751964201891/bin/gitmat.js:485 | the first character is dropped exactly when it is a quote, and the last exactly when it is a quote that is not also the first; everything between is kept, so a lone quote leaves nothing |
| `Shortcuts.StripQuotesUnwraps` | destination_backup_1751964201891/bin/gitmat.js:485 | a word wrapped in a pair of quotes comes back unchanged, and a lone quote gives the empty text |
| `Shortcuts.Tokens` | destination_backup_1751964201891/bin/gitmat.js:480-488 | one token per match |
| `Shortcuts.StripAll` | destination_backup_1751964201891/bin/gitmat.js:485 | every match has its quotes stripped, in order |
| `Shortcuts.ParseArgs` | destination_backup_1751964201891/bin/gitmat.js:480-488 | the loop over `exec` yields exactly the tokens of the string |
| `Shortcuts.MatchRunsToEnd` | destination_backup_1751964201891/bin/gitmat.js:481 | without a double quote, a match runs to the end of the text |
| `Shortcuts.NoDoubleQuoteIsOneToken` | destination_backup_1751964201891/bin/gitmat.js:481-486 | a string without a double quote is one token however many words it has, and the empty string has none |
| `Shortcuts.LoneQuoteHasNoToken` | destination_backup_1751964201891/bin/gitmat.js:481 | a lone double quote yields no token |
| `Shortcuts.LoadShortcuts` | destination_backup_1751964201891/bin/gitmat.js:490-509 | the keys are those of either file; the working directory's file wins over the home file |
| `Shortcuts.Dispatch` | destination_backup_1751964201891/bin/gitmat.js:511-536 | a shortcut fires exactly when the first argument names a non-empty command; a firing command is re-invoked, with its other tokens, exactly when its first token names the program, and otherwise runs in a shell |
| `Shortcuts.DispatchIgnoresExtraArgs` | destination_backup_1751964201891/bin/gitmat.js:514-516 | only the first argument decides what runs |
| `Shortcuts.QuoteFreeShortcutRunsInShell` | destination_backup_1751964201891/bin/gitmat.js:516-531 | a quote-free command with several words is one token, so it runs in a shell |
| `Shortcuts.ExitStatus` | destination_backup_1751964201891/bin/gitmat.js:527 | `status || 0`: a missing status counts as 0, any other is kept, and the code is 0 exactly when the status is missing or 0 |
| `ShortcutCommand.Compose` | destination_backup_1751966778929/src/commands/shortcut.js:10-49 | a missing or unparsable file and an absent or empty shortcut are errors; otherwise the command is the stored one followed by the arguments joined with spaces |
| `ShortcutCommand.ExitCode` | destination_backup_1751966778929/src/commands/shortcut.js:12-48 | every error exits with status 1 |
| `ShortcutCommand.ComposedWords` | destination_backup_1751966778929/src/commands/shortcut.js:49 | with no space inside the stored command or the arguments, the shell sees the stored command then the arguments, word for word |
| `RcEditor.MoveDown` | destination_backup_1751966778929/bin/rc-edit.jsx:228 | the down arrow moves one entry down but never past the last, so a selection on an entry stays on one |
| `RcEditor.MoveUp` | destination_backup_1751966778929/bin/rc-edit.jsx:229 | the up arrow moves one entry up but never above the first |
| `RcEditor.ArrowsStayInRange` | destination_backup_1751966778929/bin/rc-edit.jsx:191-192 | from the first entry of a non-empty list, any sequence of arrow keys keeps the selection on an entry |
| `RcEditor.EditText` | destination_backup_1751966778929/bin/rc-edit.jsx:232-238 | backspace and delete drop the last character; one printable character without ctrl or meta is appended; any other key leaves the text |
| `RcEditor.TypeThenDelete` | destination_backup_1751966778929/bin/rc-edit.jsx:232-238 | typing a character and deleting it gives the text back |
| `RcEditor.PrefixFilter` | destination_backup_1751966778929/bin/rc-edit.jsx:215-220 | the list keeps exactly the commands whose name or description starts with the query, in catalogue order |
| `RcEditor.EmptyQueryKeepsAll` | destination_backup_1751966778929/bin/rc-edit.jsx:217 | an empty query keeps the whole list, in order |
| `RcEditor.Pinned` | destination_backup_1751966778929/bin/rc-edit.jsx:221-226 | the list is a permutation of the filtered one with `save` first when it is present, and unchanged when it is not |
| `RcEditor.PinSave` | destination_backup_1751966778929/bin/rc-edit.jsx:222-226 | the splice and unshift give the pinned list |
| `RcEditor.PickerList` | destination_backup_1751966778929/bin/rc-edit.jsx:215-226 | the picker lists a permutation of the filtered commands |
| `RcEditor.SaveHeadsPickerList` | destination_backup_1751966778929/bin/rc-edit.jsx:215-226 | whenever `save` survives the filter, it heads the list |
| `RcEditor.CommandPicker.constructor` | destination_backup_1751966778929/bin/rc-edit.jsx:211-213 | the picker starts with an empty query on the first entry |
| `RcEditor.CommandPicker.HandleKey` | destination_backup_1751966778929/bin/rc-edit.jsx:227-239 | arrows clamp the selection; Enter picks the selected entry (and fails off the list); Escape cancels; editing keys change the query and return to the first entry |
| `RcEditor.OptionList.constructor` | destination_backup_1751966778929/bin/rc-edit.jsx:189 | a list starts on its first option |
| `RcEditor.OptionList.HandleKey` | destination_backup_1751966778929/bin/rc-edit.jsx:386-397 | arrows clamp the selection; Enter chooses the selected option; Escape cancels only where the list allows it |
| `RcEditor.LineInput.constructor` | destination_backup_1751966778929/bin/rc-edit.jsx:264 | the input starts empty |
| `RcEditor.LineInput.HandleKey` | destination_backup_1751966778929/bin/rc-edit.jsx:263-271 | Enter submits the trimmed text exactly when it is not blank; Escape cancels; other keys edit the text |
| `RcEditor.StripGmt` | destination_backup_1751966778929/bin/rc-edit.jsx:314 | removing the `gmt` prefix never lengthens the command |
| `RcEditor.BaseCommand` | destination_backup_1751966778929/bin/rc-edit.jsx:314 | the base command holds no space |
| `RcEditor.DescriptionFor` | destination_backup_1751966778929/bin/rc-edit.jsx:359-361 | the description of the first catalogue entry named by the base command, or the empty text when there is none |
| `RcEditor.PickedShortcutBase` | destination_backup_1751966778929/bin/rc-edit.jsx:457-463 | a shortcut stored by picking a command is described by that command, like the bare name |
| `RcEditor.KeyAt` | destination_backup_1751966778929/bin/rc-edit.jsx:306 | the key removed is the selected one, or the text `undefined` off the end of the list |
| `RcEditor.App.constructor` | destination_backup_1751966778929/bin/rc-edit.jsx:424-429 | the editor starts in the menu with the shortcuts of the working directory's file |
| `RcEditor.App.Handle` | destination_backup_1751966778929/bin/rc-edit.jsx:432-484 | each mode reacts only to its own events; the menu moves to its modes or exits; a blank name is ignored; storing and removing change only their key, save and show a message; every other key is unchanged |
| `RcEditor.App.ChooseMenu` | destination_backup_1751966778929/bin/rc-edit.jsx:440-445 | the first three menu entries open the add, remove and view modes; any other entry exits, and nothing else changes |
| `RcEditor.App.SubmitName` | destination_backup_1751966778929/bin/rc-edit.jsx:448-452 | a blank name is ignored; otherwise the trimmed name becomes the pending key and the command type is asked next |
| `RcEditor.App.Store` | destination_backup_1751966778929/bin/rc-edit.jsx:457-474 | the pending key is set to the command, the map is saved and the message names both |
| `RcEditor.App.Remove` | destination_backup_1751966778929/bin/rc-edit.jsx:475-484 | the key is removed, the map is saved and the message names it |
| `TablePicker.SubstringFilter` | destination_backup_1751966778929/bin/table-picker.jsx:169-173 | the list keeps exactly the commands whose name or description contains the query, in order |
| `TablePicker.EmptyQueryKeepsAll` | destination_backup_1751966778929/bin/table-picker.jsx:169-173 | an empty query keeps every command, in order |
| `TablePicker.PrefixMatchIsSubstringMatch` | destination_backup_1751966778929/bin/table-picker.jsx:169-173 | every command the editor's prefix filter keeps, this filter keeps too |
| `TablePicker.TablePicker.constructor` | destination_backup_1751966778929/bin/table-picker.jsx:163-166 | the picker starts with an empty query on the first entry, nothing printed |
| `TablePicker.TablePicker.HandleKey` | destination_backup_1751966778929/bin/table-picker.jsx:175-192 | arrows clamp the selection; Enter prints the selected command and exits (and fails off the list); editing keys change the query and return to the first entry |
| `RcLauncher.QuoteIfNeeded` | destination_backup_1751966778929/src/commands/rc-edit.js:7-11 | a quoted path is kept; otherwise a path is wrapped in quotes exactly when it holds a space; the result holds no space outside quotes |
| `RcLauncher.QuoteIfNeededIdempotent` | destination_backup_1751966778929/src/commands/rc-edit.js:7-11 | quoting twice is quoting once |
| `RcLauncher.QuotedPathRecoverable` | destination_backup_1751966778929/src/commands/rc-edit.js:10 | a quoted path comes back by dropping its first and last characters |
| `RcLauncher.LocalTsx` | destination_backup_1751966778929/src/commands/rc-edit.js:18 | the local binary path is normal |
| `RcLauncher.RcEditPath` | destination_backup_1751966778929/src/commands/rc-edit.js:29 | the editor path is normal |
| `RcLauncher.LocalTsxLocation` | destination_backup_1751966778929/src/commands/rc-edit.js:18-29 | the binary and the editor sit two levels above the launcher's directory, under `node_modules/.bin` and `bin` |
| `RcLauncher.FindTsxBin` | destination_backup_1751966778929/src/commands/rc-edit.js:13-24 | the quoted local binary when it exists, otherwise `tsx` |
| `RcLauncher.RcEditCommand` | destination_backup_1751966778929/src/commands/rc-edit.js:26-33 | the command is the binary, one space, then the quoted editor path |
| `RcLauncher.RcEdit` | destination_backup_1751966778929/src/commands/rc-edit.js:35-40 | the launcher spawns the editor command and exits with the editor's status, or 0 when the editor succeeded or has no status |
| `RcLauncher.CommandHasTwoWords` | destination_backup_1751966778929/src/commands/rc-edit.js:29-33 | with no space in the directory, the shell splits the command into the binary and the editor path |
| `Paging.TotalPages` | destination_backup_1751964201891/src/commands/blame.js:63 | `Math.ceil(n / size)`: no pages exactly when there are no entries |
| `Paging.PagesCover` | destination_backup_1751964201891/src/commands/blame.js:63 | the pages hold every entry and the last page is not empty |
| `Paging.WindowEnd` | destination_backup_1751964201891/src/commands/blame.js:76 | a page's window ends at most one page after its start and never past the end |
| `Paging.WindowsCover` | destination_backup_1751964201891/src/commands/blame.js:74-78 | every entry falls in the window of exactly one existing page |
| `Paging.PageShape` | destination_backup_1751964201891/src/commands/blame.js:74-78 | every existing page shows between one and `size` entries, and only the last ends early, at the end |
| `Paging.Turn` | destination_backup_1751964201891/src/commands/blame.js:98-111 | Next and Previous move one page unless disabled, in which case nothing changes; Exit leaves; the page stays in range |
| `Blame.Keep` | destination_backup_1751964201891/src/commands/blame.js:44 | a record is kept exactly when it has non-empty content |
| `Blame.Update` | destination_backup_1751964201891/src/commands/blame.js:47-56 | a line that is not a hash line never changes the record's hash |
| `Blame.ParseFrom` | destination_backup_1751964201891/src/commands/blame.js:42-58 | every record collected has non-empty content |
| `Blame.ParseBlame` | destination_backup_1751964201891/src/commands/blame.js:39-58 | the parsing loop collects exactly the records of the output |
| `Blame.CountBound` | destination_backup_1751964201891/src/commands/blame.js:42-58 | at most one record per hash line, plus one for content before the first hash line |
| `Blame.HashesPresent` | destination_backup_1751964201891/src/commands/blame.js:43-46 | only a record built before any hash line can lack a hash, and only first |
| `Blame.StartingWithHash` | destination_backup_1751964201891/src/commands/blame.js:42-58 | output that starts with a hash line has at most one record per hash line |
| `Blame.Format` | destination_backup_1751964201891/src/commands/blame.js:26 | the block of one source line in the simplified porcelain output: a header, `author`, `author-time`, `summary` and the content line, five lines |
| `Blame.FormatBody` | destination_backup_1751964201891/src/commands/blame.js:47-56 | the four lines after the header fill in the author, time, summary and content |
| `Blame.RoundTrip` | destination_backup_1751964201891/src/commands/blame.js:42-58 | parsing what git prints gives one record per source line, in order, with every field, after any pending record |
| `Blame.ParseFormatted` | destination_backup_1751964201891/src/commands/blame.js:39-58 | the parser reads back exactly the lines git describes |
| `Blame.Browse` | destination_backup_1751964201891/src/commands/blame.js:60-112 | the first page is shown first, and a single page asks nothing; otherwise each page shown is `Turn` of the one before under an answer other than Exit, so Next adds one and Previous takes one unless disabled, and the loop stops exactly at the first Exit or when the answers run out; pages stay in range |
| `Reflog.HexRun` | destination_backup_1751966778929/src/commands/reflog.js:31 | `[a-f0-9]*` takes the longest run of lower-case hexadecimal digits |
| `Reflog.SpaceRun` | destination_backup_1751966778929/src/commands/reflog.js:31 | `\s*` takes the longest run of white space |
| `Reflog.OpenRun` | destination_backup_1751966778929/src/commands/reflog.js:31 | `[^)]*` runs up to the first closing parenthesis |
| `Reflog.MatchAt` | destination_backup_1751966778929/src/commands/reflog.js:31 | a match has a hash of at least seven hexadecimal digits, a non-empty ref and a non-empty message |
| `Reflog.Search` | destination_backup_1751966778929/src/commands/reflog.js:31 | `match` finds the leftmost position from which the pattern matches |
| `Reflog.ParseLine` | destination_backup_1751966778929/src/commands/reflog.js:30-36 | a line that matches gives its hash, ref and message; any other line gives neither hash nor ref and the whole line as message; the number and the raw line are kept |
| `Reflog.Entries` | destination_backup_1751966778929/src/commands/reflog.js:27-37 | one entry per line of the trimmed output, numbered by position |
| `Reflog.NoParenthesisNoHash` | destination_backup_1751966778929/src/commands/reflog.js:31-35 | a line with no `(` never matches, whatever it looks like |
| `Reflog.DecoratedLine` | destination_backup_1751966778929/src/commands/reflog.js:31-33 | a decorated line `<hash> (<ref>) <message>` yields its three parts |
| `Reflog.ToNumber` | destination_backup_1751966778929/src/commands/reflog.js:93 | a blank answer counts as 0 |
| `Reflog.Lookup` | destination_backup_1751966778929/src/commands/reflog.js:96 | an entry is found exactly when the answer parses to an index inside the list, and it is the entry at that index |
| `Reflog.BlankAnswerAcceptedButMissing` | destination_backup_1751966778929/src/commands/reflog.js:93-96 | an empty or blank answer passes the written check, yet finds no entry |
| `Reflog.AcceptedAnswerFindsEntry` | destination_backup_1751966778929/src/commands/reflog.js:93-96 | with the corrected check, an answer is accepted exactly when it finds an entry, and every printed entry number is accepted and finds its entry |
| `Reflog.Respond` | destination_backup_1751966778929/src/commands/reflog.js:67-131 | one answer, under the written or the corrected acceptance check: the next page stays in range; the outcome is the one `Ending` gives that answer; while the loop goes on the page moves as `After` says; the answer is reported invalid exactly when it is accepted and names an entry without a hash |
| `Reflog.Browse` | destination_backup_1751966778929/src/commands/reflog.js:38-132 | from page 0, every page shown is in range; every answer before the last pass keeps the loop going and moves the page as `After` says; the loop stops at the first answer that ends it, with that answer's outcome, and is still running only when every answer kept it going; the invalid count is that of the answers consumed |
| `Reflog.EndingShape` | destination_backup_1751966778929/src/commands/reflog.js:84-131 | one answer: Exit exits; an accepted answer that finds no entry crashes; a checkout or reset uses the hash of a listed entry, with the chosen action; the loop goes on exactly for page moves, refused answers and entries without a hash |
| `Reflog.Ending` | destination_backup_1751966778929/src/commands/reflog.js:84-131 | a page move other than Exit never ends the loop; a checkout, a reset or a crash comes only from an answer the check accepted |
| `Reflog.BrowseEnds` | destination_backup_1751966778929/src/commands/reflog.js:84-131 | a finished loop checked out or reset only a listed entry's hash, exited only after an Exit answer, and under the corrected check never crashed |
| `Reflog.BlankAnswerCrashes` | destination_backup_1751966778929/src/commands/reflog.js:93-97 | as written, an empty or blank entry number crashes the command whenever there is an entry |
| `Reflog.CorrectedNeverCrashes` | destination_backup_1751966778929/src/commands/reflog.js:93-97 | under the corrected check no answer crashes the command, and an accepted answer finds the entry it names |
| `Reflog.NumberRefusesTrailingText` | destination_backup_1751966778929/src/commands/reflog.js:93 | `Number` is NaN for digits followed by a character that is neither a digit nor white space, such as `3abc` |
| `Reflog.ParseIntStopsAtTrailingText` | destination_backup_1751966778929/src/commands/reflog.js:96 | `parseInt(_, 10)` reads the digits up to the first non-digit, so `3abc` is 3 |
| `Reflog.TrailingTextRefused` | destination_backup_1751966778929/src/commands/reflog.js:93-131 | digits followed by other text (`3abc`) are refused by the written check, and the loop goes on; the corrected check accepts them as the entry the digits name and checks out or resets its hash |
| `Worktree.FirstBreak` | destination_backup_1751966778929/src/commands/worktree.js:35 | the first newline followed by `worktree ` at or after a position |
| `Worktree.SplitBlocks` | destination_backup_1751966778929/src/commands/worktree.js:35 | the split yields at least one block |
| `Worktree.JoinBlocks` | destination_backup_1751966778929/src/commands/worktree.js:35 | joining the blocks with newlines gives back the text: only the newlines split at are lost |
| `Worktree.BlocksShape` | destination_backup_1751966778929/src/commands/worktree.js:35 | every block after the first starts with `worktree `, and no block holds a split point |
| `Worktree.FirstBlockStarts` | destination_backup_1751966778929/src/commands/worktree.js:35 | porcelain output, which starts with `worktree `, gives a first block that does too |
| `Worktree.FindKey` | destination_backup_1751966778929/src/commands/worktree.js:37-38 | the leftmost place where the key is followed by at least one character on its line |
| `Worktree.FieldAfter` | destination_backup_1751966778929/src/commands/worktree.js:37-38 | the captured field is non-empty and stays on one line; there is none exactly when the key never occurs with something after it |
| `Worktree.PathOfBlock` | destination_backup_1751966778929/src/commands/worktree.js:37 | a block that starts with `worktree <path>` yields that path |
| `Worktree.PathMentioningBareIsBare` | destination_backup_1751966778929/src/commands/worktree.js:39 | a worktree whose path contains `bare` is reported as bare |
| `Worktree.Status` | destination_backup_1751966778929/src/commands/worktree.js:37-42 | the line is exactly `Path: ` and the path (or `undefined`), then the branch part, then the bare marker, and nothing else: it shows the branch when there is one and ends with ` | (bare)` when the block contains `bare` |
| `Worktree.BranchPart` | destination_backup_1751966778929/src/commands/worktree.js:38-41 | ` | Branch: <name>` exactly when the block has a `branch ` field with something after it, and empty otherwise |
| `Worktree.BarePart` | destination_backup_1751966778929/src/commands/worktree.js:39-42 | ` | (bare)` exactly when the block contains `bare` anywhere, and empty otherwise |
| `Worktree.Statuses` | destination_backup_1751966778929/src/commands/worktree.js:35-51 | one status line per block, in order |
| `Worktree.Paths` | destination_backup_1751966778929/src/commands/worktree.js:97-101 | exactly the captures of the blocks with the empty ones filtered out: the paths of the blocks that have one, in block order, one per block when all do |
| `Worktree.Captures` | destination_backup_1751966778929/src/commands/worktree.js:100 | one capture per block: its `worktree` path, or the empty text when it has none |
| `Worktree.CapturedPaths` | destination_backup_1751966778929/src/commands/worktree.js:97-101 | every kept capture is the path of some block, and none is dropped when every block has a path |
| `Worktree.RemoveArgs` | destination_backup_1751966778929/src/commands/worktree.js:113-133 | with no worktree listed nothing runs; otherwise the chosen listed path is removed |
| `LogViewer.Quoted` | destination_backup_1751964201891/src/commands/log.js:38-40 | the option is `--<name>="<value>"` |
| `LogViewer.UnquoteQuoted` | destination_backup_1751964201891/src/commands/log.js:38-40 | the value is read back from the quoted option unchanged |
| `LogViewer.ModeArgs` | destination_backup_1751964201891/src/commands/log.js:30-47 | each known mode gives its `git log` arguments; a mode that needs a value gives a command exactly when the value is set; an unknown mode gives none |
| `LogViewer.QuotedModesCarryValue` | destination_backup_1751964201891/src/commands/log.js:37-40 | the since and author commands carry the value given, recoverable from the argument |
| `LogViewer.BuildChoices` | destination_backup_1751964201891/src/commands/log.js:132-143 | the choices of one page, as the choice function lists them |
| `LogViewer.PushDetails` | destination_backup_1751964201891/src/commands/log.js:135-140 | one detail choice per commit of the page, in index order |
| `LogViewer.Answered` | destination_backup_1751964201891/src/commands/log.js:145-207 | one answer on a page: Next and Prev, when offered, move one page forward or back, every other answer keeps the page; a detail is shown exactly when an offered detail is chosen, and it is of that commit, which exists; the loop exits exactly on Exit and leaves for the parent menu exactly on Back or on Back after a detail; an answer that is not offered changes nothing |
| `LogViewer.Step` | destination_backup_1751964201891/src/commands/log.js:132-207 | the pass the loop runs, looking the answer up in the page's choice list, has exactly the effect `Answered` gives; the page it moves to still shows a commit |
| `LogViewer.ChoicesShape` | destination_backup_1751964201891/src/commands/log.js:132-143 | Previous when past the first page, Next when commits remain, a detail entry for each commit of the page, then Back and Exit last |
| `LogViewer.TurnsStayInRange` | destination_backup_1751964201891/src/commands/log.js:133-135 | turning to the next or previous page lands on a page that shows a commit |
| `LogViewer.Browse` | destination_backup_1751964201891/src/commands/log.js:94-209 | the loop is the fold of `Answered` over the answers up to the first one that ends it: it starts on page 0, each pass before the last leaves the loop open and leads to the page `Answered` gives, each pass shows the detail `Answered` gives, and the loop ends with the ending of the first answer that ends it, or stays open after using every answer; every page shown holds a commit and an open loop saw neither Exit nor Back |
| `StatusMenu.EffectiveLog` | destination_backup_1751966778929/src/commands/status.js:49-53 | a failing log read becomes an empty log with no latest commit; a successful read is kept |
| `StatusMenu.PushWorkTreeActions` | destination_backup_1751966778929/src/commands/status.js:128-150 | the actions for staged, modified and untracked files, each group under its own condition, in that order |
| `StatusMenu.PushChangeActions` | destination_backup_1751966778929/src/commands/status.js:128-166 | the actions for staged, modified and untracked files, stashes, and commits ahead and behind, in that order |
| `StatusMenu.NextActions` | destination_backup_1751966778929/src/commands/status.js:126-188 | the whole menu of next actions for the state and the log read |
| `StatusMenu.MenuMembers` | destination_backup_1751966778929/src/commands/status.js:126-188 | an action is in the menu exactly when its condition holds |
| `StatusMenu.MenuInOrder` | destination_backup_1751966778929/src/commands/status.js:126-188 | the menu follows the fixed order of the source and lists no action twice |
| `StatusMenu.MenuEnds` | destination_backup_1751966778929/src/commands/status.js:186-188 | the menu always ends with View log, Show status and Exit |
| `StatusMenu.CreateBranchOnce` | destination_backup_1751966778929/src/commands/status.js:168-176 | Create branch appears exactly once, whichever branch of the test is taken |
| `StatusMenu.BranchActionsOffered` | destination_backup_1751966778929/src/commands/status.js:169-174 | switch, delete and merge are offered exactly when there is more than one local branch |
| `StatusMenu.UndoOffered` | destination_backup_1751966778929/src/commands/status.js:177-184 | Undo is offered exactly when there is a last action or more than one commit; after a failed log read only a last action offers it |
| `StatusMenu.CleanIffNoChangeActions` | destination_backup_1751966778929/src/commands/status.js:115-150 | the directory is reported clean exactly when none of commit, stage all and add untracked is offered |
| `QuickMenu.QuickActions` | destination_backup_1751966778929/src/commands/quick.js:51-104 | the quick menu for the repository state, as the menu function lists it |
| `QuickMenu.Quick` | destination_backup_1751966778929/src/commands/quick.js:26-150 | outside a repository it exits with an error; inside one it builds the menu, then crashes at the prompt exactly when `inquirer` was never loaded, and otherwise runs the chosen entry |
| `QuickMenu.MenuMembers` | destination_backup_1751966778929/src/commands/quick.js:51-104 | an action is in the menu exactly when its condition holds |
| `QuickMenu.MenuInOrder` | destination_backup_1751966778929/src/commands/quick.js:51-104 | the menu follows the fixed order of the source and lists no action twice |
| `QuickMenu.StatusFirstExitLast` | destination_backup_1751966778929/src/commands/quick.js:52-104 | Status comes first, Exit last, and Branch, Log and Stash are always there |
| `QuickMenu.HistoryEntries` | destination_backup_1751966778929/src/commands/quick.js:68-85 | Undo, Redo and Cherry-pick need a commit; Undo needs a last action and Redo a last undone one |
| `QuickMenu.ConditionalEntries` | destination_backup_1751966778929/src/commands/quick.js:53-97 | Save when anything changed, Push when ahead, Rebase and Bisect when there is more than one branch |
| `SmartMenu.OptionalMembers` | destination_backup_1751966778929/src/commands/smart.js:36-48 | the ahead/behind, staged, changed and stash lines between the branch and the commit count each appear exactly when their condition holds, and no other line appears there |
| `SmartMenu.Summary` | destination_backup_1751966778929/src/commands/smart.js:35-50 | the summary is exactly the branch line, then the optional lines of the state, then the commit count; the ahead/behind, staged, changed and stash lines each appear exactly when they have something to say |
| `SmartMenu.SummaryInOrder` | destination_backup_1751966778929/src/commands/smart.js:35-50 | the summary lines come in the order branch, ahead/behind, staged, changed, stashes, commit count, so no line appears twice |
| `SmartMenu.SmartActions` | destination_backup_1751966778929/src/commands/smart.js:64-75 | the suggested actions for the state, as the menu function lists them |
| `SmartMenu.MenuMembers` | destination_backup_1751966778929/src/commands/smart.js:64-75 | an action is suggested exactly when its condition holds |
| `SmartMenu.MenuInOrder` | destination_backup_1751966778929/src/commands/smart.js:64-75 | the suggestions follow the fixed order of the source and list no action twice |
| `SmartMenu.LogExitLast` | destination_backup_1751966778929/src/commands/smart.js:74-75 | the suggestions always end with Open log and Exit |
| `SmartMenu.Smart` | destination_backup_1751966778929/src/commands/smart.js:17-75 | a failed read shows its message and nothing else; otherwise the summary is exactly the branch line, the optional lines in order and the commit count, and the actions are the menu of the state |
| `InitConfig.Resolve` | destination_backup_1751966778929/src/commands/init.js:42-65 | a non-empty local value wins and is marked local; otherwise a non-empty global value, marked global; otherwise the field is unset and empty |
| `InitConfig.NameAccepted` | destination_backup_1751966778929/src/commands/init.js:105 | a name is accepted exactly when it holds a character that is not white space |
| `InitConfig.EmailShape` | destination_backup_1751966778929/src/commands/init.js:111 | an accepted email has at least five characters, an `@` after the first and a `.` after the character that follows it, before the last |
| `InitConfig.EmailExamples` | destination_backup_1751966778929/src/commands/init.js:111 | `a@b.c` is accepted; `a@b`, `@bb.c` and an address broken across lines are refused |
| `InitConfig.MenuBySource` | destination_backup_1751966778929/src/commands/init.js:83-256 | keep/reset/clear exactly when a value is local; keep/reset when none is local and one is global; direct entry when both are unset |
| `InitConfig.EnteredAccepted` | destination_backup_1751966778929/src/commands/init.js:100-113 | the entered name and email pass their validators and are the first answers each validator accepts |
| `InitConfig.EnteredNone` | destination_backup_1751966778929/src/commands/init.js:100-113 | nothing is entered exactly when one of the two prompts never gets an accepted answer |
| `InitConfig.Pass` | destination_backup_1751966778929/src/commands/init.js:67-290 | one pass through the loop, as the step function defines it |
| `InitConfig.EnterIdentity` | destination_backup_1751966778929/src/commands/init.js:262-288 | prompting, writing the two config values, and settling on them as local |
| `InitConfig.PassWithLocal` | destination_backup_1751966778929/src/commands/init.js:83-209 | the pass when a value is local: keep, reset or clear, as the step function defines it |
| `InitConfig.ConfigureIdentity` | destination_backup_1751966778929/src/commands/init.js:38-290 | the loop from the four initial reads, as the run function defines it, and it always ends settled or aborted |
| `InitConfig.KeepSettles` | destination_backup_1751966778929/src/commands/init.js:207-209 | choosing keep settles on the current values and writes nothing |
| `InitConfig.StepWritesLast` | destination_backup_1751966778929/src/commands/init.js:97-126 | a pass that writes the config writes it last, settles on the written values as local, and those values pass both validators |
| `InitConfig.ClearReports` | destination_backup_1751966778929/src/commands/init.js:127-171 | clearing unsets the local values, reports the previous local values and the re-read ones, and goes round again exactly when some value is left |
| `InitConfig.ClearPass` | destination_backup_1751966778929/src/commands/init.js:127-206 | the clear pass is the clear step: unset and report the values, then go round again on the values found or ask for new ones |
| `InitConfig.Step` | destination_backup_1751966778929/src/commands/init.js:67-290 | a pass unsets the local values only when one is local, and only `clear` leads to another pass |
| `InitConfig.Run` | destination_backup_1751966778929/src/commands/init.js:67-290 | the loop always ends, settled or aborted, and a loop that has ended does nothing more |
| `InitConfig.StepWellFormed` | destination_backup_1751966778929/src/commands/init.js:67-290 | every pass keeps each value non-empty exactly when it has a source |
| `InitConfig.StepAbortWritesNothing` | destination_backup_1751966778929/src/commands/init.js:67-290 | a pass that aborts has written nothing |
| `InitConfig.RunWritesLast` | destination_backup_1751966778929/src/commands/init.js:67-290 | the loop ends as soon as the config is written, settled on the written values |
| `InitConfig.RunAbortWritesNothing` | destination_backup_1751966778929/src/commands/init.js:67-292 | a run that aborts has written nothing |
| `InitConfig.RunWellFormed` | destination_backup_1751966778929/src/commands/init.js:67-290 | values stay well formed to the end of the run |
| `InitConfig.Init` | destination_backup_1751966778929/src/commands/init.js:9-305 | an existing repository is left alone; a failed probe or init reports the error; otherwise the identity loop runs |
| `DeleteBranch.Deletable` | destination_backup_1751966778929/src/commands/delete-branch.js:22 | the deletable branches are a sub-list of the local branches |
| `DeleteBranch.DeletableMembers` | destination_backup_1751966778929/src/commands/delete-branch.js:20-22 | a branch is deletable exactly when it is listed and not the current one |
| `DeleteBranch.Decide` | destination_backup_1751966778929/src/commands/delete-branch.js:48-164 | a named branch that is not deletable is refused; nothing to offer stops; declining stops; a removal is confirmed, deletable, and the trimmed name or the picked entry |
| `DeleteBranch.NeverCurrent` | destination_backup_1751966778929/src/commands/delete-branch.js:22-164 | the current branch is never deleted |
| `DeleteBranch.NameIsTrimmed` | destination_backup_1751966778929/src/commands/delete-branch.js:48-66 | a name with white space around it is decided like the trimmed name |
| `DeleteBranch.DeleteRef` | destination_backup_1751966778929/src/commands/delete-branch.js:94 | after deletion the branch is neither listed nor has a tip; the current branch is unchanged |
| `DeleteBranch.Tip` | destination_backup_1751966778929/src/commands/delete-branch.js:97-99 | the lookup finds a commit exactly when the branch exists, and it is the branch's tip |
| `DeleteBranch.AsWrittenRecordsNothing` | destination_backup_1751966778929/src/commands/delete-branch.js:94-103 | with the lookup after the deletion, no entry is ever recorded |
| `DeleteBranch.RecordRestores` | destination_backup_1751966778929/src/commands/delete-branch.js:94-103 | with the lookup before the deletion, the entry carries the tip, and recreating the branch from it restores every tip |
| `DeleteBranch.Record` | destination_backup_1751966778929/src/commands/delete-branch.js:97-103 | an entry is recorded exactly when the branch has a tip, and it carries that tip |
| `DeleteBranch.Run` | destination_backup_1751966778929/src/commands/delete-branch.js:12-193 | a failed listing stops; a deletion follows only a Remove decision and records the tip looked up beforehand; after a Remove decision the branch is the decided one, deleted exactly when git deletes it and failed otherwise; a stop carries its decision |
| `DeleteBranch.DeletedIsConfirmed` | destination_backup_1751966778929/src/commands/delete-branch.js:12-193 | only a confirmed, listed, non-current branch is deleted, and its entry carries its tip; conversely a confirmed deletion of a deletable branch, named or picked from a non-empty list, that git carries out is deleted |
| `CherryPick.Short` | destination_backup_1751964201891/src/commands/cherry-pick.js:55 | the first seven characters of the hash, or all of a shorter one |
| `CherryPick.Lines` | destination_backup_1751964201891/src/commands/cherry-pick.js:61-66 | one result line per attempted pick, in order, saying how that pick ended |
| `CherryPick.PickAll` | destination_backup_1751964201891/src/commands/cherry-pick.js:52-69 | the picks up to and including the first failure are attempted, and the lines report exactly those |
| `CherryPick.FailureIsLast` | destination_backup_1751964201891/src/commands/cherry-pick.js:62-67 | every line but the last reports a success, and when a pick fails its line is the last |
| `CherryPick.AllPicked` | destination_backup_1751964201891/src/commands/cherry-pick.js:52-69 | when no pick fails every pick is attempted and reported done |
| `CherryPick.CherryPick` | destination_backup_1751964201891/src/commands/cherry-pick.js:5-80 | a failed log read shows its error; after a successful read the prompt crashes exactly when `inquirer` was never loaded; otherwise no picks or no confirmation does nothing, and a confirmed pick gives the attempts and their lines |
| `Seqs.FirstFailure` | destination_backup_1751964201891/src/commands/cherry-pick.js:62-67 | the loop stops right after the first call that throws |
| `Seqs.NoFailure` | destination_backup_1751964201891/src/commands/cherry-pick.js:53-69 | with no call throwing every call is made |
| `Strings.TrimmedRead` | destination_backup_1751964201891/src/commands/tag.js:16-20 | a read that throws gives the empty, falsy value and one that returns gives its trimmed output; the value is empty exactly when the read failed or printed only white space (the config reads of init.js:42-45 work the same way) |
| `TagDelete.AsWrittenRecordsNothing` | destination_backup_1751964201891/src/commands/tag.js:16-24 | with the lookup as written, no run records a `tag-delete` entry, whatever git printed |
| `TagDelete.TagLines` | destination_backup_1751964201891/src/commands/tag.js:13-29 | one line per tag, in order, saying whether its deletion worked |
| `TagDelete.TagEntries` | destination_backup_1751964201891/src/commands/tag.js:13-25 | at most one entry per tag; which tags get one is stated by `EntriesAreDeletedTags` and `DeletedTagsAreRecorded` |
| `TagDelete.DeleteTags` | destination_backup_1751964201891/src/commands/tag.js:6-31 | the lines are printed when there were tags, the history gains the tag entries at its end, and the undone list is unchanged |
| `TagDelete.EntriesAreDeletedTags` | destination_backup_1751964201891/src/commands/tag.js:21-24 | every entry is for a tag that was deleted after its commit was found, with that commit |
| `TagDelete.DeletedTagsAreRecorded` | destination_backup_1751964201891/src/commands/tag.js:21-24 | every tag deleted after its commit was found is recorded |
| `TagDelete.LookupDoesNotMatter` | destination_backup_1751964201891/src/commands/tag.js:16-25 | a tag whose deletion worked is reported deleted whatever the lookup gave |
| `TagDelete.FailuresCounted` | destination_backup_1751964201891/src/commands/tag.js:26-28 | there are as many failure lines as failed deletions: the loop goes on after a failure |
| `Clean.Deletions` | destination_backup_1751966778929/src/commands/clean.js:113-117 | the files deleted are the calls before the first that throws |
| `Clean.Updates` | destination_backup_1751966778929/src/commands/clean.js:116 | the bar is moved to 1, 2, ..., n in turn |
| `Clean.DeleteAll` | destination_backup_1751966778929/src/commands/clean.js:109-127 | deletes up to the first failure, attempts that file too, updates the bar once per deletion, and reports the error of the failing call |
| `Clean.DeletedCountIsSuccesses` | destination_backup_1751966778929/src/commands/clean.js:110-117 | the counter equals the successful calls among those made, and one more call is made exactly when one fails |
| `Clean.CleanCommand` | destination_backup_1751966778929/src/commands/clean.js:10-138 | a status error, no untracked files, a failed dry run and a declined confirmation each stop before deleting; otherwise the bar totals the untracked files and the deletion runs |
| `Clean.BarEnds` | destination_backup_1751966778929/src/commands/clean.js:109-118 | the bar ends at the number of deleted files, and reaches its total exactly when no deletion fails |

## Left out

- Git, the file system, the terminal and the environment are not executed. Each call is an input that says how the call ends. Its effect is the state it produces, or a value the command shows.
- Dates are integer epoch seconds, and ratios and day counts are `real`. IEEE float rounding, `toFixed`, `toISOString`, `toLocaleString`, luxon and Python's `fromisoformat` and `isoformat` are left out. `isValidDate` is an input.
- The random jitter is an input minute offset in [-120, 120].
- `Compressor.ApplyDateCompression` computes the date each commit should get; it does not model what the rewrites achieve. Each `git filter-branch` pass rewrites the whole history and matches `$GIT_COMMIT` against a hash read before the loop (compress.js:368, compress.js:478-480). Once the first pass re-dates the oldest commit, every later commit has a new hash, so the later passes match nothing. Read this way, only the oldest commit is re-dated. The model has no commit hashes or history rewriting, so this reading is not proved.
- `validateEnvironment` in `index.js` is not modelled. It probes the platform's executables.
- The event handlers and stream draining of `executeFilter` are left out. The model keeps the exit code, and the first `PROGRESS:` marker of each chunk.
- `FilterRepo.CompressionRatio`: the script of `index.js:109-116` is built from a finite ratio only. With `--original-days 0` the getter gives `Infinity` (or `NaN` when the target is 0 too), as `CompressionRatio` states. The source then prints that value into the `COMPRESSION_RATIO` line of the script (index.js:110) and into the closing message (index.js:218). The model does not follow a non-finite ratio into the script or the message.
- The callback command of `index.js:155-157` is not modelled. There the `--commit-callback` body is the text `cat "<path>"` (or `python "<path>"` on Windows), naming the script written at `index.js:149`, rather than the script itself. The model runs the script's callback on each commit, as the command evidently intends: the rewritten commits and the markers.
- Rendering is left out: boxen, chalk, figlet, ink components, inquirer, cli-table3, cli-progress, ora, and the `\r` writes of `SimpleProgressBar`. The bars are reduced to their counters. The tables, summaries and boxes are reduced to the values they show.
- commander registration, help text and the pass-through commands are not part of this model. Nor is the dispatch from a quick, smart or status menu entry to the command it runs.
- Windows paths and the `.cmd` suffix of `findTsxBin` are left out. Paths are sequences of components.
- `git.raw` resolves to the output text itself, so destructuring `{ stdout }` from it gives `undefined`; the tag.js case is under "## Findings". The same read sits in `worktree.js:34`, `worktree.js:96`, `log.js:50` and `clean.js:59`: as written, the two worktree listings and the log modes of `log.js:50` always reach their error paths, and the dry run of `clean.js` prints `undefined` instead of the files it would remove. `Worktree` and `Clean.CleanCommand` model the evidently intended read, which gives the output text; their as-written behaviour is not modelled. `LogViewer.ModeArgs` stops at the command, so the output of a log mode is not modelled.
- `Reflog.ToNumber`: reads a blank answer as 0, and after trimming white space an optional sign followed by decimal digits as that number; every other answer counts as NaN. JavaScript's `Number` also accepts fractions, exponents and hexadecimal, so `3.5` is refused here, while the source accepts it and looks up entry 3.
- `LogViewer.ModeArgs`: the `limit` value is kept as the text given. `String(options.n)` of a number is not modelled.
- `LogViewer.Browse` records which commit each pass shows in detail and whether the follow-up prompt answered Back; the `git show` call and the box that display the commit are not modelled.
- `Worktree.FieldAfter`: the capture `(.+)` runs to the end of the line, and no other regular-expression behaviour is modelled.
- `Blame.Format`: the model prints only the header, `author`, `author-time`, `summary` and content lines. `git blame --line-porcelain` also prints `author-mail`, `author-tz`, the `committer` lines, `filename`, and `previous` or `boundary`. The parser ignores every such line, since it matches none of its prefixes, but `Blame.RoundTrip` and `Blame.ParseFormatted` are proved only for the simplified output.
- `Blame.Browse`: the display, including `hash.slice(0, 8)` on a record with no hash line before it, is not modelled.
- `Shortcuts.LoadShortcuts`: a shortcut file is absent, invalid, or a map from names to strings. Reading and parsing the JSON is an input. Non-string values and the key order of `Object.keys` are not modelled.
- `UndoRedo.Redo`: `git.deleteLocalBranch` is modelled as the call `branch -d` it issues, and only by how it ends. The repository it changes is not modelled.
- `InitConfig.ConfigureIdentity`: each pass uses one round of answers. A pass with no round left is treated as a prompt that throws, so the run aborts. The text shown in the menu and in the success boxes is not modelled. `git.addConfig` is assumed to succeed.
- `InitConfig.Init`: `checkIsRepo` throwing is folded into an unknown probe (`None`). That probe reports the initialisation error.
- `DeleteBranch.Run`: the branch table is not modelled. The `git.log` lookup is modelled as the branch's tip. `Run` looks the tip up before the deletion, the evidently intended order, so it records the entry that `undo` needs; the order as written, which records nothing, is `DeleteBranch.AsWrittenRecordsNothing` (see "## Findings").
- `CherryPick.CherryPick`: the choices from the 30-commit log are not modelled; the checked commits are an input. Spinner output is left out.
- `RcEditor.PrefixFilter`: case folding is ASCII only. `Strings.Lower` lowers `A`-`Z` and keeps every other character, while `toLowerCase` at rc-edit.jsx:218-219 also folds non-ASCII letters. For example, U+212A KELVIN SIGN becomes `k`, so such a query matches commands starting with `k` in the source but not in the model.
- `TablePicker.SubstringFilter`: case folding is ASCII only, as for `RcEditor.PrefixFilter`. `toLowerCase` at table-picker.jsx:171-172 folds non-ASCII letters too, and `Strings.Lower` does not.
- `QuickMenu.Quick`: the commands the chosen entry runs, and the commit-message prompt of the `save` entry, are not modelled. The status, log, stash and branch reads are inputs.
- `TagDelete.DeleteTags` and `Reflog.Browse`: the `isGitRepo` exit is not modelled.
- `Clean.CleanCommand`: the error box for a failed status, the dry-run listing and the bar rendering are left out.

## Findings

| source | as written | input that shows it | evidently intended | confidence | as-written member | corrected member |
|---|---|---|---|---|---|---|
| index.js:111-112 | the JavaScript booleans are printed into the Python script as `true`/`false`, names Python does not define | any options, e.g. jitter on: the line reads `JITTER_ENABLED = true` | Python literals `True`/`False` | high (not executed) | `FilterRepo.SwitchLinesAsWrittenUnbound` | `FilterRepo.SwitchLinesRoundTrip` |
| destination_backup_1751966778929/src/commands/reflog.js:93-96 | the empty (or blank) answer passes `validate` (`Number("")` is 0), then `parseInt("")` is NaN, so no entry is found and `entry.hash` throws | an empty answer to the entry prompt, with at least one entry | accept an answer only when it names a listed entry | high (not executed) | `Reflog.BlankAnswerCrashes` (and `Reflog.Browse` run with the written check) | `Reflog.CorrectedNeverCrashes` (and `Reflog.Browse` run with the corrected check) |
| destination_backup_1751966778929/src/commands/delete-branch.js:94-103 | the tip is looked up after `deleteLocalBranch`, when the branch no longer exists, so no `branch-delete` entry is recorded and `undo` cannot restore it | deleting any branch | look the tip up before deleting, as `tag.js` does for tags | high (not executed) | `DeleteBranch.AsWrittenRecordsNothing` | `DeleteBranch.RecordRestores` |
| destination_backup_1751964201891/src/commands/tag.js:18-19 | `const { stdout } = await git.raw(...)` destructures the output text, which has no `stdout` field; `stdout.trim()` throws, the inner `catch` leaves the hash `null`, and no `tag-delete` entry is ever recorded | deleting any existing tag | read the output text itself, so a deleted tag whose commit was found is recorded for `undo` | high (not executed) | `TagDelete.AsWrittenRecordsNothing` | `TagDelete.DeletedTagsAreRecorded` |
| destination_backup_1751964201891/src/commands/cherry-pick.js:5-32 | `inquirer` is declared but only `getInquirer()` assigns it, and nothing calls `getInquirer()`; `inquirer.prompt(...)` at line 32 throws a `TypeError` | any run whose `git.log` read succeeds | call `getInquirer()` before prompting, so the commits are offered and picked | high (not executed) | `CherryPick.CherryPick` run with `NeverLoaded` (ends in `PromptCrashed`) | `CherryPick.CherryPick` run with `Loaded`, with `CherryPick.FailureIsLast` |
| destination_backup_1751966778929/src/commands/quick.js:26-106 | `inquirer` is declared but only `getInquirer()` assigns it, and nothing calls it; the menu prompt at line 106 throws a `TypeError`, so the menu is never shown | any run inside a repository | call `getInquirer()` before prompting, so the menu is shown and the chosen entry runs | high (not executed) | `QuickMenu.Quick` run with `NeverLoaded` (ends in `PromptCrashed`) | `QuickMenu.Quick` run with `Loaded`, with `QuickMenu.MenuMembers` |

=== FILE: blame.dfy ===
/** The blame viewer (`src/commands/blame.js`): the record builder over
    `git blame --line-porcelain` output and the page-by-page browser. */
module Blame {
  import opened Wrappers
  import opened Strings
  import opened Paging

  /** The `date` field: `new Date(ts * 1000)` of the parsed `author-time`,
      which is an invalid date when the text does not parse. Formatting it is
      left to the display. */
  datatype Stamp = Seconds(seconds: int) | InvalidDate

  /** The `current` object; a field that was never set is `None`. */
  datatype BlameRecord = BlameRecord(
    hash: Option<string>,
    author: Option<string>,
    date: Option<Stamp>,
    summary: Option<string>,
    content: Option<string>)

  const Empty := BlameRecord(None, None, None, None, None)

  /** `/^[0-9a-f]{40} /`. */
  predicate IsHashLine(line: string)
  {
    |line| >= 41 && line[40] == ' ' && forall i :: 0 <= i < 40 ==> IsLowerHex(line[i])
  }

  /** `if (current.line)`: a record is kept only with non-empty content. */
  function Keep(cur: BlameRecord): (r: seq<BlameRecord>)
    ensures |r| <= 1
    ensures r == [cur] <==> cur.content.Some? && cur.content.value != ""
  {
    if cur.content.Some? && cur.content.value != "" then [cur] else []
  }

  /** The effect of one line that is not a hash line (blame.js:47-56): each
      `replace` removes the prefix the line was checked for; any other line is
      ignored. */
  function Update(cur: BlameRecord, line: string): (r: BlameRecord)
    ensures r.hash == cur.hash
  {
    if StartsWith(line, "author ") then cur.(author := Some(line[7..]))
    else if StartsWith(line, "author-time ") then
      var ts := ParseInt(line[12..]);
      cur.(date := Some(if ts.Some? then Seconds(ts.value) else InvalidDate))
    else if StartsWith(line, "summary ") then cur.(summary := Some(line[8..]))
    else if StartsWith(line, "\t") then cur.(content := Some(line[1..]))
    else cur
  }

  /** The records the loop of blame.js:42-58 collects from `lines`, given the
      record under construction. */
  function ParseFrom(lines: seq<string>, cur: BlameRecord): (r: seq<BlameRecord>)
    ensures forall i :: 0 <= i < |r| ==> r[i].content.Some? && r[i].content.value != ""
    decreases |lines|
  {
    if lines == [] then Keep(cur)
    else if IsHashLine(lines[0]) then Keep(cur) + ParseFrom(lines[1..], Empty.(hash := Some(lines[0][..40])))
    else ParseFrom(lines[1..], Update(cur, lines[0]))
  }

  /** The records of a whole blame output. */
  function Records(output: string): seq<BlameRecord>
  {
    ParseFrom(Split(output, '\n'), Empty)
  }

  /** The parsing loop of blame.js:39-58. */
  method ParseBlame(output: string) returns (blameLines: seq<BlameRecord>)
    ensures blameLines == Records(output)
  {
    var lines := Split(output, '\n');
    blameLines := [];
    var current := Empty;
    var i := 0;
    while i < |lines|
      invariant 0 <= i <= |lines|
      invariant blameLines + ParseFrom(lines[i..], current) == Records(output)
    {
      var line := lines[i];
      assert lines[i..][1..] == lines[i + 1..];
      if IsHashLine(line) {
        if current.content.Some? && current.content.value != "" {
          blameLines := blameLines + [current];
        }
        current := Empty.(hash := Some(line[..40]));
      } else {
        current := Update(current, line);
      }
      i := i + 1;
    }
    if current.content.Some? && current.content.value != "" {
      blameLines := blameLines + [current];
    }
  }

  function CountHashLines(lines: seq<string>): (c: nat)
    ensures c <= |lines|
  {
    if lines == [] then 0 else (if IsHashLine(lines[0]) then 1 else 0) + CountHashLines(lines[1..])
  }

  /** At most one record per hash line, plus one for content before the
      first hash line. */
  lemma {:induction false} CountBound(lines: seq<string>, cur: BlameRecord)
    ensures |ParseFrom(lines, cur)| <= CountHashLines(lines) + 1
    decreases |lines|
  {
    if lines != [] {
      if IsHashLine(lines[0]) {
        CountBound(lines[1..], Empty.(hash := Some(lines[0][..40])));
      } else {
        CountBound(lines[1..], Update(cur, lines[0]));
      }
    }
  }

  /** Only the record built before any hash line can lack a hash, and it can
      only come first. */
  lemma {:induction false} HashesPresent(lines: seq<string>, cur: BlameRecord)
    ensures forall i :: 0 < i < |ParseFrom(lines, cur)| ==> ParseFrom(lines, cur)[i].hash.Some?
    ensures cur.hash.Some? ==> forall i :: 0 <= i < |ParseFrom(lines, cur)| ==> ParseFrom(lines, cur)[i].hash.Some?
    decreases |lines|
  {
    if lines != [] {
      if IsHashLine(lines[0]) {
        HashesPresent(lines[1..], Empty.(hash := Some(lines[0][..40])));
      } else {
        HashesPresent(lines[1..], Update(cur, lines[0]));
      }
    }
  }

  /** Output that starts with a hash line has at most one record per hash
      line. */
  lemma StartingWithHash(lines: seq<string>)
    requires lines != [] && IsHashLine(lines[0])
    ensures |ParseFrom(lines, Empty)| <= CountHashLines(lines)
  {
    CountBound(lines[1..], Empty.(hash := Some(lines[0][..40])));
  }

  // ----------------------------------------------------- round trip

  /** One line of `--line-porcelain` output as far as the parser reads it. */
  datatype Porcelain = Porcelain(hash: string, author: string, time: nat, summary: string, content: string)

  predicate IsHash(h: string)
  {
    |h| == 40 && forall i :: 0 <= i < 40 ==> IsLowerHex(h[i])
  }

  /** The lines git prints for one source line: the header, then `author`,
      `author-time` and `summary`, then the content after a tab. */
  function Format(p: Porcelain): (lines: seq<string>)
    ensures |lines| == 5
  {
    [p.hash + " 1 1 1", "author " + p.author, "author-time " + NatToString(p.time),
     "summary " + p.summary, "\t" + p.content]
  }

  function FormatAll(ps: seq<Porcelain>): (lines: seq<string>)
    ensures |lines| == 5 * |ps|
  {
    if ps == [] then [] else Format(ps[0]) + FormatAll(ps[1..])
  }

  /** The record the parser should build for one source line. */
  function Expected(p: Porcelain): BlameRecord
  {
    BlameRecord(Some(p.hash), Some(p.author), Some(Seconds(p.time)), Some(p.summary), Some(p.content))
  }

  function ExpectedAll(ps: seq<Porcelain>): (r: seq<BlameRecord>)
    ensures |r| == |ps|
  {
    if ps == [] then [] else [Expected(ps[0])] + ExpectedAll(ps[1..])
  }

  predicate WellFormed(p: Porcelain)
  {
    IsHash(p.hash) && p.content != ""
  }

  lemma HeaderLine(h: string)
    requires IsHash(h)
    ensures IsHashLine(h + " 1 1 1") && (h + " 1 1 1")[..40] == h
  {
    var l := h + " 1 1 1";
    assert l[..40] == h;
    assert l[40] == ' ';
  }

  lemma AuthorLine(cur: BlameRecord, a: string)
    ensures !IsHashLine("author " + a)
    ensures Update(cur, "author " + a) == cur.(author := Some(a))
  {
    var l := "author " + a;
    assert l[1] == 'u';
    assert l[..7] == "author ";
    assert l[7..] == a;
  }

  lemma TimeLine(cur: BlameRecord, t: nat)
    ensures !IsHashLine("author-time " + NatToString(t))
    ensures Update(cur, "author-time " + NatToString(t)) == cur.(date := Some(Seconds(t)))
  {
    var l := "author-time " + NatToString(t);
    assert l[1] == 'u';
    assert !StartsWith(l, "author ") by {
      assert l[..7][6] == '-';
    }
    assert l[..12] == "author-time ";
    assert l[12..] == NatToString(t);
    ParseIntNatToString(t);
  }

  lemma SummaryLine(cur: BlameRecord, s: string)
    ensures !IsHashLine("summary " + s)
    ensures Update(cur, "summary " + s) == cur.(summary := Some(s))
  {
    var l := "summary " + s;
    assert l[0] == 's';
    assert !StartsWith(l, "author ") by {
      if |l| >= 7 { assert l[..7][0] == 's'; }
    }
    assert !StartsWith(l, "author-time ") by {
      if |l| >= 12 { assert l[..12][0] == 's'; }
    }
    assert l[..8] == "summary ";
    assert l[8..] == s;
  }

  lemma ContentLine(cur: BlameRecord, c: string)
    ensures !IsHashLine("\t" + c)
    ensures Update(cur, "\t" + c) == cur.(content := Some(c))
  {
    var l := "\t" + c;
    assert l[0] == '\t';
    assert !StartsWith(l, "author ") by {
      if |l| >= 7 { assert l[..7][0] == '\t'; }
    }
    assert !StartsWith(l, "author-time ") by {
      if |l| >= 12 { assert l[..12][0] == '\t'; }
    }
    assert !StartsWith(l, "summary ") by {
      if |l| >= 8 { assert l[..8][0] == '\t'; }
    }
    assert l[..1] == "\t";
    assert l[1..] == c;
  }

  /** The four lines after the header fill in every field. */
  lemma FormatBody(p: Porcelain)
    requires WellFormed(p)
    ensures var ls := Format(p);
      IsHashLine(ls[0]) && ls[0][..40] == p.hash
      && !IsHashLine(ls[1]) && !IsHashLine(ls[2]) && !IsHashLine(ls[3]) && !IsHashLine(ls[4])
      && Update(Update(Update(Update(Empty.(hash := Some(p.hash)), ls[1]), ls[2]), ls[3]), ls[4]) == Expected(p)
  {
    HeaderLine(p.hash);
    var c0 := Empty.(hash := Some(p.hash));
    AuthorLine(c0, p.author);
    var c1 := c0.(author := Some(p.author));
    TimeLine(c1, p.time);
    var c2 := c1.(date := Some(Seconds(p.time)));
    SummaryLine(c2, p.summary);
    var c3 := c2.(summary := Some(p.summary));
    ContentLine(c3, p.content);
  }

  /** Parsing what git prints gives back one record per source line, in
      order, with every field. */
  lemma {:induction false} RoundTrip(ps: seq<Porcelain>, cur: BlameRecord)
    requires forall i :: 0 <= i < |ps| ==> WellFormed(ps[i])
    ensures ParseFrom(FormatAll(ps), cur) == Keep(cur) + ExpectedAll(ps)
    decreases |ps|
  {
    if ps != [] {
      var p := ps[0];
      var ls := FormatAll(ps);
      var tail := FormatAll(ps[1..]);
      assert ls == Format(p) + tail;
      FormatBody(p);
      RoundTrip(ps[1..], Expected(p));
      var c0 := Empty.(hash := Some(p.hash));
      var c1 := Update(c0, Format(p)[1]);
      var c2 := Update(c1, Format(p)[2]);
      var c3 := Update(c2, Format(p)[3]);
      assert ls[1..][1..][1..][1..][1..] == tail;
      assert ParseFrom(ls[1..][1..][1..][1..], c3) == ParseFrom(tail, Expected(p));
      assert ParseFrom(ls[1..][1..][1..], c2) == ParseFrom(tail, Expected(p));
      assert ParseFrom(ls[1..][1..], c1) == ParseFrom(tail, Expected(p));
      assert ParseFrom(ls[1..], c0) == ParseFrom(tail, Expected(p));
    }
  }

  /** The corollary for a whole output: blame.js's parser reads back exactly
      the lines git describes. */
  lemma ParseFormatted(ps: seq<Porcelain>)
    requires forall i :: 0 <= i < |ps| ==> WellFormed(ps[i])
    ensures ParseFrom(FormatAll(ps), Empty) == ExpectedAll(ps)
  {
    RoundTrip(ps, Empty);
    assert Keep(Empty) == [];
  }

  // ------------------------------------------------------------ browsing

  const PageSize := 20

  /** The browsing loop of blame.js:61-112, driven by the user's answers
      (as many as were given). It returns the pages shown, in order. With a
      single page nothing is asked. */
  method Browse(n: nat, answers: seq<Nav>) returns (shown: seq<nat>)
    ensures |shown| >= 1 && shown[0] == 0
    ensures TotalPages(n, PageSize) == 1 ==> shown == [0]
    ensures |shown| <= |answers| + 1
    ensures forall k :: 0 <= k < |shown| ==> shown[k] == 0 || shown[k] < TotalPages(n, PageSize)
    ensures forall k :: 0 < k < |shown| ==> shown[k] == shown[k - 1] + 1 || shown[k] + 1 == shown[k - 1] || shown[k] == shown[k - 1]
    ensures forall k :: 0 <= k < |shown| - 1 ==>
              answers[k] != Leave && Some(shown[k + 1]) == Turn(shown[k], TotalPages(n, PageSize), answers[k])
    ensures TotalPages(n, PageSize) != 1 ==> |shown| == |answers| + 1 || answers[|shown| - 1] == Leave
  {
    var totalPages := TotalPages(n, PageSize);
    var page := 0;
    shown := [0];
    if totalPages == 1 {
      return;
    }
    var i := 0;
    while i < |answers|
      invariant 0 <= i <= |answers|
      invariant |shown| == i + 1 && shown[0] == 0 && shown[i] == page
      invariant forall k :: 0 <= k < |shown| ==> shown[k] == 0 || shown[k] < totalPages
      invariant forall k :: 0 <= k < i ==> answers[k] != Leave && Some(shown[k + 1]) == Turn(shown[k], totalPages, answers[k])
    {
      var next := Turn(page, totalPages, answers[i]);
      if next.None? {
        break;
      }
      page := next.value;
      shown := shown + [page];
      i := i + 1;
    }
    TurnsMoveByOne(totalPages, answers, shown);
  }

  /** Pages that follow each other by `Turn` differ by at most one. */
  lemma TurnsMoveByOne(totalPages: nat, answers: seq<Nav>, shown: seq<nat>)
    requires |shown| <= |answers| + 1
    requires forall k :: 0 <= k < |shown| - 1 ==> Some(shown[k + 1]) == Turn(shown[k], totalPages, answers[k])
    ensures forall k :: 0 < k < |shown| ==> shown[k] == shown[k - 1] + 1 || shown[k] + 1 == shown[k - 1] || shown[k] == shown[k - 1]
  {
    forall k | 0 < k < |shown|
      ensures shown[k] == shown[k - 1] + 1 || shown[k] + 1 == shown[k - 1] || shown[k] == shown[k - 1]
    {
      assert Some(shown[k]) == Turn(shown[k - 1], totalPages, answers[k - 1]) by {
        assert k - 1 < |shown| - 1;
      }
    }
  }

}

=== FILE: cherry_pick.dfy ===
/** The `cherry-pick` command (`cherry-pick.js`): pick the selected commits
    one after the other and stop at the first that fails. Each `git
    cherry-pick` call is an input saying how that call ends. */
module CherryPick {
  import opened Wrappers
  import opened Seqs

  /** `hash.substr(0, 7)`. */
  function Short(hash: string): (r: string)
    ensures |r| == if |hash| < 7 then |hash| else 7
    ensures r == hash[..|r|]
  {
    if |hash| < 7 then hash else hash[..7]
  }

  /** One line of the results box. */
  datatype ResultLine = Picked(short: string) | PickFailed(short: string, message: string)

  /** The line an attempt adds (`cherry-pick.js:61`, `:64-66`). */
  function Line(hash: string, c: CallResult): ResultLine
  {
    if c.Returned? then Picked(Short(hash)) else PickFailed(Short(hash), c.message)
  }

  /** The lines of a run of attempts, one per attempt, in order. */
  function Lines(hashes: seq<string>, calls: seq<CallResult>): (r: seq<ResultLine>)
    requires |calls| >= |hashes|
    ensures |r| == |hashes|
    ensures forall i :: 0 <= i < |hashes| ==> r[i] == Line(hashes[i], calls[i])
  {
    if hashes == [] then [] else [Line(hashes[0], calls[0])] + Lines(hashes[1..], calls[1..])
  }

  /** `for (const hash of picks)` (`cherry-pick.js:52-69`): `tried` is the
      hashes handed to `git cherry-pick`, in order. */
  method PickAll(picks: seq<string>, calls: seq<CallResult>) returns (results: seq<ResultLine>, tried: seq<string>)
    requires |calls| == |picks|
    ensures tried == picks[..Attempts(calls)]
    ensures results == Lines(tried, calls)
  {
    results := [];
    var i := 0;
    while i < |picks|
      invariant 0 <= i <= |picks|
      invariant results == Lines(picks[..i], calls)
      invariant forall k :: 0 <= k < i ==> calls[k].Returned?
    {
      LinesSnoc(picks[..i], picks[i], calls);
      assert picks[..i + 1] == picks[..i] + [picks[i]];
      if calls[i].Returned? {
        results := results + [Picked(Short(picks[i]))];
      } else {
        results := results + [PickFailed(Short(picks[i]), calls[i].message)];
        FirstFailure(calls, i);
        tried := picks[..i + 1];
        return;
      }
      i := i + 1;
    }
    NoFailure(calls);
    tried := picks[..i];
  }

  /** One more attempt adds its line at the end. */
  lemma {:induction false} LinesSnoc(hashes: seq<string>, h: string, calls: seq<CallResult>)
    requires |calls| > |hashes|
    ensures Lines(hashes + [h], calls) == Lines(hashes, calls) + [Line(h, calls[|hashes|])]
  {
    var l := Lines(hashes + [h], calls);
    var r := Lines(hashes, calls) + [Line(h, calls[|hashes|])];
    assert |l| == |r|;
    forall i | 0 <= i < |l|
      ensures l[i] == r[i]
    {
      if i < |hashes| {
        assert (hashes + [h])[i] == hashes[i];
      }
    }
  }

  /** At most one line reports a failure, and when there is one it is the
      last line; a pick after a failed one is never attempted. */
  lemma FailureIsLast(picks: seq<string>, calls: seq<CallResult>)
    requires |calls| == |picks|
    ensures var n := Attempts(calls);
            var lines := Lines(picks[..n], calls);
            && (forall i :: 0 <= i < |lines| - 1 ==> lines[i].Picked?)
            && (n < |picks| ==> |lines| > 0 && lines[|lines| - 1].PickFailed?)
  {
    var n := Attempts(calls);
    var lines := Lines(picks[..n], calls);
    forall i | 0 <= i < |lines| - 1
      ensures lines[i].Picked?
    {
      assert calls[i].Returned?;
    }
  }

  /** When no pick fails, every pick is attempted and reported as done. */
  lemma AllPicked(picks: seq<string>, calls: seq<CallResult>)
    requires |calls| == |picks|
    requires forall i :: 0 <= i < |calls| ==> calls[i].Returned?
    ensures Attempts(calls) == |picks|
    ensures Lines(picks, calls) == seq(|picks|, i requires 0 <= i < |picks| => Picked(Short(picks[i])))
  {
  }

  /** What the command ends with. */
  datatype PickOutcome =
    /** Reading the log threw: an error box, nothing picked. */
    | LogFailed(message: string)
    /** The first prompt threw because `inquirer` is `undefined`: the command
        rejects before any choice, and nothing is picked. */
    | PromptCrashed
    /** No commit selected, or the confirmation declined: nothing picked. */
    | NothingPicked
    /** The results box, and the hashes handed to `git cherry-pick`. */
    | Reported(results: seq<ResultLine>, tried: seq<string>)

  /** `cherryPick` (`cherry-pick.js:10-80`): `inquirer` is the module's
      binding when the prompts run, `logRead` is how `git.log` ends, `picks`
      the checked commits in selection order, `confirm` the answer to the
      confirmation and `calls` how each pick would end.

      As written nothing calls `getInquirer()` (cherry-pick.js:5-9), so the
      binding is `NeverLoaded` and every successful log read ends in
      `PromptCrashed`; with the binding `Loaded` this is the evidently
      intended command, which prompts and picks. */
  method CherryPick(inquirer: Inquirer, logRead: CallResult, picks: seq<string>, confirm: bool, calls: seq<CallResult>)
    returns (outcome: PickOutcome)
    requires |calls| == |picks|
    ensures logRead.Threw? ==> outcome == LogFailed(logRead.message)
    ensures outcome.PromptCrashed? <==> logRead.Returned? && inquirer.NeverLoaded?
    ensures logRead.Returned? && inquirer.Loaded? && (picks == [] || !confirm) ==> outcome == NothingPicked
    ensures logRead.Returned? && inquirer.Loaded? && picks != [] && confirm ==>
              outcome == Reported(Lines(picks[..Attempts(calls)], calls), picks[..Attempts(calls)])
  {
    if logRead.Threw? {
      return LogFailed(logRead.message);
    }
    if inquirer.NeverLoaded? {
      return PromptCrashed;
    }
    if picks == [] {
      return NothingPicked;
    }
    if !confirm {
      return NothingPicked;
    }
    var results, tried := PickAll(picks, calls);
    outcome := Reported(results, tried);
  }
}

=== FILE: clean.dfy ===
/** The `clean` command (`clean.js`): list the untracked files, optionally
    show a dry run, ask for confirmation, then delete the files one at a
    time with a progress bar, stopping at the first deletion that fails.
    `git.status()`, `git clean -nd` and each `git clean -f <file>` are
    inputs saying how those calls end; the progress bar is reduced to its
    total and the values it is updated to. */
module Clean {
  import opened Wrappers
  import opened Seqs

  /** What `git.status()` gives: the untracked files (`not_added`), or the
      message of the error it threw. */
  datatype StatusRead = StatusOk(untracked: seq<string>) | StatusFailed(message: string)

  /** How many files are deleted: the calls before the first that throws. */
  function Deletions(calls: seq<CallResult>): (n: nat)
    ensures n <= |calls|
    ensures forall i :: 0 <= i < n ==> calls[i].Returned?
    ensures n < |calls| ==> calls[n].Threw?
  {
    match FindIndex(Failed, calls)
    case Some(k) => k
    case None => |calls|
  }

  /** The values `bar.update` receives, in order: 1, 2, ..., n. */
  function Updates(n: nat): (r: seq<nat>)
    ensures |r| == n
    ensures forall i :: 0 <= i < n ==> r[i] == i + 1
  {
    if n == 0 then [] else Updates(n - 1) + [n]
  }

  /** How many of the calls ended normally. */
  function Successes(calls: seq<CallResult>): (n: nat)
    ensures n <= |calls|
  {
    if calls == [] then 0 else Successes(calls[..|calls| - 1]) + (if calls[|calls| - 1].Returned? then 1 else 0)
  }

  /** The deletion loop of `clean.js:109-126`. `deletedCount` is the
      counter of the source, `attempted` the files handed to `git clean -f`,
      `updates` the values the bar is moved to and `error` the message of
      the call that threw, if one did. */
  method DeleteAll(files: seq<string>, calls: seq<CallResult>)
    returns (deletedCount: nat, attempted: seq<string>, updates: seq<nat>, error: Option<string>)
    requires |calls| == |files|
    ensures deletedCount == Deletions(calls)
    ensures attempted == files[..Attempts(calls)]
    ensures updates == Updates(deletedCount)
    ensures error.Some? <==> deletedCount < |files|
    ensures error.Some? ==> error.value == calls[deletedCount].message
  {
    deletedCount := 0;
    attempted := [];
    updates := [];
    error := None;
    for i := 0 to |files|
      invariant deletedCount == i
      invariant attempted == files[..i]
      invariant updates == Updates(i)
      invariant forall k :: 0 <= k < i ==> calls[k].Returned?
    {
      assert files[..i + 1] == attempted + [files[i]];
      attempted := attempted + [files[i]];
      if calls[i].Threw? {
        FirstFailure(calls, i);
        assert FindIndex(Failed, calls) == Some(i);
        error := Some(calls[i].message);
        return;
      }
      deletedCount := deletedCount + 1;
      updates := updates + [deletedCount];
    }
    NoFailure(calls);
    assert FindIndex(Failed, calls) == None;
  }

  /** Adding one call adds one to the successes when it ended normally. */
  lemma SuccessesSnoc(calls: seq<CallResult>, c: CallResult)
    ensures Successes(calls + [c]) == Successes(calls) + (if c.Returned? then 1 else 0)
  {
    assert (calls + [c])[..|calls|] == calls;
  }

  /** Calls that all ended normally are all successes. */
  lemma {:induction false} AllSucceed(calls: seq<CallResult>)
    requires forall i :: 0 <= i < |calls| ==> calls[i].Returned?
    ensures Successes(calls) == |calls|
  {
    if calls != [] {
      AllSucceed(calls[..|calls| - 1]);
    }
  }

  /** `deletedCount` is the number of successful deletions among the calls
      made, and every attempted file but a failed last one is deleted. */
  lemma DeletedCountIsSuccesses(calls: seq<CallResult>)
    ensures Deletions(calls) == Successes(calls[..Attempts(calls)])
    ensures Attempts(calls) == if Deletions(calls) < |calls| then Deletions(calls) + 1 else |calls|
  {
    var n := Deletions(calls);
    AllSucceed(calls[..n]);
    if n < |calls| {
      FirstFailure(calls, n);
      assert calls[..n + 1] == calls[..n] + [calls[n]];
      SuccessesSnoc(calls[..n], calls[n]);
    } else {
      NoFailure(calls);
      assert calls[..n] == calls;
    }
  }

  /** What the command ends with. */
  datatype CleanOutcome =
    /** `git.status()` threw: an error box. */
    | StatusError(message: string)
    /** "No untracked files to clean." */
    | NothingToClean
    /** The dry run threw: an error box, and no confirmation is asked. */
    | DryRunError(message: string)
    /** "Clean cancelled." */
    | Cancelled
    /** The deletion loop ran: the bar's total, the files deleted, the
        files handed to `git clean -f`, the bar's updates, and the error
        box shown if a deletion threw. */
    | Swept(barTotal: nat, deleted: seq<string>, attempted: seq<string>, updates: seq<nat>, error: Option<string>)

  /** `cleanCommand` (`clean.js:10-138`): `dryRun` and `confirm` are the
      answers to the two prompts, `dryRunCall` how `git clean -nd` ends and
      `calls` how each `git clean -f` ends. */
  method CleanCommand(status: StatusRead, dryRun: bool, dryRunCall: CallResult, confirm: bool, calls: seq<CallResult>)
    returns (outcome: CleanOutcome)
    requires status.StatusOk? ==> |calls| == |status.untracked|
    ensures status.StatusFailed? ==> outcome == StatusError(status.message)
    ensures status.StatusOk? && status.untracked == [] ==> outcome == NothingToClean
    ensures status.StatusOk? && status.untracked != [] && dryRun && dryRunCall.Threw? ==>
              outcome == DryRunError(dryRunCall.message)
    ensures outcome.Cancelled? <==>
              status.StatusOk? && status.untracked != [] && (!dryRun || dryRunCall.Returned?) && !confirm
    ensures outcome.Swept? <==>
              status.StatusOk? && status.untracked != [] && (!dryRun || dryRunCall.Returned?) && confirm
    ensures outcome.Swept? ==>
              var n := Deletions(calls);
              && outcome.barTotal == |status.untracked|
              && outcome.deleted == status.untracked[..n]
              && outcome.attempted == status.untracked[..Attempts(calls)]
              && outcome.updates == Updates(n)
              && (outcome.error.Some? <==> n < |calls|)
  {
    if status.StatusFailed? {
      return StatusError(status.message);
    }
    var untracked := status.untracked;
    if |untracked| == 0 {
      return NothingToClean;
    }
    if dryRun && dryRunCall.Threw? {
      return DryRunError(dryRunCall.message);
    }
    if !confirm {
      return Cancelled;
    }
    var total := |untracked|;
    var deletedCount, attempted, updates, error := DeleteAll(untracked, calls);
    outcome := Swept(total, untracked[..deletedCount], attempted, updates, error);
  }

  /** The bar ends at the number of files deleted, and reaches its total
      exactly when every file was deleted. */
  lemma BarEnds(untracked: seq<string>, calls: seq<CallResult>)
    requires |calls| == |untracked| && untracked != []
    ensures var u := Updates(Deletions(calls));
            (u == [] <==> calls[0].Threw?)
            && (u != [] ==> u[|u| - 1] == Deletions(calls) <= |untracked|)
            && (Deletions(calls) == |untracked| <==> forall i :: 0 <= i < |calls| ==> calls[i].Returned?)
  {
  }
}

=== FILE: compressor.dfy ===
/** The timeline compression engine of compress.js: configuration from the
    environment and the command line, validation, the compression ratio, the
    copy of the working tree without `.git` directories, the parse of
    `git log --reverse --format="%H %at %an %ae %s"`, the new timeline, the
    per-commit date rewrite and the order of the steps of a run.

    JavaScript numbers parsed from text are `Option<real>`: `None` stands both
    for "not given" (`null`) and for NaN, which behave alike everywhere they
    are used (both are falsy and both fail every comparison). */
module Compressor {
  import opened Wrappers
  import opened Strings
  import Seqs
  import opened ProgressBar

  type Num = Option<real>

  /** JavaScript truthiness of a parsed number: present, not NaN, not zero. */
  predicate Truthy(n: Num)
  {
    n.Some? && n.value != 0.0
  }

  datatype Config = Config(
    sourceDir: string,
    outputDir: string,
    startDate: string,
    endDate: string,
    compressionRatio: Num,
    originalDays: Num,
    targetDays: Num,
    backupOriginal: bool,
    verbose: bool,
    dryRun: bool,
    force: bool)

  const DefaultStartDate := "2025-06-18T09:00:00"

  /** `process.env[name] || fallback`: an unset or empty variable gives the fallback. */
  function EnvOr(env: map<string, string>, name: string, fallback: string): (v: string)
    ensures v == fallback || (name in env && v == env[name] && v != "")
    ensures (name !in env || env[name] == "") ==> v == fallback
  {
    if name in env && env[name] != "" then env[name] else fallback
  }

  /** `process.env[name] === "true"`. */
  predicate EnvFlag(env: map<string, string>, name: string)
  {
    name in env && env[name] == "true"
  }

  /** `process.env[name] ? parseFloat(process.env[name]) : null`. */
  function EnvNumber(env: map<string, string>, name: string, parseNumber: string -> Num): (n: Num)
    ensures (name !in env || env[name] == "") ==> n.None?
  {
    if name in env && env[name] != "" then parseNumber(env[name]) else None
  }

  /** The configuration read from the environment (compress.js:61-79).
      Unset variables give the documented defaults; the end date is "not
      given" (empty) unless set; the flags hold only for the exact text "true". */
  function FromEnvironment(env: map<string, string>, parseNumber: string -> Num): (c: Config)
    ensures "SOURCE_DIR" !in env ==> c.sourceDir == "./source"
    ensures "OUTPUT_DIR" !in env ==> c.outputDir == "./destination"
    ensures "START_DATE" !in env ==> c.startDate == DefaultStartDate
    ensures "END_DATE" !in env ==> c.endDate == ""
    ensures "COMPRESSION_RATIO" !in env ==> c.compressionRatio.None?
    ensures "ORIGINAL_DAYS" !in env ==> c.originalDays.None?
    ensures "TARGET_DAYS" !in env ==> c.targetDays.None?
    ensures c.backupOriginal <==> "BACKUP_ORIGINAL" in env && env["BACKUP_ORIGINAL"] == "true"
    ensures c.dryRun <==> "DRY_RUN" in env && env["DRY_RUN"] == "true"
    ensures c.force <==> "FORCE" in env && env["FORCE"] == "true"
    ensures c.verbose <==> "VERBOSE" in env && env["VERBOSE"] == "true"
  {
    Config(
      EnvOr(env, "SOURCE_DIR", "./source"),
      EnvOr(env, "OUTPUT_DIR", "./destination"),
      EnvOr(env, "START_DATE", DefaultStartDate),
      EnvOr(env, "END_DATE", ""),
      EnvNumber(env, "COMPRESSION_RATIO", parseNumber),
      EnvNumber(env, "ORIGINAL_DAYS", parseNumber),
      EnvNumber(env, "TARGET_DAYS", parseNumber),
      EnvFlag(env, "BACKUP_ORIGINAL"),
      EnvFlag(env, "VERBOSE"),
      EnvFlag(env, "DRY_RUN"),
      EnvFlag(env, "FORCE"))
  }

  // ---------------------------------------------------------------- arguments

  datatype ArgsOutcome = Proceed(config: Config) | Exit(code: int)

  const KnownOptions: set<string> := {
    "--source", "--output", "--start-date", "--end-date", "--compression-ratio",
    "--original-days", "--target-days", "--backup", "--verbose", "--dry-run",
    "--force", "--help", "--version"}

  /** `args[++i]`: the argument after an option, or the empty text standing
      for `undefined` when the option is the last argument. */
  function ValueAfter(args: seq<string>, i: nat): (v: string)
    ensures v == "" || v in args
  {
    if i + 1 < |args| then args[i + 1] else ""
  }

  /** The case labels of the `switch`. */
  datatype Opt =
    | Source | Output | StartDate | EndDate | CompressionRatio | OriginalDays | TargetDays
    | Backup | Verbose | DryRun | Force | Help | Version

  /** The text of each case label. */
  function Spelling(o: Opt): string
  {
    match o
    case Source => "--source"
    case Output => "--output"
    case StartDate => "--start-date"
    case EndDate => "--end-date"
    case CompressionRatio => "--compression-ratio"
    case OriginalDays => "--original-days"
    case TargetDays => "--target-days"
    case Backup => "--backup"
    case Verbose => "--verbose"
    case DryRun => "--dry-run"
    case Force => "--force"
    case Help => "--help"
    case Version => "--version"
  }

  /** The case label an argument matches, if any. */
  function Classify(a: string): (o: Option<Opt>)
    ensures o.Some? ==> Spelling(o.value) == a
  {
    if a == "--source" then Some(Source)
    else if a == "--output" then Some(Output)
    else if a == "--start-date" then Some(StartDate)
    else if a == "--end-date" then Some(EndDate)
    else if a == "--compression-ratio" then Some(CompressionRatio)
    else if a == "--original-days" then Some(OriginalDays)
    else if a == "--target-days" then Some(TargetDays)
    else if a == "--backup" then Some(Backup)
    else if a == "--verbose" then Some(Verbose)
    else if a == "--dry-run" then Some(DryRun)
    else if a == "--force" then Some(Force)
    else if a == "--help" then Some(Help)
    else if a == "--version" then Some(Version)
    else None
  }

  /** An argument matches a case label exactly when it is one of the known
      options, and the label it matches is spelled like it. */
  lemma ClassifyNames(a: string)
    ensures Classify(a).None? <==> a !in KnownOptions
    ensures forall o :: Classify(a) == Some(o) <==> a == Spelling(o)
  {
  }

  /** The options after which the walk goes on. */
  predicate Ordinary(o: Option<Opt>)
  {
    o.Some? && o.value != Help && o.value != Version
  }

  /** Position `k` of `args` holds `option`. */
  predicate At(args: seq<string>, k: int, option: Opt)
  {
    0 <= k < |args| && Classify(args[k]) == Some(option)
  }

  /** The options that consume the argument after them. */
  predicate TakesValue(o: Opt)
  {
    o.Source? || o.Output? || o.StartDate? || o.EndDate? || o.CompressionRatio? || o.OriginalDays? || o.TargetDays?
  }

  /** How far the walk moves past an option. */
  function Width(a: string): nat
  {
    if Classify(a).Some? && TakesValue(Classify(a).value) then 2 else 1
  }

  /** The positions the walk reads in option position, from `i` on: each
      option is followed by the next one after its value, if it has one. */
  ghost function OptionPositions(args: seq<string>, i: nat): (ps: seq<nat>)
    ensures forall k :: 0 <= k < |ps| ==> i <= ps[k] < |args|
    decreases |args| - i
  {
    if i < |args| then [i] + OptionPositions(args, i + Width(args[i])) else []
  }

  /** The last of the positions `ps` that holds `option`, if any. */
  ghost function LastAt(args: seq<string>, ps: seq<nat>, option: Opt): Option<nat>
  {
    if ps == [] then None
    else
      var last := ps[|ps| - 1];
      if At(args, last, option) then Some(last)
      else LastAt(args, ps[..|ps| - 1], option)
  }

  /** `LastAt` finds a position of `ps` holding the option with none after
      it holding it too, and finds none only when no position holds it. */
  lemma {:induction false} LastAtIsLast(args: seq<string>, ps: seq<nat>, option: Opt)
    ensures LastAt(args, ps, option).None? <==> forall k :: 0 <= k < |ps| ==> !At(args, ps[k], option)
    ensures LastAt(args, ps, option).Some? ==>
              exists j :: 0 <= j < |ps| && ps[j] == LastAt(args, ps, option).value && At(args, ps[j], option) &&
                          forall k :: j < k < |ps| ==> !At(args, ps[k], option)
    decreases |ps|
  {
    if ps != [] {
      var init := ps[..|ps| - 1];
      LastAtIsLast(args, init, option);
      if !At(args, ps[|ps| - 1], option) {
        if LastAt(args, init, option).Some? {
          var j :| 0 <= j < |init| && init[j] == LastAt(args, init, option).value && At(args, init[j], option) &&
                   forall k :: j < k < |init| ==> !At(args, init[k], option);
          assert ps[j] == init[j];
          forall k | j < k < |ps|
            ensures !At(args, ps[k], option)
          {
            if k < |init| {
              assert ps[k] == init[k];
            }
          }
        } else {
          forall k | 0 <= k < |ps|
            ensures !At(args, ps[k], option)
          {
            if k < |init| {
              assert ps[k] == init[k];
            }
          }
        }
      }
    }
  }

  lemma LastAtSnoc(args: seq<string>, ps: seq<nat>, p: nat, option: Opt)
    requires p < |args|
    ensures LastAt(args, ps + [p], option) == if Classify(args[p]) == Some(option) then Some(p) else LastAt(args, ps, option)
  {
    var qs := ps + [p];
    assert qs[..|qs| - 1] == ps;
  }

  /** The text given to the last `option` among `ps`, or `fallback`. */
  ghost function LastText(args: seq<string>, ps: seq<nat>, option: Opt, fallback: string): string
  {
    match LastAt(args, ps, option)
    case Some(p) => ValueAfter(args, p)
    case None => fallback
  }

  /** The number given to the last `option` among `ps`, or `fallback`. */
  ghost function LastNumber(args: seq<string>, ps: seq<nat>, option: Opt, fallback: Num, parseNumber: string -> Num): Num
  {
    match LastAt(args, ps, option)
    case Some(p) => parseNumber(ValueAfter(args, p))
    case None => fallback
  }

  /** The configuration after reading the options at positions `ps`: each
      field holds the value after the last option that names it, or the
      base value when none does, and a flag holds when it held before or
      is written at one of them. */
  ghost function Configured(base: Config, args: seq<string>, ps: seq<nat>, parseNumber: string -> Num): (c: Config)
    ensures ps == [] ==> c == base
    ensures base.backupOriginal ==> c.backupOriginal
    ensures base.verbose ==> c.verbose
    ensures base.dryRun ==> c.dryRun
    ensures base.force ==> c.force
  {
    Config(
      LastText(args, ps, Source, base.sourceDir),
      LastText(args, ps, Output, base.outputDir),
      LastText(args, ps, StartDate, base.startDate),
      LastText(args, ps, EndDate, base.endDate),
      LastNumber(args, ps, CompressionRatio, base.compressionRatio, parseNumber),
      LastNumber(args, ps, OriginalDays, base.originalDays, parseNumber),
      LastNumber(args, ps, TargetDays, base.targetDays, parseNumber),
      base.backupOriginal || LastAt(args, ps, Backup).Some?,
      base.verbose || LastAt(args, ps, Verbose).Some?,
      base.dryRun || LastAt(args, ps, DryRun).Some?,
      base.force || LastAt(args, ps, Force).Some?)
  }

  /** Every field `c` has that `base` does not was put there by an option
      that names it: a flag only turns on when it is written, and every
      other field holds the text after, or the number parsed from the text
      after, an occurrence of its option. */
  ghost predicate ChangedOnlyByOptions(base: Config, c: Config, args: seq<string>, parseNumber: string -> Num)
  {
    && (c.backupOriginal ==> base.backupOriginal || exists k :: At(args, k, Backup))
    && (c.verbose ==> base.verbose || exists k :: At(args, k, Verbose))
    && (c.dryRun ==> base.dryRun || exists k :: At(args, k, DryRun))
    && (c.force ==> base.force || exists k :: At(args, k, Force))
    && (c.sourceDir == base.sourceDir || exists k :: At(args, k, Source) && c.sourceDir == ValueAfter(args, k))
    && (c.outputDir == base.outputDir || exists k :: At(args, k, Output) && c.outputDir == ValueAfter(args, k))
    && (c.startDate == base.startDate || exists k :: At(args, k, StartDate) && c.startDate == ValueAfter(args, k))
    && (c.endDate == base.endDate || exists k :: At(args, k, EndDate) && c.endDate == ValueAfter(args, k))
    && (c.compressionRatio == base.compressionRatio ||
        exists k :: At(args, k, CompressionRatio) && c.compressionRatio == parseNumber(ValueAfter(args, k)))
    && (c.originalDays == base.originalDays ||
        exists k :: At(args, k, OriginalDays) && c.originalDays == parseNumber(ValueAfter(args, k)))
    && (c.targetDays == base.targetDays ||
        exists k :: At(args, k, TargetDays) && c.targetDays == parseNumber(ValueAfter(args, k)))
  }

  /** What the case for option `o` assigns, given the text `v` after it:
      each value option sets its own field to the text, or to the number
      parsed from it, each flag sets its own field, and nothing else
      changes. */
  function Apply(o: Opt, c: Config, v: string, parseNumber: string -> Num): (d: Config)
    ensures d.sourceDir == if o == Source then v else c.sourceDir
    ensures d.outputDir == if o == Output then v else c.outputDir
    ensures d.startDate == if o == StartDate then v else c.startDate
    ensures d.endDate == if o == EndDate then v else c.endDate
    ensures d.compressionRatio == if o == CompressionRatio then parseNumber(v) else c.compressionRatio
    ensures d.originalDays == if o == OriginalDays then parseNumber(v) else c.originalDays
    ensures d.targetDays == if o == TargetDays then parseNumber(v) else c.targetDays
    ensures d.backupOriginal == (o == Backup || c.backupOriginal)
    ensures d.verbose == (o == Verbose || c.verbose)
    ensures d.dryRun == (o == DryRun || c.dryRun)
    ensures d.force == (o == Force || c.force)
  {
    match o
    case Source => c.(sourceDir := v)
    case Output => c.(outputDir := v)
    case StartDate => c.(startDate := v)
    case EndDate => c.(endDate := v)
    case CompressionRatio => c.(compressionRatio := parseNumber(v))
    case OriginalDays => c.(originalDays := parseNumber(v))
    case TargetDays => c.(targetDays := parseNumber(v))
    case Backup => c.(backupOriginal := true)
    case Verbose => c.(verbose := true)
    case DryRun => c.(dryRun := true)
    case Force => c.(force := true)
    case Help => c
    case Version => c
  }

  datatype Step = Continue(config: Config, next: nat) | Stop(code: int)

  /** The `switch` on the argument at position `i`. */
  function OptionStep(args: seq<string>, i: nat, c: Config, parseNumber: string -> Num): (s: Step)
    requires i < |args|
    ensures s.Continue? <==> Ordinary(Classify(args[i]))
    ensures s.Continue? ==> s.next == i + Width(args[i]) && ChangedOnlyByOptions(c, s.config, args, parseNumber)
    ensures s.Stop? && s.code == 0 <==> Classify(args[i]) == Some(Help) || Classify(args[i]) == Some(Version)
    ensures s.Stop? && s.code != 0 <==> Classify(args[i]).None?
    ensures s.Stop? ==> s.code == 0 || s.code == 1
  {
    match Classify(args[i])
    case None => Stop(1)
    case Some(o) =>
      if o == Help || o == Version then Stop(0)
      else
        var s := Continue(Apply(o, c, ValueAfter(args, i), parseNumber), i + Width(args[i]));
        assert At(args, i, o);
        s
  }

  /** Reading one more ordinary option takes `Configured` one position on. */
  lemma OptionStepConfigures(args: seq<string>, base: Config, ps: seq<nat>, i: nat, c: Config, parseNumber: string -> Num)
    requires i < |args| && Ordinary(Classify(args[i]))
    requires c == Configured(base, args, ps, parseNumber)
    ensures OptionStep(args, i, c, parseNumber).config == Configured(base, args, ps + [i], parseNumber)
  {
    hide LastAt, LastText, LastNumber, Classify, ChangedOnlyByOptions, Width, At, Spelling, Apply;
    LastTextSnoc(args, ps, i, Source, base.sourceDir);
    LastTextSnoc(args, ps, i, Output, base.outputDir);
    LastTextSnoc(args, ps, i, StartDate, base.startDate);
    LastTextSnoc(args, ps, i, EndDate, base.endDate);
    LastNumberSnoc(args, ps, i, CompressionRatio, base.compressionRatio, parseNumber);
    LastNumberSnoc(args, ps, i, OriginalDays, base.originalDays, parseNumber);
    LastNumberSnoc(args, ps, i, TargetDays, base.targetDays, parseNumber);
    LastAtSnoc(args, ps, i, Backup);
    LastAtSnoc(args, ps, i, Verbose);
    LastAtSnoc(args, ps, i, DryRun);
    LastAtSnoc(args, ps, i, Force);
  }

  lemma LastTextSnoc(args: seq<string>, ps: seq<nat>, i: nat, option: Opt, fallback: string)
    requires i < |args| && Classify(args[i]).Some?
    ensures LastText(args, ps + [i], option, fallback) ==
            if Classify(args[i]).value == option then ValueAfter(args, i) else LastText(args, ps, option, fallback)
  {
    LastAtSnoc(args, ps, i, option);
  }

  lemma LastNumberSnoc(args: seq<string>, ps: seq<nat>, i: nat, option: Opt, fallback: Num, parseNumber: string -> Num)
    requires i < |args| && Classify(args[i]).Some?
    ensures LastNumber(args, ps + [i], option, fallback, parseNumber) ==
            if Classify(args[i]).value == option then parseNumber(ValueAfter(args, i)) else LastNumber(args, ps, option, fallback, parseNumber)
  {
    LastAtSnoc(args, ps, i, option);
  }

  /** The walk from position `i` on meets the positions `OptionPositions`
      lists, the first of them at `i`. */
  lemma OptionPositionsStep(args: seq<string>, i: nat)
    requires i < |args|
    ensures OptionPositions(args, i) == [i] + OptionPositions(args, i + Width(args[i]))
  {
  }

  /** The configuration the options give differs from the base only where
      an option at one of the positions named the field. */
  lemma ConfiguredChangesOnlyByOptions(base: Config, args: seq<string>, ps: seq<nat>, parseNumber: string -> Num)
    ensures ChangedOnlyByOptions(base, Configured(base, args, ps, parseNumber), args, parseNumber)
  {
    forall option: Opt
      ensures LastAt(args, ps, option).Some? ==> At(args, LastAt(args, ps, option).value, option)
    {
      LastAtIsLast(args, ps, option);
    }
  }

  /** The position `LastAt` finds is the one after which the option does
      not occur again. */
  lemma LastAtFinds(args: seq<string>, ps: seq<nat>, option: Opt, j: nat)
    requires j < |ps| && At(args, ps[j], option)
    requires forall k :: j < k < |ps| ==> !At(args, ps[k], option)
    ensures LastAt(args, ps, option) == Some(ps[j])
  {
    LastAtIsLast(args, ps, option);
    var j' :| 0 <= j' < |ps| && ps[j'] == LastAt(args, ps, option).value && At(args, ps[j'], option) &&
              forall k :: j' < k < |ps| ==> !At(args, ps[k], option);
    assert !(j < j') && !(j' < j);
  }

  /** Each ordinary option read by the walk, when it is the last occurrence
      of that option, decides its field: applying it once more to the
      configuration the walk ends with changes nothing. */
  lemma LastOptionWins(base: Config, args: seq<string>, ps: seq<nat>, parseNumber: string -> Num, j: nat)
    requires j < |ps| && ps[j] < |args| && Ordinary(Classify(args[ps[j]]))
    requires forall k :: j < k < |ps| ==> !At(args, ps[k], Classify(args[ps[j]]).value)
    ensures var d := Configured(base, args, ps, parseNumber);
            Apply(Classify(args[ps[j]]).value, d, ValueAfter(args, ps[j]), parseNumber) == d
  {
    var o := Classify(args[ps[j]]).value;
    LastAtFinds(args, ps, o, j);
  }

  /** A flag written in option position is set in the configuration the
      walk ends with, wherever it occurs. */
  lemma WrittenFlagsAreSet(base: Config, args: seq<string>, ps: seq<nat>, parseNumber: string -> Num, j: nat)
    requires j < |ps|
    ensures var d := Configured(base, args, ps, parseNumber);
            && (At(args, ps[j], Backup) ==> d.backupOriginal)
            && (At(args, ps[j], Verbose) ==> d.verbose)
            && (At(args, ps[j], DryRun) ==> d.dryRun)
            && (At(args, ps[j], Force) ==> d.force)
  {
    LastAtIsLast(args, ps, Backup);
    LastAtIsLast(args, ps, Verbose);
    LastAtIsLast(args, ps, DryRun);
    LastAtIsLast(args, ps, Force);
  }

  // --------------------------------------------------------------- validation

  datatype ConfigError =
    | SourceMissing
    | RatioOutOfRange
    | OriginalDaysNotPositive
    | TargetDaysNotPositive
    | StartDateInvalid
    | EndDateInvalid

  /** Position of a check in `validate`: messages are collected in this order. */
  function Rank(e: ConfigError): nat
  {
    match e
    case SourceMissing => 0
    case RatioOutOfRange => 1
    case OriginalDaysNotPositive => 2
    case TargetDaysNotPositive => 3
    case StartDateInvalid => 4
    case EndDateInvalid => 5
  }

  /** `isValidDate`: `new Date(text)` is not the invalid date. `parseDate`
      gives the milliseconds since the epoch, or `None` for an invalid date. */
  predicate IsValidDate(text: string, parseDate: string -> Option<int>)
  {
    parseDate(text).Some?
  }

  /** Whether check `e` fails for configuration `c`. A number that is not
      given, NaN or zero skips its check; so does an empty date. */
  predicate Fails(c: Config, sourceExists: bool, parseDate: string -> Option<int>, e: ConfigError)
  {
    match e
    case SourceMissing => !sourceExists
    case RatioOutOfRange =>
      Truthy(c.compressionRatio) && (c.compressionRatio.value <= 0.0 || c.compressionRatio.value > 1.0)
    case OriginalDaysNotPositive => Truthy(c.originalDays) && c.originalDays.value <= 0.0
    case TargetDaysNotPositive => Truthy(c.targetDays) && c.targetDays.value <= 0.0
    case StartDateInvalid => c.startDate != "" && !IsValidDate(c.startDate, parseDate)
    case EndDateInvalid => c.endDate != "" && !IsValidDate(c.endDate, parseDate)
  }

  /** Strictly increasing check order: no message twice, none out of order. */
  predicate InCheckOrder(errors: seq<ConfigError>)
  {
    forall i, j :: 0 <= i < j < |errors| ==> Rank(errors[i]) < Rank(errors[j])
  }

  /** The check at position `k` of `validate`. */
  function CheckAt(k: nat): (e: ConfigError)
    requires k < 6
    ensures Rank(e) == k
  {
    [SourceMissing, RatioOutOfRange, OriginalDaysNotPositive,
     TargetDaysNotPositive, StartDateInvalid, EndDateInvalid][k]
  }

  /** The messages the first `k` checks collect. */
  function Collected(c: Config, sourceExists: bool, parseDate: string -> Option<int>, k: nat): seq<ConfigError>
    requires k <= 6
  {
    if k == 0 then []
    else
      Collected(c, sourceExists, parseDate, k - 1)
      + (if Fails(c, sourceExists, parseDate, CheckAt(k - 1)) then [CheckAt(k - 1)] else [])
  }

  /** The first `k` checks collect exactly their failing checks, in order. */
  lemma CollectedExactly(c: Config, sourceExists: bool, parseDate: string -> Option<int>, k: nat)
    requires k <= 6
    ensures forall e :: e in Collected(c, sourceExists, parseDate, k) <==> Rank(e) < k && Fails(c, sourceExists, parseDate, e)
    ensures InCheckOrder(Collected(c, sourceExists, parseDate, k))
  {
    CollectedMembers(c, sourceExists, parseDate, k);
    CollectedInOrder(c, sourceExists, parseDate, k);
  }

  /** The first `k` checks collect exactly their failing checks. */
  lemma {:induction false} CollectedMembers(c: Config, sourceExists: bool, parseDate: string -> Option<int>, k: nat)
    requires k <= 6
    ensures forall e :: e in Collected(c, sourceExists, parseDate, k) <==> Rank(e) < k && Fails(c, sourceExists, parseDate, e)
  {
    if k > 0 {
      CollectedMembers(c, sourceExists, parseDate, k - 1);
      forall e | Rank(e) == k - 1 ensures e == CheckAt(k - 1) {
      }
    }
  }

  /** The first `k` checks collect their messages in check order. */
  lemma {:induction false} CollectedInOrder(c: Config, sourceExists: bool, parseDate: string -> Option<int>, k: nat)
    requires k <= 6
    ensures InCheckOrder(Collected(c, sourceExists, parseDate, k))
  {
    if k > 0 {
      CollectedInOrder(c, sourceExists, parseDate, k - 1);
      CollectedMembers(c, sourceExists, parseDate, k - 1);
      var prev := Collected(c, sourceExists, parseDate, k - 1);
      assert forall e :: e in prev ==> Rank(e) < k - 1;
    }
  }

  /** `validate` (compress.js:81-112): each failing check adds its message,
      all checks run and none stops the others. The result lists exactly the
      failing checks, in check order. */
  method Validate(c: Config, sourceExists: bool, parseDate: string -> Option<int>)
    returns (errors: seq<ConfigError>)
    ensures forall e :: e in errors <==> Fails(c, sourceExists, parseDate, e)
    ensures InCheckOrder(errors)
  {
    errors := [];
    if !sourceExists {
      errors := errors + [SourceMissing];
    }
    assert errors == Collected(c, sourceExists, parseDate, 1);
    if Truthy(c.compressionRatio) && (c.compressionRatio.value <= 0.0 || c.compressionRatio.value > 1.0) {
      errors := errors + [RatioOutOfRange];
    }
    assert errors == Collected(c, sourceExists, parseDate, 2);
    if Truthy(c.originalDays) && c.originalDays.value <= 0.0 {
      errors := errors + [OriginalDaysNotPositive];
    }
    assert errors == Collected(c, sourceExists, parseDate, 3);
    if Truthy(c.targetDays) && c.targetDays.value <= 0.0 {
      errors := errors + [TargetDaysNotPositive];
    }
    assert errors == Collected(c, sourceExists, parseDate, 4);
    if c.startDate != "" && !IsValidDate(c.startDate, parseDate) {
      errors := errors + [StartDateInvalid];
    }
    assert errors == Collected(c, sourceExists, parseDate, 5);
    if c.endDate != "" && !IsValidDate(c.endDate, parseDate) {
      errors := errors + [EndDateInvalid];
    }
    assert errors == Collected(c, sourceExists, parseDate, 6);
    AllChecksCollected(c, sourceExists, parseDate, errors);
  }

  /** After all six checks, the collected messages are exactly the failing checks. */
  lemma AllChecksCollected(c: Config, sourceExists: bool, parseDate: string -> Option<int>, errors: seq<ConfigError>)
    requires errors == Collected(c, sourceExists, parseDate, 6)
    ensures forall e :: e in errors <==> Fails(c, sourceExists, parseDate, e)
    ensures InCheckOrder(errors)
  {
    CollectedExactly(c, sourceExists, parseDate, 6);
    forall e ensures Rank(e) < 6 {
    }
  }

  /** `calculateCompressionRatio`: an explicit non-zero ratio wins; otherwise
      target days over original days when both are given; otherwise none.
      The end date plays no part, although the error message of `run` offers
      it as an alternative. A ratio it returns is never zero, so the
      `!compressionRatio` test of `run` fails exactly on `None`. */
  function CalculateCompressionRatio(c: Config): (r: Num)
    ensures r.Some? ==> r.value != 0.0
    ensures r.None? <==> !Truthy(c.compressionRatio) && !(Truthy(c.originalDays) && Truthy(c.targetDays))
    ensures Truthy(c.compressionRatio) ==> r == c.compressionRatio
  {
    if Truthy(c.compressionRatio) then c.compressionRatio
    else if Truthy(c.originalDays) && Truthy(c.targetDays) then Some(c.targetDays.value / c.originalDays.value)
    else None
  }

  /** Once validation passed, the ratio a run uses is positive, and an
      explicitly given ratio is at most 1. A ratio derived from the two day
      counts is not bounded above: more target days than original days
      stretch the history. */
  lemma ValidatedRatioPositive(c: Config, sourceExists: bool, parseDate: string -> Option<int>)
    requires forall e :: !Fails(c, sourceExists, parseDate, e)
    requires CalculateCompressionRatio(c).Some?
    ensures CalculateCompressionRatio(c).value > 0.0
    ensures Truthy(c.compressionRatio) ==> CalculateCompressionRatio(c).value <= 1.0
  {
    assert !Fails(c, sourceExists, parseDate, RatioOutOfRange);
    assert !Fails(c, sourceExists, parseDate, OriginalDaysNotPositive);
    assert !Fails(c, sourceExists, parseDate, TargetDaysNotPositive);
    if !Truthy(c.compressionRatio) {
      var t, o := c.targetDays.value, c.originalDays.value;
      assert t > 0.0 && o > 0.0;
      assert t / o > 0.0;
    }
  }

  // ------------------------------------------------------------- git history

  datatype Commit = Commit(hash: string, timestamp: Option<int>, author: string, email: string, message: string)

  /** `fields[k]`, or the empty text for `undefined`. */
  function FieldOr(fields: seq<string>, k: nat): string
  {
    if k < |fields| then fields[k] else ""
  }

  /** The destructuring of one log line: the first four space-separated
      fields are hash, timestamp, author and e-mail, the rest is the message. */
  function ParseCommitLine(line: string): (c: Commit)
    ensures ' ' !in c.hash && ' ' !in c.author && ' ' !in c.email
    ensures ' ' !in line ==> c == Commit(line, None, "", "", "")
  {
    var fields := Split(line, ' ');
    Commit(fields[0],
           if |fields| > 1 then ParseInt(fields[1]) else None,
           FieldOr(fields, 2), FieldOr(fields, 3),
           if |fields| > 4 then Join(fields[4..], " ") else "")
  }

  /** The line git prints for one commit with `--format="%H %at %an %ae %s"`. */
  function FormatLine(hash: string, time: nat, author: string, email: string, subject: string): string
  {
    hash + [' '] + (NatToString(time) + [' '] + (author + [' '] + (email + [' '] + subject)))
  }

  /** Splitting at a separator that does not occur in the first piece. */
  lemma SplitAfter(x: string, y: string, sep: char)
    requires sep !in x
    ensures Split(x + [sep] + y, sep) == [x] + Split(y, sep)
  {
    var s := x + [sep] + y;
    assert s[|x|] == sep;
    var k := IndexOfChar(s, sep);
    assert s[..|x|] == x;
    assert k == |x|;
    assert s[k + 1..] == y;
  }

  /** Parsing a line git printed gives back the commit, as long as hash,
      author name and e-mail hold no space. A name with a space shifts every
      later field: its second word is taken for the e-mail address. */
  lemma ParseFormattedLine(hash: string, time: nat, author: string, email: string, subject: string)
    requires ' ' !in hash && ' ' !in author && ' ' !in email
    ensures ParseCommitLine(FormatLine(hash, time, author, email, subject))
         == Commit(hash, Some(time), author, email, subject)
  {
    var ts := NatToString(time);
    assert ' ' !in ts by {
      forall i | 0 <= i < |ts| ensures ts[i] != ' ' {
        assert IsDigit(ts[i]);
      }
    }
    var fields := SplitFourFields(hash, ts, author, email, subject);
    JoinSplit(subject, ' ');
    ParseIntNatToString(time);
  }

  /** The space-separated split of a formatted log line. */
  lemma SplitFourFields(a: string, b: string, c: string, d: string, rest: string) returns (fields: seq<string>)
    requires ' ' !in a && ' ' !in b && ' ' !in c && ' ' !in d
    ensures fields == Split(a + [' '] + (b + [' '] + (c + [' '] + (d + [' '] + rest))), ' ')
    ensures |fields| >= 4 && fields[0] == a && fields[1] == b && fields[2] == c && fields[3] == d
    ensures fields[4..] == Split(rest, ' ')
  {
    var s3 := d + [' '] + rest;
    var s2 := c + [' '] + s3;
    var s1 := b + [' '] + s2;
    var s0 := a + [' '] + s1;
    SplitAfter(d, rest, ' ');
    SplitAfter(c, s3, ' ');
    SplitAfter(b, s2, ' ');
    SplitAfter(a, s1, ' ');
    fields := Split(s0, ' ');
    var t3 := Split(s3, ' ');
    var t2 := Split(s2, ' ');
    var t1 := Split(s1, ' ');
    assert fields[1..] == t1 && t1[1..] == t2 && t2[1..] == t3 && t3[1..] == Split(rest, ' ');
    Seqs.DropTail(fields, 3);
    Seqs.DropTail(t1, 2);
    Seqs.DropTail(t2, 1);
  }

  predicate NonBlank(line: string)
  {
    Trim(line) != ""
  }

  /** `analyzeGitHistory`: the trimmed output split into lines, blank lines
      dropped, each line parsed. */
  function AnalyzeLog(output: string): (commits: seq<Commit>)
    ensures |commits| <= |Split(Trim(output), '\n')|
  {
    var lines := Seqs.Filter(NonBlank, Split(Trim(output), '\n'));
    seq(|lines|, i requires 0 <= i < |lines| => ParseCommitLine(lines[i]))
  }

  /** An empty log has no commits: `run` stops with "Nothing to compress". */
  lemma EmptyLogHasNoCommits(output: string)
    requires forall i :: 0 <= i < |output| ==> IsSpace(output[i])
    ensures AnalyzeLog(output) == []
  {
    assert Trim(output) == "";
    assert Split("", '\n') == [""];
    assert !NonBlank("");
  }

  // ---------------------------------------------------------------- timeline

  /** The record of `calculateNewTimeline`. A missing value is NaN. */
  datatype Timeline = Timeline(
    originalStart: Option<int>,
    originalEnd: Option<int>,
    originalDuration: Option<int>,
    targetDuration: Option<real>,
    startTimestamp: Option<real>,
    endTimestamp: Option<real>,
    compressionRatio: real)

  /** The start date in seconds: `new Date(startDate).getTime() / 1000`. */
  function StartSeconds(startDate: string, parseDate: string -> Option<int>): Option<real>
  {
    if startDate == "" then None
    else match parseDate(startDate)
      case None => None
      case Some(ms) => Some(ms as real / 1000.0)
  }

  /** `calculateNewTimeline`: the original span runs from the FIRST commit of
      the log to the LAST one (not from the smallest to the largest
      timestamp), the target span is the original one times the ratio, and
      the new timeline starts at the start date. */
  function CalculateNewTimeline(commits: seq<Commit>, ratio: real, start: Option<real>): (tl: Timeline)
    requires |commits| > 0
    ensures tl.originalStart == commits[0].timestamp && tl.originalEnd == commits[|commits| - 1].timestamp
    ensures tl.startTimestamp == start && tl.compressionRatio == ratio
    ensures tl.endTimestamp.Some? <==> start.Some? && tl.originalStart.Some? && tl.originalEnd.Some?
    ensures tl.endTimestamp.Some? ==>
              tl.endTimestamp.value - start.value == (tl.originalEnd.value - tl.originalStart.value) as real * ratio
  {
    var os := commits[0].timestamp;
    var oe := commits[|commits| - 1].timestamp;
    var od := if os.Some? && oe.Some? then Some(oe.value - os.value) else None;
    var td := if od.Some? then Some(od.value as real * ratio) else None;
    var end := if start.Some? && td.Some? then Some(start.value + td.value) else None;
    Timeline(os, oe, od, td, start, end, ratio)
  }

  /** The new date of a commit, in whole seconds:
      `floor(start + (t - originalStart) / originalDuration * targetDuration)`.
      `None` is NaN, which makes `toISOString` throw. */
  function MapTimestamp(t: Option<int>, tl: Timeline): (m: Option<int>)
    ensures m.Some? <==> t.Some? && tl.originalStart.Some? && tl.originalDuration.Some? && tl.originalDuration.value != 0
                         && tl.targetDuration.Some? && tl.startTimestamp.Some?
    ensures m.Some? && t == tl.originalStart ==> m.value == tl.startTimestamp.value.Floor
  {
    if t.Some? && tl.originalStart.Some? && tl.originalDuration.Some? && tl.originalDuration.value != 0
       && tl.targetDuration.Some? && tl.startTimestamp.Some?
    then
      var offset := (t.value - tl.originalStart.value) as real;
      var duration := tl.originalDuration.value as real;
      Some((tl.startTimestamp.value + offset / duration * tl.targetDuration.value).Floor)
    else None
  }

  /** Every commit's distance from the first commit is scaled by the ratio. */
  lemma MapScalesOffsets(commits: seq<Commit>, ratio: real, start: real, t: int)
    requires |commits| > 0
    requires commits[0].timestamp.Some? && commits[|commits| - 1].timestamp.Some?
    requires commits[0].timestamp != commits[|commits| - 1].timestamp
    ensures MapTimestamp(Some(t), CalculateNewTimeline(commits, ratio, Some(start))).Some?
    ensures MapTimestamp(Some(t), CalculateNewTimeline(commits, ratio, Some(start))).value
         == (start + (t - commits[0].timestamp.value) as real * ratio).Floor
  {
    var os, oe := commits[0].timestamp.value, commits[|commits| - 1].timestamp.value;
    var tl := CalculateNewTimeline(commits, ratio, Some(start));
    assert tl.originalDuration == Some(oe - os);
    var od := (oe - os) as real;
    assert tl.originalDuration.value as real == od;
    assert tl.targetDuration.Some?;
    assert tl.targetDuration.value == od * ratio;
    var d := (t - os) as real;
    assert od != 0.0;
    ScaleByDuration(d, od, ratio);
    assert tl.originalStart == Some(os) && tl.startTimestamp == Some(start);
    assert tl.originalDuration.value != 0;
    var m := MapTimestamp(Some(t), tl);
    var scaled := d / od * (od * ratio);
    assert m.value == (start + scaled).Floor;
    assert scaled == d * ratio;
    FloorOfEqual(start + scaled, start + d * ratio);
  }

  lemma FloorOfEqual(x: real, y: real)
    requires x == y
    ensures x.Floor == y.Floor
  {
  }

  /** Dividing an offset by the duration and multiplying by duration times
      ratio scales it by the ratio. */
  lemma ScaleByDuration(d: real, od: real, ratio: real)
    requires od != 0.0
    ensures d / od * (od * ratio) == d * ratio
  {
    var q := d / od;
    assert q * od == d;
    calc {
      q * (od * ratio);
      (q * od) * ratio;
      d * ratio;
    }
  }

  /** The first commit lands on the start date. */
  lemma MapFirstToStart(commits: seq<Commit>, ratio: real, start: real)
    requires |commits| > 0
    requires commits[0].timestamp.Some? && commits[|commits| - 1].timestamp.Some?
    requires commits[0].timestamp != commits[|commits| - 1].timestamp
    ensures MapTimestamp(commits[0].timestamp, CalculateNewTimeline(commits, ratio, Some(start))).Some?
    ensures MapTimestamp(commits[0].timestamp, CalculateNewTimeline(commits, ratio, Some(start))).value
         == start.Floor
  {
    MapScalesOffsets(commits, ratio, start, commits[0].timestamp.value);
  }

  /** The last commit lands on the end of the new timeline. */
  lemma MapLastToEnd(commits: seq<Commit>, ratio: real, start: real)
    requires |commits| > 0
    requires commits[0].timestamp.Some? && commits[|commits| - 1].timestamp.Some?
    requires commits[0].timestamp != commits[|commits| - 1].timestamp
    ensures MapTimestamp(commits[|commits| - 1].timestamp, CalculateNewTimeline(commits, ratio, Some(start))).Some?
    ensures MapTimestamp(commits[|commits| - 1].timestamp, CalculateNewTimeline(commits, ratio, Some(start))).value
         == CalculateNewTimeline(commits, ratio, Some(start)).endTimestamp.value.Floor
  {
    var os, oe := commits[0].timestamp.value, commits[|commits| - 1].timestamp.value;
    MapScalesOffsets(commits, ratio, start, oe);
    var tl := CalculateNewTimeline(commits, ratio, Some(start));
    assert tl.endTimestamp.value == start + (oe - os) as real * ratio;
    FloorOfEqual(start + (oe - os) as real * ratio, tl.endTimestamp.value);
  }

  /** With a positive ratio the mapping keeps the order of commit dates. */
  lemma MapMonotone(commits: seq<Commit>, ratio: real, start: real, t1: int, t2: int)
    requires |commits| > 0
    requires commits[0].timestamp.Some? && commits[|commits| - 1].timestamp.Some?
    requires commits[0].timestamp != commits[|commits| - 1].timestamp
    requires ratio > 0.0 && t1 <= t2
    ensures MapTimestamp(Some(t1), CalculateNewTimeline(commits, ratio, Some(start))).value
         <= MapTimestamp(Some(t2), CalculateNewTimeline(commits, ratio, Some(start))).value
  {
    MapScalesOffsets(commits, ratio, start, t1);
    MapScalesOffsets(commits, ratio, start, t2);
    var os := commits[0].timestamp.value;
    var d1, d2 := (t1 - os) as real, (t2 - os) as real;
    assert (d2 - d1) * ratio >= 0.0;
    assert start + d1 * ratio <= start + d2 * ratio;
  }

  /** When the first and the last commit share a timestamp (a history of one
      commit, for instance) every new date is NaN: the rewrite throws on its
      first commit and the run ends with status 1. */
  lemma EqualEndsGiveNoDates(commits: seq<Commit>, ratio: real, start: Option<real>, t: Option<int>)
    requires |commits| > 0
    requires commits[0].timestamp == commits[|commits| - 1].timestamp
    ensures MapTimestamp(t, CalculateNewTimeline(commits, ratio, start)).None?
  {
  }

  // -------------------------------------------------------------- file copies

  /** A directory listing: files and sub-directories, in `readdir` order. */
  datatype Entry = File(name: string) | Dir(name: string, children: seq<Entry>)

  predicate IsGitDir(e: Entry)
  {
    e.Dir? && e.name == ".git"
  }

  /** The tree `copyDirectory` writes: the same entries, with every directory
      named `.git` left out at any depth. A FILE named `.git` is copied. */
  function Strip(entries: seq<Entry>): (r: seq<Entry>)
    ensures |r| <= |entries|
    decreases entries
  {
    if entries == [] then []
    else
      var e := entries[0];
      var head := if IsGitDir(e) then [] else if e.Dir? then [Dir(e.name, Strip(e.children))] else [e];
      head + Strip(entries[1..])
  }

  /** `paths` with directory name `n` put in front of each. */
  function Under(n: string, paths: seq<seq<string>>): (r: seq<seq<string>>)
    ensures |r| == |paths|
    ensures forall i :: 0 <= i < |r| ==> r[i] == [n] + paths[i]
  {
    seq(|paths|, i requires 0 <= i < |paths| => [n] + paths[i])
  }

  /** The files `copyDirectory` copies (and `countFiles` counts), as paths of
      names, in copy order. */
  function CopiedFiles(entries: seq<Entry>): seq<seq<string>>
    decreases entries
  {
    if entries == [] then []
    else
      var e := entries[0];
      var head := if e.File? then [[e.name]] else if e.name == ".git" then [] else Under(e.name, CopiedFiles(e.children));
      head + CopiedFiles(entries[1..])
  }

  /** All files of a tree, `.git` directories included. */
  function FilesOf(entries: seq<Entry>): seq<seq<string>>
    decreases entries
  {
    if entries == [] then []
    else
      var e := entries[0];
      var head := if e.File? then [[e.name]] else Under(e.name, FilesOf(e.children));
      head + FilesOf(entries[1..])
  }

  /** The files copied, one per progress tick, are exactly the files of the
      copy. */
  lemma {:induction false} CopiedFilesAreFilesOfCopy(entries: seq<Entry>)
    ensures CopiedFiles(entries) == FilesOf(Strip(entries))
    decreases entries
  {
    if entries != [] {
      var e := entries[0];
      CopiedFilesAreFilesOfCopy(entries[1..]);
      var head := if IsGitDir(e) then [] else if e.Dir? then [Dir(e.name, Strip(e.children))] else [e];
      FilesOfAppend(head, Strip(entries[1..]));
      if e.Dir? && !IsGitDir(e) {
        CopiedFilesAreFilesOfCopy(e.children);
        assert FilesOf(head) == Under(e.name, FilesOf(Strip(e.children))) + FilesOf([]);
      }
    }
  }

  lemma {:induction false} FilesOfAppend(a: seq<Entry>, b: seq<Entry>)
    ensures FilesOf(a + b) == FilesOf(a) + FilesOf(b)
    decreases a
  {
    hide Under;
    if a == [] {
      assert a + b == b;
    } else {
      assert (a + b)[0] == a[0];
      assert (a + b)[1..] == a[1..] + b;
      FilesOfAppend(a[1..], b);
      var e := a[0];
      var head := if e.File? then [[e.name]] else Under(e.name, FilesOf(e.children));
      assert FilesOf(a + b) == head + FilesOf(a[1..] + b);
      assert FilesOf(a) == head + FilesOf(a[1..]);
    }
  }

  lemma {:induction false} CopiedFilesAppend(a: seq<Entry>, b: seq<Entry>)
    ensures CopiedFiles(a + b) == CopiedFiles(a) + CopiedFiles(b)
    decreases a
  {
    if a == [] {
      assert a + b == b;
    } else {
      assert (a + b)[0] == a[0];
      assert (a + b)[1..] == a[1..] + b;
      CopiedFilesAppend(a[1..], b);
      var e := a[0];
      var head := if e.File? then [[e.name]] else if e.name == ".git" then [] else Under(e.name, CopiedFiles(e.children));
      assert CopiedFiles(a + b) == head + (CopiedFiles(a[1..]) + CopiedFiles(b));
      Seqs.AppendAssoc(head, CopiedFiles(a[1..]), CopiedFiles(b));
    }
  }

  lemma {:induction false} StripAppend(a: seq<Entry>, b: seq<Entry>)
    ensures Strip(a + b) == Strip(a) + Strip(b)
    decreases a
  {
    if a == [] {
      assert a + b == b;
    } else {
      assert (a + b)[0] == a[0];
      assert (a + b)[1..] == a[1..] + b;
      StripAppend(a[1..], b);
      var e := a[0];
      var head := if IsGitDir(e) then [] else if e.Dir? then [Dir(e.name, Strip(e.children))] else [e];
      assert Strip(a + b) == head + (Strip(a[1..]) + Strip(b));
      Seqs.AppendAssoc(head, Strip(a[1..]), Strip(b));
    }
  }

  /** No copied file lies inside a directory named `.git`. */
  lemma {:induction false} NoCopiedFileUnderGit(entries: seq<Entry>)
    ensures forall p, j :: p in CopiedFiles(entries) && 0 <= j < |p| - 1 ==> p[j] != ".git"
    decreases entries
  {
    if entries != [] {
      var e := entries[0];
      NoCopiedFileUnderGit(entries[1..]);
      if e.Dir? && e.name != ".git" {
        NoCopiedFileUnderGit(e.children);
        var sub := CopiedFiles(e.children);
        forall p, j | p in Under(e.name, sub) && 0 <= j < |p| - 1 ensures p[j] != ".git" {
          var i :| 0 <= i < |sub| && p == [e.name] + sub[i];
          if j > 0 {
            assert p[j] == sub[i][j - 1];
          }
        }
      }
    }
  }

  /** Copying a copy changes nothing: a backup of the output equals the output. */
  lemma {:induction false} StripIdempotent(entries: seq<Entry>)
    ensures Strip(Strip(entries)) == Strip(entries)
    decreases entries
  {
    if entries != [] {
      var e := entries[0];
      StripIdempotent(entries[1..]);
      var head := if IsGitDir(e) then [] else if e.Dir? then [Dir(e.name, Strip(e.children))] else [e];
      StripAppend(head, Strip(entries[1..]));
      if e.Dir? && !IsGitDir(e) {
        StripIdempotent(e.children);
        assert Strip(head) == [Dir(e.name, Strip(Strip(e.children)))] + Strip([]);
      }
    }
  }

  /** `countFiles`: the recursive count, skipping directories named `.git`. */
  method CountFiles(entries: seq<Entry>) returns (count: nat)
    ensures count == |CopiedFiles(entries)|
    decreases entries
  {
    count := 0;
    for k := 0 to |entries|
      invariant count == |CopiedFiles(entries[..k])|
    {
      var e := entries[k];
      assert entries[..k + 1] == entries[..k] + [e];
      CopiedFilesAppend(entries[..k], [e]);
      if e.Dir? {
        if e.name != ".git" {
          var sub := CountFiles(e.children);
          count := count + sub;
        }
      } else {
        count := count + 1;
      }
    }
    assert entries[..|entries|] == entries;
  }

  /** What one entry contributes to the copy and to the file count. */
  lemma OneEntry(e: Entry)
    ensures Strip([e]) == if IsGitDir(e) then [] else if e.Dir? then [Dir(e.name, Strip(e.children))] else [e]
    ensures |CopiedFiles([e])| == if e.File? then 1 else if e.name == ".git" then 0 else |CopiedFiles(e.children)|
  {
    assert [e][1..] == [];
  }

  /** `copyDirectory`: writes the tree without `.git` directories and ticks
      the bar (when there is one) once per copied file. */
  method CopyDirectory(entries: seq<Entry>, bar: SimpleProgressBar?) returns (copy: seq<Entry>)
    requires bar != null ==> bar.Valid()
    modifies bar
    ensures copy == Strip(entries)
    ensures bar != null ==> bar.Valid() && bar.total == old(bar.total) && bar.width == old(bar.width)
    ensures bar != null ==> bar.current == old(bar.current) + |CopiedFiles(entries)|
    decreases entries
  {
    copy := [];
    for k := 0 to |entries|
      invariant copy == Strip(entries[..k])
      invariant bar != null ==> bar.Valid() && bar.total == old(bar.total) && bar.width == old(bar.width)
      invariant bar != null ==> bar.current == old(bar.current) + |CopiedFiles(entries[..k])|
    {
      var e := entries[k];
      assert entries[..k + 1] == entries[..k] + [e];
      CopiedFilesAppend(entries[..k], [e]);
      StripAppend(entries[..k], [e]);
      OneEntry(e);
      if e.Dir? {
        if e.name != ".git" {
          var sub := CopyDirectory(e.children, bar);
          copy := copy + [Dir(e.name, sub)];
        }
      } else {
        copy := copy + [e];
        if bar != null {
          bar.Tick(1);
        }
      }
    }
    assert entries[..|entries|] == entries;
  }

  // -------------------------------------------------------------- run steps

  datatype RunError =
    | ConfigurationErrors(errors: seq<ConfigError>)
    | NoCompressionRatio
    | OutputExists
    | NoGitDirectory
    | GitNotADirectory
    | GitLogFailed
    | InvalidDate(commitIndex: nat)

  /** What a copy with a progress bar reports: the tree written, the number
      of files counted beforehand and the bar position before `finish`. */
  datatype CopyReport = CopyReport(tree: seq<Entry>, counted: nat, ticks: int)

  /** `copySourceFiles`: refuses an existing output unless forced, otherwise
      replaces it with a copy of the source without `.git` directories. The
      bar's ticks match the count taken before copying. */
  method CopySourceFiles(existingOutput: Option<seq<Entry>>, force: bool, source: seq<Entry>)
    returns (r: Result<CopyReport, RunError>)
    ensures r.Err? <==> existingOutput.Some? && !force
    ensures r.Err? ==> r.error == OutputExists
    ensures r.Ok? ==> r.value.tree == Strip(source)
    ensures r.Ok? ==> r.value.counted == |CopiedFiles(source)| && r.value.ticks == r.value.counted
  {
    if existingOutput.Some? && !force {
      return Err(OutputExists);
    }
    var total := CountFiles(source);
    var bar := new SimpleProgressBar(total, 40);
    var tree := CopyDirectory(source, bar);
    var ticks := bar.current;
    bar.Finish();
    r := Ok(CopyReport(tree, total, ticks));
  }

  /** `createBackup`: copies the output directory, if there is one, to a
      fresh backup directory. */
  method CreateBackup(output: Option<seq<Entry>>) returns (backup: Option<seq<Entry>>)
    ensures output.None? ==> backup.None?
    ensures output.Some? ==> backup == Some(Strip(output.value))
  {
    if output.None? {
      return None;
    }
    var total := CountFiles(output.value);
    var bar := new SimpleProgressBar(total, 40);
    var tree := CopyDirectory(output.value, bar);
    bar.Finish();
    backup := Some(tree);
  }

  predicate NamedGit(e: Entry)
  {
    e.name == ".git"
  }

  predicate NotNamedGit(e: Entry)
  {
    e.name != ".git"
  }

  /** `copyGitRepository` (compress.js:327-360): the source must have a
      `.git` entry, or nothing changes; the output's own `.git` is then
      removed, and the source's is copied in its place. A source `.git` that
      is a file makes the count that follows the removal throw, so the
      output is left without any `.git`. `tree` is the output afterwards. */
  method CopyGitRepository(source: seq<Entry>, output: seq<Entry>) returns (tree: seq<Entry>, failure: Option<RunError>)
    ensures failure == Some(NoGitDirectory) <==> Seqs.FindIndex(NamedGit, source).None?
    ensures failure == Some(GitNotADirectory) <==>
              Seqs.FindIndex(NamedGit, source).Some? && source[Seqs.FindIndex(NamedGit, source).value].File?
    ensures failure.Some? ==> failure == Some(NoGitDirectory) || failure == Some(GitNotADirectory)
    ensures failure == Some(NoGitDirectory) ==> tree == output
    ensures failure == Some(GitNotADirectory) ==> tree == Seqs.Filter(NotNamedGit, output)
    ensures failure.None? ==> tree == Seqs.Filter(NotNamedGit, output)
                                      + [Dir(".git", Strip(source[Seqs.FindIndex(NamedGit, source).value].children))]
  {
    var idx := Seqs.FindIndex(NamedGit, source);
    if idx.None? {
      return output, Some(NoGitDirectory);
    }
    var git := source[idx.value];
    var kept := Seqs.Filter(NotNamedGit, output);
    if git.File? {
      return kept, Some(GitNotADirectory);
    }
    var total := CountFiles(git.children);
    var bar := new SimpleProgressBar(total, 40);
    var copied := CopyDirectory(git.children, bar);
    bar.Finish();
    tree := kept + [Dir(".git", copied)];
    failure := None;
  }

  /** Number of indices below `n` at which `ok` holds. */
  function CountSucceeded(ok: nat -> bool, n: nat): (c: nat)
    ensures c <= n
  {
    if n == 0 then 0 else CountSucceeded(ok, n - 1) + (if ok(n - 1) then 1 else 0)
  }

  /** What the rewrite loop reports: the new date handed to `git filter-branch`
      for each commit, the success and error counters, and the bar position
      before `finish`. */
  datatype RewriteReport = RewriteReport(newDates: seq<int>, processed: nat, errors: nat, ticks: int)

  /** `applyDateCompression`: for each commit in log order, its new date; a
      NaN date throws out of the loop (before the per-commit `try`); otherwise
      the rewrite is attempted and counted as processed or as an error. The
      bar ticks once per commit. `rewriteSucceeds(i)` says whether the
      `filter-branch` call for commit `i` succeeds. */
  method ApplyDateCompression(commits: seq<Commit>, tl: Timeline, rewriteSucceeds: nat -> bool)
    returns (r: Result<RewriteReport, RunError>)
    ensures r.Ok? <==> forall i :: 0 <= i < |commits| ==> MapTimestamp(commits[i].timestamp, tl).Some?
    ensures r.Err? ==> r.error.InvalidDate? && r.error.commitIndex < |commits|
                       && MapTimestamp(commits[r.error.commitIndex].timestamp, tl).None?
                       && forall i :: 0 <= i < r.error.commitIndex ==> MapTimestamp(commits[i].timestamp, tl).Some?
    ensures r.Ok? ==> |r.value.newDates| == |commits|
                      && forall i :: 0 <= i < |commits| ==> Some(r.value.newDates[i]) == MapTimestamp(commits[i].timestamp, tl)
    ensures r.Ok? ==> r.value.processed == CountSucceeded(rewriteSucceeds, |commits|)
                      && r.value.processed + r.value.errors == |commits|
    ensures r.Ok? ==> r.value.ticks == |commits|
  {
    var bar := new SimpleProgressBar(|commits|, 40);
    var processed, errors := 0, 0;
    var newDates: seq<int> := [];
    for i := 0 to |commits|
      invariant bar.Valid() && bar.current == i
      invariant |newDates| == i
      invariant forall j :: 0 <= j < i ==> Some(newDates[j]) == MapTimestamp(commits[j].timestamp, tl)
      invariant processed == CountSucceeded(rewriteSucceeds, i) && processed + errors == i
    {
      var newTimestamp := MapTimestamp(commits[i].timestamp, tl);
      if newTimestamp.None? {
        return Err(InvalidDate(i));
      }
      newDates := newDates + [newTimestamp.value];
      if rewriteSucceeds(i) {
        processed := processed + 1;
      } else {
        errors := errors + 1;
      }
      bar.Tick(1);
    }
    var ticks := bar.current;
    bar.Finish();
    r := Ok(RewriteReport(newDates, processed, errors, ticks));
  }

  // --------------------------------------------------------------------- run

  /** The stages of `run`, in the order they complete. */
  datatype Stage =
    | Validated
    | RatioComputed
    | SourceCopied
    | GitCopied
    | HistoryAnalyzed
    | TimelineComputed
    | SummaryPrinted

  function StageRank(s: Stage): nat
  {
    match s
    case Validated => 0
    case RatioComputed => 1
    case SourceCopied => 2
    case GitCopied => 3
    case HistoryAnalyzed => 4
    case TimelineComputed => 5
    case SummaryPrinted => 6
  }

  /** Whether the run got at least as far as `s`. */
  predicate Reached(reached: Option<Stage>, s: Stage)
  {
    reached.Some? && StageRank(reached.value) >= StageRank(s)
  }

  predicate ConfigValid(c: Config, sourceExists: bool, parseDate: string -> Option<int>)
  {
    forall e :: !Fails(c, sourceExists, parseDate, e)
  }

  /** The outcome of a run: exit status, the last stage completed, the output
      and backup directories afterwards, and whether the dates were rewritten. */
  datatype RunReport = RunReport(
    exitCode: int,
    reached: Option<Stage>,
    output: Option<seq<Entry>>,
    backup: Option<seq<Entry>>,
    datesRewritten: bool,
    failure: Option<RunError>)

  /** The first half of `run` (compress.js:153-181): validation, the ratio, the
      copy of the working tree, the optional backup of that copy and the copy of
      `.git`. On success it returns the ratio and the output tree. */
  method Prepare(config: Config, source: Option<seq<Entry>>, existingOutput: Option<seq<Entry>>,
                 parseDate: string -> Option<int>)
    returns (report: RunReport, ratio: real)
    ensures report.exitCode == 0 || report.exitCode == 1
    ensures report.exitCode == 1 <==> report.failure.Some?
    ensures report.exitCode == 0 ==> report.reached == Some(GitCopied) && report.output.Some?
    ensures report.exitCode == 1 ==> !Reached(report.reached, GitCopied)
    ensures !ConfigValid(config, source.Some?, parseDate) ==>
              report.exitCode == 1 && report.reached.None? && report.output == existingOutput
    ensures Reached(report.reached, Validated) ==> ConfigValid(config, source.Some?, parseDate)
    ensures Reached(report.reached, RatioComputed) ==> CalculateCompressionRatio(config) == Some(ratio)
    ensures Reached(report.reached, SourceCopied) ==> existingOutput.None? || config.force
    ensures existingOutput.Some? && !config.force ==> report.exitCode == 1 && report.output == existingOutput
    ensures !config.backupOriginal || !Reached(report.reached, SourceCopied) ==> report.backup.None?
    ensures config.backupOriginal && Reached(report.reached, SourceCopied) ==>
              source.Some? && report.backup == Some(Strip(source.value))
    ensures report.failure == Some(NoGitDirectory) ==> source.Some? && report.output == Some(Strip(source.value))
    ensures report.failure == Some(GitNotADirectory) ==>
              source.Some? && report.output == Some(Seqs.Filter(NotNamedGit, Strip(source.value)))
    ensures report.exitCode == 0 ==>
              source.Some? && Seqs.FindIndex(NamedGit, source.value).Some?
              && source.value[Seqs.FindIndex(NamedGit, source.value).value].Dir?
              && report.output == Some(Seqs.Filter(NotNamedGit, Strip(source.value))
                                       + [Dir(".git", Strip(source.value[Seqs.FindIndex(NamedGit, source.value).value].children))])
    ensures !report.datesRewritten
  {
    report := RunReport(0, None, existingOutput, None, false, None);
    ratio := 0.0;
    var errors := Validate(config, source.Some?, parseDate);
    if |errors| > 0 {
      report := report.(exitCode := 1, failure := Some(ConfigurationErrors(errors)));
      return;
    }
    report := report.(reached := Some(Validated));
    var computed := CalculateCompressionRatio(config);
    if computed.None? {
      report := report.(exitCode := 1, failure := Some(NoCompressionRatio));
      return;
    }
    ratio := computed.value;
    report := report.(reached := Some(RatioComputed));
    assert !Fails(config, source.Some?, parseDate, SourceMissing);
    var copied := CopySourceFiles(existingOutput, config.force, source.value);
    if copied.Err? {
      report := report.(exitCode := 1, failure := Some(copied.error));
      return;
    }
    var output := copied.value.tree;
    var backup: Option<seq<Entry>> := None;
    if config.backupOriginal {
      backup := CreateBackup(Some(output));
      StripIdempotent(source.value);
    }
    report := RunReport(0, Some(SourceCopied), Some(output), backup, false, None);
    var withGit, gitFailure := CopyGitRepository(source.value, output);
    if gitFailure.Some? {
      report := report.(exitCode := 1, output := Some(withGit), failure := gitFailure);
      return;
    }
    report := report.(reached := Some(GitCopied), output := Some(withGit));
  }

  /** `run` (compress.js:153-224): after `Prepare`, read the history, stop
      quietly when it is empty, compute the timeline, rewrite the dates unless
      this is a dry run and print the summary. Any failure ends the process with
      status 1. `source` and `existingOutput` are the directories (`None`:
      absent), `gitLog` the output of `git log` (`None`: it failed). */
  method Run(config: Config, source: Option<seq<Entry>>, existingOutput: Option<seq<Entry>>,
             parseDate: string -> Option<int>, gitLog: Option<string>, rewriteSucceeds: nat -> bool)
    returns (report: RunReport)
    ensures report.exitCode == 0 || report.exitCode == 1
    ensures report.exitCode == 1 <==> report.failure.Some?
    ensures !ConfigValid(config, source.Some?, parseDate) ==>
              report.exitCode == 1 && report.reached.None? && report.output == existingOutput
    ensures existingOutput.Some? && !config.force ==> report.exitCode == 1 && report.output == existingOutput
    ensures report.backup.Some? ==> config.backupOriginal && source.Some? && report.backup == Some(Strip(source.value))
    ensures Reached(report.reached, HistoryAnalyzed) ==> gitLog.Some?
    ensures report.failure == Some(NoGitDirectory) ==> source.Some? && report.output == Some(Strip(source.value))
    ensures report.failure == Some(GitNotADirectory) ==>
              source.Some? && report.output == Some(Seqs.Filter(NotNamedGit, Strip(source.value)))
    ensures report.exitCode == 0 ==>
              report.reached == Some(SummaryPrinted)
              || (report.reached == Some(HistoryAnalyzed) && AnalyzeLog(gitLog.value) == [])
    ensures report.datesRewritten ==> !config.dryRun && report.reached == Some(SummaryPrinted)
    ensures report.reached == Some(SummaryPrinted) ==> report.exitCode == 0 && (report.datesRewritten <==> !config.dryRun)
  {
    var ratio;
    report, ratio := Prepare(config, source, existingOutput, parseDate);
    if report.exitCode != 0 {
      return;
    }
    if gitLog.None? {
      return report.(exitCode := 1, failure := Some(GitLogFailed));
    }
    var commits := AnalyzeLog(gitLog.value);
    report := report.(reached := Some(HistoryAnalyzed));
    if |commits| == 0 {
      return;
    }
    var start := StartSeconds(config.startDate, parseDate);
    var timeline := CalculateNewTimeline(commits, ratio, start);
    report := report.(reached := Some(TimelineComputed));
    if !config.dryRun {
      var rewritten := ApplyDateCompression(commits, timeline, rewriteSucceeds);
      if rewritten.Err? {
        return report.(exitCode := 1, failure := Some(rewritten.error));
      }
      report := report.(datesRewritten := true);
    }
    report := report.(reached := Some(SummaryPrinted));
  }
}

=== FILE: delete_branch.dfy ===
/** The `delete-branch` command (`delete-branch.js`): which branches may be
    deleted, the check of a named branch, the confirmation, and the history
    entry that lets `undo` recreate the branch. The local branches and their
    tips are a value standing for the repository; the answers to the
    prompts are inputs. */
module DeleteBranch {
  import opened Wrappers
  import opened Strings
  import opened Seqs
  import History

  /** The local branches as `git.branchLocal()` lists them, and the commit
      each one points at. */
  datatype Repo = Repo(current: string, all: seq<string>, tips: map<string, string>)

  /** Every listed branch points at a commit. */
  predicate HasTips(repo: Repo)
  {
    forall b :: b in repo.all ==> b in repo.tips
  }

  /** `branchSummary.all.filter((b) => b !== current)` (`delete-branch.js:22`). */
  function Deletable(repo: Repo): (r: seq<string>)
    ensures |r| <= |repo.all|
  {
    Filter((b: string) => b != repo.current, repo.all)
  }

  /** The deletable branches are the local branches other than the current
      one, in the order they are listed. */
  lemma DeletableMembers(repo: Repo, b: string)
    ensures b in Deletable(repo) <==> b in repo.all && b != repo.current
    ensures repo.current !in Deletable(repo)
  {
    var r := Deletable(repo);
    if b in repo.all && b != repo.current {
      var i :| 0 <= i < |repo.all| && repo.all[i] == b;
      assert repo.all[i] in r;
    }
    if b in r {
      var i :| 0 <= i < |r| && r[i] == b;
      assert r[i] in repo.all;
    }
  }

  /** `branchArg && typeof branchArg === "string"`: a non-empty string. */
  predicate Named(arg: Option<string>)
  {
    arg.Some? && arg.value != []
  }

  /** What the command decides before touching the repository. */
  datatype Decision =
    /** The named branch is not deletable (`delete-branch.js:51-66`). */
    | NotDeletable(branch: string)
    /** Interactive mode with nothing to offer (`delete-branch.js:116-129`). */
    | NothingToDelete
    /** The confirmation was declined. */
    | Declined
    /** Delete this branch. */
    | Remove(branch: string)

  /** The checks of `delete-branch.js:48-164`. `pick` is the index of the
      entry chosen from the list, which offers exactly the deletable
      branches. */
  function Decide(repo: Repo, arg: Option<string>, pick: nat, confirm: bool): (d: Decision)
    requires !Named(arg) && |Deletable(repo)| > 0 ==> pick < |Deletable(repo)|
    ensures d.NotDeletable? <==> Named(arg) && Trim(arg.value) !in Deletable(repo)
    ensures d.NotDeletable? ==> d.branch == Trim(arg.value)
    ensures d.NothingToDelete? <==> !Named(arg) && Deletable(repo) == []
    ensures d.Remove? ==> confirm && d.branch in Deletable(repo)
    ensures d.Remove? && Named(arg) ==> d.branch == Trim(arg.value)
    ensures d.Remove? && !Named(arg) ==> d.branch == Deletable(repo)[pick]
    ensures d.Declined? <==> !confirm && !d.NotDeletable? && !d.NothingToDelete?
  {
    var branches := Deletable(repo);
    if Named(arg) then
      var branch := Trim(arg.value);
      if branch !in branches then NotDeletable(branch)
      else if !confirm then Declined
      else Remove(branch)
    else if |branches| == 0 then NothingToDelete
    else if !confirm then Declined
    else Remove(branches[pick])
  }

  /** The current branch is never deleted. */
  lemma NeverCurrent(repo: Repo, arg: Option<string>, pick: nat, confirm: bool)
    requires !Named(arg) && |Deletable(repo)| > 0 ==> pick < |Deletable(repo)|
    ensures Decide(repo, arg, pick, confirm).Remove? ==>
              Decide(repo, arg, pick, confirm).branch != repo.current
  {
    DeletableMembers(repo, repo.current);
  }

  /** A named branch and the same name with white space around it lead to
      the same decision. */
  lemma NameIsTrimmed(repo: Repo, name: string, pick: nat, confirm: bool)
    requires Trim(name) != []
    ensures Named(Some(name)) && Named(Some(Trim(name)))
    ensures Decide(repo, Some(Trim(name)), pick, confirm) == Decide(repo, Some(name), pick, confirm)
  {
    TrimIdempotent(name);
  }

  // ------------------------------------------------------------ the effects

  /** `git.deleteLocalBranch(branch)`. */
  function DeleteRef(repo: Repo, b: string): (r: Repo)
    ensures b !in r.tips && b !in r.all
    ensures r.current == repo.current
  {
    Repo(repo.current, Filter((x: string) => x != b, repo.all), repo.tips - {b})
  }

  /** `git branch <branch> <hash>`, as `undo` runs it for a `branch-delete`
      entry. */
  function CreateRef(repo: Repo, b: string, hash: string): Repo
  {
    Repo(repo.current, repo.all + [b], repo.tips[b := hash])
  }

  /** The commit a branch points at, when the branch exists: the hash the
      `git.log` lookup is after. */
  function Tip(repo: Repo, b: string): (h: Option<string>)
    ensures h.Some? <==> b in repo.tips
    ensures h.Some? ==> h.value == repo.tips[b]
  {
    if b in repo.tips then Some(repo.tips[b]) else None
  }

  /** The entry `delete-branch.js:94-103` records: the lookup runs on the
      repository after the deletion. */
  function RecordAsWritten(repo: Repo, b: string): Option<History.Action>
  {
    var h := Tip(DeleteRef(repo, b), b);
    if h.Some? then Some(History.BranchDelete(b, h.value)) else None
  }

  /** By the time the lookup runs the branch is gone, so no `branch-delete`
      entry is ever recorded. */
  lemma AsWrittenRecordsNothing(repo: Repo, b: string)
    ensures RecordAsWritten(repo, b) == None
  {
  }

  /** The entry with the lookup made before the deletion, as `tag.js` does
      for tags. */
  function Record(repo: Repo, b: string): (e: Option<History.Action>)
    ensures e.Some? <==> b in repo.tips
    ensures e.Some? ==> e.value == History.BranchDelete(b, repo.tips[b])
  {
    var h := Tip(repo, b);
    if h.Some? then Some(History.BranchDelete(b, h.value)) else None
  }

  /** Deleting a branch that has a tip records that tip, and recreating the
      branch from the entry brings every tip back. */
  lemma RecordRestores(repo: Repo, b: string)
    requires b in repo.tips
    ensures Record(repo, b) == Some(History.BranchDelete(b, repo.tips[b]))
    ensures CreateRef(DeleteRef(repo, b), b, repo.tips[b]).tips == repo.tips
  {
    var after := CreateRef(DeleteRef(repo, b), b, repo.tips[b]);
    assert forall x :: x in after.tips <==> x in repo.tips;
  }

  /** What the command ends with. */
  datatype Outcome =
    /** `git.branchLocal()` threw. */
    | ListFailed
    /** A message, and nothing deleted. */
    | Stopped(decision: Decision)
    /** `git.deleteLocalBranch` threw: nothing recorded. */
    | DeleteFailed(branch: string)
    | Deleted(branch: string, after: Repo, recorded: Option<History.Action>)

  /** `deleteBranch` (`delete-branch.js:12-193`) with the lookup before the
      deletion. `listed` is `None` when `git.branchLocal()` throws and
      `deleteOk` says whether `git.deleteLocalBranch` succeeds. */
  function Run(listed: Option<Repo>, arg: Option<string>, pick: nat, confirm: bool, deleteOk: bool): (o: Outcome)
    requires listed.Some? && !Named(arg) && |Deletable(listed.value)| > 0 ==> pick < |Deletable(listed.value)|
    ensures listed.None? <==> o.ListFailed?
    ensures o.Deleted? ==> listed.Some? && deleteOk && o.after == DeleteRef(listed.value, o.branch)
    ensures o.Deleted? ==> o.recorded == Record(listed.value, o.branch)
    ensures o.Deleted? || o.DeleteFailed? ==> Decide(listed.value, arg, pick, confirm) == Remove(o.branch)
    ensures o.Stopped? ==> !o.decision.Remove? && o.decision == Decide(listed.value, arg, pick, confirm)
    ensures listed.Some? && Decide(listed.value, arg, pick, confirm).Remove? ==>
              o.branch == Decide(listed.value, arg, pick, confirm).branch
              && (o.Deleted? <==> deleteOk) && (o.DeleteFailed? <==> !deleteOk)
  {
    if listed.None? then ListFailed
    else
      var repo := listed.value;
      match Decide(repo, arg, pick, confirm)
      case Remove(b) =>
        if deleteOk then Deleted(b, DeleteRef(repo, b), Record(repo, b)) else DeleteFailed(b)
      case d => Stopped(d)
  }

  /** Only a confirmed, deletable branch is deleted, and then the entry
      carries its tip; conversely a confirmed deletion of a deletable branch
      (named, or picked from a non-empty list) that git carries out is
      deleted. */
  lemma DeletedIsConfirmed(listed: Option<Repo>, arg: Option<string>, pick: nat, confirm: bool, deleteOk: bool)
    requires listed.Some? && !Named(arg) && |Deletable(listed.value)| > 0 ==> pick < |Deletable(listed.value)|
    requires listed.Some? ==> HasTips(listed.value)
    ensures var o := Run(listed, arg, pick, confirm, deleteOk);
            o.Deleted? ==> confirm && o.branch in listed.value.all && o.branch != listed.value.current
                           && o.recorded == Some(History.BranchDelete(o.branch, listed.value.tips[o.branch]))
    ensures var o := Run(listed, arg, pick, confirm, deleteOk);
            listed.Some? && confirm && deleteOk
            && (Named(arg) ==> Trim(arg.value) in Deletable(listed.value))
            && (!Named(arg) ==> Deletable(listed.value) != [])
            ==> o.Deleted?
  {
    var o := Run(listed, arg, pick, confirm, deleteOk);
    if o.Deleted? {
      DeletableMembers(listed.value, o.branch);
    }
  }
}

=== FILE: filter_repo.dfy ===
/** The history rewriter of `index.js`: option defaults, the compression ratio,
    the commit callback that the generated filter script runs once per commit,
    the progress markers it prints and the parent's reading of them, and the
    fixed step order of `run`. Dates are seconds since the epoch, as reals;
    the random jitter is an input. */
module FilterRepo {
  import opened Wrappers
  import opened Strings

  // ----------------------------------------------------------------- options

  datatype Options = Options(
    source: string,
    output: string,
    startDate: string,
    originalDays: real,
    targetDays: real,
    anonymize: bool,
    jitter: bool,
    progress: bool)

  /** The options a caller supplied; `None` leaves the default in place. */
  datatype Overrides = Overrides(
    source: Option<string>,
    output: Option<string>,
    startDate: Option<string>,
    originalDays: Option<real>,
    targetDays: Option<real>,
    anonymize: Option<bool>,
    jitter: Option<bool>,
    progress: Option<bool>)

  const NoOverrides := Overrides(None, None, None, None, None, None, None, None)

  /** The constructor's defaults spread under the caller's options
      (index.js:10-21); `now` is the current time in ISO form. */
  function WithDefaults(given: Overrides, now: string): (o: Options)
    ensures given.source.None? ==> o.source == "."
    ensures given.output.None? ==> o.output == "./compressed-repo"
    ensures given.startDate.None? ==> o.startDate == now
    ensures given.originalDays.None? ==> o.originalDays == 25.0
    ensures given.targetDays.None? ==> o.targetDays == 17.5
    ensures given.anonymize.None? ==> o.anonymize
    ensures given.jitter.None? ==> o.jitter
    ensures given.progress.None? ==> o.progress
    ensures given.source.Some? ==> o.source == given.source.value
    ensures given.output.Some? ==> o.output == given.output.value
    ensures given.startDate.Some? ==> o.startDate == given.startDate.value
    ensures given.originalDays.Some? ==> o.originalDays == given.originalDays.value
    ensures given.targetDays.Some? ==> o.targetDays == given.targetDays.value
    ensures given.anonymize.Some? ==> o.anonymize == given.anonymize.value
    ensures given.jitter.Some? ==> o.jitter == given.jitter.value
    ensures given.progress.Some? ==> o.progress == given.progress.value
  {
    Options(
      given.source.GetOr("."),
      given.output.GetOr("./compressed-repo"),
      given.startDate.GetOr(now),
      given.originalDays.GetOr(25.0),
      given.targetDays.GetOr(17.5),
      given.anonymize.GetOr(true),
      given.jitter.GetOr(true),
      given.progress.GetOr(true))
  }

  /** A JavaScript number produced by `/`: finite, or one of the values a
      zero divisor gives. */
  datatype Quotient = Finite(value: real) | Infinity | NegativeInfinity | NaN

  /** JavaScript's `/` on finite operands: a zero divisor gives `Infinity`,
      `-Infinity` or `NaN` according to the sign of the dividend. */
  function Divide(x: real, y: real): (q: Quotient)
    ensures q.Finite? <==> y != 0.0
    ensures q.Finite? ==> q.value * y == x
    ensures q.NaN? <==> y == 0.0 && x == 0.0
    ensures q.Infinity? <==> y == 0.0 && x > 0.0
    ensures q.NegativeInfinity? <==> y == 0.0 && x < 0.0
  {
    if y != 0.0 then Finite(x / y)
    else if x > 0.0 then Infinity
    else if x < 0.0 then NegativeInfinity
    else NaN
  }

  /** The `compressionRatio` getter (index.js:227-229): target over original
      duration, which an original duration of 0 turns into `Infinity` (or
      `NaN` when the target is 0 too). */
  function CompressionRatio(o: Options): (r: Quotient)
    ensures r.Finite? <==> o.originalDays != 0.0
    ensures r.Finite? ==> r.value * o.originalDays == o.targetDays
    ensures 0.0 < o.targetDays <= o.originalDays ==> r.Finite? && 0.0 < r.value <= 1.0
    ensures o.originalDays == 0.0 ==> (r.Infinity? <==> o.targetDays > 0.0) && (r.NaN? <==> o.targetDays == 0.0)
  {
    Divide(o.targetDays, o.originalDays)
  }

  /** Without options the ratio is 17.5 / 25, and it does not depend on `now`. */
  lemma DefaultRatio(now: string)
    ensures CompressionRatio(WithDefaults(NoOverrides, now)) == Finite(0.7)
  {
    var o := WithDefaults(NoOverrides, now);
    assert o.originalDays == 25.0 && o.targetDays == 17.5;
    assert 0.7 * 25.0 == 17.5;
  }

  // ------------------------------------------------------ generated constants

  /** How a JavaScript template literal prints a boolean. */
  function TemplateBool(b: bool): string
  {
    if b then "true" else "false"
  }

  /** The Python boolean literals. */
  function PythonBool(b: bool): string
  {
    if b then "True" else "False"
  }

  /** The value a Python right-hand side made of one name denotes, when it is
      a boolean literal; any other bare name (`true`, `false`) is unbound. */
  function PythonBoolValue(text: string): (v: Option<bool>)
    ensures v.Some? <==> text == "True" || text == "False"
    ensures v == Some(true) <==> text == "True"
  {
    if text == "True" then Some(true)
    else if text == "False" then Some(false)
    else None
  }

  /** The two switch lines of the generated script as the template writes
      them (index.js:111-112). */
  function SwitchLinesAsWritten(o: Options): (lines: seq<string>)
    ensures |lines| == 2
  {
    ["JITTER_ENABLED = " + TemplateBool(o.jitter), "ANONYMIZE = " + TemplateBool(o.anonymize)]
  }

  /** The same lines with Python's literals. */
  function SwitchLines(o: Options): (lines: seq<string>)
    ensures |lines| == 2
  {
    ["JITTER_ENABLED = " + PythonBool(o.jitter), "ANONYMIZE = " + PythonBool(o.anonymize)]
  }

  /** The right-hand side of `NAME = value`. */
  function ValueOf(line: string, name: string): string
  {
    var prefix := name + " = ";
    if |prefix| <= |line| && line[..|prefix|] == prefix then line[|prefix|..] else ""
  }

  /** As written, neither switch is a Python boolean: loading the script
      stops at the first of them, whatever the options are. */
  lemma SwitchLinesAsWrittenUnbound(o: Options)
    ensures PythonBoolValue(ValueOf(SwitchLinesAsWritten(o)[0], "JITTER_ENABLED")).None?
    ensures PythonBoolValue(ValueOf(SwitchLinesAsWritten(o)[1], "ANONYMIZE")).None?
  {
    var p := "JITTER_ENABLED = ";
    var l := SwitchLinesAsWritten(o)[0];
    assert l[..|p|] == p;
    assert ValueOf(l, "JITTER_ENABLED") == TemplateBool(o.jitter);
    assert TemplateBool(o.jitter)[0] == 't' || TemplateBool(o.jitter)[0] == 'f';
    var q := "ANONYMIZE = ";
    var m := SwitchLinesAsWritten(o)[1];
    assert m[..|q|] == q;
    assert ValueOf(m, "ANONYMIZE") == TemplateBool(o.anonymize);
    assert TemplateBool(o.anonymize)[0] == 't' || TemplateBool(o.anonymize)[0] == 'f';
  }

  /** With Python's literals each switch reads back as the option it prints. */
  lemma SwitchLinesRoundTrip(o: Options)
    ensures PythonBoolValue(ValueOf(SwitchLines(o)[0], "JITTER_ENABLED")) == Some(o.jitter)
    ensures PythonBoolValue(ValueOf(SwitchLines(o)[1], "ANONYMIZE")) == Some(o.anonymize)
  {
    var p := "JITTER_ENABLED = ";
    var l := SwitchLines(o)[0];
    assert l[..|p|] == p;
    assert ValueOf(l, "JITTER_ENABLED") == PythonBool(o.jitter);
    var q := "ANONYMIZE = ";
    var m := SwitchLines(o)[1];
    assert m[..|q|] == q;
    assert ValueOf(m, "ANONYMIZE") == PythonBool(o.anonymize);
  }

  // --------------------------------------------------------- commit callback

  datatype Identity = Identity(name: string, email: string)

  /** The fields of a commit the callback reads or writes. */
  datatype FilterCommit = FilterCommit(
    authorDate: real,
    committerDate: real,
    author: Identity,
    committer: Identity)

  const Anonymous := Identity("Dev Team", "dev@company.com")

  /** The random offset `randint(-120, 120)` draws, in minutes. */
  predicate JitterInRange(minutes: int)
  {
    -120 <= minutes <= 120
  }

  /** The date the callback gives a commit: the anchor date for the first
      commit seen, otherwise the anchor plus the scaled distance from the first
      commit, then the jitter in seconds when it is enabled (index.js:121-132). */
  function NewDate(start: real, ratio: real, first: Option<real>, original: real,
                   jitterEnabled: bool, jitterMinutes: int): (d: real)
    ensures !jitterEnabled && (first.None? || first.value == original) ==> d == start
    ensures !jitterEnabled && first.Some? && ratio > 0.0 ==> (d < start <==> original < first.value)
  {
    var proportional := if first.None? then start else start + (original - first.value) * ratio;
    if jitterEnabled then proportional + 60.0 * jitterMinutes as real else proportional
  }

  /** Once anchored, the first commit itself maps to the anchor date. */
  lemma AnchorMapsToStart(start: real, ratio: real, first: real, jitterMinutes: int)
    ensures NewDate(start, ratio, Some(first), first, false, jitterMinutes) == start
    ensures NewDate(start, ratio, None, first, false, jitterMinutes) == start
  {
  }

  /** Jitter moves a date by at most two hours, in whole minutes. */
  lemma JitterBounded(start: real, ratio: real, first: Option<real>, original: real, jitterMinutes: int)
    requires JitterInRange(jitterMinutes)
    ensures var d := NewDate(start, ratio, first, original, true, jitterMinutes)
                   - NewDate(start, ratio, first, original, false, jitterMinutes);
            -7200.0 <= d <= 7200.0 && d == 60.0 * jitterMinutes as real
  {
  }

  /** Without jitter and with a positive ratio, later originals map to later
      dates, and distances shrink by the ratio. */
  lemma NewDateMonotone(start: real, ratio: real, first: real, a: real, b: real)
    requires ratio > 0.0 && a <= b
    ensures NewDate(start, ratio, Some(first), a, false, 0) <= NewDate(start, ratio, Some(first), b, false, 0)
    ensures NewDate(start, ratio, Some(first), b, false, 0) - NewDate(start, ratio, Some(first), a, false, 0)
            == (b - a) * ratio
  {
    assert (b - first) * ratio - (a - first) * ratio == (b - a) * ratio;
    assert (b - a) * ratio >= 0.0;
  }

  /** The generated script's module state: its constants and the two globals
      `first_original_date` and `commit_count`, plus what it wrote to stdout. */
  class FilterScript {
    const start: real
    const ratio: real
    const jitterEnabled: bool
    const anonymize: bool
    var firstOriginalDate: Option<real>
    var commitCount: nat
    var progressOutput: seq<nat>

    constructor(start: real, ratio: real, jitterEnabled: bool, anonymize: bool)
      ensures this.start == start && this.ratio == ratio
      ensures this.jitterEnabled == jitterEnabled && this.anonymize == anonymize
      ensures firstOriginalDate.None? && commitCount == 0 && progressOutput == []
    {
      this.start := start;
      this.ratio := ratio;
      this.jitterEnabled := jitterEnabled;
      this.anonymize := anonymize;
      firstOriginalDate := None;
      commitCount := 0;
      progressOutput := [];
    }

    /** `commit_callback` (index.js:118-146): anchor on the first commit, set
        both dates to the new date, replace both identities when anonymising,
        count the commit and print a marker at every hundredth. */
    method Callback(commit: FilterCommit, jitterMinutes: int) returns (rewritten: FilterCommit)
      requires JitterInRange(jitterMinutes)
      modifies this
      ensures firstOriginalDate == if old(firstOriginalDate).None? then Some(commit.authorDate) else old(firstOriginalDate)
      ensures rewritten.authorDate == rewritten.committerDate
      ensures rewritten.authorDate
              == NewDate(start, ratio, old(firstOriginalDate), commit.authorDate, jitterEnabled, jitterMinutes)
      ensures anonymize ==> rewritten.author == Anonymous && rewritten.committer == Anonymous
      ensures !anonymize ==> rewritten.author == commit.author && rewritten.committer == commit.committer
      ensures commitCount == old(commitCount) + 1
      ensures progressOutput == old(progressOutput) + if commitCount % 100 == 0 then [commitCount] else []
    {
      ghost var first := firstOriginalDate;
      var newDate: real;
      if firstOriginalDate.None? {
        firstOriginalDate := Some(commit.authorDate);
        newDate := start;
      } else {
        var originalDelta := commit.authorDate - firstOriginalDate.value;
        newDate := start + originalDelta * ratio;
      }
      assert newDate == NewDate(start, ratio, first, commit.authorDate, false, jitterMinutes);
      if jitterEnabled {
        newDate := newDate + 60.0 * jitterMinutes as real;
      }
      rewritten := commit.(authorDate := newDate, committerDate := newDate);
      if anonymize {
        rewritten := rewritten.(author := Anonymous, committer := Anonymous);
      }
      commitCount := commitCount + 1;
      if commitCount % 100 == 0 {
        progressOutput := progressOutput + [commitCount];
      }
    }
  }

  /** The markers printed after `n` commits: every multiple of 100 up to `n`. */
  function Markers(n: nat): (r: seq<nat>)
    ensures |r| == n / 100
    ensures forall i :: 0 <= i < |r| ==> r[i] == 100 * (i + 1)
  {
    if n == 0 then [] else Markers(n - 1) + if n % 100 == 0 then [n] else []
  }

  /** What the script makes of commit `c` when `first` is the first commit's
      date: both dates at the anchor plus the scaled distance from `first`,
      plus the jitter when it is enabled, and both identities replaced when
      anonymising. */
  predicate RewrittenAs(c: FilterCommit, r: FilterCommit, start: real, ratio: real, first: real,
                        jitterEnabled: bool, anonymize: bool, jitterMinutes: int)
  {
    && r.authorDate == r.committerDate
         == start + (c.authorDate - first) * ratio + (if jitterEnabled then 60.0 * jitterMinutes as real else 0.0)
    && r.author == (if anonymize then Anonymous else c.author)
    && r.committer == (if anonymize then Anonymous else c.committer)
  }

  /** The first commit is no distance from itself. */
  lemma NoDistance(start: real, ratio: real, first: real)
    ensures start + (first - first) * ratio == start
  {
  }

  /** The whole rewrite: one fresh script run over the commits in order.
      Every commit lands at the anchor plus its scaled distance from the
      first commit, plus its own jitter; the markers are the multiples of 100. */
  method RewriteAll(commits: seq<FilterCommit>, jitters: seq<int>, start: real, ratio: real,
                    jitterEnabled: bool, anonymize: bool)
    returns (rewritten: seq<FilterCommit>, markers: seq<nat>)
    requires |jitters| == |commits|
    requires forall i :: 0 <= i < |jitters| ==> JitterInRange(jitters[i])
    ensures |rewritten| == |commits|
    ensures forall i :: 0 <= i < |commits| ==>
              RewrittenAs(commits[i], rewritten[i], start, ratio, commits[0].authorDate,
                          jitterEnabled, anonymize, jitters[i])
    ensures markers == Markers(|commits|)
  {
    var script := new FilterScript(start, ratio, jitterEnabled, anonymize);
    rewritten := [];
    var i := 0;
    while i < |commits|
      invariant 0 <= i <= |commits|
      invariant |rewritten| == i
      invariant script.start == start && script.ratio == ratio
      invariant script.jitterEnabled == jitterEnabled && script.anonymize == anonymize
      invariant script.firstOriginalDate == if i == 0 then None else Some(commits[0].authorDate)
      invariant script.commitCount == i
      invariant script.progressOutput == Markers(i)
      invariant forall j :: 0 <= j < i ==>
                  RewrittenAs(commits[j], rewritten[j], start, ratio, commits[0].authorDate,
                              jitterEnabled, anonymize, jitters[j])
    {
      var c := script.Callback(commits[i], jitters[i]);
      if i == 0 {
        NoDistance(start, ratio, commits[0].authorDate);
      }
      assert RewrittenAs(commits[i], c, start, ratio, commits[0].authorDate, jitterEnabled, anonymize, jitters[i]);
      rewritten := rewritten + [c];
      i := i + 1;
    }
    markers := script.progressOutput;
  }

  // -------------------------------------------------------- progress reading

  /** The line the script writes for marker `n`. */
  function ProgressLine(n: nat): string
  {
    "PROGRESS:" + NatToString(n) + "\n"
  }

  /** `/PROGRESS:(\d+)/` matches at index `i`. */
  predicate MarkerAt(s: string, i: nat)
  {
    i + 10 <= |s| && s[i..i + 9] == "PROGRESS:" && IsDigit(s[i + 9])
  }

  /** The number in the leftmost match from index `i` on: the greedy digit
      run after `PROGRESS:`, read by `parseInt` (index.js:168-170). */
  function FirstMarker(s: string, i: nat): (r: Option<nat>)
    requires i <= |s|
    ensures r.None? <==> forall j :: i <= j < |s| ==> !MarkerAt(s, j)
    decreases |s| - i
  {
    if i == |s| then None
    else if MarkerAt(s, i) then Some(DigitsValue(s[i + 9..i + 9 + DigitRun(s, i + 9)]))
    else FirstMarker(s, i + 1)
  }

  /** The marker found is the leftmost one: when `j` holds the first match
      from `i` on, its number is the one read. */
  lemma {:induction false} FirstMarkerIsFirst(s: string, i: nat, j: nat)
    requires i <= j < |s| && MarkerAt(s, j)
    requires forall k :: i <= k < j ==> !MarkerAt(s, k)
    ensures FirstMarker(s, i) == Some(DigitsValue(s[j + 9..j + 9 + DigitRun(s, j + 9)]))
    decreases j - i
  {
    if i < j {
      FirstMarkerIsFirst(s, i + 1, j);
    }
  }

  /** The bar value after one stdout chunk (index.js:166-172): set to the
      first marker when the bar is on and a marker is present. */
  function BarAfterChunk(chunk: string, progress: bool, value: int): (v: int)
    ensures !progress ==> v == value
    ensures FirstMarker(chunk, 0).None? ==> v == value
  {
    var m := FirstMarker(chunk, 0);
    if m.Some? && progress then m.value else value
  }

  /** A chunk that starts with a marker line moves the bar to that marker,
      whatever follows it. */
  lemma ProgressRoundTrip(n: nat, rest: string)
    ensures FirstMarker(ProgressLine(n) + rest, 0) == Some(n)
    ensures BarAfterChunk(ProgressLine(n) + rest, true, 0) == n
  {
    var digits := NatToString(n);
    var s := ProgressLine(n) + rest;
    assert s == "PROGRESS:" + (digits + ("\n" + rest));
    var k := |digits|;
    assert s[..9] == "PROGRESS:";
    assert s[9..9 + k] == digits;
    assert s[9 + k] == '\n';
    assert MarkerAt(s, 0);
    DigitRunStops(s, 9, k);
    DigitsValueNatToString(n);
  }

  /** A run of `k` digits followed by a non-digit has length `k`. */
  lemma {:induction false} DigitRunStops(s: string, i: nat, k: nat)
    requires i + k < |s|
    requires AllDigits(s[i..i + k]) && !IsDigit(s[i + k])
    ensures DigitRun(s, i) == k
    decreases k
  {
    if k > 0 {
      assert IsDigit(s[i..i + k][0]);
      assert s[i + 1..i + k] == s[i..i + k][1..];
      DigitRunStops(s, i + 1, k - 1);
    }
  }

  // -------------------------------------------------------------------- run

  /** The steps of `run` (index.js:206-224), in order. */
  datatype FilterStage =
    | EnvironmentValidated
    | TempRepoCreated
    | ScriptGenerated
    | FilterExecuted
    | FinalRepoCreated
    | CleanedUp

  /** The outcome of `run`: exit status, the last completed step, the commit
      total read from `git rev-list --count`, whether the bar was started,
      whether an existing output directory was deleted and whether the
      temporary repository was removed. */
  datatype FilterRunReport = FilterRunReport(
    exitCode: int,
    reached: Option<FilterStage>,
    totalCommits: Option<int>,
    barStarted: bool,
    outputRemoved: bool,
    tempRemoved: bool)

  /** `run`: each step either completes or throws, and a throw stops the bar
      and exits with status 1 without removing the temporary repository.
      The oracles: `dependenciesFound` (both executables located),
      `cloneSucceeds`, `countOutput` (`None`: the count command failed),
      `scriptWritten`, `filterExit` (the child's close code; `None` is a
      signal), `outputExists`, `finalCloneSucceeds`, `cleanupSucceeds`. */
  method Run(o: Options, dependenciesFound: bool, cloneSucceeds: bool, countOutput: Option<string>,
             scriptWritten: bool, filterExit: Option<int>, outputExists: bool,
             finalCloneSucceeds: bool, cleanupSucceeds: bool)
    returns (r: FilterRunReport)
    ensures r.exitCode == 0 || r.exitCode == 1
    ensures r.exitCode == 0 <==>
              dependenciesFound && cloneSucceeds && countOutput.Some? && scriptWritten
              && filterExit == Some(0) && finalCloneSucceeds && cleanupSucceeds
    ensures r.exitCode == 0 ==> r.reached == Some(CleanedUp)
    ensures r.tempRemoved <==> r.exitCode == 0
    ensures r.outputRemoved <==>
              outputExists && dependenciesFound && cloneSucceeds && countOutput.Some?
              && scriptWritten && filterExit == Some(0)
    ensures r.barStarted <==> o.progress && dependenciesFound && cloneSucceeds && countOutput.Some?
    ensures r.totalCommits.Some? ==> countOutput.Some? && r.totalCommits == ParseInt(Trim(countOutput.value))
  {
    r := FilterRunReport(1, None, None, false, false, false);
    if !dependenciesFound {
      return;
    }
    r := r.(reached := Some(EnvironmentValidated));
    if !cloneSucceeds || countOutput.None? {
      return;
    }
    var total := ParseInt(Trim(countOutput.value));
    r := r.(reached := Some(TempRepoCreated), totalCommits := total, barStarted := o.progress);
    if !scriptWritten {
      return;
    }
    r := r.(reached := Some(ScriptGenerated));
    if filterExit != Some(0) {
      return;
    }
    r := r.(reached := Some(FilterExecuted), outputRemoved := outputExists);
    if !finalCloneSucceeds {
      return;
    }
    r := r.(reached := Some(FinalRepoCreated));
    if !cleanupSucceeds {
      return;
    }
    r := r.(exitCode := 0, reached := Some(CleanedUp), tempRemoved := true);
  }
}

=== FILE: history.dfy ===
/** The action history behind undo and redo (`history.js`): two stacks,
    `actions` (done, newest last) and `undone` (undone, newest last), kept in
    `.gitmat-history.json`. Every operation reads the file, changes one stack
    and writes the file back; the file is modelled as the two fields of an
    `ActionHistory` object. */
module History {
  import opened Wrappers

  /** The recorded actions, by their `type` field. */
  datatype Action =
    | BranchDelete(branch: string, hash: string)
    | TagDelete(tag: string, hash: string)
    | StashPop(message: string, patch: string)
    | StashDrop(message: string, patch: string)
    | ResetHard(from: string, to: string)
    | RemoteBranchDelete(branch: string)
    | Unstage(file: string)
    | StashCreate(ref: string, message: string)
    /** `prev` is the value before the change; "" when there was none. */
    | ConfigChange(key: string, prev: string, value: string)
    | Merge(branch: string, preMergeHead: string)
    /** Any other type, such as `commit`. */
    | Other(kind: string)

  /** What `readHistory` finds on disk. */
  datatype HistoryFile =
    | Missing
    | Unparsable
    | Parsed(actions: seq<Action>, undone: seq<Action>)

  class ActionHistory {
    var actions: seq<Action>
    var undone: seq<Action>

    /** `readHistory` (history.js:8-16): the stored stacks, or two empty
        stacks when the file is missing or is not valid JSON. */
    constructor Read(file: HistoryFile)
      ensures file.Parsed? ==> actions == file.actions && undone == file.undone
      ensures !file.Parsed? ==> actions == [] && undone == []
    {
      if file.Parsed? {
        actions := file.actions;
        undone := file.undone;
      } else {
        actions := [];
        undone := [];
      }
    }

    /** `addAction` (history.js:23-27): push onto `actions`; `undone` is kept,
        not cleared. */
    method AddAction(a: Action)
      modifies this
      ensures actions == old(actions) + [a]
      ensures undone == old(undone)
    {
      actions := actions + [a];
    }

    /** `getLastAction` (history.js:29-32): the top of `actions`, if any. */
    function LastAction(): (r: Option<Action>)
      reads this
      ensures r.None? <==> actions == []
      ensures r.Some? ==> r.value == actions[|actions| - 1]
    {
      if actions == [] then None else Some(actions[|actions| - 1])
    }

    /** `popLastAction` (history.js:34-39): remove and return the top of
        `actions`; an empty stack stays empty. */
    method PopLastAction() returns (a: Option<Action>)
      modifies this
      ensures a == old(LastAction())
      ensures old(actions) == [] ==> actions == []
      ensures old(actions) != [] ==> actions == old(actions)[..|old(actions)| - 1]
      ensures undone == old(undone)
    {
      a := LastAction();
      if actions != [] {
        actions := actions[..|actions| - 1];
      }
    }

    /** `addUndone` (history.js:41-45): push onto `undone`. */
    method AddUndone(a: Action)
      modifies this
      ensures undone == old(undone) + [a]
      ensures actions == old(actions)
    {
      undone := undone + [a];
    }

    /** `getLastUndone` (history.js:47-50): the top of `undone`, if any. */
    function LastUndone(): (r: Option<Action>)
      reads this
      ensures r.None? <==> undone == []
      ensures r.Some? ==> r.value == undone[|undone| - 1]
    {
      if undone == [] then None else Some(undone[|undone| - 1])
    }

    /** `popLastUndone` (history.js:52-57): remove and return the top of
        `undone`; an empty stack stays empty. */
    method PopLastUndone() returns (a: Option<Action>)
      modifies this
      ensures a == old(LastUndone())
      ensures old(undone) == [] ==> undone == []
      ensures old(undone) != [] ==> undone == old(undone)[..|old(undone)| - 1]
      ensures actions == old(actions)
    {
      a := LastUndone();
      if undone != [] {
        undone := undone[..|undone| - 1];
      }
    }
  }

  /** Pushing an action and popping it again returns that action and leaves
      both stacks as they were. */
  method AddThenPop(h: ActionHistory, a: Action) returns (popped: Option<Action>)
    modifies h
    ensures popped == Some(a)
    ensures h.actions == old(h.actions) && h.undone == old(h.undone)
  {
    h.AddAction(a);
    popped := h.PopLastAction();
    assert (old(h.actions) + [a])[..|old(h.actions)|] == old(h.actions);
  }

  /** The same round trip on `undone`. */
  method AddUndoneThenPop(h: ActionHistory, a: Action) returns (popped: Option<Action>)
    modifies h
    ensures popped == Some(a)
    ensures h.actions == old(h.actions) && h.undone == old(h.undone)
  {
    h.AddUndone(a);
    popped := h.PopLastUndone();
    assert (old(h.undone) + [a])[..|old(h.undone)|] == old(h.undone);
  }
}

=== FILE: init_config.dfy ===
/** The `init` command (`init.js`): initialise a repository, then settle the
    user name and email it commits with. The config reads, the `git config`
    writes and the answers to the prompts are inputs of the model; what is
    printed is kept only where a property is about it (the report shown when
    the local values are cleared). */
module InitConfig {
  import opened Wrappers
  import opened Strings
  import opened Seqs

  // ------------------------------------------------------------ resolution

  /** Where a value comes from: `'local'`, `'global'` or `'none'`. */
  datatype Source = Local | Global | Unset

  /** A value as the command shows it, with its source. The empty string
      stands for every falsy value the source may hold (`null`, `undefined`
      and `""` are shown and treated alike). */
  datatype Field = Field(value: string, src: Source)

  /** A value has a source exactly when it is non-empty. */
  predicate WellFormed(f: Field)
  {
    (f.src == Unset) == (f.value == [])
  }

  /** One field resolved as `init.js:42-65` (and again `:134-153`): a
      non-empty local value wins, else a non-empty global value, else none. */
  function Resolve(local: Option<string>, global: Option<string>): (f: Field)
    ensures WellFormed(f)
    ensures f.src == Local <==> TrimmedRead(local) != []
    ensures f.src == Global <==> TrimmedRead(local) == [] && TrimmedRead(global) != []
    ensures f.src == Local ==> f.value == TrimmedRead(local)
    ensures f.src == Global ==> f.value == TrimmedRead(global)
  {
    var l := TrimmedRead(local);
    if l != [] then Field(l, Local)
    else
      var g := TrimmedRead(global);
      if g != [] then Field(g, Global) else Field([], Unset)
  }

  /** The four reads: local name, local email, global name, global email. */
  datatype Reads = Reads(
    localName: Option<string>,
    localEmail: Option<string>,
    globalName: Option<string>,
    globalEmail: Option<string>)

  // ------------------------------------------------------------ validators

  /** `validate: v => v.trim() ? ...` for the name. */
  predicate ValidName(v: string)
  {
    Trim(v) != []
  }

  /** No line terminator in `v[i..j]`, so a regular-expression `.` takes
      every character there. */
  predicate OnOneLine(v: string, i: int, j: int)
    requires 0 <= i <= j <= |v|
  {
    forall k :: i <= k < j ==> !IsLineTerminator(v[k])
  }

  /** The pattern below matches with its `@` at `p` and its `.` at `d`. */
  predicate EmailAt(v: string, p: int, d: int)
  {
    0 < p && p + 1 < d && d + 1 < |v| && v[p] == '@' && v[d] == '.' && OnOneLine(v, p - 1, d + 2)
  }

  /** `/.+@.+\..+/.test(v)`: somewhere on one line, at least one character,
      an `@`, at least one character, a `.` and at least one character. */
  predicate ValidEmail(v: string)
  {
    exists p, d :: 0 < p < d < |v| && EmailAt(v, p, d)
  }

  /** A name is accepted exactly when it holds a character that is not white
      space. */
  lemma NameAccepted(v: string)
    ensures ValidName(v) <==> exists i :: 0 <= i < |v| && !IsSpace(v[i])
  {
  }

  /** An accepted email has at least five characters, an `@` that is not the
      first one, and a later `.` that is not the last one. */
  lemma EmailShape(v: string)
    requires ValidEmail(v)
    ensures |v| >= 5
    ensures exists p :: 0 < p && p + 3 < |v| && v[p] == '@' && '.' in v[p + 2..|v| - 1]
  {
    var p, d :| 0 < p < d < |v| && EmailAt(v, p, d);
    assert v[p + 2..|v| - 1][d - p - 2] == '.';
  }

  /** The shortest address the pattern takes, and three it refuses. */
  lemma EmailExamples()
    ensures ValidEmail("a@b.c")
    ensures !ValidEmail("a@b")
    ensures !ValidEmail("@bb.c")
    ensures !ValidEmail("a@\nb.c")
  {
    var u := "a@b.c";
    assert EmailAt(u, 1, 3);
    var t := "a@b";
    forall p, d ensures !EmailAt(t, p, d) {
    }
    var v := "a@\nb.c";
    forall p, d ensures !EmailAt(v, p, d) {
      if 0 < p && p + 1 < d && d + 1 < |v| && v[p] == '@' && v[d] == '.' {
        assert p == 1 && v[2] == '\n';
      }
    }
    var w := "@bb.c";
    forall p, d ensures !EmailAt(w, p, d) {
    }
  }

  // ----------------------------------------------------------------- rounds

  /** The three entries of the config menu. */
  datatype Choice = Keep | Reset | Clear

  /** What the loop offers for the current values (`init.js:83`, `:210`,
      `:254`). */
  datatype Menu = KeepResetClear | KeepReset | EnterDirectly

  function MenuFor(name: Field, email: Field): Menu
  {
    if name.src == Local || email.src == Local then KeepResetClear
    else if name.value != [] || email.value != [] then KeepReset
    else EnterDirectly
  }

  /** Any local source offers keep, reset and clear; otherwise any value
      (necessarily global) offers keep and reset; with neither value set the
      user is asked directly. */
  lemma MenuBySource(name: Field, email: Field)
    requires WellFormed(name) && WellFormed(email)
    ensures MenuFor(name, email) == KeepResetClear <==> name.src == Local || email.src == Local
    ensures MenuFor(name, email) == KeepReset <==>
              name.src != Local && email.src != Local && (name.src == Global || email.src == Global)
    ensures MenuFor(name, email) == EnterDirectly <==> name.src == Unset && email.src == Unset
  {
  }

  /** A name and an email as the user entered them. */
  datatype Identity = Identity(name: string, email: string)

  /** The answers of one pass through the loop: the menu choice (`None`
      when the prompt throws), the reads made after clearing, and the
      successive attempts at the name and the email prompts. */
  datatype Round = Round(action: Option<Choice>, reread: Reads, names: seq<string>, emails: seq<string>)

  /** The name and email prompts: each repeats until its validator accepts,
      so the first accepted attempt is the answer; running out of attempts
      is the prompt throwing. */
  function Entered(r: Round): Option<Identity>
  {
    var n := FindIndex(ValidName, r.names);
    var e := FindIndex(ValidEmail, r.emails);
    if n.None? || e.None? then None
    else Some(Identity(r.names[n.value], r.emails[e.value]))
  }

  /** The entered values are the first attempts the validators accept. */
  lemma EnteredAccepted(r: Round)
    ensures Entered(r).Some? ==> ValidName(Entered(r).value.name) && ValidEmail(Entered(r).value.email)
    ensures Entered(r).Some? ==>
              (exists i, j :: 0 <= i < |r.names| && 0 <= j < |r.emails|
                 && Entered(r).value == Identity(r.names[i], r.emails[j])
                 && (forall k :: 0 <= k < i ==> !ValidName(r.names[k]))
                 && (forall k :: 0 <= k < j ==> !ValidEmail(r.emails[k])))
  {
    var n := FindIndex(ValidName, r.names);
    var e := FindIndex(ValidEmail, r.emails);
    if n.Some? && e.Some? {
      FirstAccepted(ValidName, r.names, n.value);
      FirstAccepted(ValidEmail, r.emails, e.value);
      assert Entered(r).value == Identity(r.names[n.value], r.emails[e.value]);
    }
  }

  /** Nothing is entered exactly when one prompt accepts no attempt. */
  lemma EnteredNone(r: Round)
    ensures Entered(r).None? <==> (forall i :: 0 <= i < |r.names| ==> !ValidName(r.names[i]))
                                  || (forall i :: 0 <= i < |r.emails| ==> !ValidEmail(r.emails[i]))
  {
    NoneAccepted(ValidName, r.names);
    NoneAccepted(ValidEmail, r.emails);
  }

  /** What `FindIndex` finding `i` says, for any validator. */
  lemma FirstAccepted<T>(p: T -> bool, s: seq<T>, i: nat)
    requires FindIndex(p, s) == Some(i)
    ensures i < |s| && p(s[i]) && forall k :: 0 <= k < i ==> !p(s[k])
  {
  }

  /** What `FindIndex` finding nothing says, and its converse. */
  lemma NoneAccepted<T>(p: T -> bool, s: seq<T>)
    ensures FindIndex(p, s).None? <==> forall k :: 0 <= k < |s| ==> !p(s[k])
  {
  }

  /** The message shown after clearing: the previous values of the fields
      that were local, and the values now in effect. */
  datatype ClearReport = ClearReport(prevName: string, prevEmail: string, name: Field, email: Field)

  /** What the loop does to the outside world, in order. */
  datatype Effect =
    /** `git config --unset` of the name and of the email. */
    | UnsetLocal
    /** `git.addConfig` of the name and of the email. */
    | SetLocal(id: Identity)
    /** The box shown after clearing. */
    | ShowCleared(report: ClearReport)

  /** Where the loop stands: still asking, settled on final values, or
      ended by a prompt that threw (caught at `init.js:292`). */
  datatype Phase = Asking(name: Field, email: Field) | Settled(name: Field, email: Field) | Aborted

  datatype StepOut = StepOut(phase: Phase, effects: seq<Effect>)

  /** The values after an entry: both local. */
  function Entry(r: Round, before: seq<Effect>): StepOut
  {
    match Entered(r)
    case None => StepOut(Aborted, before)
    case Some(id) => StepOut(Settled(Field(id.name, Local), Field(id.email, Local)), before + [SetLocal(id)])
  }

  /** The `clear` branch (`init.js:127-206`): unset, re-read, report, and
      either go round again on the re-read values or ask for new ones. */
  function ClearStep(name: Field, email: Field, r: Round): StepOut
  {
    var n := Resolve(r.reread.localName, r.reread.globalName);
    var e := Resolve(r.reread.localEmail, r.reread.globalEmail);
    var report := ClearReport(if name.src == Local then name.value else [],
                              if email.src == Local then email.value else [], n, e);
    if n.value != [] || e.value != [] then StepOut(Asking(n, e), [UnsetLocal, ShowCleared(report)])
    else Entry(r, [UnsetLocal, ShowCleared(report)])
  }

  /** One pass through the body of `while (!done)` (`init.js:67-290`). */
  function Step(name: Field, email: Field, r: Round): (s: StepOut)
    ensures UnsetLocal in s.effects ==> MenuFor(name, email) == KeepResetClear
    ensures s.phase.Asking? ==> r.action == Some(Clear)
  {
    match MenuFor(name, email)
    case KeepResetClear =>
      if r.action.None? then StepOut(Aborted, [])
      else if r.action.value == Reset then Entry(r, [UnsetLocal])
      else if r.action.value == Clear then ClearStep(name, email, r)
      else StepOut(Settled(name, email), [])
    case KeepReset =>
      if r.action.None? then StepOut(Aborted, [])
      else if r.action.value == Reset then Entry(r, [])
      else StepOut(Settled(name, email), [])
    case EnterDirectly =>
      Entry(r, [])
  }

  /** The whole loop from a phase: rounds are used one per pass, and a pass
      with no round left is a prompt that throws. */
  function Run(p: Phase, rounds: seq<Round>): (s: StepOut)
    ensures !s.phase.Asking?
    ensures !p.Asking? ==> s == StepOut(p, [])
    decreases |rounds|
  {
    if !p.Asking? then StepOut(p, [])
    else if rounds == [] then StepOut(Aborted, [])
    else
      var s := Step(p.name, p.email, rounds[0]);
      var rest := Run(s.phase, rounds[1..]);
      StepOut(rest.phase, s.effects + rest.effects)
  }

  /** The phase the loop starts in, from the four initial reads. */
  function Start(first: Reads): Phase
  {
    Asking(Resolve(first.localName, first.globalName), Resolve(first.localEmail, first.globalEmail))
  }

  // ------------------------------------------------------------- the loop

  /** A pass that ends the loop is the whole rest of the run. */
  lemma RunEnds(name: Field, email: Field, rounds: seq<Round>, i: nat)
    requires i < |rounds| && !Step(name, email, rounds[i]).phase.Asking?
    ensures Run(Asking(name, email), rounds[i..]) == Step(name, email, rounds[i])
  {
    assert rounds[i..][1..] == rounds[i + 1..];
  }

  /** A pass that goes round again is followed by the run from its values. */
  lemma RunAgain(name: Field, email: Field, rounds: seq<Round>, i: nat)
    requires i < |rounds|
    ensures var s := Step(name, email, rounds[i]);
            var rest := Run(s.phase, rounds[i + 1..]);
            Run(Asking(name, email), rounds[i..]) == StepOut(rest.phase, s.effects + rest.effects)
  {
    assert rounds[i..][1..] == rounds[i + 1..];
  }

  /** One pass through the body of `while (!done)` (`init.js:67-290`), with
      the values it starts from: it asks for the menu choice, acts on it, and
      says whether the loop goes on (`Asking`), is done (`Settled`) or was
      ended by a prompt that threw (`Aborted`). */
  method Pass(name: Field, email: Field, r: Round) returns (next: Phase, out: seq<Effect>)
    ensures StepOut(next, out) == Step(name, email, r)
  {
    if name.src == Local || email.src == Local {
      next, out := PassWithLocal(name, email, r);
    } else if name.value != [] || email.value != [] {
      if r.action.None? {
        return Aborted, [];
      }
      if r.action.value == Reset {
        next, out := EnterIdentity(r, []);
      } else {
        next, out := Settled(name, email), [];
      }
    } else {
      next, out := EnterIdentity(r, []);
    }
  }

  /** The name and email prompts and the two `git.addConfig` calls, after
      the effects `before`. */
  method EnterIdentity(r: Round, before: seq<Effect>) returns (next: Phase, out: seq<Effect>)
    ensures StepOut(next, out) == Entry(r, before)
  {
    out := before;
    var id := Entered(r);
    if id.None? {
      return Aborted, out;
    }
    out := out + [SetLocal(id.value)];
    next := Settled(Field(id.value.name, Local), Field(id.value.email, Local));
  }

  /** The pass when a value is local (`init.js:83-209`). */
  method PassWithLocal(name: Field, email: Field, r: Round) returns (next: Phase, out: seq<Effect>)
    requires name.src == Local || email.src == Local
    ensures StepOut(next, out) == Step(name, email, r)
  {
    if r.action.None? {
      return Aborted, [];
    }
    match r.action.value {
      case Reset =>
        next, out := EnterIdentity(r, [UnsetLocal]);
      case Clear =>
        next, out := ClearPass(name, email, r);
      case Keep =>
        next, out := Settled(name, email), [];
    }
  }

  /** The `clear` branch (`init.js:127-206`): unset, re-read, report, then
      go round again on the values found or ask for new ones. */
  method ClearPass(name: Field, email: Field, r: Round) returns (next: Phase, out: seq<Effect>)
    ensures StepOut(next, out) == ClearStep(name, email, r)
  {
    var prevName := if name.src == Local then name.value else [];
    var prevEmail := if email.src == Local then email.value else [];
    var gName := Resolve(r.reread.localName, r.reread.globalName);
    var gEmail := Resolve(r.reread.localEmail, r.reread.globalEmail);
    out := [UnsetLocal, ShowCleared(ClearReport(prevName, prevEmail, gName, gEmail))];
    if gName.value != [] || gEmail.value != [] {
      next := Asking(gName, gEmail);
    } else {
      next, out := EnterIdentity(r, out);
    }
  }

  /** The effects `before`, followed by the run `rest`. */
  function After(before: seq<Effect>, rest: StepOut): StepOut
  {
    StepOut(rest.phase, before + rest.effects)
  }

  /** One more pass: the run from the values before the pass, after the
      effects so far, is the run from the values after it, after those
      effects and the pass's own. */
  lemma RunOnce(p: Phase, rounds: seq<Round>, i: nat, next: Phase, out: seq<Effect>, effects: seq<Effect>)
    requires p.Asking? && i < |rounds|
    requires StepOut(next, out) == Step(p.name, p.email, rounds[i])
    ensures After(effects + out, Run(next, rounds[i + 1..])) == After(effects, Run(p, rounds[i..]))
  {
    assert rounds[i..][0] == rounds[i];
    assert rounds[i..][1..] == rounds[i + 1..];
    assert effects + out + Run(next, rounds[i + 1..]).effects == effects + (out + Run(next, rounds[i + 1..]).effects);
  }

  /** `init.js:38-290`: resolve the values, then loop until done. The phase
      holds the current values and sources; `done` is the phase no longer
      being `Asking`. */
  method ConfigureIdentity(start: Reads, rounds: seq<Round>) returns (phase: Phase, effects: seq<Effect>)
    ensures StepOut(phase, effects) == Run(Start(start), rounds)
    ensures !phase.Asking?
  {
    hide Step;
    var name := Resolve(start.localName, start.globalName);
    var email := Resolve(start.localEmail, start.globalEmail);
    phase := Asking(name, email);
    effects := [];
    var i := 0;
    assert rounds[0..] == rounds;
    while phase.Asking? && i < |rounds|
      invariant 0 <= i <= |rounds|
      invariant After(effects, Run(phase, rounds[i..])) == Run(Start(start), rounds)
      decreases |rounds| - i
    {
      var next, out := Pass(phase.name, phase.email, rounds[i]);
      RunOnce(phase, rounds, i, next, out, effects);
      effects := effects + out;
      phase := next;
      i := i + 1;
    }
    if phase.Asking? {
      assert rounds[i..] == [];
      phase := Aborted;
    }
    assert effects + [] == effects;
  }

  // ------------------------------------------------------------ properties

  /** Keeping the values settles on them unchanged, with no effect. */
  lemma KeepSettles(name: Field, email: Field, r: Round)
    requires MenuFor(name, email) != EnterDirectly && r.action == Some(Keep)
    ensures Step(name, email, r) == StepOut(Settled(name, email), [])
  {
  }

  /** `s` settles on `id` as local values, and writing `id` is its last
      effect. */
  predicate WritesLast(s: StepOut, id: Identity)
  {
    && s.phase == Settled(Field(id.name, Local), Field(id.email, Local))
    && |s.effects| > 0 && s.effects[|s.effects| - 1] == SetLocal(id)
  }

  /** A pass that writes the config writes it last, with values the
      validators accepted, and settles on them as local values. */
  lemma StepWritesLast(name: Field, email: Field, r: Round, id: Identity)
    requires SetLocal(id) in Step(name, email, r).effects
    ensures WritesLast(Step(name, email, r), id)
    ensures ValidName(id.name) && ValidEmail(id.email)
  {
    match MenuFor(name, email)
    case EnterDirectly =>
      assert Step(name, email, r) == Entry(r, []);
      EntryWritesLast(r, [], id);
    case KeepReset =>
      if r.action == Some(Reset) {
        assert Step(name, email, r) == Entry(r, []);
        EntryWritesLast(r, [], id);
      } else {
        assert false;
      }
    case KeepResetClear =>
      if r.action == Some(Reset) {
        assert Step(name, email, r) == Entry(r, [UnsetLocal]);
        EntryWritesLast(r, [UnsetLocal], id);
      } else if r.action == Some(Clear) {
        assert Step(name, email, r) == ClearStep(name, email, r);
        ClearWritesLast(name, email, r, id);
      } else {
        assert false;
      }
  }

  /** The `clear` branch writes only when no value is left, and then last. */
  lemma ClearWritesLast(name: Field, email: Field, r: Round, id: Identity)
    requires SetLocal(id) in ClearStep(name, email, r).effects
    ensures WritesLast(ClearStep(name, email, r), id)
    ensures ValidName(id.name) && ValidEmail(id.email)
  {
    var n := Resolve(r.reread.localName, r.reread.globalName);
    var e := Resolve(r.reread.localEmail, r.reread.globalEmail);
    var report := ClearReport(if name.src == Local then name.value else [],
                              if email.src == Local then email.value else [], n, e);
    ClearAskingWritesNothing(name, email, r);
    assert n.value == [] && e.value == [];
    assert ClearStep(name, email, r) == Entry(r, [UnsetLocal, ShowCleared(report)]);
    EntryWritesLast(r, [UnsetLocal, ShowCleared(report)], id);
  }

  /** Clearing with a value left goes round again without writing. */
  lemma ClearAskingWritesNothing(name: Field, email: Field, r: Round)
    ensures var n := Resolve(r.reread.localName, r.reread.globalName);
            var e := Resolve(r.reread.localEmail, r.reread.globalEmail);
            n.value != [] || e.value != [] ==>
              ClearStep(name, email, r).phase == Asking(n, e)
              && forall x :: x in ClearStep(name, email, r).effects ==> !x.SetLocal?
  {
  }

  /** An entry writes the answers it settles on, after everything before. */
  lemma EntryWritesLast(r: Round, before: seq<Effect>, id: Identity)
    requires forall x :: x in before ==> !x.SetLocal?
    requires SetLocal(id) in Entry(r, before).effects
    ensures WritesLast(Entry(r, before), id)
    ensures Entry(r, before).effects == before + [SetLocal(id)]
    ensures ValidName(id.name) && ValidEmail(id.email)
  {
    var e := Entered(r);
    if e.None? {
      assert false;
    }
    assert Entry(r, before) == StepOut(Settled(Field(e.value.name, Local), Field(e.value.email, Local)), before + [SetLocal(e.value)]);
    assert e.value == id by {
      assert SetLocal(id) in before + [SetLocal(e.value)];
    }
  }

  /** Clearing unsets the local values, reports the previous values of the
      fields that were local, and re-enters the loop on the re-read values
      when any is set. */
  lemma ClearReports(name: Field, email: Field, r: Round)
    requires MenuFor(name, email) == KeepResetClear && r.action == Some(Clear)
    ensures var n := Resolve(r.reread.localName, r.reread.globalName);
            var e := Resolve(r.reread.localEmail, r.reread.globalEmail);
            var s := Step(name, email, r);
            && |s.effects| >= 2 && s.effects[0] == UnsetLocal
            && s.effects[1] == ShowCleared(ClearReport(
                 if name.src == Local then name.value else [],
                 if email.src == Local then email.value else [], n, e))
            && (s.phase.Asking? <==> n.src != Unset || e.src != Unset)
            && (s.phase.Asking? ==> s.phase == Asking(n, e))
  {
  }

  /** Every pass keeps both values well formed. */
  lemma StepWellFormed(name: Field, email: Field, r: Round)
    requires WellFormed(name) && WellFormed(email)
    ensures var p := Step(name, email, r).phase;
            !p.Aborted? ==> WellFormed(p.name) && WellFormed(p.email)
  {
    var s := Step(name, email, r);
    if s == Entry(r, []) {
      EntryWellFormed(r, []);
    } else if s == Entry(r, [UnsetLocal]) {
      EntryWellFormed(r, [UnsetLocal]);
    } else if s == ClearStep(name, email, r) {
      ClearWellFormed(name, email, r);
    } else {
      assert s.phase == Settled(name, email) || s.phase == Aborted;
    }
  }

  /** The `clear` branch leaves well-formed values. */
  lemma ClearWellFormed(name: Field, email: Field, r: Round)
    ensures var p := ClearStep(name, email, r).phase;
            !p.Aborted? ==> WellFormed(p.name) && WellFormed(p.email)
  {
    var n := Resolve(r.reread.localName, r.reread.globalName);
    var e := Resolve(r.reread.localEmail, r.reread.globalEmail);
    var report := ClearReport(if name.src == Local then name.value else [],
                              if email.src == Local then email.value else [], n, e);
    EntryWellFormed(r, [UnsetLocal, ShowCleared(report)]);
  }

  /** An entry settles on well-formed values. */
  lemma EntryWellFormed(r: Round, before: seq<Effect>)
    ensures var p := Entry(r, before).phase;
            !p.Aborted? ==> WellFormed(p.name) && WellFormed(p.email)
  {
    EnteredAccepted(r);
    var e := Entered(r);
    if e.Some? {
      EmailShape(e.value.email);
    }
  }

  /** A pass that aborts writes nothing. */
  lemma StepAbortWritesNothing(name: Field, email: Field, r: Round)
    requires Step(name, email, r).phase.Aborted?
    ensures forall x :: x in Step(name, email, r).effects ==> !x.SetLocal?
  {
    match MenuFor(name, email)
    case KeepResetClear =>
      if r.action == Some(Reset) {
        EntryAbortAddsNothing(r, [UnsetLocal]);
      } else if r.action == Some(Clear) {
        var n := Resolve(r.reread.localName, r.reread.globalName);
        var e := Resolve(r.reread.localEmail, r.reread.globalEmail);
        var report := ClearReport(if name.src == Local then name.value else [],
                                  if email.src == Local then email.value else [], n, e);
        EntryAbortAddsNothing(r, [UnsetLocal, ShowCleared(report)]);
      }
    case KeepReset =>
      if r.action == Some(Reset) {
        EntryAbortAddsNothing(r, []);
      }
    case EnterDirectly =>
      EntryAbortAddsNothing(r, []);
  }

  /** An entry that aborts adds no effect. */
  lemma EntryAbortAddsNothing(r: Round, before: seq<Effect>)
    ensures Entry(r, before).phase.Aborted? ==> Entry(r, before).effects == before
  {
  }

  /** The loop ends as soon as the config is written: a write is the last
      effect of the whole run, and the run settles on the written values. */
  lemma {:induction false} RunWritesLast(p: Phase, rounds: seq<Round>, id: Identity)
    requires SetLocal(id) in Run(p, rounds).effects
    ensures WritesLast(Run(p, rounds), id)
    decreases |rounds|, 1
  {
    RunFirst(p, rounds);
    if SetLocal(id) in Step(p.name, p.email, rounds[0]).effects {
      FirstPassWrites(p, rounds, id);
    } else {
      LaterPassWrites(p, rounds, id);
    }
  }

  /** A run whose first pass writes stops there. */
  lemma FirstPassWrites(p: Phase, rounds: seq<Round>, id: Identity)
    requires p.Asking? && rounds != []
    requires SetLocal(id) in Step(p.name, p.email, rounds[0]).effects
    ensures WritesLast(Run(p, rounds), id)
  {
    hide Step;
    var s := Step(p.name, p.email, rounds[0]);
    StepWritesLast(p.name, p.email, rounds[0], id);
    RunStopped(s.phase, rounds[1..]);
    assert s.effects + [] == s.effects;
  }

  /** A run that writes after its first pass writes last in the rest. */
  lemma {:induction false} LaterPassWrites(p: Phase, rounds: seq<Round>, id: Identity)
    requires p.Asking? && rounds != []
    requires SetLocal(id) in Run(p, rounds).effects
    requires SetLocal(id) !in Step(p.name, p.email, rounds[0]).effects
    ensures WritesLast(Run(p, rounds), id)
    decreases |rounds|, 0
  {
    var s := Step(p.name, p.email, rounds[0]);
    var rest := Run(s.phase, rounds[1..]);
    assert Run(p, rounds) == StepOut(rest.phase, s.effects + rest.effects);
    InLaterPart(s.effects, rest.effects, SetLocal(id));
    RunWritesLast(s.phase, rounds[1..], id);
    WritesLastAfter(s.effects, rest, id);
  }

  /** An element of `a + b` that is not in `a` is in `b`. */
  lemma InLaterPart<T>(a: seq<T>, b: seq<T>, x: T)
    requires x in a + b && x !in a
    ensures x in b
  {
  }

  /** Effects made before a run that writes last leave the write last. */
  lemma WritesLastAfter(before: seq<Effect>, rest: StepOut, id: Identity)
    requires WritesLast(rest, id)
    ensures WritesLast(StepOut(rest.phase, before + rest.effects), id)
  {
    LastOfAppend(before, rest.effects);
  }

  /** Once the loop has stopped, the remaining answers change nothing. */
  lemma RunStopped(p: Phase, rounds: seq<Round>)
    requires !p.Asking?
    ensures Run(p, rounds) == StepOut(p, [])
  {
  }

  /** A run with an effect made at least one pass. */
  lemma RunFirst(p: Phase, rounds: seq<Round>)
    requires Run(p, rounds).effects != []
    ensures p.Asking? && rounds != []
    ensures var s := Step(p.name, p.email, rounds[0]);
            var rest := Run(s.phase, rounds[1..]);
            Run(p, rounds) == StepOut(rest.phase, s.effects + rest.effects)
  {
  }

  lemma LastOfAppend<T>(a: seq<T>, b: seq<T>)
    requires |b| > 0
    ensures (a + b)[|a + b| - 1] == b[|b| - 1]
  {
  }

  /** A run that aborts has written nothing. */
  lemma {:induction false} RunAbortWritesNothing(p: Phase, rounds: seq<Round>)
    requires Run(p, rounds).phase.Aborted?
    ensures forall x :: x in Run(p, rounds).effects ==> !x.SetLocal?
    decreases |rounds|
  {
    if p.Asking? && rounds != [] {
      var s := Step(p.name, p.email, rounds[0]);
      var rest := Run(s.phase, rounds[1..]);
      forall x | x in s.effects + rest.effects
        ensures !x.SetLocal?
      {
        if x in s.effects && x.SetLocal? {
          StepWritesLast(p.name, p.email, rounds[0], x.id);
          assert false;
        }
        if x in rest.effects {
          RunAbortWritesNothing(s.phase, rounds[1..]);
        }
      }
    }
  }

  /** Well-formed values stay well formed to the end of the run. */
  lemma {:induction false} RunWellFormed(p: Phase, rounds: seq<Round>)
    requires p.Asking? ==> WellFormed(p.name) && WellFormed(p.email)
    requires p.Settled? ==> WellFormed(p.name) && WellFormed(p.email)
    ensures Run(p, rounds).phase.Settled? ==>
              WellFormed(Run(p, rounds).phase.name) && WellFormed(Run(p, rounds).phase.email)
    decreases |rounds|
  {
    if p.Asking? && rounds != [] {
      StepWellFormed(p.name, p.email, rounds[0]);
      RunWellFormed(Step(p.name, p.email, rounds[0]).phase, rounds[1..]);
    }
  }

  // ------------------------------------------------------------- top level

  datatype InitOutcome =
    /** Already a repository: a message, and nothing else happens. */
    | AlreadyRepository
    /** `checkIsRepo` or `init` threw. */
    | InitFailed
    | Initialized(phase: Phase, effects: seq<Effect>)

  /** `init` (`init.js:9-305`). `probe` is `checkIsRepo`'s answer (`None`
      when it throws) and `initOk` whether `git.init()` succeeds. */
  method Init(probe: Option<bool>, initOk: bool, start: Reads, rounds: seq<Round>) returns (o: InitOutcome)
    ensures o.AlreadyRepository? <==> probe == Some(true)
    ensures o.InitFailed? <==> probe.None? || (probe == Some(false) && !initOk)
    ensures o.Initialized? ==> StepOut(o.phase, o.effects) == Run(Start(start), rounds)
  {
    if probe.None? {
      return InitFailed;
    }
    if probe.value {
      return AlreadyRepository;
    }
    if !initOk {
      return InitFailed;
    }
    var phase, effects := ConfigureIdentity(start, rounds);
    o := Initialized(phase, effects);
  }
}

=== FILE: log_viewer.dfy ===
/** The log viewer (`src/commands/log.js`): the `git log` arguments for each
    display mode, and the paginated browser with its choice list. */
module LogViewer {
  import opened Wrappers
  import opened Strings
  import opened Paging

  // ------------------------------------------------------------- modes

  /** The options the command receives; every value is text, and an absent
      or empty one is falsy. */
  datatype LogOptions = LogOptions(
    mode: Option<string>,
    filename: Option<string>,
    time: Option<string>,
    author: Option<string>,
    n: Option<string>,
    format: Option<string>)

  predicate Truthy(v: Option<string>)
  {
    v.Some? && v.value != ""
  }

  /** `"--" + name + "=\"" + value + "\""`: the value between literal double
      quotes inside one argument. */
  function Quoted(name: string, value: string): (arg: string)
    ensures StartsWith(arg, "--" + name + "=\"") && EndsWith(arg, "\"")
  {
    var arg := "--" + name + "=\"" + value + "\"";
    assert arg[..|name| + 4] == "--" + name + "=\"";
    arg
  }

  /** Reading the value back out of a quoted argument. */
  function Unquote(name: string, arg: string): string
    requires |arg| >= |name| + 5
  {
    arg[|name| + 4..|arg| - 1]
  }

  lemma UnquoteQuoted(name: string, value: string)
    ensures Unquote(name, Quoted(name, value)) == value
  {
  }

  /** The command for a display mode (log.js:30-47); `None` (the source's
      `cmd = null`) when the mode is unknown or the value it needs is
      missing, in which case the paginated viewer runs instead. */
  function ModeArgs(o: LogOptions): (cmd: Option<seq<string>>)
    ensures cmd.Some? ==> Truthy(o.mode) && |cmd.value| >= 2 && cmd.value[0] == "log"
    ensures o.mode == Some("oneline") ==> cmd == Some(["log", "--oneline"])
    ensures o.mode == Some("graph") ==> cmd == Some(["log", "--oneline", "--graph", "--all"])
    ensures o.mode == Some("name-only") ==> cmd == Some(["log", "--name-only"])
    ensures o.mode == Some("diff") ==> cmd == Some(["log", "-p"])
    ensures o.mode == Some("since") ==>
              (cmd.Some? <==> Truthy(o.time)) && (cmd.Some? ==> cmd.value == ["log", Quoted("since", o.time.value)])
    ensures o.mode == Some("author") ==>
              (cmd.Some? <==> Truthy(o.author)) && (cmd.Some? ==> cmd.value == ["log", Quoted("author", o.author.value)])
    ensures o.mode == Some("file") ==>
              (cmd.Some? <==> Truthy(o.filename)) && (cmd.Some? ==> cmd.value == ["log", o.filename.value])
    ensures o.mode == Some("limit") ==>
              (cmd.Some? <==> Truthy(o.n)) && (cmd.Some? ==> cmd.value == ["log", "-n", o.n.value])
    ensures o.mode == Some("format") ==>
              (cmd.Some? <==> Truthy(o.format)) && (cmd.Some? ==> cmd.value == ["log", "--pretty=format:" + o.format.value])
    ensures Truthy(o.mode) && o.mode.value !in {"oneline", "graph", "file", "since", "author", "name-only", "diff", "limit", "format"} ==>
              cmd.None?
  {
    if !Truthy(o.mode) then None
    else
      var m := o.mode.value;
      if m == "oneline" then Some(["log", "--oneline"])
      else if m == "graph" then Some(["log", "--oneline", "--graph", "--all"])
      else if m == "file" && Truthy(o.filename) then Some(["log", o.filename.value])
      else if m == "since" && Truthy(o.time) then Some(["log", Quoted("since", o.time.value)])
      else if m == "author" && Truthy(o.author) then Some(["log", Quoted("author", o.author.value)])
      else if m == "name-only" then Some(["log", "--name-only"])
      else if m == "diff" then Some(["log", "-p"])
      else if m == "limit" && Truthy(o.n) then Some(["log", "-n", o.n.value])
      else if m == "format" && Truthy(o.format) then Some(["log", "--pretty=format:" + o.format.value])
      else None
  }

  /** The `since` and `author` values travel inside one argument and can be
      read back from it. */
  lemma QuotedModesCarryValue(o: LogOptions)
    requires o.mode == Some("since") || o.mode == Some("author")
    requires ModeArgs(o).Some?
    ensures var name := o.mode.value;
      |ModeArgs(o).value| == 2
      && Unquote(name, ModeArgs(o).value[1]) == (if name == "since" then o.time.value else o.author.value)
  {
  }

  // ---------------------------------------------------------- browsing

  const PageSize := 10

  datatype Choice = Prev | Next | Detail(index: nat) | Back | Exit

  /** The choice list the loop builds (log.js:132-143). */
  function Choices(page: nat, n: nat): (cs: seq<Choice>)
  {
    var start := WindowStart(page, PageSize);
    var end := WindowEnd(page, n, PageSize);
    (if page > 0 then [Prev] else []) + (if end < n then [Next] else [])
    + DetailsFrom(start, end) + [Back, Exit]
  }

  function DetailsFrom(start: nat, end: nat): (ds: seq<Choice>)
    ensures |ds| == if start <= end then end - start else 0
    ensures forall k :: 0 <= k < |ds| ==> ds[k] == Detail(start + k)
    decreases end - start
  {
    if start >= end then [] else [Detail(start)] + DetailsFrom(start + 1, end)
  }

  /** The loop of log.js:132-143 that pushes the choices one by one. */
  method BuildChoices(page: nat, n: nat) returns (choices: seq<Choice>)
    ensures choices == Choices(page, n)
  {
    var start := WindowStart(page, PageSize);
    var end := WindowEnd(page, n, PageSize);
    choices := [];
    if page > 0 {
      choices := choices + [Prev];
    }
    if end < n {
      choices := choices + [Next];
    }
    var details := PushDetails(start, end);
    choices := choices + details;
    choices := choices + [Back];
    choices := choices + [Exit];
  }

  /** The `for (let i = start; i < end; i++)` of log.js:135-139. */
  method PushDetails(start: nat, end: nat) returns (details: seq<Choice>)
    ensures details == DetailsFrom(start, end)
  {
    details := [];
    var i := start;
    while i < end
      invariant start <= end ==> start <= i <= end
      invariant details == DetailsFrom(start, if start <= end then i else start)
    {
      details := details + [Detail(i)];
      i := i + 1;
    }
  }

  /** Whether a choice is on the list for `page`. */
  predicate Offered(page: nat, n: nat, c: Choice)
  {
    match c
    case Prev => page > 0
    case Next => WindowEnd(page, n, PageSize) < n
    case Detail(i) => WindowStart(page, PageSize) <= i < WindowEnd(page, n, PageSize)
    case Back => true
    case Exit => true
  }

  /** Prev is offered exactly off the first page and Next exactly when
      commits remain after this page; one detail per commit shown, in order;
      Back and Exit always close the list. */
  lemma ChoicesShape(page: nat, n: nat)
    ensures forall c :: c in Choices(page, n) <==> Offered(page, n, c)
    ensures var cs := Choices(page, n); |cs| >= 2 && cs[|cs| - 2] == Back && cs[|cs| - 1] == Exit
  {
    var start := WindowStart(page, PageSize);
    var end := WindowEnd(page, n, PageSize);
    var front := (if page > 0 then [Prev] else []) + (if end < n then [Next] else []);
    var ds := DetailsFrom(start, end);
    var cs := Choices(page, n);
    assert cs == front + ds + [Back, Exit];
    forall c
      ensures c in cs <==> Offered(page, n, c)
    {
      if c.Detail? {
        if start <= c.index < end {
          assert ds[c.index - start] == c;
        }
        if c in cs {
          assert c in ds;
        }
      } else {
        assert c !in ds;
      }
    }
  }

  /** Moving on from a page that leaves commits unshown, or back from a page
      that shows some, lands on a page that shows some. */
  lemma TurnsStayInRange(page: nat, n: nat)
    ensures WindowEnd(page, n, PageSize) < n ==> WindowStart(page + 1, PageSize) < n
    ensures page > 1 && WindowStart(page, PageSize) < n ==> WindowStart(page - 1, PageSize) < n
  {
  }

  /** What the loop was answered: a choice from the list, and for a detail
      whether the follow-up prompt answered Back. */
  datatype LogAnswer = Answer(choice: Choice, backAfterDetail: bool)

  datatype Ending = ExitedLoop | WentBack | StillOpen

  /** The effect of one answer: the page shown next, the commit whose
      details were shown, if any, and whether the loop ended. */
  datatype Pass = Pass(next: nat, detail: Option<nat>, ending: Ending)

  /** One pass of the loop of log.js:145-207. Next and Prev move one page,
      Exit ends the loop, Back leaves for the parent menu, and a detail
      shows that commit and then either leaves or returns to the same
      page. The prompt offers only the current list, so an answer not on
      it is treated as not given. */
  function Answered(n: nat, page: nat, a: LogAnswer): (r: Pass)
    ensures Offered(page, n, a.choice) && a.choice == Next ==> r.next == page + 1
    ensures Offered(page, n, a.choice) && a.choice == Prev ==> r.next == page - 1
    ensures a.choice != Next && a.choice != Prev ==> r.next == page
    ensures r.detail.Some? <==> Offered(page, n, a.choice) && a.choice.Detail?
    ensures r.detail.Some? ==> r.detail.value == a.choice.index && r.detail.value < n
    ensures r.ending.ExitedLoop? <==> a.choice == Exit
    ensures r.ending.WentBack? <==> a.choice == Back || (Offered(page, n, a.choice) && a.choice.Detail? && a.backAfterDetail)
    ensures !Offered(page, n, a.choice) ==> r == Pass(page, None, StillOpen)
  {
    if !Offered(page, n, a.choice) then Pass(page, None, StillOpen)
    else
      match a.choice
      case Next => Pass(page + 1, None, StillOpen)
      case Prev => Pass(page - 1, None, StillOpen)
      case Exit => Pass(page, None, ExitedLoop)
      case Back => Pass(page, None, WentBack)
      case Detail(index) => Pass(page, Some(index), if a.backAfterDetail then WentBack else StillOpen)
  }

  /** One pass as the loop runs it: the answer is looked up in the choice
      list built for the page. */
  method Step(n: nat, page: nat, a: LogAnswer) returns (next: nat, detail: Option<nat>, ending: Ending)
    requires page == 0 || WindowStart(page, PageSize) < n
    ensures Pass(next, detail, ending) == Answered(n, page, a)
    ensures next == 0 || WindowStart(next, PageSize) < n
    ensures next != page ==> a.choice == Next || a.choice == Prev
    ensures detail.Some? ==> detail.value < n
    ensures ending.ExitedLoop? <==> a.choice == Exit
    ensures ending.WentBack? ==> a.choice == Back || a.choice.Detail?
    ensures a.choice == Back ==> ending.WentBack?
  {
    next, detail, ending := page, None, StillOpen;
    var offered := BuildChoices(page, n);
    ChoicesShape(page, n);
    if a.choice in offered {
      assert Offered(page, n, a.choice);
      match a.choice
      case Next =>
        TurnsStayInRange(page, n);
        next := page + 1;
      case Prev =>
        TurnsStayInRange(page, n);
        next := page - 1;
      case Exit =>
        ending := ExitedLoop;
      case Back =>
        ending := WentBack;
      case Detail(index) =>
        detail := Some(index);
        if a.backAfterDetail {
          ending := WentBack;
        }
    } else {
      assert !Offered(page, n, a.choice);
    }
  }

  /** The loop of log.js:99-209 over the answers given. `pages` holds the
      page of each pass and `details` the detail shown in each pass: every
      answer before the last pass leaves the loop open and leads to the next
      page, and the loop stops at the first answer that ends it, with that
      answer's ending. */
  method Browse(n: nat, answers: seq<LogAnswer>) returns (pages: seq<nat>, details: seq<Option<nat>>, ending: Ending)
    ensures 1 <= |pages| <= |answers| + 1 && pages[0] == 0
    ensures forall k :: 0 <= k < |pages| ==> pages[k] == 0 || WindowStart(pages[k], PageSize) < n
    ensures |details| == (if ending.StillOpen? then |pages| - 1 else |pages|)
    ensures !ending.StillOpen? ==> |pages| <= |answers|
    ensures forall k :: 0 <= k < |details| ==> details[k] == Answered(n, pages[k], answers[k]).detail
    ensures forall k :: 0 <= k < |pages| - 1 ==>
              Answered(n, pages[k], answers[k]).ending.StillOpen? && pages[k + 1] == Answered(n, pages[k], answers[k]).next
    ensures ending.StillOpen? ==> |pages| == |answers| + 1
    ensures !ending.StillOpen? ==> ending == Answered(n, pages[|pages| - 1], answers[|pages| - 1]).ending
    ensures forall k :: 0 <= k < |details| ==> (details[k].Some? ==> details[k].value < n)
    ensures ending.StillOpen? ==> forall i :: 0 <= i < |answers| ==> answers[i].choice !in {Exit, Back}
    ensures ending.ExitedLoop? ==> exists i :: 0 <= i < |answers| && answers[i].choice == Exit
  {
    // The loop only carries the two summaries below; what they mean is
    // spelled out once, after it.
    hide Answered, Passed, ShowCommits;
    var page := 0;
    pages := [0];
    details := [];
    ending := StillOpen;
    var i := 0;
    PassedNone(n, answers);
    ShowCommitsFirst(n);
    while i < |answers| && ending.StillOpen?
      invariant 0 <= i <= |answers|
      invariant |pages| == i + 1 && pages[0] == 0 && pages[i] == page
      invariant page == 0 || WindowStart(page, PageSize) < n
      invariant ShowCommits(n, pages)
      invariant |details| == (if ending.StillOpen? then i else i + 1)
      invariant Passed(n, answers, pages, details, i)
      invariant !ending.StillOpen? ==> i < |answers| && details[i] == Answered(n, page, answers[i]).detail &&
                                       ending == Answered(n, page, answers[i]).ending
      decreases |answers| - i, ending.StillOpen?
    {
      var next, detail, end := Step(n, page, answers[i]);
      if !end.StillOpen? {
        PassedLast(n, answers, pages, details, i, detail);
        details := details + [detail];
        ending := end;
      } else {
        PassedSnoc(n, answers, pages, details, i, next, detail);
        ShowCommitsSnoc(n, pages, next);
        details := details + [detail];
        page := next;
        pages := pages + [page];
        i := i + 1;
      }
    }
    PassedMeans(n, answers, pages, details, i);
    ShowCommitsMeans(n, pages);
    if ending.StillOpen? {
      OpenPasses(n, answers, pages, details, i);
    } else {
      OpenPasses(n, answers, pages, details, i + 1);
      if ending.ExitedLoop? {
        assert answers[i].choice == Exit;
      }
    }
  }

  /** Every page in `pages` shows a commit, or is the first. */
  predicate ShowCommits(n: nat, pages: seq<nat>)
  {
    forall k :: 0 <= k < |pages| ==> pages[k] == 0 || WindowStart(pages[k], PageSize) < n
  }

  lemma ShowCommitsFirst(n: nat)
    ensures ShowCommits(n, [0])
  {
  }

  lemma ShowCommitsSnoc(n: nat, pages: seq<nat>, next: nat)
    requires ShowCommits(n, pages)
    requires next == 0 || WindowStart(next, PageSize) < n
    ensures ShowCommits(n, pages + [next])
  {
  }

  lemma ShowCommitsMeans(n: nat, pages: seq<nat>)
    requires ShowCommits(n, pages)
    ensures forall k :: 0 <= k < |pages| ==> pages[k] == 0 || WindowStart(pages[k], PageSize) < n
  {
  }

  /** The first `i` passes each showed `details[k]`, left the loop open and
      led to page `pages[k + 1]`. */
  predicate Passed(n: nat, answers: seq<LogAnswer>, pages: seq<nat>, details: seq<Option<nat>>, i: nat)
  {
    i <= |answers| && i < |pages| && i <= |details| &&
    forall k :: 0 <= k < i ==>
      details[k] == Answered(n, pages[k], answers[k]).detail &&
      Answered(n, pages[k], answers[k]).ending.StillOpen? && pages[k + 1] == Answered(n, pages[k], answers[k]).next
  }

  lemma PassedNone(n: nat, answers: seq<LogAnswer>)
    ensures Passed(n, answers, [0], [], 0)
  {
  }

  lemma PassedSnoc(n: nat, answers: seq<LogAnswer>, pages: seq<nat>, details: seq<Option<nat>>, i: nat, next: nat, detail: Option<nat>)
    requires Passed(n, answers, pages, details, i)
    requires i < |answers| && |pages| == i + 1 && |details| == i
    requires Answered(n, pages[i], answers[i]) == Pass(next, detail, StillOpen)
    ensures Passed(n, answers, pages + [next], details + [detail], i + 1)
  {
    var pages', details' := pages + [next], details + [detail];
    forall k | 0 <= k < i + 1
      ensures details'[k] == Answered(n, pages'[k], answers[k]).detail
      ensures Answered(n, pages'[k], answers[k]).ending.StillOpen? && pages'[k + 1] == Answered(n, pages'[k], answers[k]).next
    {
      assert pages'[k] == pages[k];
    }
  }

  lemma PassedLast(n: nat, answers: seq<LogAnswer>, pages: seq<nat>, details: seq<Option<nat>>, i: nat, detail: Option<nat>)
    requires Passed(n, answers, pages, details, i) && |details| == i
    ensures Passed(n, answers, pages, details + [detail], i)
  {
    var details' := details + [detail];
    forall k | 0 <= k < i
      ensures details'[k] == details[k]
    {
    }
  }

  lemma PassedMeans(n: nat, answers: seq<LogAnswer>, pages: seq<nat>, details: seq<Option<nat>>, i: nat)
    requires Passed(n, answers, pages, details, i)
    ensures forall k :: 0 <= k < i ==>
              details[k] == Answered(n, pages[k], answers[k]).detail &&
              Answered(n, pages[k], answers[k]).ending.StillOpen? && pages[k + 1] == Answered(n, pages[k], answers[k]).next
  {
  }

  /** Passes that left the loop open chose neither Exit nor Back, and the
      details they showed are of existing commits. */
  lemma OpenPasses(n: nat, answers: seq<LogAnswer>, pages: seq<nat>, details: seq<Option<nat>>, m: nat)
    requires m <= |answers| && m <= |details| && |pages| >= m
    requires forall k :: 0 <= k < m ==> details[k] == Answered(n, pages[k], answers[k]).detail
    requires forall k :: 0 <= k < m - 1 ==> Answered(n, pages[k], answers[k]).ending.StillOpen?
    ensures forall k :: 0 <= k < m ==> (details[k].Some? ==> details[k].value < n)
    ensures forall k :: 0 <= k < m - 1 ==> answers[k].choice !in {Exit, Back}
  {
    forall k | 0 <= k < m
      ensures details[k].Some? ==> details[k].value < n
    {
      var r := Answered(n, pages[k], answers[k]);
    }
    forall k | 0 <= k < m - 1
      ensures answers[k].choice !in {Exit, Back}
    {
      var r := Answered(n, pages[k], answers[k]);
    }
  }
}

=== FILE: paging.dfy ===
/** Page arithmetic shared by the blame (20 per page), reflog (15) and log
    (10) viewers: `Math.ceil(n / size)` pages, page `p` showing the indices
    from `p * size` up to `min(p * size + size, n)`, and the Next / Previous
    choices that `inquirer` shows disabled at either end. */
module Paging {
  import opened Wrappers

  /** `Math.ceil(n / size)`. */
  function TotalPages(n: nat, size: nat): (t: nat)
    requires size > 0
    ensures t == 0 <==> n == 0
  {
    (n + size - 1) / size
  }

  /** The pages hold every entry, and the last page is not empty. */
  lemma PagesCover(n: nat, size: nat)
    requires size > 0
    ensures TotalPages(n, size) * size >= n
    ensures TotalPages(n, size) > 0 ==> (TotalPages(n, size) - 1) * size < n
  {
    var t := TotalPages(n, size);
    var r := (n + size - 1) % size;
    assert n + size - 1 == t * size + r;
    assert (t - 1) * size == t * size - size;
  }

  function WindowStart(page: nat, size: nat): nat
  {
    page * size
  }

  /** `Math.min((page + 1) * size, n)`. */
  function WindowEnd(page: nat, n: nat, size: nat): (e: nat)
    ensures e <= n && e <= WindowStart(page, size) + size
  {
    if page * size + size < n then page * size + size else n
  }

  /** Multiplication by a natural number keeps the order. */
  lemma MulLe(a: nat, b: nat, c: nat)
    requires a <= b
    ensures a * c <= b * c
  {
    var d := b - a;
    assert b * c == a * c + d * c;
  }

  /** Every index falls in the window of exactly one page, and that page
      exists. */
  lemma WindowsCover(i: nat, n: nat, size: nat)
    requires size > 0 && i < n
    ensures i / size < TotalPages(n, size)
    ensures WindowStart(i / size, size) <= i < WindowEnd(i / size, n, size)
    ensures forall p: nat :: WindowStart(p, size) <= i < WindowEnd(p, n, size) ==> p == i / size
  {
    var q := i / size;
    assert i == q * size + i % size;
    assert q * size + size == (q + 1) * size;
    var t := TotalPages(n, size);
    PagesCover(n, size);
    if q >= t {
      MulLe(t, q, size);
    }
    forall p: nat | WindowStart(p, size) <= i < WindowEnd(p, n, size)
      ensures p == q
    {
      assert p * size + size == (p + 1) * size;
      if p < q {
        MulLe(p + 1, q, size);
      } else if p > q {
        MulLe(q + 1, p, size);
      }
    }
  }

  /** Each existing page shows at least one and at most `size` entries, and
      the last one ends at `n`. */
  lemma PageShape(page: nat, n: nat, size: nat)
    requires size > 0 && page < TotalPages(n, size)
    ensures WindowStart(page, size) < WindowEnd(page, n, size)
    ensures WindowEnd(page, n, size) - WindowStart(page, size) <= size
    ensures page == TotalPages(n, size) - 1 ==> WindowEnd(page, n, size) == n
    ensures page < TotalPages(n, size) - 1 ==> WindowEnd(page, n, size) == WindowStart(page, size) + size
  {
    var t := TotalPages(n, size);
    PagesCover(n, size);
    MulLe(page, t - 1, size);
    assert page * size + size == (page + 1) * size;
    assert (t - 1) * size + size == t * size;
    if page < t - 1 {
      MulLe(page + 1, t - 1, size);
    }
  }

  /** The choices of a navigation prompt. */
  datatype Nav = NextPage | PrevPage | Leave

  /** `disabled: page >= totalPages - 1`. */
  predicate NextDisabled(page: nat, total: nat)
  {
    page >= total - 1
  }

  /** `disabled: page === 0`. */
  predicate PrevDisabled(page: nat)
  {
    page == 0
  }

  /** The page after one answer, or `None` when the viewer is left. A
      disabled choice cannot be selected, so asking for it changes nothing. */
  function Turn(page: nat, total: nat, nav: Nav): (r: Option<nat>)
    ensures r.None? <==> nav.Leave?
    ensures nav.NextPage? ==> r == Some(if NextDisabled(page, total) then page else page + 1)
    ensures nav.PrevPage? ==> r == Some(if PrevDisabled(page) then page else page - 1)
    ensures page < total && r.Some? ==> r.value < total
  {
    match nav
    case NextPage => Some(if NextDisabled(page, total) then page else page + 1)
    case PrevPage => Some(if PrevDisabled(page) then page else page - 1)
    case Leave => None
  }
}

=== FILE: progress_bar.dfy ===
/** The terminal progress bar of the timeline compression engine
    (`SimpleProgressBar` in compress.js). Only the numbers it shows are
    modelled; writing the line to the terminal is not. */
module ProgressBar {
  /** The percentage the bar prints: `min(100, current / total * 100)`. */
  function PercentOf(current: int, total: int): (p: real)
    requires total > 0
    ensures p <= 100.0
    ensures current >= 0 ==> p >= 0.0
    ensures p == 100.0 <==> current >= total
  {
    var raw := current as real / total as real * 100.0;
    assert raw >= 100.0 <==> current >= total by {
      assert raw == current as real * 100.0 / total as real;
    }
    if raw < 100.0 then raw else 100.0
  }

  /** Multiplying a fraction in [0, 1] by a non-negative width stays in [0, width]. */
  lemma ScaleFraction(x: real, w: real)
    requires 0.0 <= x <= 1.0 && 0.0 <= w
    ensures 0.0 <= x * w <= w
  {
    assert x * w <= 1.0 * w by {
      assert (1.0 - x) * w >= 0.0;
    }
  }

  /** Number of filled cells: `floor(current / total * width)`. While the
      count has not passed the total, the filled part fits in the bar, and a
      finished bar is completely filled. */
  function FilledOf(current: int, total: int, width: int): (f: int)
    requires total > 0
    ensures 0 <= current <= total && width >= 0 ==> 0 <= f <= width
    ensures current == total ==> f == width
  {
    var x := current as real / total as real;
    FractionOfTotal(current, total);
    if 0 <= current <= total && width >= 0 then
      ScaleFraction(x, width as real);
      (x * width as real).Floor
    else
      (x * width as real).Floor
  }

  /** A count between zero and the total is a fraction in [0, 1], and the
      total itself is the whole. */
  lemma FractionOfTotal(current: int, total: int)
    requires total > 0
    ensures 0 <= current <= total ==> 0.0 <= current as real / total as real <= 1.0
    ensures current == total ==> current as real / total as real == 1.0
  {
    var x := current as real / total as real;
    assert x * total as real == current as real;
  }

  /** Number of empty cells: the rest of the bar. */
  function EmptyOf(current: int, total: int, width: int): (e: int)
    requires total > 0
    ensures e + FilledOf(current, total, width) == width
    ensures 0 <= current <= total && width >= 0 ==> 0 <= e <= width
  {
    width - FilledOf(current, total, width)
  }

  class SimpleProgressBar {
    var total: int
    var current: int
    var width: int

    /** The bar's divisor is never zero: a missing or zero total falls back to 100. */
    ghost predicate Valid()
      reads this
    {
      total != 0
    }

    /** `options.total || 100` and `options.width || 40`: zero counts as missing. */
    constructor (total: int, width: int)
      ensures Valid()
      ensures this.total == (if total != 0 then total else 100)
      ensures this.width == (if width != 0 then width else 40)
      ensures current == 0
    {
      this.total := if total != 0 then total else 100;
      this.width := if width != 0 then width else 40;
      current := 0;
    }

    method Tick(amount: int)
      requires Valid()
      modifies this
      ensures Valid()
      ensures current == old(current) + amount
      ensures total == old(total) && width == old(width)
    {
      current := current + amount;
    }

    method Update(ratio: real)
      requires Valid()
      modifies this
      ensures Valid()
      ensures current == (total as real * ratio).Floor
      ensures total == old(total) && width == old(width)
    {
      current := (total as real * ratio).Floor;
    }

    method Finish()
      requires Valid()
      modifies this
      ensures Valid()
      ensures current == total
      ensures total == old(total) && width == old(width)
    {
      current := total;
    }
  }
}

=== FILE: quick_menu.dfy ===
/** The `quick` command's context-aware menu (`quick.js`), built by
    conditional pushes from what the repository and the history report. The
    command each entry then runs is not part of this model. */
module QuickMenu {
  import opened Wrappers
  import opened Seqs

  /** What `git.status()`, `git.log({ n: 1 })`, `git.branch()` and the
      history file report, reduced to what the menu looks at. */
  datatype QuickState = QuickState(
    staged: nat,
    modified: nat,
    untracked: nat,
    ahead: int,
    logTotal: nat,
    hasLastAction: bool,
    hasLastUndone: bool,
    branches: nat)

  /** The `value` of each entry `actions` may hold. */
  datatype QuickAction =
    | Status | Save | Push | Branch | Log | Stash
    | Undo | Redo | CherryPick | Rebase | Bisect | Exit

  /** When each entry is offered (`quick.js:52-104`). */
  predicate Offered(q: QuickState, a: QuickAction)
  {
    match a
    case Status | Branch | Log | Stash | Exit => true
    case Save => q.staged > 0 || q.modified > 0 || q.untracked > 0
    case Push => q.ahead > 0
    case Undo => q.logTotal > 0 && q.hasLastAction
    case Redo => q.logTotal > 0 && q.hasLastUndone
    case CherryPick => q.logTotal > 0
    case Rebase | Bisect => q.branches > 1
  }

  /** The place of each entry in the order the source pushes them. */
  function Rank(a: QuickAction): int
  {
    match a
    case Status => 0
    case Save => 1
    case Push => 2
    case Branch => 3
    case Log => 4
    case Stash => 5
    case Undo => 6
    case Redo => 7
    case CherryPick => 8
    case Rebase => 9
    case Bisect => 10
    case Exit => 11
  }

  /** An entry pushed under a condition. */
  function Group(cond: bool, xs: seq<QuickAction>): seq<QuickAction>
  {
    if cond then xs else []
  }

  /** The entries up to the three always offered in the middle. */
  function FirstGroups(q: QuickState): seq<QuickAction>
  {
    [Status]
    + Group(q.staged > 0 || q.modified > 0 || q.untracked > 0, [Save])
    + Group(q.ahead > 0, [Push])
    + [Branch, Log, Stash]
  }

  /** The whole list, group by group. */
  function Menu(q: QuickState): seq<QuickAction>
  {
    FirstGroups(q)
    + Group(q.logTotal > 0 && q.hasLastAction, [Undo])
    + Group(q.logTotal > 0 && q.hasLastUndone, [Redo])
    + Group(q.logTotal > 0, [CherryPick])
    + Group(q.branches > 1, [Rebase])
    + Group(q.branches > 1, [Bisect])
    + [Exit]
  }

  /** The `actions` list of `quick.js:52-104`, pushed entry by entry. */
  method QuickActions(q: QuickState) returns (actions: seq<QuickAction>)
    ensures actions == Menu(q)
  {
    actions := [Status];
    if q.staged > 0 || q.modified > 0 || q.untracked > 0 {
      actions := actions + [Save];
    }
    assert actions == [Status] + Group(q.staged > 0 || q.modified > 0 || q.untracked > 0, [Save]);
    ghost var saved := actions;
    if q.ahead > 0 {
      actions := actions + [Push];
    }
    assert actions == saved + Group(q.ahead > 0, [Push]);
    actions := actions + [Branch];
    actions := actions + [Log];
    actions := actions + [Stash];
    assert actions == FirstGroups(q);
    ghost var first := actions;
    ghost var afterUndo: seq<QuickAction> := first;
    ghost var afterRedo: seq<QuickAction> := first;
    if q.logTotal > 0 {
      if q.hasLastAction {
        actions := actions + [Undo];
      }
      afterUndo := actions;
      if q.hasLastUndone {
        actions := actions + [Redo];
      }
      afterRedo := actions;
      actions := actions + [CherryPick];
    }
    assert afterUndo == first + Group(q.logTotal > 0 && q.hasLastAction, [Undo]);
    assert afterRedo == afterUndo + Group(q.logTotal > 0 && q.hasLastUndone, [Redo]);
    assert actions == afterRedo + Group(q.logTotal > 0, [CherryPick]);
    ghost var history := actions;
    if q.branches > 1 {
      actions := actions + [Rebase];
    }
    assert actions == history + Group(q.branches > 1, [Rebase]);
    ghost var rebased := actions;
    if q.branches > 1 {
      actions := actions + [Bisect];
    }
    assert actions == rebased + Group(q.branches > 1, [Bisect]);
    actions := actions + [Exit];
  }

  /** How `quick` ends before the chosen command runs. */
  datatype QuickOutcome =
    /** Outside a repository: an error and exit status 1 (`quick.js:33-38`). */
    | NotARepository
    /** The menu was built, but the prompt that shows it threw because
        `inquirer` is `undefined`. */
    | PromptCrashed(menu: seq<QuickAction>)
    /** The entry the user chose; its command runs next, and `Exit` returns. */
    | Chosen(action: QuickAction)

  /** `quick` (`quick.js:32-150`) up to the dispatch on the answer: `inRepo`
      is what `isGitRepo()` reports, `inquirer` the module's binding when the
      menu is shown and `pick` the entry the list prompt returns.

      As written nothing calls `getInquirer()` (quick.js:26-30), so the
      binding is `NeverLoaded` and inside a repository the command always
      ends in `PromptCrashed`; with the binding `Loaded` the menu is shown
      and the chosen entry runs. */
  method Quick(inRepo: bool, inquirer: Inquirer, q: QuickState, pick: nat) returns (outcome: QuickOutcome)
    requires pick < |Menu(q)|
    ensures outcome.NotARepository? <==> !inRepo
    ensures outcome.PromptCrashed? <==> inRepo && inquirer.NeverLoaded?
    ensures outcome.PromptCrashed? ==> outcome.menu == Menu(q)
    ensures inRepo && inquirer.Loaded? ==> outcome == Chosen(Menu(q)[pick])
  {
    if !inRepo {
      return NotARepository;
    }
    var actions := QuickActions(q);
    if inquirer.NeverLoaded? {
      return PromptCrashed(actions);
    }
    outcome := Chosen(actions[pick]);
  }

  /** The first groups hold exactly the offered entries pushed before the
      history group. */
  lemma FirstMembers(q: QuickState, a: QuickAction)
    ensures a in FirstGroups(q) <==> Rank(a) < 6 && Offered(q, a)
  {
    assert a in FirstGroups(q) <==>
             a in [Status] || a in Group(q.staged > 0 || q.modified > 0 || q.untracked > 0, [Save])
             || a in Group(q.ahead > 0, [Push]) || a in [Branch, Log, Stash];
  }

  /** An entry is in the menu exactly when it is offered. */
  lemma MenuMembers(q: QuickState, a: QuickAction)
    ensures a in Menu(q) <==> Offered(q, a)
  {
    FirstMembers(q, a);
    assert a in Menu(q) <==>
             a in FirstGroups(q) || a in Group(q.logTotal > 0 && q.hasLastAction, [Undo])
             || a in Group(q.logTotal > 0 && q.hasLastUndone, [Redo])
             || a in Group(q.logTotal > 0, [CherryPick]) || a in Group(q.branches > 1, [Rebase])
             || a in Group(q.branches > 1, [Bisect]) || a in [Exit];
  }

  /** An entry pushed after the entries ranked below it, under a condition
      or always, keeps the list in push order. */
  lemma PushRanked(a: seq<QuickAction>, cond: bool, x: QuickAction, lo: int)
    requires lo <= Rank(x) && Increasing(Rank, a) && RanksWithin(Rank, a, lo, Rank(x))
    ensures Increasing(Rank, a + Group(cond, [x])) && RanksWithin(Rank, a + Group(cond, [x]), lo, Rank(x) + 1)
  {
    if cond {
      IncreasingAppend(Rank, a, [x], lo, Rank(x), Rank(x) + 1);
    } else {
      assert a + Group(cond, [x]) == a;
    }
  }

  /** The first groups are in push order. */
  lemma FirstInOrder(q: QuickState)
    ensures Increasing(Rank, FirstGroups(q)) && RanksWithin(Rank, FirstGroups(q), 0, 6)
  {
    var g1 := Group(q.staged > 0 || q.modified > 0 || q.untracked > 0, [Save]);
    var g2 := Group(q.ahead > 0, [Push]);
    PushRanked([Status], q.staged > 0 || q.modified > 0 || q.untracked > 0, Save, 0);
    PushRanked([Status] + g1, q.ahead > 0, Push, 0);
    PushRanked([Status] + g1 + g2, true, Branch, 0);
    PushRanked([Status] + g1 + g2 + [Branch], true, Log, 0);
    PushRanked([Status] + g1 + g2 + [Branch] + [Log], true, Stash, 0);
    assert [Status] + g1 + g2 + [Branch] + [Log] + [Stash] == FirstGroups(q);
  }

  /** The menu is in push order, so no entry appears twice. */
  lemma MenuInOrder(q: QuickState)
    ensures Increasing(Rank, Menu(q))
    ensures Distinct(Menu(q))
  {
    var f := FirstGroups(q);
    var g3 := Group(q.logTotal > 0 && q.hasLastAction, [Undo]);
    var g4 := Group(q.logTotal > 0 && q.hasLastUndone, [Redo]);
    var g5 := Group(q.logTotal > 0, [CherryPick]);
    var g6 := Group(q.branches > 1, [Rebase]);
    var g7 := Group(q.branches > 1, [Bisect]);
    FirstInOrder(q);
    PushRanked(f, q.logTotal > 0 && q.hasLastAction, Undo, 0);
    PushRanked(f + g3, q.logTotal > 0 && q.hasLastUndone, Redo, 0);
    PushRanked(f + g3 + g4, q.logTotal > 0, CherryPick, 0);
    PushRanked(f + g3 + g4 + g5, q.branches > 1, Rebase, 0);
    PushRanked(f + g3 + g4 + g5 + g6, q.branches > 1, Bisect, 0);
    PushRanked(f + g3 + g4 + g5 + g6 + g7, true, Exit, 0);
    assert f + g3 + g4 + g5 + g6 + g7 + Group(true, [Exit]) == Menu(q);
    IncreasingDistinct(Rank, Menu(q));
  }

  /** Status is always first and Exit always last. */
  lemma StatusFirstExitLast(q: QuickState)
    ensures |Menu(q)| >= 5
    ensures Menu(q)[0] == Status && Menu(q)[|Menu(q)| - 1] == Exit
  {
  }

  /** Undo and Redo need commits in the log as well as, respectively, a
      recorded action or an undone one; Cherry-pick needs only commits. */
  lemma HistoryEntries(q: QuickState)
    ensures Undo in Menu(q) <==> q.logTotal > 0 && q.hasLastAction
    ensures Redo in Menu(q) <==> q.logTotal > 0 && q.hasLastUndone
    ensures CherryPick in Menu(q) <==> q.logTotal > 0
  {
    MenuMembers(q, Undo);
    MenuMembers(q, Redo);
    MenuMembers(q, CherryPick);
  }

  /** Save is offered exactly when something is staged, modified or
      untracked; Push when commits are ahead; Rebase and Bisect with more
      than one branch. */
  lemma ConditionalEntries(q: QuickState)
    ensures Save in Menu(q) <==> q.staged > 0 || q.modified > 0 || q.untracked > 0
    ensures Push in Menu(q) <==> q.ahead > 0
    ensures Rebase in Menu(q) <==> q.branches > 1
    ensures Bisect in Menu(q) <==> q.branches > 1
  {
    MenuMembers(q, Save);
    MenuMembers(q, Push);
    MenuMembers(q, Rebase);
    MenuMembers(q, Bisect);
  }
}

=== FILE: rc_editor.dfy ===
/** The interactive `.gitmatrc` editor (`bin/rc-edit.jsx`): the command
    catalogue, the command picker with its prefix filter and `save` pinned to
    the top, the list and text-input key handling, the description lookup
    and the `App` mode machine that edits the shortcut map. Key presses are
    events; rendering is left out. */
module RcEditor {
  import opened Wrappers
  import opened Strings
  import Seqs
  import Shortcuts

  datatype CommandInfo = CommandInfo(command: string, description: string)

  /** The catalogue of gitmat commands a shortcut can point at
      (rc-edit.jsx:9-164; the same list is in table-picker.jsx:6-161). */
  const Commands: seq<CommandInfo> := [
      CommandInfo("init", "Initialize a git repository"),
      CommandInfo("remote-init", "Add remote, set main branch, and push to origin main (interactive)"),
      CommandInfo("st", "Enhanced git status (banner, box, color)"),
      CommandInfo("status", "Enhanced git status (banner, box, color)"),
      CommandInfo("save", "Stage all changes and commit (default: \"savepoint\")"),
      CommandInfo("undo", "Undo last commit (with confirmation)"),
      CommandInfo("br", "Interactive branch switcher (table, create, switch)"),
      CommandInfo("branch", "Interactive branch switcher (table, create, switch)"),
      CommandInfo("del", "Delete a branch by name (with confirmation)"),
      CommandInfo("db", "Delete a branch by name (with confirmation)"),
      CommandInfo("delete-branch", "Interactively delete a branch"),
      CommandInfo("stash", "Interactive stash manager (create, list, apply, drop, view)"),
      CommandInfo("smart", "Smart contextual actions based on repo state"),
      CommandInfo("ps", "Push current branch to remote, or specify remote and branch"),
      CommandInfo("psf", "Force push (git push --force)"),
      CommandInfo("psfl", "Force push with lease (git push --force-with-lease)"),
      CommandInfo("psa", "Push all branches (git push --all origin)"),
      CommandInfo("pst", "Push all tags (git push --tags)"),
      CommandInfo("psd", "Delete remote branch (git push origin --delete <branch>)"),
      CommandInfo("unst", "Unstage a file (git reset HEAD <file>)"),
      CommandInfo("unstage", "Unstage a file (git reset HEAD <file>)"),
      CommandInfo("reha", "Hard reset to previous commit (git reset --hard HEAD~1)"),
      CommandInfo("reset-hard", "Hard reset to previous commit (git reset --hard HEAD~1)"),
      CommandInfo("rere", "Recover from bad reset (git reset --hard ORIG_HEAD)"),
      CommandInfo("reset-recover", "Recover from bad reset (git reset --hard ORIG_HEAD)"),
      CommandInfo("quick", "Quick menu for all major git actions (interactive palette)"),
      CommandInfo("cherry-pick", "Interactively cherry-pick commit(s) from any branch"),
      CommandInfo("chpi", "Interactively cherry-pick commit(s) from any branch"),
      CommandInfo("rebase", "Interactively rebase onto a branch or rebase last N commits"),
      CommandInfo("rbs", "Interactively rebase onto a branch or rebase last N commits"),
      CommandInfo("bisect", "Interactive git bisect wizard (find commit that introduced a bug)"),
      CommandInfo("bsc", "Interactive git bisect wizard (find commit that introduced a bug)"),
      CommandInfo("tag", "Interactive tag management (list, create, delete, push tags)"),
      CommandInfo("tg", "Interactive tag management (list, create, delete, push tags)"),
      CommandInfo("config", "View/set git config (user/email/alias) interactively"),
      CommandInfo("merge", "Interactive merge with conflict handling, undo/redo"),
      CommandInfo("submodule", "Manage git submodules (list, add, update, init, sync, remove)"),
      CommandInfo("reflog", "Show git reflog, checkout/reset to previous states"),
      CommandInfo("fetch", "Fetch all or specific remote, show summary, suggest next actions"),
      CommandInfo("clean", "Preview and delete untracked files, dry-run, confirm before delete"),
      CommandInfo("notes", "Add, show, edit, remove notes on commits (interactive)"),
      CommandInfo("worktree", "List, add, remove worktrees (interactive)"),
      CommandInfo("log", "Pretty, colorized, paginated git log with commit details"),
      CommandInfo("l", "Pretty, colorized, paginated git log with commit details"),
      CommandInfo("lo", "Show git log --oneline (one-line log)"),
      CommandInfo("ldi", "Show git log -p (log with diffs)")
    ]

  // ------------------------------------------------------------------- keys

  /** One key press as `useInput` reports it. `Input` is printable text with
      the state of the modifier keys. */
  datatype Key =
    | DownArrow
    | UpArrow
    | Return
    | Escape
    | Backspace
    | Delete
    | Input(text: string, ctrl: bool, meta: bool)

  /** `Math.min(s + 1, n - 1)`. */
  function MoveDown(s: int, n: nat): (r: int)
    ensures 0 <= s < n ==> 0 <= r < n
    ensures r <= s + 1 && (s + 1 < n ==> r == s + 1)
  {
    if s + 1 < n - 1 then s + 1 else n - 1
  }

  /** `Math.max(s - 1, 0)`. */
  function MoveUp(s: int): (r: int)
    ensures r >= 0
    ensures s >= 1 ==> r == s - 1
  {
    if s - 1 > 0 then s - 1 else 0
  }

  /** Starting from 0 with a non-empty list, any sequence of arrow keys keeps
      the selection on an entry. */
  lemma {:induction false} ArrowsStayInRange(moves: seq<bool>, n: nat, s: int)
    requires n >= 1 && 0 <= s < n
    ensures 0 <= Arrows(moves, n, s) < n
    decreases |moves|
  {
    if moves != [] {
      var next := if moves[0] then MoveDown(s, n) else MoveUp(s);
      assert 0 <= next < n;
      ArrowsStayInRange(moves[1..], n, next);
    }
  }

  /** The selection after the arrow keys `moves` (true: down). */
  function Arrows(moves: seq<bool>, n: nat, s: int): int
    decreases |moves|
  {
    if moves == [] then s
    else Arrows(moves[1..], n, if moves[0] then MoveDown(s, n) else MoveUp(s))
  }

  /** What a key does to a text being typed: backspace and delete drop the
      last character (`slice(0, -1)`), one printable character without
      ctrl or meta is appended, anything else leaves it. */
  function EditText(text: string, k: Key): (r: string)
    ensures (k.Backspace? || k.Delete?) ==> r == if text == [] then [] else text[..|text| - 1]
    ensures k.Input? && |k.text| == 1 && !k.ctrl && !k.meta ==> r == text + k.text
    ensures !(k.Backspace? || k.Delete? || (k.Input? && |k.text| == 1 && !k.ctrl && !k.meta)) ==> r == text
  {
    if k.Backspace? || k.Delete? then (if text == [] then [] else text[..|text| - 1])
    else if k.Input? && |k.text| == 1 && !k.ctrl && !k.meta then text + k.text
    else text
  }

  /** Typing a character and deleting it gives the text back. */
  lemma TypeThenDelete(text: string, c: char)
    ensures EditText(EditText(text, Input([c], false, false)), Backspace) == text
  {
    assert (text + [c])[..|text|] == text;
  }

  /** Whether a key changes the query (and so resets the selection). */
  predicate EditsText(k: Key)
  {
    k.Backspace? || k.Delete? || (k.Input? && |k.text| == 1 && !k.ctrl && !k.meta)
  }

  // ----------------------------------------------------------------- picker

  /** The picker's test (rc-edit.jsx:215-220): an empty query, or a command
      or description that starts with the query, ignoring ASCII case. */
  predicate PrefixMatches(c: CommandInfo, query: string)
  {
    query == ""
    || StartsWith(Lower(c.command), Lower(query))
    || StartsWith(Lower(c.description), Lower(query))
  }

  function PrefixFilter(list: seq<CommandInfo>, query: string): (r: seq<CommandInfo>)
    ensures |r| <= |list|
    ensures forall i :: 0 <= i < |r| ==> r[i] in list && PrefixMatches(r[i], query)
    ensures forall i :: 0 <= i < |list| && PrefixMatches(list[i], query) ==> list[i] in r
  {
    Seqs.Filter((c: CommandInfo) => PrefixMatches(c, query), list)
  }

  /** An empty query keeps the whole list, in order. */
  lemma EmptyQueryKeepsAll(list: seq<CommandInfo>)
    ensures PrefixFilter(list, "") == list
  {
    Seqs.FilterKeepsAll((c: CommandInfo) => PrefixMatches(c, ""), list);
  }

  predicate IsSave(c: CommandInfo)
  {
    c.command == "save"
  }

  /** The list with its first `save` moved to the front when it is not there
      already; the others keep their order (rc-edit.jsx:222-226). */
  function Pinned(filtered: seq<CommandInfo>): (r: seq<CommandInfo>)
    ensures |r| == |filtered| && multiset(r) == multiset(filtered)
    ensures (exists i :: 0 <= i < |filtered| && IsSave(filtered[i])) ==> IsSave(r[0])
    ensures (forall i :: 0 <= i < |filtered| ==> !IsSave(filtered[i])) ==> r == filtered
  {
    var idx := Seqs.FindIndex(IsSave, filtered);
    if idx.None? || idx.value == 0 then filtered
    else
      var i := idx.value;
      MoveToFront(filtered, i);
      [filtered[i]] + filtered[..i] + filtered[i + 1..]
  }

  /** Moving one element to the front keeps the same elements. */
  lemma MoveToFront<T>(s: seq<T>, i: nat)
    requires i < |s|
    ensures multiset([s[i]] + s[..i] + s[i + 1..]) == multiset(s)
  {
    assert s == s[..i] + [s[i]] + s[i + 1..];
  }

  /** `splice` the first `save` out and `unshift` it back in at the front. */
  method PinSave(filtered: seq<CommandInfo>) returns (r: seq<CommandInfo>)
    ensures r == Pinned(filtered)
    ensures forall i :: 0 <= i < |filtered| && IsSave(filtered[i]) ==> IsSave(r[0])
  {
    r := filtered;
    var saveIdx := Seqs.FindIndex(IsSave, r);
    if saveIdx.Some? && saveIdx.value > 0 {
      var saveCmd := r[saveIdx.value];
      r := r[..saveIdx.value] + r[saveIdx.value + 1..];
      r := [saveCmd] + r;
      assert [saveCmd] + (filtered[..saveIdx.value] + filtered[saveIdx.value + 1..])
          == [filtered[saveIdx.value]] + filtered[..saveIdx.value] + filtered[saveIdx.value + 1..];
    }
  }

  /** What the picker lists for a query over a catalogue. */
  function PickerList(catalogue: seq<CommandInfo>, query: string): (r: seq<CommandInfo>)
    ensures multiset(r) == multiset(PrefixFilter(catalogue, query))
  {
    Pinned(PrefixFilter(catalogue, query))
  }

  /** Whenever `save` survives the filter, it heads the picker's list. */
  lemma SaveHeadsPickerList(catalogue: seq<CommandInfo>, query: string, i: nat)
    requires i < |catalogue| && IsSave(catalogue[i]) && PrefixMatches(catalogue[i], query)
    ensures IsSave(PickerList(catalogue, query)[0])
  {
    var f := PrefixFilter(catalogue, query);
    assert catalogue[i] in f;
    var k :| 0 <= k < |f| && f[k] == catalogue[i];
    assert IsSave(f[k]);
  }

  /** What a picker reports to the editor. */
  datatype PickerEvent =
    | NoPick
    | Picked(command: string)
    | PickCancelled
    /** Enter on an empty list: `filtered[selected]` is undefined and reading
        `.command` from it throws. */
    | PickFailed

  /** The `CommandPicker` component's state (rc-edit.jsx:211-239). */
  class CommandPicker {
    const catalogue: seq<CommandInfo>
    var query: string
    var selected: int

    constructor(catalogue: seq<CommandInfo>)
      ensures this.catalogue == catalogue && query == "" && selected == 0
    {
      this.catalogue := catalogue;
      query := "";
      selected := 0;
    }

    function Filtered(): seq<CommandInfo>
      reads this
    {
      PickerList(catalogue, query)
    }

    /** The key handler: arrows clamp the selection, Enter picks the selected
        entry, Escape cancels, editing keys change the query and go back to
        the first entry. */
    method HandleKey(k: Key) returns (e: PickerEvent)
      modifies this
      ensures k.DownArrow? ==> selected == MoveDown(old(selected), |old(Filtered())|) && query == old(query)
      ensures k.UpArrow? ==> selected == MoveUp(old(selected)) && query == old(query)
      ensures k.Return? && 0 <= old(selected) < |old(Filtered())| ==> e == Picked(old(Filtered())[old(selected)].command)
      ensures k.Return? && !(0 <= old(selected) < |old(Filtered())|) ==> e == PickFailed
      ensures k.Escape? <==> e == PickCancelled
      ensures EditsText(k) ==> query == EditText(old(query), k) && selected == 0
      ensures !k.DownArrow? && !k.UpArrow? && !EditsText(k) ==> query == old(query) && selected == old(selected)
      ensures !k.Return? && !k.Escape? ==> e == NoPick
    {
      var filtered := Filtered();
      e := NoPick;
      if k.DownArrow? {
        selected := MoveDown(selected, |filtered|);
      } else if k.UpArrow? {
        selected := MoveUp(selected);
      } else if k.Return? {
        if 0 <= selected < |filtered| {
          e := Picked(filtered[selected].command);
        } else {
          e := PickFailed;
        }
      } else if k.Escape? {
        e := PickCancelled;
      } else if EditsText(k) {
        query := EditText(query, k);
        selected := 0;
      }
    }
  }

  // ----------------------------------------------------------- option lists

  datatype ListEvent = NoChoice | Chosen(index: int) | ListCancelled

  /** The arrow-key lists of `MainMenu` (4 options, no Escape),
      `PickTypeComponent` (2 options) and `RemoveShortcut` (one per key)
      (rc-edit.jsx:182-194, 299-307, 386-397). */
  class OptionList {
    const size: nat
    const cancellable: bool
    var selected: int

    constructor(size: nat, cancellable: bool)
      ensures this.size == size && this.cancellable == cancellable && selected == 0
    {
      this.size := size;
      this.cancellable := cancellable;
      selected := 0;
    }

    method HandleKey(k: Key) returns (e: ListEvent)
      modifies this
      ensures k.DownArrow? ==> selected == MoveDown(old(selected), size) && e == NoChoice
      ensures k.UpArrow? ==> selected == MoveUp(old(selected)) && e == NoChoice
      ensures k.Return? ==> e == Chosen(old(selected)) && selected == old(selected)
      ensures k.Escape? ==> e == (if cancellable then ListCancelled else NoChoice) && selected == old(selected)
      ensures size >= 1 && 0 <= old(selected) < size ==> 0 <= selected < size
    {
      e := NoChoice;
      if k.DownArrow? {
        selected := MoveDown(selected, size);
      } else if k.UpArrow? {
        selected := MoveUp(selected);
      } else if k.Return? {
        e := Chosen(selected);
      } else if k.Escape? && cancellable {
        e := ListCancelled;
      }
    }
  }

  // ------------------------------------------------------------- text input

  datatype InputEvent = NoInput | Submitted(text: string) | InputCancelled

  /** `ShortcutNameInput` and `CustomCommandInput` (rc-edit.jsx:263-297),
      which handle keys alike. */
  class LineInput {
    var text: string

    constructor()
      ensures text == ""
    {
      text := "";
    }

    /** Enter submits the trimmed text when it is not blank; Escape cancels;
        other keys edit the text. */
    method HandleKey(k: Key) returns (e: InputEvent)
      modifies this
      ensures e.Submitted? <==> k.Return? && Trim(old(text)) != ""
      ensures e.Submitted? ==> e.text == Trim(old(text)) && e.text != "" && text == old(text)
      ensures e == InputCancelled <==> k.Escape?
      ensures text == EditText(old(text), k)
    {
      e := NoInput;
      if k.Return? && Trim(text) != "" {
        e := Submitted(Trim(text));
      } else if k.Escape? {
        e := InputCancelled;
      } else {
        text := EditText(text, k);
      }
    }
  }

  // --------------------------------------------------------- description

  /** `replace(/^gmt\s+/, "")`. */
  function StripGmt(command: string): (r: string)
    ensures |r| <= |command|
  {
    if |command| > 3 && command[..3] == "gmt" && IsSpace(command[3]) then TrimStart(command[3..])
    else command
  }

  /** The word looked up for a stored command: the first space-separated
      word after an optional `gmt` prefix. */
  function BaseCommand(command: string): (r: string)
    ensures ' ' !in r && |r| <= |command|
  {
    var words := Split(StripGmt(command), ' ');
    SplitFirstShorter(StripGmt(command));
    words[0]
  }

  lemma SplitFirstShorter(s: string)
    ensures |Split(s, ' ')[0]| <= |s|
  {
    if ' ' in s {
      var k := IndexOfChar(s, ' ');
      assert Split(s, ' ')[0] == s[..k];
    }
  }

  /** The description shown beside a stored shortcut (rc-edit.jsx:314-315,
      359-360): the first catalogue entry named by the base command, or the
      empty text. */
  function DescriptionFor(command: string): (r: string)
    ensures var base := BaseCommand(command);
            (r == "" && forall i :: 0 <= i < |Commands| ==> Commands[i].command != base)
            || exists i :: 0 <= i < |Commands| && Commands[i].command == base && r == Commands[i].description
  {
    var base := BaseCommand(command);
    var named := (c: CommandInfo) => c.command == base;
    var idx := Seqs.FindIndex(named, Commands);
    if idx.None? then
      assert forall i :: 0 <= i < |Commands| ==> !named(Commands[i]);
      ""
    else
      assert named(Commands[idx.value]);
      Commands[idx.value].description
  }

  /** A shortcut stored by picking a command, `gmt <name>`, is described by
      that name, as is the bare name; so both show the same description. */
  lemma PickedShortcutBase(name: string)
    requires name != [] && forall k :: 0 <= k < |name| ==> !IsSpace(name[k])
    ensures BaseCommand("gmt " + name) == name
    ensures BaseCommand(name) == name
  {
    assert ' ' !in name;
    assert StripGmt("gmt " + name) == name by {
      var s := "gmt " + name;
      assert s[..3] == "gmt" && IsSpace(s[3]);
      assert s[3..] == " " + name;
      assert TrimStart(s[3..]) == TrimStart(name);
      assert TrimStart(name) == name;
    }
    assert StripGmt(name) == name by {
      if |name| > 3 && name[..3] == "gmt" {
        assert !IsSpace(name[3]);
      }
    }
  }

  // -------------------------------------------------------------------- app

  datatype Mode = MenuMode | InputKey | PickType | PickCmd | CustomCmd | RemoveMode | ViewMode | MessageMode

  /** What the mounted component hands to the editor. */
  datatype AppEvent =
    | MenuChosen(index: int)
    | NameSubmitted(name: string)
    | TypeChosen(index: int)
    | CommandChosen(command: string)
    | CustomSubmitted(command: string)
    | RemoveChosen(key: string)
    | Cancel
    | AnyKey

  /** The events the component of each mode can produce. */
  predicate Accepts(m: Mode, e: AppEvent)
  {
    match m
    case MenuMode => e.MenuChosen?
    case InputKey => e.NameSubmitted? || e.Cancel?
    case PickType => e.TypeChosen? || e.Cancel?
    case PickCmd => e.CommandChosen? || e.Cancel?
    case CustomCmd => e.CustomSubmitted? || e.Cancel?
    case RemoveMode => e.RemoveChosen? || e.Cancel?
    case ViewMode => e.AnyKey?
    case MessageMode => e.AnyKey?
  }

  /** The key `Enter` removes in `RemoveShortcut`: `keys[selected]`, which
      is `undefined` (so the key "undefined") off the end of the list. */
  function KeyAt(keys: seq<string>, selected: int): (r: string)
    ensures 0 <= selected < |keys| ==> r == keys[selected]
    ensures !(0 <= selected < |keys|) ==> r == "undefined"
  {
    if 0 <= selected < |keys| then keys[selected] else "undefined"
  }

  /** The `App` component (rc-edit.jsx:424-530): the mode, the shortcut map,
      the pending shortcut name and the message; `saved` is what was last
      written to `.gitmatrc`. */
  class App {
    var mode: Mode
    var shortcuts: map<string, string>
    var pendingKey: string
    var message: string
    var saved: Option<map<string, string>>
    var exited: bool

    /** The editor's own `loadShortcuts` (rc-edit.jsx:167-177) reads only the
        working directory's file. */
    constructor(file: Shortcuts.RcFile)
      ensures mode == MenuMode && shortcuts == Shortcuts.Contribution(file)
      ensures pendingKey == "" && message == "" && saved.None? && !exited
    {
      mode := MenuMode;
      shortcuts := Shortcuts.Contribution(file);
      pendingKey := "";
      message := "";
      saved := None;
      exited := false;
    }

    method Handle(e: AppEvent)
      modifies this
      requires !exited
      ensures !Accepts(old(mode), e) ==>
                mode == old(mode) && shortcuts == old(shortcuts) && pendingKey == old(pendingKey)
                && saved == old(saved) && !exited
      ensures old(mode) == MenuMode && e.MenuChosen? ==>
                shortcuts == old(shortcuts)
                && mode == (if e.index == 0 then InputKey else if e.index == 1 then RemoveMode
                            else if e.index == 2 then ViewMode else MenuMode)
                && (exited <==> !(0 <= e.index <= 2))
      ensures e.Cancel? && Accepts(old(mode), e) ==> mode == MenuMode && shortcuts == old(shortcuts)
      ensures e.AnyKey? && Accepts(old(mode), e) ==> mode == MenuMode && shortcuts == old(shortcuts)
      ensures old(mode) == InputKey && e.NameSubmitted? ==>
                shortcuts == old(shortcuts)
                && (Trim(e.name) == "" ==> mode == InputKey && pendingKey == old(pendingKey))
                && (Trim(e.name) != "" ==> mode == PickType && pendingKey == Trim(e.name))
      ensures old(mode) == PickType && e.TypeChosen? ==>
                shortcuts == old(shortcuts) && mode == (if e.index == 0 then PickCmd else CustomCmd)
      ensures old(mode) == PickCmd && e.CommandChosen? ==>
                shortcuts == old(shortcuts)[old(pendingKey) := "gmt " + e.command]
                && saved == Some(shortcuts) && mode == MessageMode
      ensures old(mode) == CustomCmd && e.CustomSubmitted? ==>
                shortcuts == old(shortcuts)[old(pendingKey) := e.command]
                && saved == Some(shortcuts) && mode == MessageMode
      ensures old(mode) == RemoveMode && e.RemoveChosen? ==>
                shortcuts == old(shortcuts) - {e.key} && saved == Some(shortcuts) && mode == MessageMode
      ensures forall k :: k != old(pendingKey) && !(e.RemoveChosen? && k == e.key) ==>
                (k in shortcuts <==> k in old(shortcuts)) && (k in shortcuts ==> shortcuts[k] == old(shortcuts)[k])
    {
      if !Accepts(mode, e) {
        return;
      }
      match e
      case CommandChosen(command) =>
        Store("gmt " + command);
      case CustomSubmitted(command) =>
        Store(command);
      case RemoveChosen(key) =>
        Remove(key);
      case MenuChosen(index) =>
        ChooseMenu(index);
      case NameSubmitted(name) =>
        SubmitName(name);
      case TypeChosen(index) =>
        mode := if index == 0 then PickCmd else CustomCmd;
      case Cancel =>
        mode := MenuMode;
      case AnyKey =>
        mode := MenuMode;
    }

    /** `handleMenu` (rc-edit.jsx:440-445): open the chosen mode, or exit. */
    method ChooseMenu(index: int)
      modifies this
      ensures mode == (if index == 0 then InputKey else if index == 1 then RemoveMode
                       else if index == 2 then ViewMode else old(mode))
      ensures exited <==> old(exited) || !(0 <= index <= 2)
      ensures shortcuts == old(shortcuts) && saved == old(saved) && pendingKey == old(pendingKey)
    {
      if index == 0 {
        mode := InputKey;
      } else if index == 1 {
        mode := RemoveMode;
      } else if index == 2 {
        mode := ViewMode;
      } else {
        exited := true;
      }
    }

    /** `handleKeyInput` (rc-edit.jsx:448-452): a blank name is ignored;
        otherwise the trimmed name is kept and the type is asked next. */
    method SubmitName(name: string)
      modifies this
      ensures Trim(name) == "" ==> mode == old(mode) && pendingKey == old(pendingKey)
      ensures Trim(name) != "" ==> mode == PickType && pendingKey == Trim(name)
      ensures shortcuts == old(shortcuts) && saved == old(saved) && exited == old(exited)
    {
      var trimmed := Trim(name);
      if |trimmed| > 0 {
        pendingKey := trimmed;
        mode := PickType;
      }
    }

    /** `handlePickCmd` and `handleCustomCmd` (rc-edit.jsx:457-474): store
        the command under the pending name, save, and show the message. */
    method Store(command: string)
      modifies this
      ensures shortcuts == old(shortcuts)[old(pendingKey) := command]
      ensures saved == Some(shortcuts) && mode == MessageMode
      ensures pendingKey == old(pendingKey) && exited == old(exited)
      ensures message == "✔ Shortcut '" + pendingKey + "' set to: " + command
    {
      shortcuts := shortcuts[pendingKey := command];
      saved := Some(shortcuts);
      message := "✔ Shortcut '" + pendingKey + "' set to: " + command;
      mode := MessageMode;
    }

    /** `handleRemove` (rc-edit.jsx:475-484): delete one key, save, and show
        the message. */
    method Remove(key: string)
      modifies this
      ensures shortcuts == old(shortcuts) - {key}
      ensures saved == Some(shortcuts) && mode == MessageMode
      ensures pendingKey == old(pendingKey) && exited == old(exited)
      ensures message == "✔ Shortcut '" + key + "' removed."
    {
      shortcuts := shortcuts - {key};
      saved := Some(shortcuts);
      message := "✔ Shortcut '" + key + "' removed.";
      mode := MessageMode;
    }
  }
}

=== FILE: rc_launcher.dfy ===
/** Launching the shortcut editor (`src/commands/rc-edit.js`): quote the
    paths that need it, prefer the package's own `tsx` binary, and run
    `tsx <rc-edit.jsx>` in a shell. Directories are component paths as in
    `RepoRoot`; the text of a path is its POSIX spelling. Whether a file
    exists is an oracle. */
module RcLauncher {
  import opened Wrappers
  import opened Strings
  import opened RepoRoot
  import Shortcuts

  predicate AlreadyQuoted(p: string)
  {
    StartsWith(p, "\"") && EndsWith(p, "\"")
  }

  /** `quoteIfNeeded` (rc-edit.js:7-11): a path already between double
      quotes is kept; otherwise one containing a space is wrapped in double
      quotes and any other is kept. */
  function QuoteIfNeeded(p: string): (r: string)
    ensures AlreadyQuoted(p) ==> r == p
    ensures !AlreadyQuoted(p) ==> (r == "\"" + p + "\"" <==> ' ' in p)
    ensures !AlreadyQuoted(p) ==> (r == p <==> ' ' !in p)
    ensures ' ' !in r || AlreadyQuoted(r)
  {
    if AlreadyQuoted(p) then p
    else if ' ' in p then "\"" + p + "\""
    else p
  }

  /** Quoting twice is quoting once. */
  lemma QuoteIfNeededIdempotent(p: string)
    ensures QuoteIfNeeded(QuoteIfNeeded(p)) == QuoteIfNeeded(p)
  {
    var q := QuoteIfNeeded(p);
    if !AlreadyQuoted(p) && ' ' in p {
      assert q[..1] == "\"" && q[|q| - 1..] == "\"";
    }
  }

  /** A path that was quoted comes back by dropping the first and last
      characters. */
  lemma QuotedPathRecoverable(p: string)
    requires !AlreadyQuoted(p) && ' ' in p
    ensures var q := QuoteIfNeeded(p); |q| == |p| + 2 && q[1..|q| - 1] == p
  {
  }

  /** The POSIX text of a path: "/" then the components joined by "/". */
  function PathText(p: Path): (t: string)
    ensures |t| >= 1 && t[0] == '/'
  {
    "/" + Join(p, "/")
  }

  /** The local binary's file name: `tsx`, with `.cmd` on win32. */
  function TsxName(isWin: bool): string
  {
    if isWin then "tsx.cmd" else "tsx"
  }

  /** `path.resolve(__dirname, "../../node_modules/.bin/tsx[.cmd]")`. */
  function LocalTsx(dir: Path, isWin: bool): (p: Path)
    requires Normal(dir)
    ensures Normal(p)
  {
    Resolve(dir, ["..", "..", "node_modules", ".bin", TsxName(isWin)])
  }

  /** `path.resolve(__dirname, "../../bin/rc-edit.jsx")`. */
  function RcEditPath(dir: Path): (p: Path)
    requires Normal(dir)
    ensures Normal(p)
  {
    Resolve(dir, ["..", "..", "bin", "rc-edit.jsx"])
  }

  /** Going up two levels from a directory at least two deep drops its last
      two components; the binary then sits in `node_modules/.bin` there. */
  lemma LocalTsxLocation(dir: Path, isWin: bool)
    requires Normal(dir) && |dir| >= 2
    ensures LocalTsx(dir, isWin) == dir[..|dir| - 2] + ["node_modules", ".bin", TsxName(isWin)]
    ensures RcEditPath(dir) == dir[..|dir| - 2] + ["bin", "rc-edit.jsx"]
  {
    var up := dir[..|dir| - 2];
    assert dir[..|dir| - 1][..|dir| - 2] == up;
    var tail1 := ["node_modules", ".bin", TsxName(isWin)];
    var tail2 := ["bin", "rc-edit.jsx"];
    assert Resolve(dir, ["..", ".."] + tail1) == Resolve(up, tail1) by {
      assert (["..", ".."] + tail1)[1..] == [".."] + tail1;
      assert ([".."] + tail1)[1..] == tail1;
    }
    assert Resolve(dir, ["..", ".."] + tail2) == Resolve(up, tail2) by {
      assert (["..", ".."] + tail2)[1..] == [".."] + tail2;
      assert ([".."] + tail2)[1..] == tail2;
    }
    assert ["..", ".."] + tail1 == ["..", "..", "node_modules", ".bin", TsxName(isWin)];
    assert ["..", ".."] + tail2 == ["..", "..", "bin", "rc-edit.jsx"];
    ResolveNormal(up, tail1);
    ResolveNormal(up, tail2);
  }

  /** `findTsxBin` (rc-edit.js:13-24): the quoted local binary when it
      exists, otherwise the `tsx` found on the search path. */
  function FindTsxBin(dir: Path, isWin: bool, fileExists: Path -> bool): (r: string)
    requires Normal(dir)
    ensures fileExists(LocalTsx(dir, isWin)) ==> r == QuoteIfNeeded(PathText(LocalTsx(dir, isWin)))
    ensures !fileExists(LocalTsx(dir, isWin)) ==> r == "tsx"
    ensures ' ' !in r || AlreadyQuoted(r)
  {
    var local := LocalTsx(dir, isWin);
    if fileExists(local) then QuoteIfNeeded(PathText(local)) else "tsx"
  }

  /** The shell command of `rcEdit` (rc-edit.js:26-33): the binary, one
      space, then the quoted path of `rc-edit.jsx`. */
  function RcEditCommand(dir: Path, isWin: bool, fileExists: Path -> bool): (cmd: string)
    requires Normal(dir)
    ensures StartsWith(cmd, FindTsxBin(dir, isWin, fileExists))
    ensures |cmd| > |FindTsxBin(dir, isWin, fileExists)| && cmd[|FindTsxBin(dir, isWin, fileExists)|] == ' '
    ensures EndsWith(cmd, QuoteIfNeeded(PathText(RcEditPath(dir))))
  {
    var bin := FindTsxBin(dir, isWin, fileExists);
    var path := QuoteIfNeeded(PathText(RcEditPath(dir)));
    var cmd := bin + " " + path;
    assert cmd[..|bin|] == bin;
    assert cmd[|cmd| - |path|..] == path;
    cmd
  }

  /** What `rcEdit` (`rc-edit.js:26-41`) does: the shell command it spawns,
      and the code the process exits with once the editor has ended with
      `status` (`None` when it was killed by a signal). */
  datatype EditorRun = EditorRun(command: string, exitCode: int)

  /** `spawnSync(cmd, { shell: true })` then `process.exit(result.status || 0)`:
      the launcher exits with the editor's own status, and with 0 when the
      editor succeeded or has no status. */
  function RcEdit(dir: Path, isWin: bool, fileExists: Path -> bool, status: Option<int>): (r: EditorRun)
    requires Normal(dir)
    ensures r.command == RcEditCommand(dir, isWin, fileExists)
    ensures status.Some? ==> r.exitCode == status.value
    ensures r.exitCode == 0 <==> status.None? || status.value == 0
  {
    EditorRun(RcEditCommand(dir, isWin, fileExists), Shortcuts.ExitStatus(status))
  }

  /** Every component of a resolved path comes from the base or the parts. */
  lemma {:induction false} ResolveComponents(base: Path, parts: seq<string>)
    requires Normal(base)
    ensures forall i :: 0 <= i < |Resolve(base, parts)| ==>
              Resolve(base, parts)[i] in base || Resolve(base, parts)[i] in parts
    decreases |parts|
  {
    if parts != [] {
      var p := parts[0];
      var next := if p == "" || p == "." then base
                  else if p == ".." then (if base == [] then [] else base[..|base| - 1])
                  else base + [p];
      ResolveComponents(next, parts[1..]);
      forall i | 0 <= i < |Resolve(base, parts)|
        ensures Resolve(base, parts)[i] in base || Resolve(base, parts)[i] in parts
      {
        var x := Resolve(base, parts)[i];
        assert x in next || x in parts[1..];
        if x in next && p != "" && p != "." && p != ".." && x !in base {
          assert x == p;
        }
      }
    }
  }

  /** A join of space-free parts with a space-free separator has no space. */
  lemma {:induction false} JoinNoSpace(parts: seq<string>, sep: string)
    requires ' ' !in sep
    requires forall i :: 0 <= i < |parts| ==> ' ' !in parts[i]
    ensures ' ' !in Join(parts, sep)
    decreases |parts|
  {
    if |parts| > 1 {
      JoinNoSpace(parts[1..], sep);
    }
  }

  lemma PathTextNoSpace(base: Path, parts: seq<string>)
    requires Normal(base)
    requires forall i :: 0 <= i < |base| ==> ' ' !in base[i]
    requires forall i :: 0 <= i < |parts| ==> ' ' !in parts[i]
    ensures ' ' !in PathText(Resolve(base, parts))
  {
    var r := Resolve(base, parts);
    ResolveComponents(base, parts);
    forall i | 0 <= i < |r|
      ensures ' ' !in r[i]
    {
      assert r[i] in base || r[i] in parts;
    }
    JoinNoSpace(r, "/");
  }

  /** With no space in the directory, the binary has no space either. */
  lemma BinHasNoSpace(dir: Path, isWin: bool, fileExists: Path -> bool)
    requires Normal(dir)
    requires forall i :: 0 <= i < |dir| ==> ' ' !in dir[i]
    ensures ' ' !in FindTsxBin(dir, isWin, fileExists)
  {
    var parts := ["..", "..", "node_modules", ".bin", TsxName(isWin)];
    assert forall i :: 0 <= i < |parts| ==> ' ' !in parts[i];
    PathTextNoSpace(dir, parts);
  }

  /** With no space in the directory, the path of `rc-edit.jsx` has none. */
  lemma RcEditPathHasNoSpace(dir: Path)
    requires Normal(dir)
    requires forall i :: 0 <= i < |dir| ==> ' ' !in dir[i]
    ensures ' ' !in PathText(RcEditPath(dir))
  {
    var parts := ["..", "..", "bin", "rc-edit.jsx"];
    assert forall i :: 0 <= i < |parts| ==> ' ' !in parts[i];
    PathTextNoSpace(dir, parts);
  }

  /** With no space anywhere in the directory, the shell splits the command
      into exactly two words: the binary and the `rc-edit.jsx` path. */
  lemma CommandHasTwoWords(dir: Path, isWin: bool, fileExists: Path -> bool)
    requires Normal(dir)
    requires forall i :: 0 <= i < |dir| ==> ' ' !in dir[i]
    ensures Split(RcEditCommand(dir, isWin, fileExists), ' ') ==
              [FindTsxBin(dir, isWin, fileExists), PathText(RcEditPath(dir))]
  {
    var bin := FindTsxBin(dir, isWin, fileExists);
    var path := PathText(RcEditPath(dir));
    BinHasNoSpace(dir, isWin, fileExists);
    RcEditPathHasNoSpace(dir);
    assert RcEditCommand(dir, isWin, fileExists) == bin + [' '] + path;
    SplitAround(bin, path, ' ');
    assert Split(bin, ' ') == [bin] && Split(path, ' ') == [path];
  }
}

=== FILE: reflog.dfy ===
/** The reflog browser (`src/commands/reflog.js`): one entry per line of
    `git reflog`, each matched against
    `/([a-f0-9]{7,})\s+\(([^)]+)\)\s(.+)/`, shown 15 to a page, with checkout
    and hard reset to a chosen entry. */
module Reflog {
  import opened Wrappers
  import opened Strings
  import opened Paging

  datatype ReflogEntry = ReflogEntry(idx: nat, hash: Option<string>, ref: Option<string>, msg: string, raw: string)

  // ------------------------------------------------------------ the regex
  //
  // Every part of the pattern is a greedy run of one character class followed
  // by a character outside that class, so matching from a given start never
  // needs to backtrack: each run is maximal, and a shorter run would leave a
  // character of the class where the next part needs another one.

  function HexRun(s: string, i: nat): (k: nat)
    requires i <= |s|
    ensures i + k <= |s|
    ensures forall j :: i <= j < i + k ==> IsLowerHex(s[j])
    ensures i + k == |s| || !IsLowerHex(s[i + k])
    decreases |s| - i
  {
    if i < |s| && IsLowerHex(s[i]) then 1 + HexRun(s, i + 1) else 0
  }

  function SpaceRun(s: string, i: nat): (k: nat)
    requires i <= |s|
    ensures i + k <= |s|
    ensures forall j :: i <= j < i + k ==> IsSpace(s[j])
    ensures i + k == |s| || !IsSpace(s[i + k])
    decreases |s| - i
  {
    if i < |s| && IsSpace(s[i]) then 1 + SpaceRun(s, i + 1) else 0
  }

  /** `[^)]*` from `i`. */
  function OpenRun(s: string, i: nat): (k: nat)
    requires i <= |s|
    ensures i + k <= |s|
    ensures forall j :: i <= j < i + k ==> s[j] != ')'
    ensures i + k == |s| || s[i + k] == ')'
    decreases |s| - i
  {
    if i < |s| && s[i] != ')' then 1 + OpenRun(s, i + 1) else 0
  }

  /** The three capture groups. */
  datatype Captures = Captures(hash: string, ref: string, msg: string)

  /** The match that starts at index `i`, if there is one: `[a-f0-9]{7,}`,
      then `\s+` and `\(`, and the rest as `RestMatch` reads it. */
  function MatchAt(s: string, i: nat): (m: Option<Captures>)
    requires i <= |s|
    ensures m.Some? ==> |m.value.hash| >= 7 && forall j :: 0 <= j < |m.value.hash| ==> IsLowerHex(m.value.hash[j])
    ensures m.Some? ==> m.value.ref != "" && m.value.msg != ""
  {
    var h := HexRun(s, i);
    var j := i + h;
    var w := SpaceRun(s, j);
    var k := j + w;
    if h < 7 || w == 0 || k >= |s| || s[k] != '(' then None
    else RestMatch(s, i, j, k)
  }

  /** The match once `s[i..j]` is the hash and `s[k]` the `(`: `[^)]+`,
      `\)`, one white-space character, then `.+`. */
  function RestMatch(s: string, i: nat, j: nat, k: nat): (m: Option<Captures>)
    requires i <= j <= k < |s|
    ensures m.Some? ==> m.value.hash == s[i..j] && m.value.ref != "" && m.value.msg != ""
  {
    var r := OpenRun(s, k + 1);
    var m := k + 1 + r;
    if r == 0 || m >= |s| || m + 1 >= |s| || !IsSpace(s[m + 1]) then None
    else
      var t := LineRun(s, m + 2);
      if t == 0 then None
      else
        Some(Captures(s[i..j], s[k + 1..m], s[m + 2..m + 2 + t]))
  }

  /** Where `line.match(...)` finds its match: the leftmost start at or
      after index `i` from which the pattern matches. */
  function Search(s: string, i: nat): (p: Option<nat>)
    requires i <= |s|
    ensures p.Some? ==> i <= p.value <= |s| && MatchAt(s, p.value).Some?
    ensures p.Some? ==> forall q :: i <= q < p.value ==> MatchAt(s, q).None?
    ensures p.None? ==> forall q :: i <= q <= |s| ==> MatchAt(s, q).None?
    decreases |s| - i
  {
    if MatchAt(s, i).Some? then Some(i)
    else if i < |s| then Search(s, i + 1)
    else None
  }

  /** One entry (reflog.js:30-36): the captures when the line matches,
      otherwise no hash or ref and the whole line as the message. */
  function ParseLine(idx: nat, line: string): (e: ReflogEntry)
    ensures e.idx == idx && e.raw == line
    ensures e.hash.Some? <==> e.ref.Some?
    ensures e.hash.None? <==> forall q :: 0 <= q <= |line| ==> MatchAt(line, q).None?
    ensures e.hash.None? ==> e.msg == line
    ensures e.hash.Some? ==> |e.hash.value| >= 7 && e.msg != ""
  {
    match Search(line, 0)
    case Some(p) =>
      var c := MatchAt(line, p).value;
      ReflogEntry(idx, Some(c.hash), Some(c.ref), c.msg, line)
    case None => ReflogEntry(idx, None, None, line, line)
  }

  /** `reflog.trim().split("\n").map(...)` (reflog.js:27-37): one entry per
      line, numbered by position. */
  function Entries(output: string): (es: seq<ReflogEntry>)
    ensures |es| == |Split(Trim(output), '\n')| && |es| >= 1
    ensures forall i :: 0 <= i < |es| ==> es[i] == ParseLine(i, Split(Trim(output), '\n')[i])
  {
    var lines := Split(Trim(output), '\n');
    seq(|lines|, i requires 0 <= i < |lines| => ParseLine(i, lines[i]))
  }

  /** A line with no `(` never matches, whatever it looks like. Plain
      `git reflog` output, which is not decorated when it is not written to a
      terminal, has no parenthesised ref, so its entries carry no hash. */
  lemma NoParenthesisNoHash(idx: nat, line: string)
    requires '(' !in line
    ensures ParseLine(idx, line) == ReflogEntry(idx, None, None, line, line)
  {
    forall q | 0 <= q <= |line|
      ensures MatchAt(line, q).None?
    {
      var k := q + HexRun(line, q) + SpaceRun(line, q + HexRun(line, q));
      if k < |line| {
        assert line[k] in line;
      }
    }
  }

  /** A decorated line `<hash> (<ref>) <message>` yields its three parts. */
  lemma DecoratedLine(idx: nat, hash: string, ref: string, msg: string)
    requires |hash| >= 7 && forall j :: 0 <= j < |hash| ==> IsLowerHex(hash[j])
    requires ref != "" && ')' !in ref
    requires msg != "" && forall j :: 0 <= j < |msg| ==> !IsLineTerminator(msg[j])
    ensures var line := hash + " (" + ref + ") " + msg;
      ParseLine(idx, line) == ReflogEntry(idx, Some(hash), Some(ref), msg, line)
  {
    var line := hash + " (" + ref + ") " + msg;
    DecoratedMatch(hash, ref, msg);
    assert Search(line, 0) == Some(0);
  }

  lemma DecoratedMatch(hash: string, ref: string, msg: string)
    requires |hash| >= 7 && forall j :: 0 <= j < |hash| ==> IsLowerHex(hash[j])
    requires ref != "" && ')' !in ref
    requires msg != "" && forall j :: 0 <= j < |msg| ==> !IsLineTerminator(msg[j])
    ensures var line := hash + " (" + ref + ") " + msg;
      MatchAt(line, 0) == Some(Captures(hash, ref, msg))
  {
    var line := hash + " (" + ref + ") " + msg;
    DecoratedRuns(hash, ref, msg);
    DecoratedLayout(hash, ref, msg);
    MatchOfRuns(line, |hash|, |ref|, |msg|);
  }

  /** The runs of `line` are those of `<hash> (<ref>) <msg>` with parts of
      `h`, `r` and `t` characters. */
  predicate RunsOf(line: string, h: nat, r: nat, t: nat)
  {
    h >= 7 && r >= 1 && t >= 1 && |line| == h + 4 + r + t
    && HexRun(line, 0) == h && SpaceRun(line, h) == 1 && line[h + 1] == '('
    && OpenRun(line, h + 2) == r && IsSpace(line[h + 3 + r]) && LineRun(line, h + 4 + r) == t
  }

  /** A line with those runs matches at its start, capturing the three
      parts. */
  lemma MatchOfRuns(line: string, h: nat, r: nat, t: nat)
    requires RunsOf(line, h, r, t)
    ensures MatchAt(line, 0) == Some(Captures(line[0..h], line[h + 2..h + 2 + r], line[h + 4 + r..h + 4 + r + t]))
  {
    HeadFromRuns(line, h);
    RestFromRuns(line, h, r, t);
  }

  /** Where the runs of a decorated line end. */
  lemma DecoratedRuns(hash: string, ref: string, msg: string)
    requires |hash| >= 7 && forall j :: 0 <= j < |hash| ==> IsLowerHex(hash[j])
    requires ref != "" && ')' !in ref
    requires msg != "" && forall j :: 0 <= j < |msg| ==> !IsLineTerminator(msg[j])
    ensures var line := hash + " (" + ref + ") " + msg;
      RunsOf(line, |hash|, |ref|, |msg|)
  {
    DecoratedLayout(hash, ref, msg);
    RunsOfLayout(hash + " (" + ref + ") " + msg, hash, ref, msg);
  }

  /** `line` is `<hash> (<ref>) <msg>`, character by character. */
  predicate LaidOut(line: string, hash: string, ref: string, msg: string)
  {
    var h := |hash|;
    var m := h + 2 + |ref|;
    |line| == m + 2 + |msg|
    && line[h] == ' ' && line[h + 1] == '(' && line[m] == ')' && line[m + 1] == ' '
    && (forall j :: 0 <= j < h ==> line[j] == hash[j])
    && (forall x :: h + 2 <= x < m ==> line[x] != ')')
    && (forall x :: m + 2 <= x < |line| ==> line[x] == msg[x - m - 2])
  }

  /** The runs of a line laid out that way. */
  lemma RunsOfLayout(line: string, hash: string, ref: string, msg: string)
    requires |hash| >= 7 && forall j :: 0 <= j < |hash| ==> IsLowerHex(hash[j])
    requires ref != ""
    requires msg != "" && forall j :: 0 <= j < |msg| ==> !IsLineTerminator(msg[j])
    requires LaidOut(line, hash, ref, msg)
    ensures RunsOf(line, |hash|, |ref|, |msg|)
  {
    HashRunOfLayout(line, hash, ref, msg);
    RefRunOfLayout(line, hash, ref, msg);
    MsgRunOfLayout(line, hash, ref, msg);
  }

  /** The hash run of a laid-out line, and the single space after it. */
  lemma HashRunOfLayout(line: string, hash: string, ref: string, msg: string)
    requires forall j :: 0 <= j < |hash| ==> IsLowerHex(hash[j])
    requires LaidOut(line, hash, ref, msg)
    ensures HexRun(line, 0) == |hash| && SpaceRun(line, |hash|) == 1
  {
    RunOfHex(line, 0, |hash|);
    assert SpaceRun(line, |hash| + 1) == 0;
  }

  /** The ref run of a laid-out line. */
  lemma RefRunOfLayout(line: string, hash: string, ref: string, msg: string)
    requires LaidOut(line, hash, ref, msg)
    ensures OpenRun(line, |hash| + 2) == |ref|
  {
    RunOfOpen(line, |hash| + 2, |ref|);
  }

  /** The message run of a laid-out line. */
  lemma MsgRunOfLayout(line: string, hash: string, ref: string, msg: string)
    requires forall j :: 0 <= j < |msg| ==> !IsLineTerminator(msg[j])
    requires LaidOut(line, hash, ref, msg)
    ensures LineRun(line, |hash| + 4 + |ref|) == |msg|
  {
    LineRunToEnd(line, |hash| + 4 + |ref|);
  }

  /** The characters of a decorated line, part by part. */
  lemma DecoratedLayout(hash: string, ref: string, msg: string)
    requires ')' !in ref
    ensures var line := hash + " (" + ref + ") " + msg;
      var h := |hash|;
      var m := h + 2 + |ref|;
      && LaidOut(line, hash, ref, msg)
      && line[0..h] == hash && line[h + 2..m] == ref && line[m + 2..m + 2 + |msg|] == msg
  {
    var tail := " (" + ref + ") " + msg;
    TailParts(ref, msg);
    var line := hash + tail;
    assert hash + " (" + ref + ") " + msg == line;
    var h := |hash|;
    var m := h + 2 + |ref|;
    assert line[..h] == hash;
    assert line[h..] == tail;
    forall x | h + 2 <= x < m
      ensures line[x] == ref[x - h - 2]
    {
      assert line[x] == tail[x - h] == tail[2..2 + |ref|][x - h - 2];
    }
    forall x | m + 2 <= x < |line|
      ensures line[x] == msg[x - m - 2]
    {
      assert line[x] == tail[x - h] == tail[4 + |ref|..][x - m - 2];
    }
    assert line[h + 2..m] == ref;
    assert line[m + 2..] == msg;
  }

  /** The decoration after the hash: ` (`, the ref names, `) `, the message. */
  lemma TailParts(ref: string, msg: string)
    ensures var tail := " (" + ref + ") " + msg;
      && |tail| == |ref| + 4 + |msg|
      && tail[0] == ' ' && tail[1] == '(' && tail[2 + |ref|] == ')' && tail[3 + |ref|] == ' '
      && tail[2..2 + |ref|] == ref && tail[4 + |ref|..] == msg
  {
    var tail := " (" + ref + ") " + msg;
    assert tail == (" (" + ref) + (") " + msg);
    assert (" (" + ref)[2..] == ref;
    assert (") " + msg)[2..] == msg;
  }


  /** Hash, white space and `(` found, the rest of the match decides. */
  lemma HeadFromRuns(s: string, h: nat)
    requires h + 1 < |s| && HexRun(s, 0) == h >= 7 && SpaceRun(s, h) == 1 && s[h + 1] == '('
    ensures MatchAt(s, 0) == RestMatch(s, 0, h, h + 1)
  {
  }

  /** The ref, `)`, a white-space character and a message found, the match
      captures them. */
  lemma RestFromRuns(s: string, h: nat, r: nat, t: nat)
    requires |s| == h + 4 + r + t && r >= 1 && t >= 1
    requires OpenRun(s, h + 2) == r && IsSpace(s[h + 3 + r]) && LineRun(s, h + 4 + r) == t
    ensures RestMatch(s, 0, h, h + 1) == Some(Captures(s[0..h], s[h + 2..h + 2 + r], s[h + 4 + r..h + 4 + r + t]))
  {
  }

  lemma {:induction false} RunOfHex(s: string, i: nat, n: nat)
    requires i + n <= |s| && (forall j :: i <= j < i + n ==> IsLowerHex(s[j]))
    requires i + n == |s| || !IsLowerHex(s[i + n])
    ensures HexRun(s, i) == n
    decreases n
  {
    if n > 0 {
      RunOfHex(s, i + 1, n - 1);
    }
  }

  lemma {:induction false} RunOfOpen(s: string, i: nat, n: nat)
    requires i + n <= |s| && (forall j :: i <= j < i + n ==> s[j] != ')')
    requires i + n == |s| || s[i + n] == ')'
    ensures OpenRun(s, i) == n
    decreases n
  {
    if n > 0 {
      RunOfOpen(s, i + 1, n - 1);
    }
  }

  // ---------------------------------------------------- choosing an entry

  /** `Number(v)` for the answers the prompt can receive: surrounding white
      space is ignored, the empty text is 0, and an optionally signed run of
      decimal digits is its value; anything else is NaN (`None`). */
  function ToNumber(v: string): (r: Option<int>)
    ensures Trim(v) == "" ==> r == Some(0)
  {
    var t := Trim(v);
    if t == "" then Some(0)
    else
      var signed := t[0] == '-' || t[0] == '+';
      var body := if signed then t[1..] else t;
      if body == "" || !AllDigits(body) then None
      else if t[0] == '-' then Some(-(DigitsValue(body) as int))
      else Some(DigitsValue(body))
  }

  /** The prompt's `validate` as written (reflog.js:93):
      `!isNaN(v) && v >= 0 && v < entries.length`, which converts with
      `Number`. */
  predicate AcceptAsWritten(v: string, n: nat)
  {
    ToNumber(v).Some? && 0 <= ToNumber(v).value < n
  }

  /** `entries[parseInt(idx, 10)]` (reflog.js:96); `None` is `undefined`. */
  function Lookup(es: seq<ReflogEntry>, v: string): (r: Option<ReflogEntry>)
    ensures r.Some? <==> ParseInt(v).Some? && 0 <= ParseInt(v).value < |es|
    ensures r.Some? ==> r.value == es[ParseInt(v).value]
  {
    var k := ParseInt(v);
    if k.Some? && 0 <= k.value < |es| then Some(es[k.value]) else None
  }

  /** An empty or blank answer passes the written check, since `Number`
      reads it as 0, but `parseInt` reads it as NaN: the lookup finds
      nothing and reading `entry.hash` then throws. */
  lemma BlankAnswerAcceptedButMissing(es: seq<ReflogEntry>, v: string)
    requires |es| >= 1
    requires forall i :: 0 <= i < |v| ==> IsSpace(v[i])
    ensures AcceptAsWritten(v, |es|)
    ensures Lookup(es, v).None?
  {
    assert Trim(v) == [];
    var t := TrimStart(v);
    assert DigitRun(t, 0) == 0;
  }

  /** The check evidently intended: the answer must name an entry under the
      same reading the lookup uses. */
  predicate AcceptEntry(v: string, n: nat)
  {
    ParseInt(v).Some? && 0 <= ParseInt(v).value < n
  }

  /** An accepted answer always finds its entry, and every entry number, as
      printed in the list, is accepted and finds that entry. */
  lemma AcceptedAnswerFindsEntry(es: seq<ReflogEntry>, v: string, k: nat)
    ensures AcceptEntry(v, |es|) <==> Lookup(es, v).Some?
    ensures k < |es| ==> AcceptEntry(NatToString(k), |es|) && Lookup(es, NatToString(k)) == Some(es[k])
  {
    ParseIntNatToString(k);
  }

  // ------------------------------------------------------------ browsing

  const PageSize := 15

  datatype EntryAction = Checkout | HardReset

  /** One answer to the navigation prompt; an entry action carries the
      entry number typed at the follow-up prompt. */
  datatype Answer = Move(nav: Nav) | Act(action: EntryAction, text: string)

  datatype Outcome =
    | Exited
    | CheckedOut(hash: string)
    | ResetTo(hash: string)
    /** `entries[parseInt(idx, 10)]` was `undefined`, so reading its `hash`
        threw and the command ended with that error. */
    | Crashed
    /** The answers given so far did not end the loop. */
    | Pending

  /** How the entry number is checked before the lookup: as written
      (reflog.js:93, which converts with `Number`), or as evidently intended
      (the reading the lookup itself uses). */
  datatype EntryCheck = AsWritten | Corrected

  predicate Accepts(check: EntryCheck, v: string, n: nat)
  {
    match check
    case AsWritten => AcceptAsWritten(v, n)
    case Corrected => AcceptEntry(v, n)
  }

  /** How one answer ends the loop, or `Pending` when it does not
      (reflog.js:85-131). A text the check refuses is asked for again, so it
      changes nothing. */
  function Ending(es: seq<ReflogEntry>, check: EntryCheck, a: Answer): (o: Outcome)
    ensures a.Move? && a.nav != Leave ==> o.Pending?
    ensures o.CheckedOut? || o.ResetTo? || o.Crashed? ==> a.Act? && Accepts(check, a.text, |es|)
  {
    match a
    case Move(nav) => if nav == Leave then Exited else Pending
    case Act(action, text) =>
      if !Accepts(check, text, |es|) then Pending
      else match Lookup(es, text)
        case None => Crashed
        case Some(entry) =>
          if entry.hash.None? then Pending
          else if action.Checkout? then CheckedOut(entry.hash.value)
          else ResetTo(entry.hash.value)
  }

  /** An answer that leaves the loop running: not "Exit", and no accepted
      entry number that is either missing or names an entry with a hash. */
  predicate KeepsGoing(es: seq<ReflogEntry>, check: EntryCheck, a: Answer)
  {
    && a != Move(Leave)
    && (a.Act? && Accepts(check, a.text, |es|) ==>
          Lookup(es, a.text).Some? && Lookup(es, a.text).value.hash.None?)
  }

  /** An accepted entry number naming an entry without a hash: "Invalid
      entry." is shown and the loop goes on (reflog.js:97-106). */
  predicate Invalid(es: seq<ReflogEntry>, check: EntryCheck, a: Answer)
  {
    a.Act? && Accepts(check, a.text, |es|) && Lookup(es, a.text).Some? && Lookup(es, a.text).value.hash.None?
  }

  /** `h` is the hash of one of the entries. */
  predicate HashOfEntry(es: seq<ReflogEntry>, h: string)
  {
    exists k :: 0 <= k < |es| && es[k].hash == Some(h)
  }

  /** The loop ends on Exit, on checkout or reset of a listed entry's hash,
      and on a missing entry; it goes on for exactly the other answers. */
  lemma EndingShape(es: seq<ReflogEntry>, check: EntryCheck, a: Answer)
    ensures Ending(es, check, a).Pending? <==> KeepsGoing(es, check, a)
    ensures Ending(es, check, a).Exited? <==> a == Move(Leave)
    ensures Ending(es, check, a).Crashed? <==> a.Act? && Accepts(check, a.text, |es|) && Lookup(es, a.text).None?
    ensures Ending(es, check, a).CheckedOut? ==> a.Act? && a.action.Checkout? && HashOfEntry(es, Ending(es, check, a).hash)
    ensures Ending(es, check, a).ResetTo? ==> a.Act? && a.action.HardReset? && HashOfEntry(es, Ending(es, check, a).hash)
    ensures Invalid(es, check, a) ==> Ending(es, check, a).Pending?
  {
    var o := Ending(es, check, a);
    if o.CheckedOut? || o.ResetTo? {
      var k := ParseInt(a.text).value;
      assert es[k].hash == Some(o.hash);
    }
  }

  /** With the corrected check the loop never crashes, and an accepted entry
      number acts on the entry it names. */
  lemma CorrectedNeverCrashes(es: seq<ReflogEntry>, a: Answer)
    ensures !Ending(es, Corrected, a).Crashed?
    ensures a.Act? && AcceptEntry(a.text, |es|) ==>
              Lookup(es, a.text).Some? && Lookup(es, a.text).value == es[ParseInt(a.text).value]
  {
    if a.Act? {
      AcceptedAnswerFindsEntry(es, a.text, 0);
      assert Accepts(Corrected, a.text, |es|) == AcceptEntry(a.text, |es|);
    }
  }

  /** As written, an empty or blank entry number, with at least one entry,
      passes the check and then crashes the command. */
  lemma BlankAnswerCrashes(es: seq<ReflogEntry>, action: EntryAction, v: string)
    requires |es| >= 1
    requires forall i :: 0 <= i < |v| ==> IsSpace(v[i])
    ensures Ending(es, AsWritten, Act(action, v)) == Crashed
  {
    BlankAnswerAcceptedButMissing(es, v);
    assert Accepts(AsWritten, v, |es|);
  }

  /** Digits followed by other text, such as `3abc`, are not a number for
      `Number`, so as written the answer is asked for again, while
      `parseInt` reads the leading digits: the two checks differ on text
      after the digits. */
  lemma TrailingTextRefused(es: seq<ReflogEntry>, action: EntryAction, d: string, rest: string)
    requires d != [] && AllDigits(d)
    requires rest != [] && !IsDigit(rest[0]) && !IsSpace(rest[0])
    requires DigitsValue(d) < |es| && es[DigitsValue(d)].hash.Some?
    ensures Ending(es, AsWritten, Act(action, d + rest)) == Pending
    ensures Ending(es, Corrected, Act(action, d + rest)).CheckedOut? || Ending(es, Corrected, Act(action, d + rest)).ResetTo?
  {
    hide ToNumber, ParseInt, DigitsValue, DigitRun, Trim, TrimStart, TrimEnd;
    var t := d + rest;
    assert Ending(es, AsWritten, Act(action, t)) == Pending by {
      NumberRefusesTrailingText(d, rest);
      assert !Accepts(AsWritten, t, |es|);
    }
    ParseIntStopsAtTrailingText(d, rest);
    assert Accepts(Corrected, t, |es|);
  }

  /** `Number` refuses digits followed by a character that is neither a
      digit nor white space: `Number("3abc")` is NaN. */
  lemma NumberRefusesTrailingText(d: string, rest: string)
    requires d != [] && AllDigits(d)
    requires rest != [] && !IsDigit(rest[0]) && !IsSpace(rest[0])
    ensures ToNumber(d + rest).None?
  {
    var t := d + rest;
    DigitFirst(d, rest);
    var u := TrimEnd(t);
    assert Trim(t) == u;
    assert t[|d|] == rest[0];
    assert |d| < |u|;
    assert u[|d|] == rest[0];
    assert u[0] == d[0];
  }

  /** `parseInt` reads the digits up to the first character that is not one:
      `parseInt("3abc", 10)` is 3. */
  lemma ParseIntStopsAtTrailingText(d: string, rest: string)
    requires d != [] && AllDigits(d)
    requires rest == [] || !IsDigit(rest[0])
    ensures ParseInt(d + rest) == Some(DigitsValue(d))
  {
    hide DigitsValue, DigitRun, TrimStart, ParseInt;
    var t := d + rest;
    DigitFirst(d, rest);
    DigitRunStops(d, rest);
    assert t[0] == d[0];
    ParseIntOfDigitStart(t);
    assert t[..|d|] == d;
  }

  /** `parseInt` of a text that starts with a digit reads its leading digit
      run. */
  lemma ParseIntOfDigitStart(t: string)
    requires t != [] && IsDigit(t[0]) && TrimStart(t) == t
    ensures ParseInt(t) == Some(DigitsValue(t[..DigitRun(t, 0)]))
  {
    hide DigitsValue, DigitRun, TrimStart;
    assert t[0] != '-' && t[0] != '+';
  }

  /** Text that starts with a digit has no leading white space. */
  lemma DigitFirst(d: string, rest: string)
    requires d != [] && AllDigits(d)
    ensures TrimStart(d + rest) == d + rest
  {
    var t := d + rest;
    assert IsDigit(d[0]);
    assert t[0] == d[0];
    assert !IsSpace(t[0]);
  }

  /** The digit run at the start of `d + rest` is `d`. */
  lemma DigitRunStops(d: string, rest: string)
    requires AllDigits(d)
    requires rest == [] || !IsDigit(rest[0])
    ensures DigitRun(d + rest, 0) == |d|
  {
    var t := d + rest;
    var k := DigitRun(t, 0);
    forall j | 0 <= j < k
      ensures IsDigit(t[j])
    {
      assert t[0..k][j] == t[j];
    }
    forall j | 0 <= j < |d|
      ensures IsDigit(t[j])
    {
      assert t[j] == d[j];
    }
    assert rest != [] ==> t[|d|] == rest[0];
  }

  /** The page shown after an answer that keeps the loop going. */
  function After(totalPages: nat, page: nat, a: Answer): nat
  {
    if a.Move? && a.nav != Leave then Turn(page, totalPages, a.nav).value else page
  }

  /** One pass of the loop of reflog.js:41-132: the page shown next, how
      the answer ends the loop (`Pending` when it does not), and whether it
      named an entry without a hash. */
  method Respond(es: seq<ReflogEntry>, check: EntryCheck, totalPages: nat, page: nat, answer: Answer)
    returns (next: nat, outcome: Outcome, invalid: bool)
    requires page < totalPages
    ensures next < totalPages
    ensures outcome == Ending(es, check, answer)
    ensures outcome.Pending? ==> next == After(totalPages, page, answer)
    ensures invalid <==> Invalid(es, check, answer)
  {
    next, outcome, invalid := page, Pending, false;
    if answer.Move? {
      var turned := Turn(page, totalPages, answer.nav);
      if turned.None? {
        outcome := Exited;
      } else {
        next := turned.value;
      }
    } else if Accepts(check, answer.text, |es|) {
      var entry := Lookup(es, answer.text);
      if entry.None? {
        outcome := Crashed;
      } else if entry.value.hash.None? {
        invalid := true;
      } else {
        var hash := entry.value.hash.value;
        outcome := if answer.action.Checkout? then CheckedOut(hash) else ResetTo(hash);
      }
    }
  }

  /** How many of the first `n` answers named an entry without a hash. */
  function Invalids(es: seq<ReflogEntry>, check: EntryCheck, answers: seq<Answer>, n: nat): (c: nat)
    requires n <= |answers|
    ensures c <= n
  {
    if n == 0 then 0
    else Invalids(es, check, answers, n - 1) + (if Invalid(es, check, answers[n - 1]) then 1 else 0)
  }

  /** The loop of reflog.js:41-132 over the answers given, with the entry
      number checked by `check`. `shown` holds the page on screen at each
      pass: the loop stops at the first answer that does not keep it going,
      each earlier answer moves the page as `After` says, and the outcome is
      that of the stopping answer. */
  method Browse(es: seq<ReflogEntry>, check: EntryCheck, answers: seq<Answer>)
    returns (shown: seq<nat>, outcome: Outcome, invalid: nat)
    requires |es| >= 1
    ensures 1 <= |shown| <= |answers| + 1 && shown[0] == 0
    ensures forall k :: 0 <= k < |shown| ==> shown[k] < TotalPages(|es|, PageSize)
    ensures forall k :: 0 <= k < |shown| - 1 ==>
              KeepsGoing(es, check, answers[k]) && shown[k + 1] == After(TotalPages(|es|, PageSize), shown[k], answers[k])
    ensures |shown| <= |answers| ==> outcome == Ending(es, check, answers[|shown| - 1]) && !outcome.Pending?
    ensures |shown| == |answers| + 1 ==> outcome == Pending
    ensures invalid == Invalids(es, check, answers, |shown| - 1)
  {
    // The loop needs only the contracts of the steps it calls.
    hide Accepts, Lookup, Ending, Invalid, KeepsGoing, After;
    var totalPages := TotalPages(|es|, PageSize);
    var page := 0;
    shown := [0];
    outcome := Pending;
    invalid := 0;
    var i := 0;
    var stopped := false;
    while i < |answers| && !stopped
      invariant 0 <= i <= |answers|
      invariant |shown| == i + 1 && shown[0] == 0 && shown[i] == page && page < totalPages
      invariant Walked(es, check, totalPages, answers, i, shown)
      invariant invalid == Invalids(es, check, answers, i)
      invariant stopped ==> i < |answers| && outcome == Ending(es, check, answers[i]) && !outcome.Pending?
      invariant !stopped ==> outcome == Pending
      decreases |answers| - i, !stopped
    {
      var next, out, missing := Respond(es, check, totalPages, page, answers[i]);
      if !out.Pending? {
        outcome := out;
        stopped := true;
      } else {
        PendingKeepsGoing(es, check, answers[i]);
        WalkedSnoc(es, check, totalPages, answers, i, shown, next);
        page := next;
        shown := shown + [page];
        if missing {
          invalid := invalid + 1;
        }
        i := i + 1;
      }
    }
    WalkedSteps(es, check, totalPages, answers, i, shown);
  }

  /** The pages `shown` are those the first `n` answers lead to, one step
      each, and each of those answers keeps the loop going. */
  predicate Walked(es: seq<ReflogEntry>, check: EntryCheck, totalPages: nat, answers: seq<Answer>, n: nat, shown: seq<nat>)
    requires n <= |answers|
  {
    && |shown| == n + 1
    && (n > 0 ==>
          && Walked(es, check, totalPages, answers, n - 1, shown[..n])
          && KeepsGoing(es, check, answers[n - 1])
          && shown[n] == After(totalPages, shown[n - 1], answers[n - 1]))
  }

  lemma WalkedSnoc(es: seq<ReflogEntry>, check: EntryCheck, totalPages: nat, answers: seq<Answer>, i: nat,
                   shown: seq<nat>, next: nat)
    requires i < |answers|
    requires Walked(es, check, totalPages, answers, i, shown)
    requires KeepsGoing(es, check, answers[i])
    requires next == After(totalPages, shown[i], answers[i])
    ensures Walked(es, check, totalPages, answers, i + 1, shown + [next])
  {
    assert (shown + [next])[..i + 1] == shown;
  }

  /** The pointwise reading of `Walked`. */
  lemma {:induction false} WalkedSteps(es: seq<ReflogEntry>, check: EntryCheck, totalPages: nat, answers: seq<Answer>,
                                       n: nat, shown: seq<nat>)
    requires n <= |answers|
    requires Walked(es, check, totalPages, answers, n, shown)
    ensures |shown| == n + 1
    ensures forall k :: 0 <= k < n ==>
              KeepsGoing(es, check, answers[k]) && shown[k + 1] == After(totalPages, shown[k], answers[k])
    ensures shown[0] < totalPages ==> forall k :: 0 <= k <= n ==> shown[k] < totalPages
  {
    if n > 0 {
      var before := shown[..n];
      WalkedSteps(es, check, totalPages, answers, n - 1, before);
      forall k | 0 <= k < n
        ensures KeepsGoing(es, check, answers[k]) && shown[k + 1] == After(totalPages, shown[k], answers[k])
      {
        if k < n - 1 {
          assert before[k] == shown[k] && before[k + 1] == shown[k + 1];
        }
      }
    }
    if shown[0] < totalPages {
      StepsInRange(totalPages, answers, n, shown);
    }
  }

  /** Pages that follow each other as `After` says, from a page in range,
      stay in range. */
  lemma {:induction false} StepsInRange(totalPages: nat, answers: seq<Answer>, n: nat, shown: seq<nat>)
    requires n <= |answers| && |shown| == n + 1
    requires forall k :: 0 <= k < n ==> shown[k + 1] == After(totalPages, shown[k], answers[k])
    requires shown[0] < totalPages
    ensures forall k :: 0 <= k < |shown| ==> shown[k] < totalPages
  {
    if n > 0 {
      var before := shown[..n];
      forall k | 0 <= k < n - 1
        ensures before[k + 1] == After(totalPages, before[k], answers[k])
      {
        assert before[k] == shown[k] && before[k + 1] == shown[k + 1];
      }
      StepsInRange(totalPages, answers, n - 1, before);
      assert before[n - 1] == shown[n - 1];
      AfterStaysInRange(totalPages, shown[n - 1], answers[n - 1]);
      forall k | 0 <= k < n
        ensures shown[k] < totalPages
      {
        assert before[k] == shown[k];
      }
    }
  }

  lemma AfterStaysInRange(totalPages: nat, page: nat, a: Answer)
    requires page < totalPages
    ensures After(totalPages, page, a) < totalPages
  {
  }

  lemma PendingKeepsGoing(es: seq<ReflogEntry>, check: EntryCheck, a: Answer)
    requires Ending(es, check, a).Pending?
    ensures KeepsGoing(es, check, a)
  {
    EndingShape(es, check, a);
  }

  /** The loop ends in a checkout or reset only of a listed entry's hash,
      it exits only on Exit, and, with the corrected check, it never
      crashes. */
  lemma BrowseEnds(es: seq<ReflogEntry>, check: EntryCheck, answers: seq<Answer>, shown: seq<nat>, outcome: Outcome)
    requires 1 <= |shown| <= |answers| + 1
    requires |shown| <= |answers| ==> outcome == Ending(es, check, answers[|shown| - 1])
    requires |shown| == |answers| + 1 ==> outcome == Pending
    ensures (outcome.CheckedOut? || outcome.ResetTo?) ==> HashOfEntry(es, outcome.hash)
    ensures outcome.Exited? ==> exists i :: 0 <= i < |answers| && answers[i] == Move(Leave)
    ensures check.Corrected? ==> !outcome.Crashed?
  {
    if |shown| <= |answers| {
      var a := answers[|shown| - 1];
      EndingShape(es, check, a);
      CorrectedNeverCrashes(es, a);
    }
  }
}

=== FILE: repo_root.dfy ===
/** `isGitRepo` (`utils.js`): the nearest enclosing directory that holds a
    `.git` entry. Paths are sequences of components below the filesystem root,
    so the root is `[]` and `dirname` drops the last component. The
    filesystem is an oracle saying which directories hold `.git`. */
module RepoRoot {
  import opened Wrappers

  type Path = seq<string>

  /** A path whose components are all names (no "", "." or ".."). */
  predicate Normal(p: Path)
  {
    forall i :: 0 <= i < |p| ==> p[i] != "" && p[i] != "." && p[i] != ".."
  }

  /** `path.resolve(base, ...parts)` for one argument split at the separator:
      empty and "." components are skipped, ".." goes up one level (never
      above the root), anything else goes down. An absolute argument starts
      from the root instead of `base`. */
  function Resolve(base: Path, parts: seq<string>): (r: Path)
    requires Normal(base)
    ensures Normal(r)
    ensures |r| <= |base| + |parts|
    decreases |parts|
  {
    if parts == [] then base
    else
      var p := parts[0];
      var next := if p == "" || p == "." then base
                  else if p == ".." then (if base == [] then [] else base[..|base| - 1])
                  else base + [p];
      Resolve(next, parts[1..])
  }

  /** A resolved path with only names in it resolves to itself appended to
      the base: resolution is the identity on normal relative paths. */
  lemma {:induction false} ResolveNormal(base: Path, parts: seq<string>)
    requires Normal(base) && Normal(parts)
    ensures Resolve(base, parts) == base + parts
    decreases |parts|
  {
    if parts != [] {
      ResolveNormal(base + [parts[0]], parts[1..]);
      assert base + [parts[0]] + parts[1..] == base + parts;
    }
  }

  /** No directory on the way from `p` up to, but not including, the root
      holds `.git`. */
  predicate NoRepoOn(p: Path, hasGit: Path -> bool)
  {
    forall k :: 0 < k <= |p| ==> !hasGit(p[..k])
  }

  /** The walk of `isGitRepo` (utils.js:9-18), from the resolved start
      directory up towards the root, returning the first directory that
      holds `.git`; the root itself is never examined. */
  method FindRepoRoot(start: Path, hasGit: Path -> bool) returns (r: Option<Path>)
    ensures r.Some? ==>
              0 < |r.value| <= |start| && r.value == start[..|r.value|] && hasGit(r.value)
              && forall k :: |r.value| < k <= |start| ==> !hasGit(start[..k])
    ensures r.None? <==> NoRepoOn(start, hasGit)
  {
    var dir := start;
    while dir != []
      invariant |dir| <= |start| && dir == start[..|dir|]
      invariant forall k :: |dir| < k <= |start| ==> !hasGit(start[..k])
      decreases |dir|
    {
      if hasGit(dir) {
        return Some(dir);
      }
      dir := dir[..|dir| - 1];
    }
    return None;
  }

  /** `isGitRepo(startDir)`: resolve against the working directory, then walk. */
  method IsGitRepo(cwd: Path, startDir: seq<string>, absolute: bool, hasGit: Path -> bool)
    returns (r: Option<Path>)
    requires Normal(cwd)
    ensures var start := Resolve(if absolute then [] else cwd, startDir);
            r.Some? ==>
              0 < |r.value| <= |start| && r.value == start[..|r.value|] && hasGit(r.value) && Normal(r.value)
              && forall k :: |r.value| < k <= |start| ==> !hasGit(start[..k])
    ensures r.None? <==> NoRepoOn(Resolve(if absolute then [] else cwd, startDir), hasGit)
  {
    var start := Resolve(if absolute then [] else cwd, startDir);
    r := FindRepoRoot(start, hasGit);
  }
}

=== FILE: shortcut_cmd.dfy ===
/** The `shortcut <name> [args...]` command (`src/commands/shortcut.js`):
    look the name up in the working directory's `.gitmatrc` and compose the
    shell command to run. Running it and printing its output are left to the
    caller. */
module ShortcutCommand {
  import opened Wrappers
  import opened Strings
  import opened Shortcuts

  /** The three ways the command exits with status 1 before running
      anything. */
  datatype ShortcutError =
    | RcMissing
    | RcUnparsable
    | NotFound(name: string)

  /** `shortcut(cmd, args)` (shortcut.js:10-49): a missing file, a file that
      is not JSON, and a name whose value is absent or empty are errors; an
      absent `shortcuts` object counts as empty. The command is the stored
      value, followed by a space and the arguments joined by spaces when there
      are any. */
  function Compose(file: RcFile, name: string, args: seq<string>): (r: Result<string, ShortcutError>)
    ensures file.Absent? <==> r == Err(RcMissing)
    ensures file.Invalid? <==> r == Err(RcUnparsable)
    ensures r == Err(NotFound(name)) <==>
              file.Valid? && (name !in Contribution(file) || Contribution(file)[name] == "")
    ensures r.Ok? ==> StartsWith(r.value, Contribution(file)[name])
    ensures r.Ok? && args == [] ==> r.value == Contribution(file)[name]
    ensures r.Ok? && args != [] ==>
              r.value[|Contribution(file)[name]|..] == " " + Join(args, " ")
  {
    if file.Absent? then Err(RcMissing)
    else if file.Invalid? then Err(RcUnparsable)
    else
      var shortcuts := Contribution(file);
      if name !in shortcuts || shortcuts[name] == "" then Err(NotFound(name))
      else
        var stored := shortcuts[name];
        var command := stored + (if |args| > 0 then " " + Join(args, " ") else "");
        assert command[..|stored|] == stored;
        Ok(command)
  }

  /** Every error exits 1; a composed command goes on to run. */
  function ExitCode(r: Result<string, ShortcutError>): (code: int)
    ensures code == 1 <==> r.Err?
    ensures code == 0 <==> r.Ok?
  {
    if r.Err? then 1 else 0
  }

  /** When neither the stored command nor any argument contains a space, the
      shell sees the stored command followed by the arguments, word for word. */
  lemma ComposedWords(file: RcFile, name: string, args: seq<string>)
    requires Compose(file, name, args).Ok?
    requires ' ' !in Contribution(file)[name]
    requires forall i :: 0 <= i < |args| ==> ' ' !in args[i]
    ensures Split(Compose(file, name, args).value, ' ') == [Contribution(file)[name]] + args
  {
    var stored := Contribution(file)[name];
    var command := Compose(file, name, args).value;
    assert Split(stored, ' ') == [stored];
    if args == [] {
      assert command == stored;
    } else {
      var rest := Join(args, " ");
      assert command == stored + [' '] + rest by {
        assert command == stored + " " + rest;
      }
      SplitAround(stored, rest, ' ');
      SplitJoin(args, ' ');
    }
  }
}

=== FILE: shortcuts.dfy ===
/** Shortcut handling at start-up (`bin/gitmat.js`): the tokenizer that
    splits a shortcut's command string, the merge of the home and local
    `.gitmatrc` files, and the choice between re-invoking the program and
    running the command in a shell. */
module Shortcuts {
  import opened Wrappers
  import opened Strings
  import Seqs

  // --------------------------------------------------------------- tokenizer
  //
  // `parseArgs` (gitmat.js:480-488) collects the matches of the global regex
  // `(?:[^"]\S*|"[^"]*"|'[^']*')+` and strips one quote at each end of each.
  // Nothing follows the repetition, so a match never backtracks: each round
  // takes the first alternative that applies. The first alternative takes any
  // character but `"` (white space included) and then the non-space run after
  // it, so the third is never reached; the second needs a closing `"`.

  /** Where one round of the repetition that starts at `p` ends. */
  function Round(s: string, p: nat): (e: Option<nat>)
    ensures e.Some? ==> p < e.value <= |s|
    ensures e.None? <==> p >= |s| || (s[p] == '"' && '"' !in s[p + 1..])
  {
    if p >= |s| then None
    else if s[p] != '"' then Some(p + 1 + NonSpaceRun(s, p + 1))
    else if '"' in s[p + 1..] then Some(p + 1 + IndexOfChar(s[p + 1..], '"') + 1)
    else None
  }

  /** Length of the run of non-white-space characters from index `i`. */
  function NonSpaceRun(s: string, i: nat): (k: nat)
    requires i <= |s|
    ensures i + k <= |s|
    ensures forall j :: i <= j < i + k ==> !IsSpace(s[j])
    ensures i + k == |s| || IsSpace(s[i + k])
    decreases |s| - i
  {
    if i < |s| && !IsSpace(s[i]) then 1 + NonSpaceRun(s, i + 1) else 0
  }

  /** The end of the match that starts at `p`: rounds are repeated greedily
      until one fails. */
  function MatchEnd(s: string, p: nat): (e: nat)
    requires Round(s, p).Some?
    ensures p < e <= |s|
    ensures Round(s, e).None?
    decreases |s| - p
  {
    var next := Round(s, p).value;
    if Round(s, next).Some? then MatchEnd(s, next) else next
  }

  /** Where `exec` finds the next match at or after index `p`. */
  function NextStart(s: string, p: nat): (q: Option<nat>)
    ensures q.Some? ==> p <= q.value < |s| && Round(s, q.value).Some?
    ensures q.Some? ==> forall j :: p <= j < q.value ==> Round(s, j).None?
    ensures q.None? ==> forall j :: p <= j < |s| ==> Round(s, j).None?
    decreases |s| - p
  {
    if p >= |s| then None
    else if Round(s, p).Some? then Some(p)
    else NextStart(s, p + 1)
  }

  /** The matches from index `p` on, in order. */
  function Matches(s: string, p: nat): (r: seq<string>)
    ensures forall i :: 0 <= i < |r| ==> |r[i]| > 0
    decreases |s| - p
  {
    var q := NextStart(s, p);
    if q.None? then []
    else
      var e := MatchEnd(s, q.value);
      [s[q.value..e]] + Matches(s, e)
  }

  predicate IsQuote(c: char)
  {
    c == '"' || c == '\''
  }

  /** `replace(/^['"]|['"]$/g, "")`: one quote off the front and one off the
      back, never the same character twice. */
  function StripQuotes(t: string): (r: string)
    ensures |t| - 2 <= |r| <= |t|
    ensures |t| > 0 && IsQuote(t[0]) ==> |r| < |t| && r == t[1..1 + |r|]
    ensures |t| > 0 && !IsQuote(t[0]) ==> r == t[..|r|]
    ensures |t| > 1 && IsQuote(t[|t| - 1]) ==> |r| < |t| && r == t[|t| - 1 - |r|..|t| - 1]
    ensures |t| > 1 && !IsQuote(t[|t| - 1]) ==> r == t[|t| - |r|..]
    ensures |r| == |t| - (if |t| > 0 && IsQuote(t[0]) then 1 else 0) - (if |t| > 1 && IsQuote(t[|t| - 1]) then 1 else 0)
    ensures exists i, j :: 0 <= i <= 1 && |t| - 1 <= j <= |t| && i <= j && r == t[i..j]
    ensures |t| > 0 && !IsQuote(t[0]) && !IsQuote(t[|t| - 1]) ==> r == t
  {
    if |t| == 0 then assert t[0..0] == t; t
    else if IsQuote(t[0]) then
      if |t| > 1 && IsQuote(t[|t| - 1]) then t[1..|t| - 1] else t[1..]
    else if IsQuote(t[|t| - 1]) then t[..|t| - 1]
    else assert t[0..|t|] == t; t
  }

  /** Stripping undoes quoting: a word wrapped in a pair of quotes comes
      back unchanged, whatever it holds, and a lone quote leaves nothing. */
  lemma StripQuotesUnwraps(open: char, word: string, close: char)
    requires IsQuote(open) && IsQuote(close)
    ensures StripQuotes([open] + word + [close]) == word
    ensures StripQuotes([open]) == ""
  {
    var t := [open] + word + [close];
    assert t[0] == open && t[|t| - 1] == close;
    assert t[1..|t| - 1] == word;
  }

  /** The tokens of a command string: every match, in order, with its quotes
      stripped. */
  function Tokens(s: string): (r: seq<string>)
    ensures |r| == |Matches(s, 0)|
  {
    StripAll(Matches(s, 0))
  }

  function StripAll(ms: seq<string>): (r: seq<string>)
    ensures |r| == |ms|
    ensures forall i :: 0 <= i < |ms| ==> r[i] == StripQuotes(ms[i])
  {
    if ms == [] then [] else [StripQuotes(ms[0])] + StripAll(ms[1..])
  }

  /** `parseArgs`: run `exec` from `lastIndex` until it finds nothing. */
  method ParseArgs(str: string) returns (arr: seq<string>)
    ensures arr == Tokens(str)
  {
    arr := [];
    var lastIndex := 0;
    var start := NextStart(str, 0);
    while start.Some?
      invariant lastIndex <= |str|
      invariant start == NextStart(str, lastIndex)
      invariant arr + StripAll(Matches(str, lastIndex)) == Tokens(str)
      decreases |str| - lastIndex
    {
      var end := MatchEnd(str, start.value);
      var token := StripQuotes(str[start.value..end]);
      assert Matches(str, lastIndex) == [str[start.value..end]] + Matches(str, end);
      StripAllCons(str[start.value..end], Matches(str, end));
      Seqs.AppendAssoc(arr, [token], StripAll(Matches(str, end)));
      arr := arr + [token];
      lastIndex := end;
      start := NextStart(str, lastIndex);
    }
  }

  /** Stripping a match and then the rest strips them all. */
  lemma StripAllCons(m: string, ms: seq<string>)
    ensures StripAll([m] + ms) == [StripQuotes(m)] + StripAll(ms)
  {
    assert ([m] + ms)[1..] == ms;
  }

  /** Without a double quote, every round succeeds until the end. */
  lemma {:induction false} MatchRunsToEnd(s: string, p: nat)
    requires p < |s| && '"' !in s
    ensures Round(s, p).Some? && MatchEnd(s, p) == |s|
    decreases |s| - p
  {
    var next := Round(s, p).value;
    if next < |s| {
      MatchRunsToEnd(s, next);
    }
  }

  /** Because the first alternative also takes white space, a string with no
      double quote is one token however many words it has, and the empty
      string has none. */
  lemma NoDoubleQuoteIsOneToken(s: string)
    requires '"' !in s
    ensures s == [] ==> Tokens(s) == []
    ensures s != [] ==> Tokens(s) == [StripQuotes(s)]
  {
    if s != [] {
      MatchRunsToEnd(s, 0);
      assert NextStart(s, 0) == Some(0);
      assert s[0..|s|] == s;
      assert Matches(s, |s|) == [];
    }
  }

  /** A lone `"` starts no match, so a string made only of it has no token. */
  lemma LoneQuoteHasNoToken()
    ensures Tokens("\"") == []
  {
    assert Round("\"", 0).None?;
    assert NextStart("\"", 1).None?;
  }

  // ------------------------------------------------------------- rc loading

  /** What reading one `.gitmatrc` yields. A parsed file whose `shortcuts`
      is missing or falsy contributes the empty map. */
  datatype RcFile =
    | Absent
    | Invalid
    | Valid(shortcuts: Option<map<string, string>>)

  function Contribution(f: RcFile): map<string, string>
  {
    if f.Valid? && f.shortcuts.Some? then f.shortcuts.value else map[]
  }

  /** `loadShortcuts` (gitmat.js:490-509): `Object.assign` of the home file's
      shortcuts, then of the working directory's, into an empty object. */
  method LoadShortcuts(home: RcFile, local: RcFile) returns (shortcuts: map<string, string>)
    ensures forall k :: k in shortcuts <==> k in Contribution(home) || k in Contribution(local)
    ensures forall k :: k in Contribution(local) ==> shortcuts[k] == Contribution(local)[k]
    ensures forall k :: k in Contribution(home) && k !in Contribution(local) ==> shortcuts[k] == Contribution(home)[k]
  {
    shortcuts := map[];
    if home.Valid? {
      shortcuts := shortcuts + (if home.shortcuts.Some? then home.shortcuts.value else map[]);
    }
    if local.Valid? {
      shortcuts := shortcuts + (if local.shortcuts.Some? then local.shortcuts.value else map[]);
    }
  }

  // ---------------------------------------------------------------- dispatch

  /** What start-up does with the command line. */
  datatype Launch =
    /** No shortcut: hand the arguments to the command parser. */
    | NoShortcut
    /** Run this program again with these arguments. */
    | Reinvoke(args: seq<string>)
    /** Run the stored command string in a shell. */
    | Shell(command: string)

  predicate IsProgramName(t: string)
  {
    t == "gmt" || t == "gt" || t == "gitmat"
  }

  /** `runShortcutIfExists` (gitmat.js:511-536): a shortcut fires when the
      first argument names one with a non-empty command; a command whose
      first token names this program is re-invoked with the remaining
      tokens, any other runs in a shell. The user's further arguments are not
      passed on. */
  function Dispatch(shortcuts: map<string, string>, userArgs: seq<string>): (r: Launch)
    ensures r.NoShortcut? <==> userArgs == [] || userArgs[0] !in shortcuts || shortcuts[userArgs[0]] == ""
    ensures r.Shell? ==> r.command == shortcuts[userArgs[0]]
    ensures r.Reinvoke? ==> |Tokens(shortcuts[userArgs[0]])| > 0
                            && IsProgramName(Tokens(shortcuts[userArgs[0]])[0])
                            && r.args == Tokens(shortcuts[userArgs[0]])[1..]
    ensures !r.NoShortcut? ==>
              (r.Reinvoke? <==> |Tokens(shortcuts[userArgs[0]])| > 0 && IsProgramName(Tokens(shortcuts[userArgs[0]])[0]))
  {
    if userArgs == [] || userArgs[0] !in shortcuts || shortcuts[userArgs[0]] == "" then NoShortcut
    else
      var command := shortcuts[userArgs[0]];
      var args := Tokens(command);
      if |args| > 0 && IsProgramName(args[0]) then Reinvoke(args[1..]) else Shell(command)
  }

  /** Only the first argument matters once a shortcut fires. */
  lemma DispatchIgnoresExtraArgs(shortcuts: map<string, string>, name: string, extra: seq<string>)
    ensures Dispatch(shortcuts, [name] + extra) == Dispatch(shortcuts, [name])
  {
  }

  /** A shortcut stored as `gmt <words>` without double quotes is one token,
      so it never re-invokes the program: it runs in a shell. */
  lemma QuoteFreeShortcutRunsInShell(shortcuts: map<string, string>, name: string)
    requires name in shortcuts && shortcuts[name] != "" && '"' !in shortcuts[name]
    requires ' ' in shortcuts[name]
    requires !IsQuote(shortcuts[name][0]) && !IsQuote(shortcuts[name][|shortcuts[name]| - 1])
    ensures Dispatch(shortcuts, [name]) == Shell(shortcuts[name])
  {
    hide StripQuotes, Tokens, StripAll, Matches, Dispatch;
    var c := shortcuts[name];
    NoDoubleQuoteIsOneToken(c);
    assert StripQuotes(c) == c;
    assert Tokens(c) == [c];
    assert !IsProgramName(c);
  }

  /** `process.exit(result.status || 0)`: no status, as when the child was
      killed by a signal, counts as success. */
  function ExitStatus(status: Option<int>): (code: int)
    ensures status.None? ==> code == 0
    ensures status.Some? ==> code == status.value
    ensures code == 0 <==> status.None? || status.value == 0
  {
    if status.Some? && status.value != 0 then status.value else 0
  }
}

=== FILE: smart_menu.dfy ===
/** The `smart` command (`smart.js`): a summary of the repository state and a
    menu of contextual actions, each built step by step. Reading the state
    from git is an input that may have failed; what each action then runs is
    not part of this model. */
module SmartMenu {
  import opened Seqs

  /** What `git.status()`, `git.stashList()` and `git.log({ n: 5 })`
      report, reduced to what the summary and the menu look at. */
  datatype SmartState = SmartState(
    current: string,
    ahead: int,
    behind: int,
    staged: seq<string>,
    modified: seq<string>,
    stashes: nat,
    logTotal: nat)

  /** The three reads of `smart.js:18-21`, any of which may throw. */
  datatype StateRead = ReadOk(state: SmartState) | ReadFailed(message: string)

  /** One line of the summary box, before colouring. */
  datatype SummaryLine =
    | OnBranch(current: string)
    | AheadBehind(ahead: int, behind: int)
    | StagedFiles(files: seq<string>)
    | ChangedFiles(files: seq<string>)
    | StashCount(count: nat)
    | RecentCommits(total: nat)

  /** The lines that appear only under a condition. */
  predicate OptionalLine(st: SmartState, l: SummaryLine)
  {
    l == AheadBehind(st.ahead, st.behind) || l == StagedFiles(st.staged)
    || l == ChangedFiles(st.modified) || l == StashCount(st.stashes)
  }

  /** A line shown under a condition. */
  function LineIf(cond: bool, l: SummaryLine): seq<SummaryLine>
  {
    if cond then [l] else []
  }

  /** The lines between the branch and the commit count, in order. */
  function OptionalLines(st: SmartState): seq<SummaryLine>
  {
    LineIf(st.ahead != 0 || st.behind != 0, AheadBehind(st.ahead, st.behind))
    + LineIf(|st.staged| > 0, StagedFiles(st.staged))
    + LineIf(|st.modified| > 0, ChangedFiles(st.modified))
    + LineIf(st.stashes > 0, StashCount(st.stashes))
  }

  /** Each optional line is there exactly when it has something to say,
      and nothing else is there. */
  lemma OptionalMembers(st: SmartState)
    ensures AheadBehind(st.ahead, st.behind) in OptionalLines(st) <==> st.ahead != 0 || st.behind != 0
    ensures StagedFiles(st.staged) in OptionalLines(st) <==> |st.staged| > 0
    ensures ChangedFiles(st.modified) in OptionalLines(st) <==> |st.modified| > 0
    ensures StashCount(st.stashes) in OptionalLines(st) <==> st.stashes > 0
    ensures forall l :: l in OptionalLines(st) ==> OptionalLine(st, l)
  {
    var o := OptionalLines(st);
    assert forall l :: l in o <==>
             l in LineIf(st.ahead != 0 || st.behind != 0, AheadBehind(st.ahead, st.behind))
             || l in LineIf(|st.staged| > 0, StagedFiles(st.staged))
             || l in LineIf(|st.modified| > 0, ChangedFiles(st.modified))
             || l in LineIf(st.stashes > 0, StashCount(st.stashes));
  }

  /** Where a line sits in the summary of `smart.js:35-50`: the branch
      first, the conditional lines in a fixed order, the commit count last. */
  function LineRank(l: SummaryLine): int
  {
    match l
    case OnBranch(_) => 0
    case AheadBehind(_, _) => 1
    case StagedFiles(_) => 2
    case ChangedFiles(_) => 3
    case StashCount(_) => 4
    case RecentCommits(_) => 5
  }

  /** A conditional line keeps its rank. */
  lemma LineIfRanked(cond: bool, l: SummaryLine)
    ensures Increasing(LineRank, LineIf(cond, l))
    ensures RanksWithin(LineRank, LineIf(cond, l), LineRank(l), LineRank(l) + 1)
  {
  }

  /** The summary is in push order (branch, ahead/behind, staged, changed,
      stashes, commit count), so no line appears twice. */
  lemma SummaryInOrder(st: SmartState)
    ensures Increasing(LineRank, [OnBranch(st.current)] + OptionalLines(st) + [RecentCommits(st.logTotal)])
    ensures Distinct([OnBranch(st.current)] + OptionalLines(st) + [RecentCommits(st.logTotal)])
  {
    var l1 := LineIf(st.ahead != 0 || st.behind != 0, AheadBehind(st.ahead, st.behind));
    var l2 := LineIf(|st.staged| > 0, StagedFiles(st.staged));
    var l3 := LineIf(|st.modified| > 0, ChangedFiles(st.modified));
    var l4 := LineIf(st.stashes > 0, StashCount(st.stashes));
    LineIfRanked(st.ahead != 0 || st.behind != 0, AheadBehind(st.ahead, st.behind));
    LineIfRanked(|st.staged| > 0, StagedFiles(st.staged));
    LineIfRanked(|st.modified| > 0, ChangedFiles(st.modified));
    LineIfRanked(st.stashes > 0, StashCount(st.stashes));
    IncreasingAppend(LineRank, l1, l2, 1, 2, 3);
    IncreasingAppend(LineRank, l1 + l2, l3, 1, 3, 4);
    IncreasingAppend(LineRank, l1 + l2 + l3, l4, 1, 4, 5);
    assert l1 + l2 + l3 + l4 == OptionalLines(st);
    LineIfRanked(true, OnBranch(st.current));
    LineIfRanked(true, RecentCommits(st.logTotal));
    IncreasingAppend(LineRank, [OnBranch(st.current)], OptionalLines(st), 0, 1, 5);
    IncreasingAppend(LineRank, [OnBranch(st.current)] + OptionalLines(st), [RecentCommits(st.logTotal)], 0, 5, 6);
    IncreasingDistinct(LineRank, [OnBranch(st.current)] + OptionalLines(st) + [RecentCommits(st.logTotal)]);
  }

  /** `summary` of `smart.js:35-50`, line by line. */
  method Summary(st: SmartState) returns (lines: seq<SummaryLine>)
    ensures lines == [OnBranch(st.current)] + OptionalLines(st) + [RecentCommits(st.logTotal)]
    ensures |lines| >= 2 && lines[0] == OnBranch(st.current)
    ensures lines[|lines| - 1] == RecentCommits(st.logTotal)
    ensures AheadBehind(st.ahead, st.behind) in lines <==> st.ahead != 0 || st.behind != 0
    ensures StagedFiles(st.staged) in lines <==> |st.staged| > 0
    ensures ChangedFiles(st.modified) in lines <==> |st.modified| > 0
    ensures StashCount(st.stashes) in lines <==> st.stashes > 0
    ensures forall i :: 0 < i < |lines| - 1 ==> OptionalLine(st, lines[i])
  {
    lines := [OnBranch(st.current)];
    if st.ahead != 0 || st.behind != 0 {
      lines := lines + [AheadBehind(st.ahead, st.behind)];
    }
    if |st.staged| > 0 {
      lines := lines + [StagedFiles(st.staged)];
    }
    if |st.modified| > 0 {
      lines := lines + [ChangedFiles(st.modified)];
    }
    if st.stashes > 0 {
      lines := lines + [StashCount(st.stashes)];
    }
    assert lines == [OnBranch(st.current)] + OptionalLines(st);
    lines := lines + [RecentCommits(st.logTotal)];
    SummaryFromOptional(st, lines);
  }

  /** The summary's facts follow from those of its optional lines. */
  lemma SummaryFromOptional(st: SmartState, lines: seq<SummaryLine>)
    requires lines == [OnBranch(st.current)] + OptionalLines(st) + [RecentCommits(st.logTotal)]
    ensures |lines| >= 2 && lines[0] == OnBranch(st.current)
    ensures lines[|lines| - 1] == RecentCommits(st.logTotal)
    ensures AheadBehind(st.ahead, st.behind) in lines <==> st.ahead != 0 || st.behind != 0
    ensures StagedFiles(st.staged) in lines <==> |st.staged| > 0
    ensures ChangedFiles(st.modified) in lines <==> |st.modified| > 0
    ensures StashCount(st.stashes) in lines <==> st.stashes > 0
    ensures forall i :: 0 < i < |lines| - 1 ==> OptionalLine(st, lines[i])
  {
    OptionalMembers(st);
    var o := OptionalLines(st);
    assert forall l :: l in lines <==> l == OnBranch(st.current) || l in o || l == RecentCommits(st.logTotal);
    forall i | 0 < i < |lines| - 1
      ensures OptionalLine(st, lines[i])
    {
      assert lines[i] == o[i - 1];
    }
  }

  /** The `value` of each entry `actions` may hold. */
  datatype SmartAction = Push | Pull | Commit | SaveAll | ApplyStash | OpenLog | Exit

  /** When each entry is offered (`smart.js:64-75`). */
  predicate Offered(st: SmartState, a: SmartAction)
  {
    match a
    case Push => st.ahead > 0
    case Pull => st.behind > 0
    case Commit => |st.staged| > 0
    case SaveAll => |st.modified| > 0
    case ApplyStash => st.stashes > 0
    case OpenLog | Exit => true
  }

  /** The place of each entry in the order the source pushes them. */
  function Rank(a: SmartAction): int
  {
    match a
    case Push => 0
    case Pull => 1
    case Commit => 2
    case SaveAll => 3
    case ApplyStash => 4
    case OpenLog => 5
    case Exit => 6
  }

  /** An entry pushed under a condition. */
  function Group(cond: bool, xs: seq<SmartAction>): seq<SmartAction>
  {
    if cond then xs else []
  }

  /** The whole list, entry by entry. */
  function Menu(st: SmartState): seq<SmartAction>
  {
    Group(st.ahead > 0, [Push])
    + Group(st.behind > 0, [Pull])
    + Group(|st.staged| > 0, [Commit])
    + Group(|st.modified| > 0, [SaveAll])
    + Group(st.stashes > 0, [ApplyStash])
    + [OpenLog, Exit]
  }

  /** The `actions` list of `smart.js:64-75`. */
  method SmartActions(st: SmartState) returns (actions: seq<SmartAction>)
    ensures actions == Menu(st)
  {
    actions := [];
    if st.ahead > 0 {
      actions := actions + [Push];
    }
    assert actions == Group(st.ahead > 0, [Push]);
    ghost var pushed := actions;
    if st.behind > 0 {
      actions := actions + [Pull];
    }
    assert actions == pushed + Group(st.behind > 0, [Pull]);
    ghost var pulled := actions;
    if |st.staged| > 0 {
      actions := actions + [Commit];
    }
    assert actions == pulled + Group(|st.staged| > 0, [Commit]);
    ghost var committed := actions;
    if |st.modified| > 0 {
      actions := actions + [SaveAll];
    }
    assert actions == committed + Group(|st.modified| > 0, [SaveAll]);
    ghost var saved := actions;
    if st.stashes > 0 {
      actions := actions + [ApplyStash];
    }
    assert actions == saved + Group(st.stashes > 0, [ApplyStash]);
    actions := actions + [OpenLog];
    actions := actions + [Exit];
    assert actions == saved + Group(st.stashes > 0, [ApplyStash]) + [OpenLog, Exit];
  }

  /** An entry is in the menu exactly when it is offered. */
  lemma MenuMembers(st: SmartState, a: SmartAction)
    ensures a in Menu(st) <==> Offered(st, a)
  {
    assert a in Menu(st) <==>
             a in Group(st.ahead > 0, [Push]) || a in Group(st.behind > 0, [Pull])
             || a in Group(|st.staged| > 0, [Commit]) || a in Group(|st.modified| > 0, [SaveAll])
             || a in Group(st.stashes > 0, [ApplyStash]) || a in [OpenLog, Exit];
  }

  /** A conditional entry keeps its rank. */
  lemma GroupRanked(cond: bool, a: SmartAction)
    ensures Increasing(Rank, Group(cond, [a])) && RanksWithin(Rank, Group(cond, [a]), Rank(a), Rank(a) + 1)
  {
  }

  /** The menu is in push order, so no entry appears twice. */
  lemma MenuInOrder(st: SmartState)
    ensures Increasing(Rank, Menu(st))
    ensures Distinct(Menu(st))
  {
    hide Increasing, RanksWithin, Group;
    var g1 := Group(st.ahead > 0, [Push]);
    var g2 := Group(st.behind > 0, [Pull]);
    var g3 := Group(|st.staged| > 0, [Commit]);
    var g4 := Group(|st.modified| > 0, [SaveAll]);
    var g5 := Group(st.stashes > 0, [ApplyStash]);
    GroupRanked(st.ahead > 0, Push);
    GroupRanked(st.behind > 0, Pull);
    GroupRanked(|st.staged| > 0, Commit);
    GroupRanked(|st.modified| > 0, SaveAll);
    GroupRanked(st.stashes > 0, ApplyStash);
    IncreasingAppend(Rank, g1, g2, 0, 1, 2);
    IncreasingAppend(Rank, g1 + g2, g3, 0, 2, 3);
    IncreasingAppend(Rank, g1 + g2 + g3, g4, 0, 3, 4);
    IncreasingAppend(Rank, g1 + g2 + g3 + g4, g5, 0, 4, 5);
    var tail := [OpenLog, Exit];
    LastTwoRanked();
    IncreasingAppend(Rank, g1 + g2 + g3 + g4 + g5, tail, 0, 5, 7);
    assert Menu(st) == g1 + g2 + g3 + g4 + g5 + tail;
    IncreasingDistinct(Rank, g1 + g2 + g3 + g4 + g5 + tail);
  }

  /** Log and Exit close the menu in rank order. */
  lemma LastTwoRanked()
    ensures Increasing(Rank, [OpenLog, Exit]) && RanksWithin(Rank, [OpenLog, Exit], 5, 7)
  {
  }

  /** Log and Exit are always the last two entries. */
  lemma LogExitLast(st: SmartState)
    ensures |Menu(st)| >= 2 && Menu(st)[|Menu(st)| - 2..] == [OpenLog, Exit]
  {
  }

  /** What the command shows. */
  datatype SmartOutcome =
    | ErrorShown(message: string)
    | MenuShown(summary: seq<SummaryLine>, actions: seq<SmartAction>)

  /** `smart` up to the prompt (`smart.js:17-75`): a failed read shows the
      error and offers no menu; otherwise the summary and the menu. */
  method Smart(read: StateRead) returns (outcome: SmartOutcome)
    ensures read.ReadFailed? <==> outcome.ErrorShown?
    ensures read.ReadFailed? ==> outcome.message == read.message
    ensures read.ReadOk? ==> outcome.actions == Menu(read.state)
    ensures read.ReadOk? ==> |outcome.summary| > 0 && outcome.summary[0] == OnBranch(read.state.current)
    ensures read.ReadOk? ==>
              outcome.summary
              == [OnBranch(read.state.current)] + OptionalLines(read.state) + [RecentCommits(read.state.logTotal)]
  {
    if read.ReadFailed? {
      return ErrorShown(read.message);
    }
    var summary := Summary(read.state);
    var actions := SmartActions(read.state);
    outcome := MenuShown(summary, actions);
  }
}

=== FILE: status_menu.dfy ===
/** The `status` command's summary (`status.js`): the clean/dirty indicator
    and the list of next actions it offers, built by successive pushes from
    counts read off the repository. The counts and the history's last action
    are inputs; reading them from git is not part of this model. */
module StatusMenu {
  import opened Wrappers
  import opened Seqs

  /** What `git.status()`, `git.stashList()`, `git.branchLocal()` and the
      history file report, reduced to what the menu looks at. */
  datatype RepoState = RepoState(
    staged: nat,
    modified: nat,
    untracked: nat,
    stashes: nat,
    ahead: int,
    behind: int,
    localBranches: nat,
    hasLastAction: bool)

  /** The outcome of `git.log({ n: 10 })`. */
  datatype LogRead = LogRead(total: nat, latest: Option<string>) | LogFailed

  /** `status.js:49-53`: a failed log read is replaced by an empty log. */
  function EffectiveLog(r: LogRead): (l: LogRead)
    ensures l.LogRead?
    ensures r.LogFailed? ==> l.total == 0 && l.latest.None?
    ensures r.LogRead? ==> l == r
  {
    if r.LogFailed? then LogRead(0, None) else r
  }

  /** `status.js:115-123`: the indicator reads "clean" when nothing is
      staged, modified or untracked. */
  predicate IsClean(s: RepoState)
  {
    s.staged == 0 && s.modified == 0 && s.untracked == 0
  }

  /** The `value` of each entry `next` may hold. */
  datatype NextAction =
    | Save | Unstage | ResetStaged
    | StageAll | DiscardChanges
    | AddUntracked | IgnoreFiles | CleanUntracked
    | ApplyStash | ManageStash
    | Push | PushAll
    | Pull
    | SwitchBranch | CreateBranch | DeleteBranch | MergeBranch
    | Undo
    | ViewLog | ShowStatus | Exit

  /** When each action is offered (`status.js:128-188`): each group under its
      own condition, the branch group depending on how many local branches
      there are, undo on a tracked action or a log of more than one commit. */
  predicate Offered(s: RepoState, logTotal: nat, a: NextAction)
  {
    match a
    case Save | Unstage | ResetStaged => s.staged > 0
    case StageAll | DiscardChanges => s.modified > 0
    case AddUntracked | IgnoreFiles | CleanUntracked => s.untracked > 0
    case ApplyStash | ManageStash => s.stashes > 0
    case Push | PushAll => s.ahead > 0
    case Pull => s.behind > 0
    case SwitchBranch | DeleteBranch | MergeBranch => s.localBranches > 1
    case CreateBranch => true
    case Undo => s.hasLastAction || logTotal > 1
    case ViewLog | ShowStatus | Exit => true
  }

  /** The place of each action in the order the source pushes them. */
  function Rank(a: NextAction): int
  {
    match a
    case Save => 0
    case Unstage => 1
    case ResetStaged => 2
    case StageAll => 3
    case DiscardChanges => 4
    case AddUntracked => 5
    case IgnoreFiles => 6
    case CleanUntracked => 7
    case ApplyStash => 8
    case ManageStash => 9
    case Push => 10
    case PushAll => 11
    case Pull => 12
    case SwitchBranch => 13
    case CreateBranch => 14
    case DeleteBranch => 15
    case MergeBranch => 16
    case Undo => 17
    case ViewLog => 18
    case ShowStatus => 19
    case Exit => 20
  }

  /** A group of entries pushed together under one condition. */
  function Group(cond: bool, xs: seq<NextAction>): seq<NextAction>
  {
    if cond then xs else []
  }

  /** The branch group: four entries with several local branches, only
      "Create new branch" otherwise. */
  function BranchGroup(localBranches: nat): seq<NextAction>
  {
    if localBranches > 1 then [SwitchBranch, CreateBranch, DeleteBranch, MergeBranch]
    else [CreateBranch]
  }

  /** The groups for staged, modified and untracked files. */
  function WorkTreeGroups(s: RepoState): seq<NextAction>
  {
    Group(s.staged > 0, [Save, Unstage, ResetStaged])
    + Group(s.modified > 0, [StageAll, DiscardChanges])
    + Group(s.untracked > 0, [AddUntracked, IgnoreFiles, CleanUntracked])
  }

  /** The groups before the branch group: the working tree's, then those
      for stashes and for commits ahead of and behind the remote. */
  function ChangeGroups(s: RepoState): seq<NextAction>
  {
    WorkTreeGroups(s)
    + Group(s.stashes > 0, [ApplyStash, ManageStash])
    + Group(s.ahead > 0, [Push, PushAll])
    + Group(s.behind > 0, [Pull])
  }

  /** The whole list, group by group. */
  function Menu(s: RepoState, logTotal: nat): seq<NextAction>
  {
    ChangeGroups(s)
    + BranchGroup(s.localBranches)
    + Group(s.hasLastAction || logTotal > 1, [Undo])
    + [ViewLog, ShowStatus, Exit]
  }

  /** The pushes of `status.js:128-150`, for staged, modified and
      untracked files. */
  method PushWorkTreeActions(s: RepoState) returns (next: seq<NextAction>)
    ensures next == WorkTreeGroups(s)
  {
    ghost var g1 := Group(s.staged > 0, [Save, Unstage, ResetStaged]);
    ghost var g2 := Group(s.modified > 0, [StageAll, DiscardChanges]);
    next := [];
    if s.staged > 0 {
      next := next + [Save];
      next := next + [Unstage];
      next := next + [ResetStaged];
    }
    assert next == g1;
    if s.modified > 0 {
      next := next + [StageAll];
      next := next + [DiscardChanges];
    }
    assert next == g1 + g2;
    if s.untracked > 0 {
      next := next + [AddUntracked];
      next := next + [IgnoreFiles];
      next := next + [CleanUntracked];
    }
  }

  /** The pushes of `status.js:128-166`, for the working tree, the stashes
      and the remote. */
  method PushChangeActions(s: RepoState) returns (next: seq<NextAction>)
    ensures next == ChangeGroups(s)
  {
    ghost var g4 := Group(s.stashes > 0, [ApplyStash, ManageStash]);
    ghost var g5 := Group(s.ahead > 0, [Push, PushAll]);
    next := PushWorkTreeActions(s);
    if s.stashes > 0 {
      next := next + [ApplyStash];
      next := next + [ManageStash];
    }
    assert next == WorkTreeGroups(s) + g4;
    if s.ahead > 0 {
      next := next + [Push];
      next := next + [PushAll];
    }
    assert next == WorkTreeGroups(s) + g4 + g5;
    if s.behind > 0 {
      next := next + [Pull];
    }
  }

  /** The `next` list of `status.js:126-188`: the pushes above, then the
      branch group, undo, and the three entries always offered. */
  method NextActions(s: RepoState, log: LogRead) returns (next: seq<NextAction>)
    ensures next == Menu(s, EffectiveLog(log).total)
  {
    var total := EffectiveLog(log).total;
    next := PushChangeActions(s);
    ghost var changes := next;
    if s.localBranches > 1 {
      next := next + [SwitchBranch];
      next := next + [CreateBranch];
      next := next + [DeleteBranch];
      next := next + [MergeBranch];
    } else {
      next := next + [CreateBranch];
    }
    assert next == changes + BranchGroup(s.localBranches);
    if s.hasLastAction || total > 1 {
      next := next + [Undo];
    }
    assert next == changes + BranchGroup(s.localBranches)
                   + Group(s.hasLastAction || total > 1, [Undo]);
    next := next + [ViewLog];
    next := next + [ShowStatus];
    next := next + [Exit];
  }

  /** The working-tree groups hold exactly the offered actions pushed
      first. */
  lemma WorkTreeMembers(s: RepoState, logTotal: nat, a: NextAction)
    ensures a in WorkTreeGroups(s) <==> Rank(a) < 8 && Offered(s, logTotal, a)
  {
    var g1 := Group(s.staged > 0, [Save, Unstage, ResetStaged]);
    var g2 := Group(s.modified > 0, [StageAll, DiscardChanges]);
    var g3 := Group(s.untracked > 0, [AddUntracked, IgnoreFiles, CleanUntracked]);
    assert a in WorkTreeGroups(s) <==> a in g1 || a in g2 || a in g3;
    assert a in g1 <==> s.staged > 0 && (a == Save || a == Unstage || a == ResetStaged);
    assert a in g2 <==> s.modified > 0 && (a == StageAll || a == DiscardChanges);
    assert a in g3 <==> s.untracked > 0 && (a == AddUntracked || a == IgnoreFiles || a == CleanUntracked);
  }

  /** The groups before the branch group hold exactly the offered actions
      pushed before it. */
  lemma ChangeMembers(s: RepoState, logTotal: nat, a: NextAction)
    ensures a in ChangeGroups(s) <==> Rank(a) < 13 && Offered(s, logTotal, a)
  {
    var g4 := Group(s.stashes > 0, [ApplyStash, ManageStash]);
    var g5 := Group(s.ahead > 0, [Push, PushAll]);
    var g6 := Group(s.behind > 0, [Pull]);
    assert a in ChangeGroups(s) <==> a in WorkTreeGroups(s) || a in g4 || a in g5 || a in g6;
    WorkTreeMembers(s, logTotal, a);
    StashRemoteMembers(s, logTotal, a);
  }

  /** The stash, push and pull groups hold exactly the offered actions
      ranked between the work-tree groups and the branch group. */
  lemma StashRemoteMembers(s: RepoState, logTotal: nat, a: NextAction)
    ensures a in Group(s.stashes > 0, [ApplyStash, ManageStash]) || a in Group(s.ahead > 0, [Push, PushAll])
            || a in Group(s.behind > 0, [Pull])
            <==> 8 <= Rank(a) < 13 && Offered(s, logTotal, a)
  {
    var g4 := Group(s.stashes > 0, [ApplyStash, ManageStash]);
    var g5 := Group(s.ahead > 0, [Push, PushAll]);
    var g6 := Group(s.behind > 0, [Pull]);
    assert a in g4 <==> s.stashes > 0 && (a == ApplyStash || a == ManageStash);
    assert a in g5 <==> s.ahead > 0 && (a == Push || a == PushAll);
    assert a in g6 <==> s.behind > 0 && a == Pull;
  }

  /** The groups from the branch group on hold exactly the offered actions
      pushed from there. */
  lemma LaterMembers(s: RepoState, logTotal: nat, a: NextAction)
    ensures a in BranchGroup(s.localBranches) || a in Group(s.hasLastAction || logTotal > 1, [Undo])
            || a in [ViewLog, ShowStatus, Exit]
            <==> Rank(a) >= 13 && Offered(s, logTotal, a)
  {
    assert a in BranchGroup(s.localBranches) <==>
             a == CreateBranch
             || (s.localBranches > 1 && (a == SwitchBranch || a == DeleteBranch || a == MergeBranch));
    assert a in Group(s.hasLastAction || logTotal > 1, [Undo]) <==> (s.hasLastAction || logTotal > 1) && a == Undo;
  }

  /** An action is in the list exactly when it is offered. */
  lemma MenuMembers(s: RepoState, logTotal: nat, a: NextAction)
    ensures a in Menu(s, logTotal) <==> Offered(s, logTotal, a)
  {
    ChangeMembers(s, logTotal, a);
    LaterMembers(s, logTotal, a);
  }

  /** Each group's entries are listed in push order, within the group's
      own range of ranks. */
  lemma GroupRanked(cond: bool, xs: seq<NextAction>, lo: int, hi: int)
    requires Increasing(Rank, xs) && RanksWithin(Rank, xs, lo, hi)
    ensures Increasing(Rank, Group(cond, xs)) && RanksWithin(Rank, Group(cond, xs), lo, hi)
  {
  }

  lemma WorkTreeLiterals()
    ensures Increasing(Rank, [Save, Unstage, ResetStaged]) && RanksWithin(Rank, [Save, Unstage, ResetStaged], 0, 3)
    ensures Increasing(Rank, [StageAll, DiscardChanges]) && RanksWithin(Rank, [StageAll, DiscardChanges], 3, 5)
    ensures Increasing(Rank, [AddUntracked, IgnoreFiles, CleanUntracked])
            && RanksWithin(Rank, [AddUntracked, IgnoreFiles, CleanUntracked], 5, 8)
  {
  }

  /** The working-tree groups are in push order. */
  lemma WorkTreeInOrder(s: RepoState)
    ensures Increasing(Rank, WorkTreeGroups(s)) && RanksWithin(Rank, WorkTreeGroups(s), 0, 8)
  {
    var g1 := Group(s.staged > 0, [Save, Unstage, ResetStaged]);
    var g2 := Group(s.modified > 0, [StageAll, DiscardChanges]);
    var g3 := Group(s.untracked > 0, [AddUntracked, IgnoreFiles, CleanUntracked]);
    WorkTreeLiterals();
    GroupRanked(s.staged > 0, [Save, Unstage, ResetStaged], 0, 3);
    GroupRanked(s.modified > 0, [StageAll, DiscardChanges], 3, 5);
    GroupRanked(s.untracked > 0, [AddUntracked, IgnoreFiles, CleanUntracked], 5, 8);
    IncreasingAppend(Rank, g1, g2, 0, 3, 5);
    IncreasingAppend(Rank, g1 + g2, g3, 0, 5, 8);
  }

  lemma StashRemoteLiterals()
    ensures Increasing(Rank, [ApplyStash, ManageStash]) && RanksWithin(Rank, [ApplyStash, ManageStash], 8, 10)
    ensures Increasing(Rank, [Push, PushAll]) && RanksWithin(Rank, [Push, PushAll], 10, 12)
    ensures Increasing(Rank, [Pull]) && RanksWithin(Rank, [Pull], 12, 13)
  {
  }

  /** The groups before the branch group are in push order. */
  lemma ChangeInOrder(s: RepoState)
    ensures Increasing(Rank, ChangeGroups(s)) && RanksWithin(Rank, ChangeGroups(s), 0, 13)
  {
    var w := WorkTreeGroups(s);
    var g4 := Group(s.stashes > 0, [ApplyStash, ManageStash]);
    var g5 := Group(s.ahead > 0, [Push, PushAll]);
    var g6 := Group(s.behind > 0, [Pull]);
    WorkTreeInOrder(s);
    StashRemoteLiterals();
    GroupRanked(s.stashes > 0, [ApplyStash, ManageStash], 8, 10);
    GroupRanked(s.ahead > 0, [Push, PushAll], 10, 12);
    GroupRanked(s.behind > 0, [Pull], 12, 13);
    IncreasingAppend(Rank, w, g4, 0, 8, 10);
    IncreasingAppend(Rank, w + g4, g5, 0, 10, 12);
    IncreasingAppend(Rank, w + g4 + g5, g6, 0, 12, 13);
  }

  lemma LaterLiterals()
    ensures Increasing(Rank, [SwitchBranch, CreateBranch, DeleteBranch, MergeBranch])
            && RanksWithin(Rank, [SwitchBranch, CreateBranch, DeleteBranch, MergeBranch], 13, 17)
    ensures Increasing(Rank, [CreateBranch]) && RanksWithin(Rank, [CreateBranch], 13, 17)
    ensures Increasing(Rank, [Undo]) && RanksWithin(Rank, [Undo], 17, 18)
    ensures Increasing(Rank, [ViewLog, ShowStatus, Exit]) && RanksWithin(Rank, [ViewLog, ShowStatus, Exit], 18, 21)
  {
  }

  /** The groups appear in the order the source pushes them, so of two
      entries the one pushed earlier comes first, and none appears twice. */
  lemma MenuInOrder(s: RepoState, logTotal: nat)
    ensures Increasing(Rank, Menu(s, logTotal))
    ensures Distinct(Menu(s, logTotal))
  {
    var c := ChangeGroups(s);
    var g7 := BranchGroup(s.localBranches);
    var g8 := Group(s.hasLastAction || logTotal > 1, [Undo]);
    var g9 := [ViewLog, ShowStatus, Exit];
    ChangeInOrder(s);
    LaterLiterals();
    GroupRanked(s.hasLastAction || logTotal > 1, [Undo], 17, 18);
    IncreasingAppend(Rank, c, g7, 0, 13, 17);
    IncreasingAppend(Rank, c + g7, g8, 0, 17, 18);
    IncreasingAppend(Rank, c + g7 + g8, g9, 0, 18, 21);
    IncreasingDistinct(Rank, Menu(s, logTotal));
  }

  /** The list always ends with log, status and exit. */
  lemma MenuEnds(s: RepoState, logTotal: nat)
    ensures |Menu(s, logTotal)| >= 3
    ensures Menu(s, logTotal)[|Menu(s, logTotal)| - 3..] == [ViewLog, ShowStatus, Exit]
  {
  }

  /** "Create new branch" is in the list exactly once, whatever the branch
      count. */
  lemma CreateBranchOnce(s: RepoState, logTotal: nat)
    ensures multiset(Menu(s, logTotal))[CreateBranch] == 1
  {
    MenuInOrder(s, logTotal);
    MenuMembers(s, logTotal, CreateBranch);
    OccursOnce(Menu(s, logTotal), CreateBranch);
  }

  /** Switch, delete and merge are in the list only with more than one
      local branch. */
  lemma BranchActionsOffered(s: RepoState, logTotal: nat)
    ensures SwitchBranch in Menu(s, logTotal) <==> s.localBranches > 1
    ensures DeleteBranch in Menu(s, logTotal) <==> s.localBranches > 1
    ensures MergeBranch in Menu(s, logTotal) <==> s.localBranches > 1
  {
    BranchActionOffered(s, logTotal, SwitchBranch);
    BranchActionOffered(s, logTotal, DeleteBranch);
    BranchActionOffered(s, logTotal, MergeBranch);
  }

  lemma BranchActionOffered(s: RepoState, logTotal: nat, a: NextAction)
    requires a == SwitchBranch || a == DeleteBranch || a == MergeBranch
    ensures a in Menu(s, logTotal) <==> s.localBranches > 1
  {
    MenuMembers(s, logTotal, a);
  }

  /** Undo is in the list exactly when a tracked action exists or the log
      holds more than one commit; with the log unreadable, only for a
      tracked action. */
  lemma UndoOffered(s: RepoState, log: LogRead)
    ensures Undo in Menu(s, EffectiveLog(log).total) <==>
              s.hasLastAction || EffectiveLog(log).total > 1
    ensures log.LogFailed? ==> (Undo in Menu(s, EffectiveLog(log).total) <==> s.hasLastAction)
  {
    hide Menu;
    var total := EffectiveLog(log).total;
    MenuMembers(s, total, Undo);
    assert Offered(s, total, Undo) <==> s.hasLastAction || total > 1;
  }

  /** The clean indicator and the list agree: the working directory reads
      clean exactly when no commit, stage or add action is in the list. */
  lemma CleanIffNoChangeActions(s: RepoState, logTotal: nat)
    ensures IsClean(s) <==>
              Save !in Menu(s, logTotal) && StageAll !in Menu(s, logTotal)
              && AddUntracked !in Menu(s, logTotal)
  {
    MenuMembers(s, logTotal, Save);
    MenuMembers(s, logTotal, StageAll);
    MenuMembers(s, logTotal, AddUntracked);
  }
}

=== FILE: strings.dfy ===
/** Text helpers shared by the command models. Strings are sequences of
    characters; the functions follow the JavaScript built-ins the commands use
    (`trim`, `startsWith`, `includes`, `split` on one character, `toLowerCase`
    on ASCII letters, template-literal printing of non-negative integers,
    `parseInt` in base 10). */
module Strings {
  import opened Wrappers
  import Seqs

  /** The characters JavaScript's `\s` class and `String.prototype.trim`
      treat as white space: WhiteSpace and LineTerminator of ECMAScript. */
  predicate IsSpace(c: char)
  {
    c == '\t' || c == '\n' || c == '\U{B}' || c == '\U{C}' || c == '\r' || c == ' '
    || c == '\U{A0}' || c == '\U{1680}' || ('\U{2000}' <= c <= '\U{200A}')
    || c == '\U{2028}' || c == '\U{2029}' || c == '\U{202F}' || c == '\U{205F}'
    || c == '\U{3000}' || c == '\U{FEFF}'
  }

  /** The characters a regular-expression `.` refuses to match. */
  predicate IsLineTerminator(c: char)
  {
    c == '\n' || c == '\r' || c == '\U{2028}' || c == '\U{2029}'
  }

  /** Length of the run a regular-expression `.*` takes from index `i`: up
      to the first line terminator. */
  function LineRun(s: string, i: nat): (k: nat)
    requires i <= |s|
    ensures i + k <= |s|
    ensures forall j :: i <= j < i + k ==> !IsLineTerminator(s[j])
    ensures i + k == |s| || IsLineTerminator(s[i + k])
    decreases |s| - i
  {
    if i < |s| && !IsLineTerminator(s[i]) then 1 + LineRun(s, i + 1) else 0
  }

  /** Without a line terminator from `i` on, the run reaches the end. */
  lemma {:induction false} LineRunToEnd(s: string, i: nat)
    requires i <= |s| && forall j :: i <= j < |s| ==> !IsLineTerminator(s[j])
    ensures LineRun(s, i) == |s| - i
    decreases |s| - i
  {
    if i < |s| {
      LineRunToEnd(s, i + 1);
    }
  }

  predicate IsDigit(c: char)
  {
    '0' <= c <= '9'
  }

  predicate IsLowerHex(c: char)
  {
    IsDigit(c) || 'a' <= c <= 'f'
  }

  /** `s` with its leading white space removed. */
  function TrimStart(s: string): (r: string)
    ensures |r| <= |s| && r == s[|s| - |r|..]
    ensures r == [] || !IsSpace(r[0])
    ensures forall i :: 0 <= i < |s| - |r| ==> IsSpace(s[i])
  {
    if |s| > 0 && IsSpace(s[0]) then TrimStart(s[1..]) else s
  }

  /** `s` with its trailing white space removed. */
  function TrimEnd(s: string): (r: string)
    ensures |r| <= |s| && r == s[..|r|]
    ensures r == [] || !IsSpace(r[|r| - 1])
    ensures forall i :: |r| <= i < |s| ==> IsSpace(s[i])
  {
    if |s| > 0 && IsSpace(s[|s| - 1]) then TrimEnd(s[..|s| - 1]) else s
  }

  /** `String.prototype.trim`: a slice of `s` that neither starts nor ends
      with white space, obtained by dropping white space only. */
  function Trim(s: string): (r: string)
    ensures |r| <= |s|
    ensures r == [] || (!IsSpace(r[0]) && !IsSpace(r[|r| - 1]))
    ensures (forall i :: 0 <= i < |s| ==> IsSpace(s[i])) <==> r == []
  {
    hide TrimStart, TrimEnd;
    var t := TrimStart(s);
    var r := TrimEnd(t);
    assert r != [] ==> !IsSpace(r[0]) by {
      if r != [] {
        assert r[0] == t[0];
      }
    }
    assert t != [] ==> t[0] == s[|s| - |t|] && r != [] by {
      if t != [] {
        assert !IsSpace(t[0]);
      }
    }
    r
  }

  /** A git read whose output is trimmed, the empty string standing for a
      call that threw: the `null` or `undefined` an empty `catch` leaves
      behind is falsy, like the empty string. */
  function TrimmedRead(r: Option<string>): (v: string)
    ensures r.None? ==> v == []
    ensures r.Some? ==> v == Trim(r.value)
    ensures v == [] <==> r.None? || forall i :: 0 <= i < |r.value| ==> IsSpace(r.value[i])
  {
    if r.Some? then Trim(r.value) else []
  }

  /** Trimming twice changes nothing. */
  lemma TrimIdempotent(s: string)
    ensures Trim(Trim(s)) == Trim(s)
  {
    var r := Trim(s);
    assert TrimStart(r) == r;
    assert TrimEnd(r) == r;
  }

  /** ASCII upper-case letters lowered; every other character unchanged. */
  function LowerChar(c: char): char
  {
    if 'A' <= c <= 'Z' then (c as int + 32) as char else c
  }

  function Lower(s: string): (r: string)
    ensures |r| == |s|
    ensures forall i :: 0 <= i < |s| ==> r[i] == LowerChar(s[i])
  {
    if s == [] then [] else [LowerChar(s[0])] + Lower(s[1..])
  }

  predicate StartsWith(s: string, prefix: string)
  {
    |prefix| <= |s| && s[..|prefix|] == prefix
  }

  predicate EndsWith(s: string, suffix: string)
  {
    |suffix| <= |s| && s[|s| - |suffix|..] == suffix
  }

  /** `String.prototype.includes`: `part` occurs somewhere in `s`. */
  predicate Contains(s: string, part: string)
    decreases |s|
  {
    StartsWith(s, part) || (|s| > 0 && Contains(s[1..], part))
  }

  /** Index of the first occurrence of `c` in `s`. */
  function IndexOfChar(s: string, c: char): (r: nat)
    requires c in s
    ensures r < |s| && s[r] == c && c !in s[..r]
  {
    if s[0] == c then 0 else 1 + IndexOfChar(s[1..], c)
  }

  /** `String.prototype.split` with a one-character separator: the pieces
      between separators, empty ones included. */
  function Split(s: string, sep: char): (r: seq<string>)
    ensures |r| >= 1
    ensures forall i :: 0 <= i < |r| ==> sep !in r[i]
    decreases |s|
  {
    if sep !in s then [s]
    else
      var k := IndexOfChar(s, sep);
      [s[..k]] + Split(s[k + 1..], sep)
  }

  /** `Array.prototype.join`. */
  function Join(parts: seq<string>, sep: string): string
  {
    if parts == [] then ""
    else if |parts| == 1 then parts[0]
    else parts[0] + sep + Join(parts[1..], sep)
  }

  /** Splitting and joining with the same separator gives back the text. */
  lemma {:induction false} JoinSplit(s: string, sep: char)
    ensures Join(Split(s, sep), [sep]) == s
    decreases |s|
  {
    if sep in s {
      var k := IndexOfChar(s, sep);
      var rest := Split(s[k + 1..], sep);
      JoinSplit(s[k + 1..], sep);
      var parts := Split(s, sep);
      assert parts == [s[..k]] + rest;
      assert parts[0] == s[..k] && parts[1..] == rest;
      JoinCons(parts, [sep]);
      assert s == s[..k] + [sep] + s[k + 1..];
    }
  }

  /** The first `c` of `a + t` is the first of `a`, or lies in `t`. */
  lemma {:induction false} IndexOfCharAppend(a: string, t: string, c: char)
    requires c in a + t
    ensures c in a ==> IndexOfChar(a + t, c) == IndexOfChar(a, c)
    ensures c !in a ==> c in t && IndexOfChar(a + t, c) == |a| + IndexOfChar(t, c)
    decreases |a|
  {
    if a != [] {
      assert (a + t)[0] == a[0];
      if a[0] != c {
        assert (a + t)[1..] == a[1..] + t;
        IndexOfCharAppend(a[1..], t, c);
      }
    } else {
      assert a + t == t;
    }
  }

  /** Splitting text glued around a separator splits each side. */
  lemma {:induction false} SplitAround(a: string, b: string, sep: char)
    ensures Split(a + [sep] + b, sep) == Split(a, sep) + Split(b, sep)
    decreases |a|
  {
    var s := a + ([sep] + b);
    assert a + [sep] + b == s;
    assert sep in s by { assert s[|a|] == sep; }
    IndexOfCharAppend(a, [sep] + b, sep);
    if sep !in a {
      assert IndexOfChar([sep] + b, sep) == 0;
      assert s[..|a|] == a && s[|a| + 1..] == b;
    } else {
      var k := IndexOfChar(a, sep);
      assert s[..k] == a[..k];
      assert s[k + 1..] == a[k + 1..] + [sep] + b;
      SplitAround(a[k + 1..], b, sep);
      assert Split(s, sep) == [a[..k]] + (Split(a[k + 1..], sep) + Split(b, sep));
      Seqs.AppendAssoc([a[..k]], Split(a[k + 1..], sep), Split(b, sep));
    }
  }

  /** Joining parts free of the separator and splitting again gives back the
      parts: the other direction of `JoinSplit`. */
  lemma {:induction false} SplitJoin(parts: seq<string>, sep: char)
    requires |parts| >= 1
    requires forall i :: 0 <= i < |parts| ==> sep !in parts[i]
    ensures Split(Join(parts, [sep]), sep) == parts
    decreases |parts|
  {
    if |parts| > 1 {
      var tail := parts[1..];
      SplitJoin(tail, sep);
      JoinCons(parts, [sep]);
      SplitAround(parts[0], Join(tail, [sep]), sep);
      SplitWithout(parts[0], sep);
      Seqs.HeadTail(parts);
    }
  }

  /** Joining two or more parts puts the separator after the first. */
  lemma JoinCons(parts: seq<string>, sep: string)
    requires |parts| > 1
    ensures Join(parts, sep) == parts[0] + sep + Join(parts[1..], sep)
  {
  }

  /** Text without the separator splits into itself alone. */
  lemma SplitWithout(s: string, sep: char)
    requires sep !in s
    ensures Split(s, sep) == [s]
  {
  }

  /** The character spelling a decimal digit. */
  function DigitChar(d: nat): (c: char)
    requires d < 10
    ensures IsDigit(c)
  {
    ('0' as int + d) as char
  }

  /** Decimal spelling of a non-negative integer, without leading zeros
      (what `String(n)`, a template literal or Python's `print` produce). */
  function NatToString(n: nat): (r: string)
    ensures |r| >= 1
    ensures forall i :: 0 <= i < |r| ==> IsDigit(r[i])
    ensures |r| > 1 ==> r[0] != '0'
  {
    if n < 10 then [DigitChar(n)] else NatToString(n / 10) + [DigitChar(n % 10)]
  }

  predicate AllDigits(s: string)
  {
    forall i :: 0 <= i < |s| ==> IsDigit(s[i])
  }

  /** The number a run of decimal digits denotes. */
  function DigitsValue(s: string): nat
    requires AllDigits(s)
  {
    if s == [] then 0 else DigitsValue(s[..|s| - 1]) * 10 + (s[|s| - 1] as int - '0' as int)
  }

  /** Reading back a printed number gives the number. */
  lemma {:induction false} DigitsValueNatToString(n: nat)
    ensures DigitsValue(NatToString(n)) == n
  {
    if n >= 10 {
      DigitsValueNatToString(n / 10);
      var s := NatToString(n);
      assert s[..|s| - 1] == NatToString(n / 10);
    }
  }

  /** Length of the run of decimal digits that starts at index `i` of `s`. */
  function DigitRun(s: string, i: nat): (k: nat)
    requires i <= |s|
    ensures i + k <= |s|
    ensures AllDigits(s[i..i + k])
    ensures i + k == |s| || !IsDigit(s[i + k])
    decreases |s| - i
  {
    if i < |s| && IsDigit(s[i]) then
      var k := DigitRun(s, i + 1);
      assert s[i..i + 1 + k] == [s[i]] + s[i + 1..i + 1 + k];
      1 + k
    else 0
  }

  /** `parseInt(text)` in base 10: leading white space, an optional sign and
      at least one decimal digit; anything after the digits is ignored.
      `None` is NaN. */
  function ParseInt(text: string): (r: Option<int>)
  {
    var t := TrimStart(text);
    var signed := |t| > 0 && (t[0] == '-' || t[0] == '+');
    var body := if signed then t[1..] else t;
    var k := DigitRun(body, 0);
    if k == 0 then None
    else if signed && t[0] == '-' then Some(-(DigitsValue(body[..k]) as int))
    else Some(DigitsValue(body[..k]))
  }

  /** The digits from position `i` to the end are one run. */
  lemma {:induction false} DigitRunToEnd(s: string, i: nat)
    requires i <= |s| && forall j :: i <= j < |s| ==> IsDigit(s[j])
    ensures DigitRun(s, i) == |s| - i
    decreases |s| - i
  {
    if i < |s| {
      DigitRunToEnd(s, i + 1);
    }
  }

  /** `parseInt` reads back what `String(n)` printed. */
  lemma ParseIntNatToString(n: nat)
    ensures ParseInt(NatToString(n)) == Some(n)
  {
    var s := NatToString(n);
    assert IsDigit(s[0]);
    assert TrimStart(s) == s;
    assert !(s[0] == '-' || s[0] == '+');
    DigitRunToEnd(s, 0);
    assert s[..|s|] == s;
    DigitsValueNatToString(n);
  }
}

=== FILE: table_picker.dfy ===
/** The stand-alone command picker (`bin/table-picker.jsx`): the same
    catalogue as the editor, filtered by substring instead of prefix, with the
    chosen command printed on Enter. */
module TablePicker {
  import opened Wrappers
  import opened Strings
  import opened RcEditor
  import Seqs

  /** The picker's test (table-picker.jsx:169-173): the command or the
      description contains the query, ignoring ASCII case. */
  predicate SubstringMatches(c: CommandInfo, query: string)
  {
    Contains(Lower(c.command), Lower(query)) || Contains(Lower(c.description), Lower(query))
  }

  function SubstringFilter(list: seq<CommandInfo>, query: string): (r: seq<CommandInfo>)
    ensures |r| <= |list|
    ensures forall i :: 0 <= i < |r| ==> r[i] in list && SubstringMatches(r[i], query)
    ensures forall i :: 0 <= i < |list| && SubstringMatches(list[i], query) ==> list[i] in r
  {
    Seqs.Filter((c: CommandInfo) => SubstringMatches(c, query), list)
  }

  /** Every text contains the empty text. */
  lemma ContainsEmpty(s: string)
    ensures Contains(s, "")
  {
    assert StartsWith(s, "");
  }

  /** Every text contains each of its prefixes. */
  lemma ContainsPrefix(s: string, p: string)
    requires StartsWith(s, p)
    ensures Contains(s, p)
  {
  }

  /** An empty query keeps every command, in order, with no special case in
      the code: every text contains the empty text. */
  lemma EmptyQueryKeepsAll(list: seq<CommandInfo>)
    ensures SubstringFilter(list, "") == list
  {
    forall c: CommandInfo
      ensures SubstringMatches(c, "")
    {
      ContainsEmpty(Lower(c.command));
    }
    Seqs.FilterKeepsAll((c: CommandInfo) => SubstringMatches(c, ""), list);
  }

  /** Everything the editor's prefix filter keeps, this filter keeps. */
  lemma PrefixMatchIsSubstringMatch(c: CommandInfo, query: string)
    requires PrefixMatches(c, query)
    ensures SubstringMatches(c, query)
  {
    if query == "" {
      ContainsEmpty(Lower(c.command));
    } else if StartsWith(Lower(c.command), Lower(query)) {
      ContainsPrefix(Lower(c.command), Lower(query));
    } else {
      ContainsPrefix(Lower(c.description), Lower(query));
    }
  }

  /** The `TablePicker` component's state (table-picker.jsx:163-192);
      `printed` is the command written to stdout before exiting. */
  class TablePicker {
    const catalogue: seq<CommandInfo>
    var query: string
    var selected: int
    var printed: Option<string>
    var exited: bool
    /** Enter on an empty list reads `.command` of `undefined` and throws. */
    var failed: bool

    constructor(catalogue: seq<CommandInfo>)
      ensures this.catalogue == catalogue && query == "" && selected == 0
      ensures printed.None? && !exited && !failed
    {
      this.catalogue := catalogue;
      query := "";
      selected := 0;
      printed := None;
      exited := false;
      failed := false;
    }

    function Filtered(): seq<CommandInfo>
      reads this
    {
      SubstringFilter(catalogue, query)
    }

    method HandleKey(k: Key)
      modifies this
      ensures k.DownArrow? ==> selected == MoveDown(old(selected), |old(Filtered())|) && query == old(query)
      ensures k.UpArrow? ==> selected == MoveUp(old(selected)) && query == old(query)
      ensures k.Return? && 0 <= old(selected) < |old(Filtered())| ==>
                printed == Some(old(Filtered())[old(selected)].command) && exited
      ensures k.Return? && !(0 <= old(selected) < |old(Filtered())|) ==> failed && printed == old(printed)
      ensures EditsText(k) ==> query == EditText(old(query), k) && selected == 0
      ensures !k.DownArrow? && !k.UpArrow? && !EditsText(k) ==> query == old(query) && selected == old(selected)
      ensures !k.Return? ==> printed == old(printed) && exited == old(exited) && failed == old(failed)
    {
      var filtered := Filtered();
      if k.DownArrow? {
        selected := MoveDown(selected, |filtered|);
      } else if k.UpArrow? {
        selected := MoveUp(selected);
      } else if k.Return? {
        if 0 <= selected < |filtered| {
          printed := Some(filtered[selected].command);
          exited := true;
        } else {
          failed := true;
        }
      } else if EditsText(k) {
        query := EditText(query, k);
        selected := 0;
      }
    }
  }
}

=== FILE: tag_delete.dfy ===
/** Deleting tags (`tag.js`): every tag is attempted in turn, a failure is
    reported and the loop goes on, and a `tag-delete` entry is recorded for
    each tag deleted whose commit was found beforehand. The `git rev-list`
    and `git tag -d` calls are inputs; the history is the `ActionHistory`
    object of the history module. */
module TagDelete {
  import opened Wrappers
  import opened Strings
  import opened Seqs
  import History

  /** One line of the printed results. */
  datatype TagLine = TagDeleted(tag: string) | TagFailed(tag: string, message: string)

  /** The lookup as `tag.js:18-19` writes it. `git.raw` resolves to the
      output text itself, so destructuring `{ stdout }` from it gives
      `undefined`; `stdout.trim()` then throws a `TypeError` whatever git
      printed, and the inner `catch` leaves the hash `null`: the lookup
      never yields a commit. */
  function ReadAsWritten(output: Option<string>): Option<string>
  {
    None
  }

  /** The lookups of a run as written, one per `git rev-list` output. */
  function LookupsAsWritten(outputs: seq<Option<string>>): (r: seq<Option<string>>)
    ensures |r| == |outputs|
  {
    if outputs == [] then [] else [ReadAsWritten(outputs[0])] + LookupsAsWritten(outputs[1..])
  }

  /** The line for one tag: it depends only on how the deletion ended. */
  function TagResult(tag: string, deletion: CallResult): TagLine
  {
    if deletion.Returned? then TagDeleted(tag) else TagFailed(tag, deletion.message)
  }

  /** The lines of `tag.js:13-29`, one per tag, in order. */
  function TagLines(tags: seq<string>, deletions: seq<CallResult>): (r: seq<TagLine>)
    requires |deletions| == |tags|
    ensures |r| == |tags|
    ensures forall i :: 0 <= i < |tags| ==> r[i] == TagResult(tags[i], deletions[i])
  {
    if tags == [] then [] else [TagResult(tags[0], deletions[0])] + TagLines(tags[1..], deletions[1..])
  }

  /** The entry a tag adds to the history, if any (`tag.js:21-24`). */
  function TagEntry(tag: string, lookup: Option<string>, deletion: CallResult): Option<History.Action>
  {
    if deletion.Returned? && TrimmedRead(lookup) != [] then Some(History.TagDelete(tag, TrimmedRead(lookup))) else None
  }

  /** The entries recorded for a run of tags, in order. */
  function TagEntries(tags: seq<string>, lookups: seq<Option<string>>, deletions: seq<CallResult>): (r: seq<History.Action>)
    requires |lookups| == |tags| && |deletions| == |tags|
    ensures |r| <= |tags|
  {
    if tags == [] then []
    else
      var first := TagEntry(tags[0], lookups[0], deletions[0]);
      (if first.Some? then [first.value] else []) + TagEntries(tags[1..], lookups[1..], deletions[1..])
  }

  /** `tagHandler` (`tag.js:6-31`): look the tag's commit up, delete the tag,
      record it when both worked, and go on to the next tag whatever
      happened. `printed` says whether the results are printed. */
  method DeleteTags(h: History.ActionHistory, tags: seq<string>, lookups: seq<Option<string>>, deletions: seq<CallResult>)
    returns (results: seq<TagLine>, printed: bool)
    requires |lookups| == |tags| && |deletions| == |tags|
    modifies h
    ensures results == TagLines(tags, deletions)
    ensures printed <==> tags != []
    ensures h.actions == old(h.actions) + TagEntries(tags, lookups, deletions)
    ensures h.undone == old(h.undone)
  {
    results := [];
    var i := 0;
    while i < |tags|
      invariant 0 <= i <= |tags|
      invariant results == TagLines(tags[..i], deletions[..i])
      invariant h.actions == old(h.actions) + TagEntries(tags[..i], lookups[..i], deletions[..i])
      invariant h.undone == old(h.undone)
    {
      var tag := tags[i];
      var hash := TrimmedRead(lookups[i]);
      TagsSnoc(tags, lookups, deletions, i);
      var e := TagEntry(tag, lookups[i], deletions[i]);
      AppendAssoc(old(h.actions), TagEntries(tags[..i], lookups[..i], deletions[..i]), if e.Some? then [e.value] else []);
      if deletions[i].Returned? {
        if hash != [] {
          h.AddAction(History.TagDelete(tag, hash));
        }
        results := results + [TagDeleted(tag)];
      } else {
        results := results + [TagFailed(tag, deletions[i].message)];
      }
      i := i + 1;
    }
    assert tags[..i] == tags && lookups[..i] == lookups && deletions[..i] == deletions;
    printed := results != [];
  }

  /** One more tag adds its line and its entry at the end. */
  lemma TagsSnoc(tags: seq<string>, lookups: seq<Option<string>>, deletions: seq<CallResult>, i: nat)
    requires |lookups| == |tags| && |deletions| == |tags| && i < |tags|
    ensures TagLines(tags[..i + 1], deletions[..i + 1])
            == TagLines(tags[..i], deletions[..i]) + [TagResult(tags[i], deletions[i])]
    ensures var e := TagEntry(tags[i], lookups[i], deletions[i]);
            TagEntries(tags[..i + 1], lookups[..i + 1], deletions[..i + 1])
            == TagEntries(tags[..i], lookups[..i], deletions[..i]) + (if e.Some? then [e.value] else [])
  {
    assert tags[..i + 1] == tags[..i] + [tags[i]];
    assert lookups[..i + 1] == lookups[..i] + [lookups[i]];
    assert deletions[..i + 1] == deletions[..i] + [deletions[i]];
    EntriesAppend(tags[..i], [tags[i]], lookups[..i], [lookups[i]], deletions[..i], [deletions[i]]);
  }

  /** The entries of two runs of tags are the entries of each, in order. */
  lemma {:induction false} EntriesAppend(t1: seq<string>, t2: seq<string>, l1: seq<Option<string>>, l2: seq<Option<string>>,
                                         d1: seq<CallResult>, d2: seq<CallResult>)
    requires |l1| == |t1| && |d1| == |t1| && |l2| == |t2| && |d2| == |t2|
    ensures TagEntries(t1 + t2, l1 + l2, d1 + d2) == TagEntries(t1, l1, d1) + TagEntries(t2, l2, d2)
  {
    if t1 == [] {
      assert t1 + t2 == t2 && l1 + l2 == l2 && d1 + d2 == d2;
    } else {
      assert (t1 + t2)[1..] == t1[1..] + t2;
      assert (l1 + l2)[1..] == l1[1..] + l2;
      assert (d1 + d2)[1..] == d1[1..] + d2;
      EntriesAppend(t1[1..], t2, l1[1..], l2, d1[1..], d2);
      var first := TagEntry(t1[0], l1[0], d1[0]);
      var head := if first.Some? then [first.value] else [];
      assert TagEntries(t1 + t2, l1 + l2, d1 + d2)
             == head + (TagEntries(t1[1..], l1[1..], d1[1..]) + TagEntries(t2, l2, d2));
      AppendAssoc(head, TagEntries(t1[1..], l1[1..], d1[1..]), TagEntries(t2, l2, d2));
    }
  }

  /** Every recorded entry is for a tag that was deleted after its commit was
      found, with that commit. */
  lemma {:induction false} EntriesAreDeletedTags(tags: seq<string>, lookups: seq<Option<string>>, deletions: seq<CallResult>, a: History.Action)
    requires |lookups| == |tags| && |deletions| == |tags|
    requires a in TagEntries(tags, lookups, deletions)
    ensures exists i :: 0 <= i < |tags| && deletions[i].Returned? && TrimmedRead(lookups[i]) != []
                        && a == History.TagDelete(tags[i], TrimmedRead(lookups[i]))
  {
    var first := TagEntry(tags[0], lookups[0], deletions[0]);
    if first.Some? && a == first.value {
      assert deletions[0].Returned? && TrimmedRead(lookups[0]) != [];
    } else {
      assert a in TagEntries(tags[1..], lookups[1..], deletions[1..]);
      EntriesAreDeletedTags(tags[1..], lookups[1..], deletions[1..], a);
      var i :| 0 <= i < |tags| - 1 && deletions[1..][i].Returned? && TrimmedRead(lookups[1..][i]) != []
               && a == History.TagDelete(tags[1..][i], TrimmedRead(lookups[1..][i]));
      assert deletions[i + 1].Returned? && a == History.TagDelete(tags[i + 1], TrimmedRead(lookups[i + 1]));
    }
  }

  /** Conversely, every tag deleted after its commit was found is
      recorded. */
  lemma {:induction false} DeletedTagsAreRecorded(tags: seq<string>, lookups: seq<Option<string>>, deletions: seq<CallResult>, i: nat)
    requires |lookups| == |tags| && |deletions| == |tags|
    requires i < |tags| && deletions[i].Returned? && TrimmedRead(lookups[i]) != []
    ensures History.TagDelete(tags[i], TrimmedRead(lookups[i])) in TagEntries(tags, lookups, deletions)
  {
    EntriesCons(tags, lookups, deletions);
    if i > 0 {
      DeletedTagsAreRecorded(tags[1..], lookups[1..], deletions[1..], i - 1);
    }
  }

  /** The entries of a non-empty run: the first tag's, then the rest's. */
  lemma EntriesCons(tags: seq<string>, lookups: seq<Option<string>>, deletions: seq<CallResult>)
    requires |lookups| == |tags| && |deletions| == |tags| && tags != []
    ensures var first := TagEntry(tags[0], lookups[0], deletions[0]);
            TagEntries(tags, lookups, deletions)
            == (if first.Some? then [first.value] else []) + TagEntries(tags[1..], lookups[1..], deletions[1..])
  {
  }

  /** As written, no run records anything, whatever git printed and
      however the deletions ended: `undo` can never restore a deleted tag. */
  lemma {:induction false} AsWrittenRecordsNothing(tags: seq<string>, outputs: seq<Option<string>>, deletions: seq<CallResult>)
    requires |outputs| == |tags| && |deletions| == |tags|
    ensures TagEntries(tags, LookupsAsWritten(outputs), deletions) == []
  {
    if tags != [] {
      assert LookupsAsWritten(outputs)[1..] == LookupsAsWritten(outputs[1..]);
      AsWrittenRecordsNothing(tags[1..], outputs[1..], deletions[1..]);
    }
  }

  /** A failed lookup does not stop the deletion: the lines do not depend on
      the lookups, and a tag whose deletion worked is reported deleted
      whatever its lookup gave. */
  lemma LookupDoesNotMatter(tags: seq<string>, deletions: seq<CallResult>, i: nat)
    requires |deletions| == |tags| && i < |tags| && deletions[i].Returned?
    ensures TagLines(tags, deletions)[i] == TagDeleted(tags[i])
  {
  }

  /** How many lines report a failure. */
  function FailedLines(lines: seq<TagLine>): nat
  {
    if lines == [] then 0 else (if lines[0].TagFailed? then 1 else 0) + FailedLines(lines[1..])
  }

  /** How many calls threw. */
  function FailedCalls(calls: seq<CallResult>): nat
  {
    if calls == [] then 0 else (if calls[0].Threw? then 1 else 0) + FailedCalls(calls[1..])
  }

  /** A failure is reported on its tag's line and the loop goes on: there
      are as many failure lines as failed deletions. */
  lemma {:induction false} FailuresCounted(tags: seq<string>, deletions: seq<CallResult>)
    requires |deletions| == |tags|
    ensures FailedLines(TagLines(tags, deletions)) == FailedCalls(deletions)
  {
    if tags != [] {
      FailuresCounted(tags[1..], deletions[1..]);
      assert TagLines(tags, deletions)[1..] == TagLines(tags[1..], deletions[1..]);
    }
  }
}

=== FILE: undo_redo.dfy ===
/** The `undo` and `redo` commands (`undo.js`, `redo.js`): dispatch on the
    type of the action on top of the history, the git calls each type makes,
    and the effect on the two history stacks. Git is an oracle saying whether
    each call succeeds; the confirmation prompt is an input. */
module UndoRedo {
  import opened Wrappers
  import opened Strings
  import opened History
  import Seqs

  /** One git invocation: its arguments and what is piped to its stdin. */
  datatype GitCall = GitCall(args: seq<string>, stdin: string)

  function Git(args: seq<string>): GitCall
  {
    GitCall(args, "")
  }

  /** The calls made before the first failure, that failure included. */
  datatype GitRun = GitRun(attempted: seq<GitCall>, succeeded: bool)

  /** Awaiting the calls one after another: a failing call throws, so the
      later ones are not made. */
  function Execute(calls: seq<GitCall>, ok: GitCall -> bool): (r: GitRun)
    ensures r.succeeded <==> forall i :: 0 <= i < |calls| ==> ok(calls[i])
    ensures r.succeeded ==> r.attempted == calls
    ensures !r.succeeded ==>
              0 < |r.attempted| <= |calls| && r.attempted == calls[..|r.attempted|]
              && !ok(r.attempted[|r.attempted| - 1])
              && forall i :: 0 <= i < |r.attempted| - 1 ==> ok(r.attempted[i])
  {
    if calls == [] then GitRun([], true)
    else if !ok(calls[0]) then GitRun([calls[0]], false)
    else
      var rest := Execute(calls[1..], ok);
      assert forall i :: 1 <= i < |calls| ==> calls[i] == calls[1..][i - 1];
      GitRun([calls[0]] + rest.attempted, rest.succeeded)
  }

  /** What a command reports. */
  datatype Outcome =
    | NotARepository
    /** The confirmation was declined. */
    | Declined
    /** Every git call succeeded. */
    | Done(attempted: seq<GitCall>)
    /** A git call failed and the error was reported. */
    | Failed(attempted: seq<GitCall>)
    /** A git call failed outside any `try`: the command's promise rejects. */
    | Aborted(attempted: seq<GitCall>)
    | NothingToUndo
    | OnlyCommit
    | Cancelled
    | NothingToRedo
    | NoRedoAvailable

  // -------------------------------------------------------------------- undo

  /** The types whose successful undo moves the entry to `undone`
      (undo.js:33-35, 62-64, 92-95, 122-124). */
  predicate MovesOnUndo(a: Action)
  {
    a.BranchDelete? || a.TagDelete? || a.StashPop? || a.StashDrop? || a.ResetHard?
  }

  /** The types undo handles itself; anything else falls back to a soft
      reset (undo.js:21-166). */
  predicate HandledOnUndo(a: Action)
  {
    MovesOnUndo(a) || a.Unstage? || a.StashCreate? || a.ConfigChange? || a.Merge?
  }

  /** The git calls that undo an action (undo.js:33, 62, 92-93, 122, 142,
      148-149, 153-158, 162). */
  function UndoCalls(a: Action): (calls: seq<GitCall>)
    requires HandledOnUndo(a)
    ensures 1 <= |calls| <= 2
    ensures a.ConfigChange? && a.prev != "" ==> calls == [Git(["config", a.key, a.prev])]
    ensures a.ConfigChange? && a.prev == "" ==> calls == [Git(["config", "--unset", a.key])]
  {
    match a
    case BranchDelete(branch, hash) => [Git(["branch", branch, hash])]
    case TagDelete(tag, hash) => [Git(["tag", tag, hash])]
    case StashPop(message, patch) => [GitCall(["apply", "--index"], patch), Git(["stash", "push", "-m", message])]
    case StashDrop(message, patch) => [GitCall(["apply", "--index"], patch), Git(["stash", "push", "-m", message])]
    case ResetHard(from, _) => [Git(["reset", "--hard", from])]
    case Unstage(file) => [Git(["add", file])]
    case StashCreate(ref, _) => [Git(["stash", "apply", ref]), Git(["stash", "drop", ref])]
    case ConfigChange(key, prev, _) =>
      if prev != "" then [Git(["config", key, prev])] else [Git(["config", "--unset", key])]
    case Merge(_, preMergeHead) => [Git(["reset", "--hard", preMergeHead])]
  }

  const SoftReset := Git(["reset", "--soft", "HEAD~1"])

  /** The fallback (undo.js:167-244): no tracked action, or one undo does not
      handle, undoes the last commit with a soft reset. `logTotal` is the
      commit count, `None` when reading the log failed. */
  function FallbackOutcome(confirm: bool, ok: GitCall -> bool, logTotal: Option<nat>): (r: Outcome)
    ensures r.Done? ==> r.attempted == [SoftReset] && confirm && logTotal.Some? && logTotal.value >= 2
    ensures logTotal == Some(0) <==> r == NothingToUndo
    ensures logTotal == Some(1) <==> r == OnlyCommit
  {
    if logTotal.None? then Failed([])
    else if logTotal.value == 0 then NothingToUndo
    else if logTotal.value == 1 then OnlyCommit
    else if !confirm then Cancelled
    else if ok(SoftReset) then Done([SoftReset])
    else Failed([SoftReset])
  }

  /** What undo reports for the top action `last`. */
  function UndoOutcome(last: Option<Action>, confirm: bool, ok: GitCall -> bool, logTotal: Option<nat>): (r: Outcome)
    ensures last.None? || !HandledOnUndo(last.value) ==> r == FallbackOutcome(confirm, ok, logTotal)
    ensures last.Some? && HandledOnUndo(last.value) ==>
              && (r == Declined <==> MovesOnUndo(last.value) && !confirm)
              && (r.Done? <==> (confirm || !MovesOnUndo(last.value))
                               && forall i :: 0 <= i < |UndoCalls(last.value)| ==> ok(UndoCalls(last.value)[i]))
              && (r.Done? ==> r.attempted == UndoCalls(last.value))
              && (r.Aborted? ==> !MovesOnUndo(last.value))
  {
    if last.Some? && HandledOnUndo(last.value) then
      var a := last.value;
      if MovesOnUndo(a) && !confirm then Declined
      else
        var run := Execute(UndoCalls(a), ok);
        if run.succeeded then Done(run.attempted)
        else if MovesOnUndo(a) then Failed(run.attempted)
        else Aborted(run.attempted)
    else FallbackOutcome(confirm, ok, logTotal)
  }

  /** Only a confirmed, successful undo of a moving type leaves a trace in
      the history; an empty history or an unhandled type never does. */
  lemma UndoMovesOnlyWhenConfirmed(last: Option<Action>, confirm: bool, ok: GitCall -> bool, logTotal: Option<nat>)
    ensures last.Some? && MovesOnUndo(last.value) && UndoOutcome(last, confirm, ok, logTotal).Done?
            <==> last.Some? && MovesOnUndo(last.value) && confirm
                 && forall i :: 0 <= i < |UndoCalls(last.value)| ==> ok(UndoCalls(last.value)[i])
  {
  }

  /** An unhandled type, such as a remote branch deletion, gets the soft
      reset, never a call of its own. */
  lemma UnhandledFallsBack(a: Action, confirm: bool, ok: GitCall -> bool, logTotal: Option<nat>)
    requires !HandledOnUndo(a)
    ensures UndoOutcome(Some(a), confirm, ok, logTotal) == UndoOutcome(None, confirm, ok, logTotal)
    ensures UndoOutcome(Some(a), confirm, ok, logTotal).Done? ==>
              UndoOutcome(Some(a), confirm, ok, logTotal).attempted == [SoftReset]
  {
  }

  /** `undo` (undo.js:12-245). */
  method Undo(h: ActionHistory, inRepo: bool, confirm: bool, ok: GitCall -> bool, logTotal: Option<nat>)
    returns (outcome: Outcome)
    modifies h
    ensures !inRepo ==> outcome == NotARepository
    ensures inRepo ==> outcome == UndoOutcome(old(h.LastAction()), confirm, ok, logTotal)
    ensures outcome.Done? && old(h.LastAction()).Some? && MovesOnUndo(old(h.LastAction()).value) ==>
              h.actions == old(h.actions)[..|old(h.actions)| - 1]
              && h.undone == old(h.undone) + [old(h.LastAction()).value]
    ensures !(outcome.Done? && old(h.LastAction()).Some? && MovesOnUndo(old(h.LastAction()).value)) ==>
              h.actions == old(h.actions) && h.undone == old(h.undone)
  {
    if !inRepo {
      return NotARepository;
    }
    var last := h.LastAction();
    outcome := UndoOutcome(last, confirm, ok, logTotal);
    if outcome.Done? && last.Some? && MovesOnUndo(last.value) {
      var popped := h.PopLastAction();
      h.AddUndone(last.value);
    }
  }

  // -------------------------------------------------------------------- redo

  /** The types whose successful redo moves the entry back to `actions`
      (redo.js:42-43, 76-77, 119-120, 160-161, 194-195). */
  predicate MovesOnRedo(a: Action)
  {
    a.BranchDelete? || a.TagDelete? || a.StashPop? || a.StashDrop? || a.RemoteBranchDelete? || a.ResetHard?
  }

  predicate HandledOnRedo(a: Action)
  {
    MovesOnRedo(a) || a.Unstage? || a.StashCreate? || a.ConfigChange? || a.Merge?
  }

  /** `stash@{i}` for the first stash whose message is `message`
      (redo.js:110-113). */
  function StashRef(stashes: seq<string>, message: string): (r: Option<string>)
    ensures r.None? <==> forall i :: 0 <= i < |stashes| ==> stashes[i] != message
    ensures r.Some? ==> exists i :: 0 <= i < |stashes| && stashes[i] == message
                          && (forall j :: 0 <= j < i ==> stashes[j] != message)
                          && r.value == "stash@{" + NatToString(i) + "}"
  {
    var idx := Seqs.FindIndex((s: string) => s == message, stashes);
    if idx.None? then None else Some("stash@{" + NatToString(idx.value) + "}")
  }

  /** The git calls that redo an action; `None` when the stash to redo is not
      in the stash list (redo.js:41, 75, 110-118, 159, 193, 218, 231, 243, 255). */
  function RedoCalls(a: Action, stashes: seq<string>): (r: Option<seq<GitCall>>)
    requires HandledOnRedo(a)
    ensures r.None? <==> (a.StashPop? || a.StashDrop?) && StashRef(stashes, a.message).None?
    ensures r.Some? ==> |r.value| == 1
  {
    match a
    case BranchDelete(branch, _) => Some([Git(["branch", "-d", branch])])
    case TagDelete(tag, _) => Some([Git(["tag", "-d", tag])])
    case StashPop(message, _) =>
      var ref := StashRef(stashes, message);
      if ref.None? then None else Some([Git(["stash", "pop", ref.value])])
    case StashDrop(message, _) =>
      var ref := StashRef(stashes, message);
      if ref.None? then None else Some([Git(["stash", "drop", ref.value])])
    case RemoteBranchDelete(branch) => Some([Git(["push", "origin", "--delete", branch])])
    case ResetHard(_, to) => Some([Git(["reset", "--hard", to])])
    case Unstage(file) => Some([Git(["reset", "HEAD", file])])
    case StashCreate(_, message) => Some([Git(["stash", "push", "-m", message])])
    case ConfigChange(key, _, value) => Some([Git(["config", key, value])])
    case Merge(branch, _) => Some([Git(["merge", branch])])
  }

  /** What redo reports for the top undone entry `last`. `stashList` is the
      stash messages, `None` when listing them failed. */
  function RedoOutcome(last: Option<Action>, confirm: bool, ok: GitCall -> bool, stashList: Option<seq<string>>): (r: Outcome)
    ensures r == NothingToRedo <==> last.None?
    ensures r == NoRedoAvailable <==> last.Some? && !HandledOnRedo(last.value)
    ensures last.Some? && HandledOnRedo(last.value) ==> (r == Declined <==> MovesOnRedo(last.value) && !confirm)
    ensures r.Done? ==> last.Some? && HandledOnRedo(last.value) && (confirm || !MovesOnRedo(last.value))
                        && RedoCalls(last.value, stashList.GetOr([])).Some?
                        && r.attempted == RedoCalls(last.value, stashList.GetOr([])).value
    ensures r.Aborted? ==> last.Some? && !MovesOnRedo(last.value)
  {
    if last.None? then NothingToRedo
    else if !HandledOnRedo(last.value) then NoRedoAvailable
    else
      var a := last.value;
      if MovesOnRedo(a) && !confirm then Declined
      else if (a.StashPop? || a.StashDrop?) && stashList.None? then Failed([])
      else
        var calls := RedoCalls(a, stashList.GetOr([]));
        if calls.None? then Failed([])
        else
          var run := Execute(calls.value, ok);
          if run.succeeded then Done(run.attempted)
          else if MovesOnRedo(a) then Failed(run.attempted)
          else Aborted(run.attempted)
  }

  /** A stash redo succeeds only when the recorded message is in the list. */
  lemma StashRedoNeedsMessage(a: Action, confirm: bool, ok: GitCall -> bool, stashList: Option<seq<string>>)
    requires a.StashPop? || a.StashDrop?
    requires RedoOutcome(Some(a), confirm, ok, stashList).Done?
    ensures confirm && stashList.Some?
    ensures exists i :: 0 <= i < |stashList.value| && stashList.value[i] == a.message
  {
    var r := StashRef(stashList.value, a.message);
    assert r.Some?;
  }

  /** `redo` (redo.js:11-274). */
  method Redo(h: ActionHistory, inRepo: bool, confirm: bool, ok: GitCall -> bool, stashList: Option<seq<string>>)
    returns (outcome: Outcome)
    modifies h
    ensures !inRepo ==> outcome == NotARepository
    ensures inRepo ==> outcome == RedoOutcome(old(h.LastUndone()), confirm, ok, stashList)
    ensures outcome.Done? && old(h.LastUndone()).Some? && MovesOnRedo(old(h.LastUndone()).value) ==>
              h.undone == old(h.undone)[..|old(h.undone)| - 1]
              && h.actions == old(h.actions) + [old(h.LastUndone()).value]
    ensures !(outcome.Done? && old(h.LastUndone()).Some? && MovesOnRedo(old(h.LastUndone()).value)) ==>
              h.actions == old(h.actions) && h.undone == old(h.undone)
  {
    if !inRepo {
      return NotARepository;
    }
    var last := h.LastUndone();
    outcome := RedoOutcome(last, confirm, ok, stashList);
    if outcome.Done? && last.Some? && MovesOnRedo(last.value) {
      var popped := h.PopLastUndone();
      h.AddAction(last.value);
    }
  }

  /** Undo followed by redo of a branch deletion, tag deletion, stash pop or
      drop, or hard reset: when both succeed, both stacks are back to what
      they were. */
  method UndoThenRedo(h: ActionHistory, ok: GitCall -> bool, logTotal: Option<nat>, stashList: Option<seq<string>>)
    returns (undone: Outcome, redone: Outcome)
    requires h.LastAction().Some? && MovesOnUndo(h.LastAction().value)
    modifies h
    ensures undone.Done? && redone.Done? ==> h.actions == old(h.actions) && h.undone == old(h.undone)
  {
    ghost var a := h.LastAction().value;
    undone := Undo(h, true, true, ok, logTotal);
    if undone.Done? {
      assert h.LastUndone() == Some(a);
      assert MovesOnRedo(a);
    }
    redone := Redo(h, true, true, ok, stashList);
    if undone.Done? && redone.Done? {
      assert h.actions == old(h.actions)[..|old(h.actions)| - 1] + [a];
      assert old(h.actions) == old(h.actions)[..|old(h.actions)| - 1] + [a];
      assert (old(h.undone) + [a])[..|old(h.undone)|] == old(h.undone);
    }
  }
}

=== FILE: worktree.dfy ===
/** The worktree command (`src/commands/worktree.js`): the output of
    `git worktree list --porcelain` split into one block per worktree, the
    fields read from each block, the status line printed for it and the
    list offered for removal. */
module Worktree {
  import opened Wrappers
  import opened Strings
  import Seqs

  // ----------------------------------------------------------- blocks

  const WorktreeKey := "worktree "

  /** A newline at `p` that `/\n(?=worktree )/` splits at. */
  predicate IsBreak(s: string, p: nat)
  {
    p < |s| && s[p] == '\n' && StartsWith(s[p + 1..], WorktreeKey)
  }

  /** The first split point at or after `i`. */
  function FirstBreak(s: string, i: nat): (p: Option<nat>)
    requires i <= |s|
    ensures p.Some? ==> i <= p.value < |s| && IsBreak(s, p.value)
    ensures p.Some? ==> forall q :: i <= q < p.value ==> !IsBreak(s, q)
    ensures p.None? ==> forall q :: i <= q < |s| ==> !IsBreak(s, q)
    decreases |s| - i
  {
    if i >= |s| then None
    else if IsBreak(s, i) then Some(i)
    else FirstBreak(s, i + 1)
  }

  /** `split(/\n(?=worktree )/)`: the pieces between split points; each
      newline split at is dropped and the `worktree ` after it is kept. */
  function SplitBlocks(s: string): (r: seq<string>)
    ensures |r| >= 1
    decreases |s|
  {
    match FirstBreak(s, 0)
    case None => [s]
    case Some(p) => [s[..p]] + SplitBlocks(s[p + 1..])
  }

  /** Joining the blocks with newlines gives back the text: nothing is lost
      but the newlines split at. */
  lemma {:induction false} JoinBlocks(s: string)
    ensures Join(SplitBlocks(s), "\n") == s
    decreases |s|
  {
    match FirstBreak(s, 0)
    case None =>
    case Some(p) =>
      var rest := SplitBlocks(s[p + 1..]);
      JoinBlocks(s[p + 1..]);
      assert SplitBlocks(s) == [s[..p]] + rest;
      assert s == s[..p] + "\n" + s[p + 1..];
  }

  /** Every block after the first starts with `worktree `, and no block has a
      split point of its own. */
  lemma {:induction false} BlocksShape(s: string)
    ensures forall i :: 0 < i < |SplitBlocks(s)| ==> StartsWith(SplitBlocks(s)[i], WorktreeKey)
    ensures forall i, q :: 0 <= i < |SplitBlocks(s)| && 0 <= q < |SplitBlocks(s)[i]| ==> !IsBreak(SplitBlocks(s)[i], q)
    decreases |s|
  {
    match FirstBreak(s, 0)
    case None =>
    case Some(p) =>
      BlocksShape(s[p + 1..]);
      var first := s[..p];
      forall q | 0 <= q < |first|
        ensures !IsBreak(first, q)
      {
        BreakOfPrefix(s, p, q);
      }
      var rest := SplitBlocks(s[p + 1..]);
      assert SplitBlocks(s) == [first] + rest;
      FirstBlockStarts(s[p + 1..]);
  }

  /** A split point of a prefix is a split point of the whole text. */
  lemma BreakOfPrefix(s: string, p: nat, q: nat)
    requires q < p <= |s|
    ensures IsBreak(s[..p], q) ==> IsBreak(s, q)
  {
    if IsBreak(s[..p], q) {
      var t := s[..p];
      assert t[q + 1..] == s[q + 1..p];
      assert s[q + 1..][..|WorktreeKey|] == t[q + 1..][..|WorktreeKey|];
    }
  }

  /** The first block keeps the text's own start. */
  lemma FirstBlockStarts(s: string)
    requires StartsWith(s, WorktreeKey)
    ensures StartsWith(SplitBlocks(s)[0], WorktreeKey)
  {
    match FirstBreak(s, 0)
    case None =>
    case Some(p) =>
      assert p >= |WorktreeKey|;
      assert s[..p][..|WorktreeKey|] == s[..|WorktreeKey|];
  }

  // ----------------------------------------------------------- fields

  /** `key` followed by at least one character of the same line starts at
      `p`. */
  predicate KeyAt(b: string, key: string, p: nat)
  {
    p + |key| < |b| && b[p..p + |key|] == key && !IsLineTerminator(b[p + |key|])
  }

  /** The leftmost place at or after `i` where `/<key>(.+)/` matches. */
  function FindKey(b: string, key: string, i: nat): (p: Option<nat>)
    requires i <= |b|
    ensures p.Some? ==> i <= p.value && KeyAt(b, key, p.value)
    ensures p.Some? ==> forall q :: i <= q < p.value ==> !KeyAt(b, key, q)
    ensures p.None? ==> forall q :: i <= q ==> !KeyAt(b, key, q)
    decreases |b| - i
  {
    if KeyAt(b, key, i) then Some(i)
    else if i < |b| then FindKey(b, key, i + 1)
    else None
  }

  /** `e.match(/<key>(.+)/)?.[1]`: the rest of the line after the leftmost
      occurrence of `key` that has something after it. */
  function FieldAfter(b: string, key: string): (r: Option<string>)
    ensures r.Some? ==> r.value != "" && forall j :: 0 <= j < |r.value| ==> !IsLineTerminator(r.value[j])
    ensures r.None? <==> forall q :: !KeyAt(b, key, q)
  {
    match FindKey(b, key, 0)
    case None => None
    case Some(p) =>
      var start := p + |key|;
      Some(b[start..start + LineRun(b, start)])
  }

  /** A block that starts with `worktree <path>` on its first line yields
      that path. */
  lemma PathOfBlock(path: string, rest: string)
    requires path != "" && forall j :: 0 <= j < |path| ==> !IsLineTerminator(path[j])
    requires rest == "" || IsLineTerminator(rest[0])
    ensures FieldAfter(WorktreeKey + path + rest, WorktreeKey) == Some(path)
  {
    var b := WorktreeKey + path + rest;
    var n := |WorktreeKey|;
    assert b[0..n] == WorktreeKey;
    assert b[n] == path[0];
    assert KeyAt(b, WorktreeKey, 0);
    assert FindKey(b, WorktreeKey, 0) == Some(0);
    assert LineRun(b, n) == |path| by {
      assert forall j :: n <= j < n + |path| ==> b[j] == path[j - n];
      LineRunExact(b, n, |path|);
    }
    assert b[n..n + |path|] == path;
  }

  lemma {:induction false} LineRunExact(s: string, i: nat, k: nat)
    requires i + k <= |s| && (forall j :: i <= j < i + k ==> !IsLineTerminator(s[j]))
    requires i + k == |s| || IsLineTerminator(s[i + k])
    ensures LineRun(s, i) == k
    decreases k
  {
    if k > 0 {
      LineRunExact(s, i + 1, k - 1);
    }
  }

  /** `e.includes("bare")`: a block is taken as bare when the word occurs
      anywhere in it, so a worktree whose path mentions it is reported as
      bare. */
  lemma PathMentioningBareIsBare(path: string, rest: string)
    requires Contains(path, "bare")
    ensures Contains(WorktreeKey + path + rest, "bare")
  {
    ContainsInside(WorktreeKey, path, rest, "bare");
  }

  lemma ContainsMiddle(a: string, m: string, c: string)
    ensures Contains(a + m + c, m)
  {
    assert StartsWith(m, m);
    ContainsInside(a, m, c, m);
  }

  lemma {:induction false} ContainsInside(a: string, m: string, c: string, part: string)
    requires Contains(m, part)
    ensures Contains(a + m + c, part)
    decreases |a|
  {
    if a == [] {
      assert a + m + c == m + c;
      ContainsBefore(m, c, part);
    } else {
      assert (a + m + c)[1..] == a[1..] + m + c;
      ContainsInside(a[1..], m, c, part);
    }
  }

  lemma {:induction false} ContainsBefore(m: string, c: string, part: string)
    requires Contains(m, part)
    ensures Contains(m + c, part)
    decreases |m|
  {
    if StartsWith(m, part) {
      assert (m + c)[..|part|] == m[..|part|];
    } else {
      assert (m + c)[1..] == m[1..] + c;
      ContainsBefore(m[1..], c, part);
    }
  }

  // ----------------------------------------------------------- listing

  /** The branch part of a status line (worktree.js:41): present exactly
      when the block names a branch. */
  function BranchPart(block: string): (part: string)
    ensures part == "" <==> FieldAfter(block, "branch ").None?
    ensures FieldAfter(block, "branch ").Some? ==> part == " | Branch: " + FieldAfter(block, "branch ").value
  {
    var branch := FieldAfter(block, "branch ");
    if branch.Some? then " | Branch: " + branch.value else ""
  }

  /** The bare marker of a status line (worktree.js:42): present exactly
      when the block mentions `bare`. */
  function BarePart(block: string): (part: string)
    ensures part == "" <==> !Contains(block, "bare")
    ensures Contains(block, "bare") ==> part == " | (bare)"
  {
    if Contains(block, "bare") then " | (bare)" else ""
  }

  /** The line printed for one worktree (worktree.js:40-42); a missing path
      prints as `undefined`. After the path come the branch part, exactly
      when there is a branch, and the bare marker, exactly when the block
      mentions `bare`, and nothing else. */
  function Status(block: string): (status: string)
    ensures status == "Path: " + FieldAfter(block, WorktreeKey).GetOr("undefined") + BranchPart(block) + BarePart(block)
    ensures StartsWith(status, "Path: " + FieldAfter(block, WorktreeKey).GetOr("undefined"))
    ensures FieldAfter(block, "branch ").Some? ==>
              Contains(status, " | Branch: " + FieldAfter(block, "branch ").value)
    ensures Contains(block, "bare") ==> EndsWith(status, " | (bare)")
  {
    var head := "Path: " + FieldAfter(block, WorktreeKey).GetOr("undefined");
    var middle := BranchPart(block);
    var tail := BarePart(block);
    var status := head + middle + tail;
    assert status[..|head|] == head;
    ContainsMiddle(head, middle, tail);
    assert status[|status| - |tail|..] == tail;
    status
  }

  /** One status line per block, in order (worktree.js:35-51). */
  function Statuses(stdout: string): (r: seq<string>)
    ensures |r| == |SplitBlocks(Trim(stdout))|
    ensures forall i :: 0 <= i < |r| ==> r[i] == Status(SplitBlocks(Trim(stdout))[i])
  {
    var blocks := SplitBlocks(Trim(stdout));
    seq(|blocks|, i requires 0 <= i < |blocks| => Status(blocks[i]))
  }

  // ----------------------------------------------------------- removal

  /** `.map(e => e.match(/worktree (.+)/)?.[1])`: each block's path, with a
      block that has none read as the empty text (both are falsy). */
  function Captures(blocks: seq<string>): (r: seq<string>)
    ensures |r| == |blocks|
    ensures forall i :: 0 <= i < |blocks| ==> r[i] == FieldAfter(blocks[i], WorktreeKey).GetOr("")
  {
    seq(|blocks|, i requires 0 <= i < |blocks| => FieldAfter(blocks[i], WorktreeKey).GetOr(""))
  }

  /** `Boolean` on a text. */
  predicate NonEmpty(p: string)
  {
    p != ""
  }

  /** `.map(e => e.match(/worktree (.+)/)?.[1]).filter(Boolean)`: the paths
      of the blocks that have one, in block order. */
  function Paths(blocks: seq<string>): (r: seq<string>)
    ensures r == Seqs.Filter(NonEmpty, Captures(blocks))
    ensures |r| <= |blocks|
    ensures forall i :: 0 <= i < |r| ==> r[i] != ""
    ensures (forall i :: 0 <= i < |blocks| ==> FieldAfter(blocks[i], WorktreeKey).Some?) ==> |r| == |blocks|
    ensures forall i :: 0 <= i < |r| ==> exists j :: 0 <= j < |blocks| && FieldAfter(blocks[j], WorktreeKey) == Some(r[i])
  {
    var r := if blocks == [] then [] else
      assert Captures(blocks)[1..] == Captures(blocks[1..]);
      match FieldAfter(blocks[0], WorktreeKey)
      case Some(p) => [p] + Paths(blocks[1..])
      case None => Paths(blocks[1..]);
    CapturedPaths(blocks, r);
    r
  }

  /** The kept captures are the paths of the blocks that have one, and all of
      them when every block has one. */
  lemma CapturedPaths(blocks: seq<string>, r: seq<string>)
    requires r == Seqs.Filter(NonEmpty, Captures(blocks))
    ensures |r| <= |blocks|
    ensures forall i :: 0 <= i < |r| ==> r[i] != ""
    ensures (forall i :: 0 <= i < |blocks| ==> FieldAfter(blocks[i], WorktreeKey).Some?) ==> |r| == |blocks|
    ensures forall i :: 0 <= i < |r| ==> exists j :: 0 <= j < |blocks| && FieldAfter(blocks[j], WorktreeKey) == Some(r[i])
  {
    var c := Captures(blocks);
    if forall i :: 0 <= i < |blocks| ==> FieldAfter(blocks[i], WorktreeKey).Some? {
      Seqs.FilterKeepsAll(NonEmpty, c);
    }
    forall i | 0 <= i < |r|
      ensures exists j :: 0 <= j < |blocks| && FieldAfter(blocks[j], WorktreeKey) == Some(r[i])
    {
      var j :| 0 <= j < |c| && c[j] == r[i];
      assert FieldAfter(blocks[j], WorktreeKey) == Some(r[i]);
    }
  }

  function RemovalChoices(stdout: string): seq<string>
  {
    Paths(SplitBlocks(Trim(stdout)))
  }

  /** The removal step (worktree.js:113-133): with no worktree listed nothing
      runs; otherwise the chosen path is removed. The list prompt can only
      return one of the listed paths. */
  function RemoveArgs(choices: seq<string>, chosen: nat): (r: Option<seq<string>>)
    requires choices == [] || chosen < |choices|
    ensures r.None? <==> choices == []
    ensures r.Some? ==> r.value == ["worktree", "remove", choices[chosen]] && choices[chosen] in choices
  {
    if choices == [] then None else Some(["worktree", "remove", choices[chosen]])
  }
}

=== FILE: wrappers.dfy ===
/** Optional values and results, used wherever the source returns `null`,
    `undefined` or throws instead of producing a value. */
module Wrappers {
  datatype Option<T> = None | Some(value: T)
  {
    function GetOr(default: T): T
    {
      match this
      case Some(v) => v
      case None => default
    }
  }

  datatype Result<T, E> = Ok(value: T) | Err(error: E)

  /** How a call made only for its effect ends: normally, or by throwing an
      error with this message. */
  datatype CallResult = Returned | Threw(message: string)

  /** The module-level `inquirer` binding of a command: `undefined`
      (`NeverLoaded`) until `getInquirer()` stores the imported module in it
      (`Loaded`). Calling `prompt` on `undefined` throws a `TypeError`. */
  datatype Inquirer = NeverLoaded | Loaded
}

/** Order-preserving filtering of sequences (JavaScript's `Array.prototype.filter`). */
module Seqs {
  import opened Wrappers

  /** The elements of `s` that satisfy `keep`, in their original order. */
  function Filter<T>(keep: T -> bool, s: seq<T>): (r: seq<T>)
    ensures |r| <= |s|
    ensures forall i :: 0 <= i < |r| ==> r[i] in s && keep(r[i])
    ensures forall i :: 0 <= i < |s| && keep(s[i]) ==> s[i] in r
  {
    if s == [] then []
    else if keep(s[0]) then [s[0]] + Filter(keep, s[1..])
    else Filter(keep, s[1..])
  }

  /** Filtering distributes over concatenation, so the relative order of the
      kept elements is the order they had in the input. */
  lemma {:induction false} FilterAppend<T>(keep: T -> bool, a: seq<T>, b: seq<T>)
    ensures Filter(keep, a + b) == Filter(keep, a) + Filter(keep, b)
  {
    if a != [] {
      assert (a + b)[0] == a[0];
      assert (a + b)[1..] == a[1..] + b;
      FilterAppend(keep, a[1..], b);
    } else {
      assert a + b == b;
    }
  }

  /** Nothing is dropped when every element is kept. */
  lemma {:induction false} FilterKeepsAll<T>(keep: T -> bool, s: seq<T>)
    requires forall i :: 0 <= i < |s| ==> keep(s[i])
    ensures Filter(keep, s) == s
  {
    if s != [] {
      FilterKeepsAll(keep, s[1..]);
    }
  }

  /** No element occurs twice. */
  predicate Distinct<T(==)>(s: seq<T>)
  {
    forall i, j :: 0 <= i < j < |s| ==> s[i] != s[j]
  }

  /** The ranks of the elements strictly increase along the list. */
  predicate Increasing<T>(rank: T -> int, s: seq<T>)
  {
    forall i, j :: 0 <= i < j < |s| ==> rank(s[i]) < rank(s[j])
  }

  /** Every rank in `s` lies in `[lo, hi)`. */
  predicate RanksWithin<T>(rank: T -> int, s: seq<T>, lo: int, hi: int)
  {
    forall i :: 0 <= i < |s| ==> lo <= rank(s[i]) < hi
  }

  /** Two increasing runs whose rank ranges follow each other concatenate
      into one. */
  lemma IncreasingAppend<T>(rank: T -> int, a: seq<T>, b: seq<T>, lo: int, mid: int, hi: int)
    requires lo <= mid <= hi
    requires Increasing(rank, a) && RanksWithin(rank, a, lo, mid)
    requires Increasing(rank, b) && RanksWithin(rank, b, mid, hi)
    ensures Increasing(rank, a + b) && RanksWithin(rank, a + b, lo, hi)
  {
    forall i | 0 <= i < |a + b|
      ensures lo <= rank((a + b)[i]) < hi
    {
      if i >= |a| {
        assert (a + b)[i] == b[i - |a|];
      }
    }
    forall i, j | 0 <= i < j < |a + b|
      ensures rank((a + b)[i]) < rank((a + b)[j])
    {
      if j < |a| {
      } else if i < |a| {
        assert rank((a + b)[i]) < mid <= rank((a + b)[j]);
      } else {
        assert (a + b)[i] == b[i - |a|] && (a + b)[j] == b[j - |a|];
      }
    }
  }

  /** Strictly increasing ranks leave no room for a repeat. */
  lemma IncreasingDistinct<T>(rank: T -> int, s: seq<T>)
    requires Increasing(rank, s)
    ensures Distinct(s)
  {
    forall i, j | 0 <= i < j < |s|
      ensures s[i] != s[j]
    {
      assert rank(s[i]) < rank(s[j]);
    }
  }

  /** Concatenation is associative. */
  lemma AppendAssoc<T>(a: seq<T>, b: seq<T>, c: seq<T>)
    ensures a + (b + c) == (a + b) + c
  {
  }

  /** A non-empty sequence is its head followed by its tail. */
  lemma HeadTail<T>(s: seq<T>)
    requires s != []
    ensures [s[0]] + s[1..] == s
  {
  }

  /** Dropping `k + 1` elements is dropping one, then `k`. */
  lemma DropTail<T>(s: seq<T>, k: nat)
    requires k < |s|
    ensures s[k + 1..] == s[1..][k..]
  {
  }

  /** In a list without repeats, an element that occurs does so once. */
  lemma {:induction false} OccursOnce<T>(s: seq<T>, x: T)
    requires Distinct(s) && x in s
    ensures multiset(s)[x] == 1
  {
    assert s == [s[0]] + s[1..];
    assert Distinct(s[1..]);
    if s[0] == x {
      assert x !in s[1..];
    } else {
      OccursOnce(s[1..], x);
    }
  }

  /** The index of the first element satisfying `p` (`Array.prototype.findIndex`),
      or `None` when there is none (where the source gets -1). */
  function FindIndex<T>(p: T -> bool, s: seq<T>): (r: Option<nat>)
    ensures r.Some? ==> r.value < |s| && p(s[r.value])
    ensures r.Some? ==> forall j :: 0 <= j < r.value ==> !p(s[j])
    ensures r.None? ==> forall j :: 0 <= j < |s| ==> !p(s[j])
  {
    if s == [] then None
    else if p(s[0]) then Some(0)
    else match FindIndex(p, s[1..])
      case None => None
      case Some(k) => Some(k + 1)
  }

  /** A call that threw. */
  predicate Failed(c: CallResult)
  {
    c.Threw?
  }

  /** How many calls a loop that stops at the first throw makes: every one
      up to and including the first that throws, or all of them. */
  function Attempts(calls: seq<CallResult>): (n: nat)
    ensures n <= |calls|
    ensures forall i :: 0 <= i < n - 1 ==> calls[i].Returned?
    ensures n < |calls| ==> n > 0 && calls[n - 1].Threw?
    ensures n == |calls| ==> forall i :: 0 <= i < |calls| - 1 ==> calls[i].Returned?
  {
    match FindIndex(Failed, calls)
    case Some(k) => k + 1
    case None => |calls|
  }

  /** The first call that throws ends the attempts. */
  lemma FirstFailure(calls: seq<CallResult>, i: nat)
    requires i < |calls| && calls[i].Threw?
    requires forall k :: 0 <= k < i ==> calls[k].Returned?
    ensures Attempts(calls) == i + 1
  {
    assert FindIndex(Failed, calls) == Some(i);
  }

  /** When no call throws, every call is made. */
  lemma NoFailure(calls: seq<CallResult>)
    requires forall k :: 0 <= k < |calls| ==> calls[k].Returned?
    ensures Attempts(calls) == |calls|
  {
    assert FindIndex(Failed, calls) == None;
  }
}
